=== FILE: README.md ===
# SPARQLtoSQL in Dafny

SPARQLtoSQL answers SPARQL queries over relational databases. An OWL
ontology describes every source database. It also describes a *federated*
schema whose classes and properties are equivalent to those of the
sources. The `QuantumQueryProcessor` mediator answers a query in five steps:

1. It walks the query's algebra down to its basic graph patterns.
2. For each triple pattern, it classifies every term by the registered
   database URI the term starts with.
3. It turns the pattern into calls of that database's loader. A pattern
   over the federated schema is instead rewritten, through the ontology,
   into nested queries over the equivalent source properties.
4. It converts the raw rows the loaders return into RDF triples.
5. It reconciles ambiguous objects with a resolver, fuses records that
   share a value of an inverse functional property (IFP) into federated
   individuals, and stores the result.

This project models that pipeline as pure functions over strings,
sequences and maps. It also models the helpers the pipeline relies on:

- the default ambiguity resolver;
- the loader registry;
- the MSSQL loader's row-to-triple translation;
- the mapping rules and the SQL-generation query tree of the older path.

Modules, following the source:

| module | file | models |
|---|---|---|
| `Wrappers`, `Strings`, `Rdf` | wrappers.dfy, strings.dfy, rdf.dfy | `Result`/`Option` and exception kinds; the .NET string operations used; raw triples, graph triples, triple patterns |
| `Sources` | sources.dfy | `dbURIs`, `GetConnStringFromURI`, `IsLiteralValue`, node creation |
| `UriCodec` | uri_codec.dfy | the property-URI and individual-URI parsers (their regular expressions, matched as .NET backtracking does) and the URI builders of the loader |
| `Ambiguity` | ambiguity.dfy | `GenericRecordsAmbiguityResolver.Resolve`, edit distance |
| `Groups` | groups.dfy | the `Dictionary<string, List<string>>` grouping both passes build |
| `AmbiguityPass` | ambiguity_pass.dfy | `ResolveAmbiguitiesInTriples` |
| `Federated` | federated.dfy | `ConvertFederatedIndividualUriToSource`, federated identifiers, the translation of nested-query rows into federated terms |
| `IfpFusion` | ifp_fusion.dfy | `MatchRecordsIFPAndStore`, `StringContainmentComparer` |
| `LoaderFactory` | loader_factory.dfy | `DBLoaderFactory` |
| `SqlLoader` | sql_loader.dfy | `MSSQLdBLoader.GetDBName`, `GetTriplesForPredicateObject`, `GetTriplesForSubject` over given rows |
| `Mediator` | mediator.dfy | `AddDBInfo`, `AddRawTripleToList`, `ResolveBGPsFromDB` (dispatch and walk), `ResolveTriplesForPredObj_ObjectProperty` |
| `Processor` | processor.dfy | `ExecuteSparql` and `QuerySparqlFromDB` up to the evaluation of the query |
| `Mapping` | mapping.dfy | `MapNode.IsMatch`, `Mapping` lookup, prefixes, `ReadMappings` per line, `MergeSqlDBString` |
| `SparqlGraph` | sparql_graph.dfy | the `Node` constructor, `GetAllNodes`, `Visit`, `TopologicalSort` |

The side calls are fields of `Mediator.Oracles`:

- the loaders' database queries;
- the ontology lookups: equivalent properties, ranges, superclasses and
  object properties;
- the nested SPARQL evaluation;
- `Uri.IsWellFormedUriString`.

Rows, primary-key names and table lists are parameters. Every exception
the source throws becomes an `Err` whose `Error` names the exception's
class. `IndexOutOfRangeException` (from indexing an array or a data
reader) is kept apart from `ArgumentOutOfRangeException` (from `List`
indexers and `Substring`).

## Model

| member | source | states |
|---|---|---|
| `Sources.AddDbUri` | SPARQLtoSQL/QuantumQueryProcessor.cs:42 | `dbURIs.Add` succeeds exactly when no registered key equals the URI. On success the pair is appended; otherwise it fails with `ArgumentException`. Distinct keys stay distinct |
| `Sources.FirstPrefixKey` | SPARQLtoSQL/QuantumQueryProcessor.cs:51 | `FirstOrDefault` over the keys: the index found holds a prefix of the text and no earlier key is one; none is found only when no key is a prefix |
| `Sources.ClassifyFirstMatch` | SPARQLtoSQL/QuantumQueryProcessor.cs:46-57 | The URI, with surrounding angle brackets and all spaces removed, is unclassified exactly when no key is a prefix of it. Otherwise its connection string is that of the first such key in registration order |
| `Sources.ClassifyAppend` | SPARQLtoSQL/QuantumQueryProcessor.cs:42-57 | Registering a database never changes a classification already made; an unclassified URI becomes classified by the new key exactly when the key is its prefix |
| `Sources.ClassifyNotLongestPrefix` | SPARQLtoSQL/QuantumQueryProcessor.cs:51 | With `a/` registered before `a/b/`, `<a/b/c>` is classified by `a/`: the first matching key wins, not the longest |
| `Sources.NodeOf` | SPARQLtoSQL/QuantumQueryProcessor.cs:631-635 | A term becomes a literal node exactly when it is a literal value, a URI node otherwise, and keeps its text |
| `Sources.BlankNotLiteral` | SPARQLtoSQL/QuantumQueryProcessor.cs:61-63 | An empty or all-whitespace value is never a literal |
| `Sources.LeadingSpaceIgnored` | SPARQLtoSQL/QuantumQueryProcessor.cs:61 | Leading whitespace does not change whether a value is a literal |
| `Sources.LiteralOfTrimmed` | SPARQLtoSQL/QuantumQueryProcessor.cs:64-67 | A trimmed, non-empty value is a literal iff it is double-quoted or not angle-bracketed, and is not a well-formed absolute URI |
| `Sources.BracketedNotLiteral` | SPARQLtoSQL/QuantumQueryProcessor.cs:64-67 | `<…>` is never a literal; `"…"` is one exactly when it is not a well-formed URI |
| `UriCodec.LastSlashMatch` | SPARQLtoSQL/QuantumQueryProcessor.cs:714 | The greedy `.+/` step tries slashes from the right; the position it settles on leaves at least one character before the slash and stays inside the text |
| `UriCodec.MatchFrom` | SPARQLtoSQL/QuantumQueryProcessor.cs:716-717 | `Regex.Match` tries start positions left to right; a match it returns is a match of the pattern at that start |
| `UriCodec.MatchPropertyUri` | SPARQLtoSQL/QuantumQueryProcessor.cs:714-724 | Matching fails only with `ArgumentException`, the exception raised when no position matches `prefix/db/table#column` |
| `UriCodec.PropertyMatchSound` | SPARQLtoSQL/QuantumQueryProcessor.cs:714-721 | The groups of a property-URI match have the required shape (`http`/`https` prefix ending in `/`, word db, table and column), and the URI rebuilt from them occurs in the text at the match |
| `UriCodec.ParsePropertyUriSound` | SPARQLtoSQL/QuantumQueryProcessor.cs:710-725 | A parsed property URI has the required shape and its rebuilt text occurs in the bracket-trimmed input |
| `UriCodec.MatchPropertyText` | SPARQLtoSQL/QuantumQueryProcessor.cs:714-721 | Matching the text `{prefix}{db}/{table}#{column}` of a well-shaped property URI gives back its four fields |
| `UriCodec.PropertyRoundTrip` | SPARQLtoSQL/QuantumQueryProcessor.cs:710-725 | Parsing the property URI the loader builds (MSSQLdBLoader.cs line 155) returns the fields it was built from |
| `UriCodec.MatchIndividualUri` | SPARQLtoSQL/QuantumQueryProcessor.cs:731-742 | Matching fails only with `ArgumentException`, the exception raised when no position matches `prefix/db/table/column.value` |
| `UriCodec.IndividualMatchShape` | SPARQLtoSQL/QuantumQueryProcessor.cs:731-740 | The groups of an individual-URI match have the required shape |
| `UriCodec.ParseIndividualUriShape` | SPARQLtoSQL/QuantumQueryProcessor.cs:727-743 | A parsed individual URI has the required shape (prefix, word db/table/column, non-empty value) |
| `UriCodec.ParseIndividualUriOccurs` | SPARQLtoSQL/QuantumQueryProcessor.cs:727-743 | The individual URI rebuilt from the parsed fields occurs in the bracket-trimmed input |
| `UriCodec.MatchIndividualText` | SPARQLtoSQL/QuantumQueryProcessor.cs:731-740 | Matching `{prefix}{db}/{table}/{column}.{value}` with a slash-free value gives back its five fields |
| `UriCodec.IndividualRoundTrip` | SPARQLtoSQL/QuantumQueryProcessor.cs:727-743 | The individual parser inverts the loader's subject builder (MSSQLdBLoader.cs line 154) for slash-free values not ending in an angle bracket |
| `Ambiguity.EditDistance` | SPARQLtoSQL/GenericRecordsAmbiguityResolver.cs:43 | The dynamic-programming edit distance equals the Levenshtein distance |
| `Ambiguity.NextRow` | SPARQLtoSQL/GenericRecordsAmbiguityResolver.cs:43 | One row of the table extends the distances of a prefix of the first string by one character |
| `Ambiguity.Resolve` | SPARQLtoSQL/GenericRecordsAmbiguityResolver.cs:32-56 | The resolution is one of s1, s2 or `s1; s2`, and is at least as long as each input |
| `Ambiguity.ResolveContainment` | SPARQLtoSQL/GenericRecordsAmbiguityResolver.cs:34-41 | If s1 contains s2 the result is s1 (so `Resolve(a, a) == a`); otherwise, if s2 contains s1, it is s2 |
| `Ambiguity.ResolveByDistance` | SPARQLtoSQL/GenericRecordsAmbiguityResolver.cs:43-54 | Without containment: within distance 10 the longer string wins, and s2 wins on equal length. The result is the concatenation exactly when the distance exceeds 10 |
| `Ambiguity.ResolveFarApart` | SPARQLtoSQL/GenericRecordsAmbiguityResolver.cs:50-54 | Strings whose lengths differ by more than 10, neither containing the other, are concatenated |
| `Ambiguity.ResolveNotSymmetric` | SPARQLtoSQL/GenericRecordsAmbiguityResolver.cs:46-48 | `Resolve("ab", "ba") == "ba"` but `Resolve("ba", "ab") == "ab"` |
| `Ambiguity.ResolveAbbreviatedName` | SPARQLtoSQL/GenericRecordsAmbiguityResolver.cs:34-49 | "Alexander Cole" absorbs both "Alex Cole" (distance 5) and "Alexander" (containment) |
| `Groups.Dedup` | SPARQLtoSQL/QuantumQueryProcessor.cs:935-936 | First-seen de-duplication keeps exactly the same members, each once |
| `Groups.Find` | SPARQLtoSQL/QuantumQueryProcessor.cs:880 | `ContainsKey`: the index of the group with that key, or -1 exactly when there is none |
| `Groups.GroupSpec` | SPARQLtoSQL/QuantumQueryProcessor.cs:877-888 | Building the dictionary gives one group per key in first-seen order, holding that key's values in order (each once when the `Contains` check of line 935 applies) |
| `Groups.GroupKeys` | SPARQLtoSQL/QuantumQueryProcessor.cs:880-887 | The dictionary's keys are the distinct keys of the input in first-seen order |
| `Groups.GroupValues` | SPARQLtoSQL/QuantumQueryProcessor.cs:933-939 | Each group's list is the key's values in list order, de-duplicated when the list refuses repeats |
| `AmbiguityPass.KeyedObjects` | SPARQLtoSQL/QuantumQueryProcessor.cs:877-887 | Every triple is filed under `subject|predicate` with its object text, in list order |
| `AmbiguityPass.KeyGroupsKeys` | SPARQLtoSQL/QuantumQueryProcessor.cs:877-888 | The keys of the ambiguity dictionary are distinct, and each is the key of some triple |
| `AmbiguityPass.KeyGroupValues` | SPARQLtoSQL/QuantumQueryProcessor.cs:877-888 | Each key's list holds the objects of its triples, in list order |
| `AmbiguityPass.FirstWithKey` | SPARQLtoSQL/QuantumQueryProcessor.cs:904 | `Find` returns a triple of the list with that key; it finds none only when no triple has it |
| `AmbiguityPass.Fixed` | SPARQLtoSQL/QuantumQueryProcessor.cs:904-914 | The corrected triple has the same `subject|predicate` key as the problem triple, so it replaces exactly the triples removed |
| `AmbiguityPass.FoldAgreeing` | SPARQLtoSQL/QuantumQueryProcessor.cs:897-901 | Folding the default resolver over identical objects gives that object |
| `AmbiguityPass.FoldCovers` | SPARQLtoSQL/QuantumQueryProcessor.cs:897-901 | The fold of the default resolver is at least as long as every object folded |
| `AmbiguityPass.ResolveEachSpec` | SPARQLtoSQL/QuantumQueryProcessor.cs:890-918 | The second loop, from any point, removes the triples of every ambiguous key and appends one corrected triple per such key, in key order |
| `AmbiguityPass.ResolveAmbiguitiesClosedForm` | SPARQLtoSQL/QuantumQueryProcessor.cs:873-919 | The pass never fails. Its result is the input minus the triples of ambiguous keys, followed by one correction per ambiguous key in first-seen order |
| `AmbiguityPass.AmbiguousKeyResolved` | SPARQLtoSQL/QuantumQueryProcessor.cs:890-918 | A key with two or more triples is left with exactly one: the first triple's subject and predicate, with the left fold of the resolver over the objects in list order |
| `AmbiguityPass.UnambiguousKeyKept` | SPARQLtoSQL/QuantumQueryProcessor.cs:892-893 | The triples of a key with fewer than two triples are untouched |
| `AmbiguityPass.NoAmbiguityNoChange` | SPARQLtoSQL/QuantumQueryProcessor.cs:890-893 | Without an ambiguous key, the pass returns its input unchanged |
| `AmbiguityPass.AgreeingCopiesCollapse` | SPARQLtoSQL/QuantumQueryProcessor.cs:897-916 | Repeated copies of one object collapse, under the default resolver, to a single triple with that object |
| `IfpFusion.SlashesMatch` | SPARQLtoSQL/QuantumQueryProcessor.cs:953 | The slash positions found are a match of `((.+)/(.+)/(.+))/(.+)$` |
| `IfpFusion.SlashesGreatest` | SPARQLtoSQL/QuantumQueryProcessor.cs:953 | No match starts before the line the match found starts in, and its greedy groups end at the latest slashes any match can use |
| `IfpFusion.MatchSubject` | SPARQLtoSQL/QuantumQueryProcessor.cs:955-960 | A subject the pattern does not match yields empty groups |
| `IfpFusion.MatchIndividualSubject` | SPARQLtoSQL/QuantumQueryProcessor.cs:953-960 | For a loader individual `{prefix}{db}/{table}/{column}.{value}`: the class URI is `{prefix}{db}/{table}`, group 3 is the db, and group 5 is `column.value` |
| `IfpFusion.FusedUriJoin` | SPARQLtoSQL/QuantumQueryProcessor.cs:979-985 | The federated URI is `stem/` followed by the pieces `group3.group5` of the group's subjects, joined with `.` (the trailing dot removed) |
| `IfpFusion.FusedIndividuals` | SPARQLtoSQL/QuantumQueryProcessor.cs:979-985 | For loader individuals the fused URI is the federated identifier `stem/db.column.value.db.column.value…` |
| `IfpFusion.Intersect` | SPARQLtoSQL/QuantumQueryProcessor.cs:965 | `IntersectWith` keeps exactly the classes in both sets |
| `IfpFusion.RemoveAt` | SPARQLtoSQL/QuantumQueryProcessor.cs:969 | `RemoveAt(i)` shifts every later member down by one |
| `IfpFusion.Prune` | SPARQLtoSQL/QuantumQueryProcessor.cs:958-971 | The superclass loop keeps the first members and only ever drops members. The superclasses it keeps are among those it started with |
| `IfpFusion.Stem` | SPARQLtoSQL/QuantumQueryProcessor.cs:975-977 | The stem is the first remaining common superclass; when there is none (`FirstOrDefault` gives null) or it is empty, `Exception` is raised |
| `IfpFusion.Bind` | SPARQLtoSQL/QuantumQueryProcessor.cs:988-994 | A subject already mapped keeps its URI; an unmapped subject of the group is mapped to the group's URI |
| `IfpFusion.IfpGroupsSpec` | SPARQLtoSQL/QuantumQueryProcessor.cs:926-941 | Each IFP value is a key, in first-seen order, holding its subjects once each in first-seen order. There are no groups exactly when no triple has an IFP predicate |
| `IfpFusion.SmallEntriesUnifyNothing` | SPARQLtoSQL/QuantumQueryProcessor.cs:950-951 | Groups with fewer than two subjects produce no mapping |
| `IfpFusion.UnifyAllFails` | SPARQLtoSQL/QuantumQueryProcessor.cs:948-977 | Unification fails exactly when some group of two or more subjects has no usable stem |
| `IfpFusion.UnifyAllMap` | SPARQLtoSQL/QuantumQueryProcessor.cs:948-995 | A subject is mapped exactly when some group maps it, and the first group to map it wins |
| `IfpFusion.RemoveFirst` | SPARQLtoSQL/QuantumQueryProcessor.cs:1024 | `Remove(t)` drops one triple when the list has it, and nothing otherwise |
| `IfpFusion.RewriteLoop` | SPARQLtoSQL/QuantumQueryProcessor.cs:1000-1025 | Every triple asserted by the rewrite loop is recorded, with its subject, in `federatedSubjectsAdded` |
| `IfpFusion.RewriteLoopStored` | SPARQLtoSQL/QuantumQueryProcessor.cs:1000-1025 | The rewrite loop asserts exactly the triples with a mapped subject, rewritten: federated subject, object replaced when it is mapped |
| `IfpFusion.RewriteLoopPending` | SPARQLtoSQL/QuantumQueryProcessor.cs:1000-1025 | After the rewrite loop, the pending list holds exactly the triples whose subject is not mapped, in order |
| `IfpFusion.AddedCovered` | SPARQLtoSQL/QuantumQueryProcessor.cs:1030 | A subject is covered by the `StringContainmentComparer` exactly when some federated subject added contains it |
| `IfpFusion.MatchRecordsStores` | SPARQLtoSQL/QuantumQueryProcessor.cs:1000-1034 | With IFP triples present and unification done, the stored triples are exactly the rewritten mapped triples plus the unmapped triples whose subject no added federated subject contains |
| `IfpFusion.MatchRecordsFails` | SPARQLtoSQL/QuantumQueryProcessor.cs:975-977 | Fusion raises `Exception` exactly when some group of two or more subjects has no usable stem |
| `IfpFusion.NoIfpStoresAll` | SPARQLtoSQL/QuantumQueryProcessor.cs:1036-1043 | Without an IFP triple every pending triple is stored unchanged |
| `IfpFusion.NoSharedValueStoresAll` | SPARQLtoSQL/QuantumQueryProcessor.cs:1027-1034 | When no IFP value is shared by two subjects, every triple is stored unchanged |
| `Federated.KeyPairFrom` | SPARQLtoSQL/QuantumQueryProcessor.cs:518-523 | `(\w+)\.(\w+\.\w+)` is searched left to right; no match is found only when it matches at no position |
| `Federated.SourceKeyAsWritten` | SPARQLtoSQL/QuantumQueryProcessor.cs:509-524 | The key as the code reads it. It fails with `InvalidOperationException` exactly when the db name does not occur (ordinally) in the identifier, and otherwise at most with `ArgumentOutOfRangeException`. The key it finds occurs after an occurrence of the db name |
| `Federated.KeyOfRest` | SPARQLtoSQL/QuantumQueryProcessor.cs:518-524 | The key is read from the rest of the identifier, or `ArgumentOutOfRangeException` is raised |
| `Federated.SourceKeyAsWrittenMisreads` | SPARQLtoSQL/QuantumQueryProcessor.cs:512 | Counterexample: in `http://x/F/User/DB2.ID.1.DB.ID.5`, the key for db `DB` is read as `ID.1` (inside the `DB2` piece); the intended key is `ID.5` |
| `Federated.SourceKey` | SPARQLtoSQL/QuantumQueryProcessor.cs:503-524 | The corrected key lookup fails only with `InvalidOperationException` |
| `Federated.SourceKeyOfId` | SPARQLtoSQL/QuantumQueryProcessor.cs:503-524 | On a federated identifier, the corrected lookup finds `pk.value` of the first piece whose db component equals the db, and fails exactly when there is none |
| `Federated.FirstContaining` | SPARQLtoSQL/QuantumQueryProcessor.cs:532 | The table URI is the first range containing `prefix+db`; none is found only when no range contains it |
| `Federated.SourceRow` | SPARQLtoSQL/QuantumQueryProcessor.cs:533-538 | Without a table, `InvalidOperationException`; otherwise the row URI `table/key` |
| `Federated.ConvertAsWritten` | SPARQLtoSQL/QuantumQueryProcessor.cs:497-540 | The conversion as written. An unparsable predicate raises `ArgumentException`. Its key is the one `SourceKeyAsWritten` reads, with that lookup's exceptions. Its result is the row of that key in the first range naming the predicate's database |
| `Federated.ConvertFederatedIndividualUri` | SPARQLtoSQL/QuantumQueryProcessor.cs:497-540 | The corrected conversion: the same, with the key from the piece of the predicate's database |
| `Federated.ConvertFindsSourceRow` | SPARQLtoSQL/QuantumQueryProcessor.cs:497-540 | The corrected conversion of a federated identifier gives the row of the piece for the predicate's database, in the first matching range. It fails with `InvalidOperationException` exactly when there is no such piece or range |
| `Federated.SupremeClasses` | SPARQLtoSQL/QuantumQueryProcessor.cs:190-191 | Only superclasses that themselves have no superclass are kept |
| `Federated.FederatedRowTriple` | SPARQLtoSQL/QuantumQueryProcessor.cs:163-203 | A nested-query row becomes a triple. Its subject is `stem/db.column.value` and its predicate is the bracket-trimmed federated predicate. Its object is the quote-trimmed literal, the bracket-trimmed URI or the row's literal. An unparsable row subject raises `ArgumentException` |
| `Federated.FederatedSubjectOfRow` | SPARQLtoSQL/QuantumQueryProcessor.cs:166-167 | A loader individual in a row becomes the federated subject built from its fields; with a bound object the translation cannot fail |
| `Mediator.AddDbInfo` | SPARQLtoSQL/QuantumQueryProcessor.cs:39-43 | A failing `AddDBInfo` raises `ArgumentException` and leaves the database URIs unchanged |
| `Mediator.AddDbInfoOutcome` | SPARQLtoSQL/QuantumQueryProcessor.cs:39-43 | `AddDBInfo` succeeds exactly when the type is a loader, the connection string is registered or non-empty, and the URI is new |
| `Mediator.AddDbInfoValid` | SPARQLtoSQL/QuantumQueryProcessor.cs:39-43 | `AddDBInfo` keeps the state valid, whatever the outcome: distinct database URIs, and a registry of non-empty connection strings mapped to loader types |
| `Mediator.AddDbInfoClassifies` | SPARQLtoSQL/QuantumQueryProcessor.cs:39-57 | After a successful `AddDBInfo`, an unclassified URI under the new prefix is classified to the connection string, and its loader is found |
| `Mediator.GraphTripleOf` | SPARQLtoSQL/QuantumQueryProcessor.cs:627-636 | `AddRawTripleToList` keeps the three texts, and the object is a literal node exactly when it is a literal value |
| `Mediator.AddRaw` | SPARQLtoSQL/QuantumQueryProcessor.cs:344-347 | Every raw triple of a loader call is added, one per raw triple, in order |
| `Mediator.Fetched` | SPARQLtoSQL/QuantumQueryProcessor.cs:366-376 | A loader call either raises its exception or has all its raw triples added |
| `Mediator.FederatedRows` | SPARQLtoSQL/QuantumQueryProcessor.cs:163-222 | Every row of a nested query adds one triple |
| `Mediator.Queried` | SPARQLtoSQL/QuantumQueryProcessor.cs:690-707 | A nested query raises the exception of its evaluation; otherwise the triples its own resolution appended to the shared list come first and the triples made from its rows follow |
| `Mediator.EquivalentSkipsForeignIndividual` | SPARQLtoSQL/QuantumQueryProcessor.cs:142-149 | An equivalent property whose db name does not occur in the federated individual is skipped with nothing added, because the conversion's `InvalidOperationException` is caught |
| `Mediator.EquivalentSteps` | SPARQLtoSQL/QuantumQueryProcessor.cs:125-223 | With no equivalent property, nothing is added |
| `Mediator.RangeQueries` | SPARQLtoSQL/QuantumQueryProcessor.cs:271-277 | With no federated property of the object's class, nothing is added |
| `Mediator.FederatedPattern` | SPARQLtoSQL/QuantumQueryProcessor.cs:98-303 | A federated pattern with a bound subject raises `InvalidOperationException`; an all-variable pattern adds nothing |
| `Mediator.UnclassifiedBoundSubject` | SPARQLtoSQL/QuantumQueryProcessor.cs:98-111 | A pattern with no classified term and a bound subject raises `InvalidOperationException`, and so does any query made of it |
| `Mediator.ObjectKey` | SPARQLtoSQL/QuantumQueryProcessor.cs:576-579 | Reading the key column and value of an object fails, with `ArgumentOutOfRangeException`, exactly when the object has no `.` |
| `Mediator.ObjectKeyOfIndividual` | SPARQLtoSQL/QuantumQueryProcessor.cs:574-579 | For `<individual>` with a dot-free value, the column and value read are the individual's own |
| `Mediator.ObjectPropertyStep` | SPARQLtoSQL/QuantumQueryProcessor.cs:558-599 | The object-property resolution raises `ArgumentNullException` for an unclassified predicate and `ArgumentException` for an unregistered connection string |
| `Mediator.SubjectPart` | SPARQLtoSQL/QuantumQueryProcessor.cs:333-347 | A subject classified to an unregistered connection string raises `ArgumentException` |
| `Mediator.SubjectRow` | SPARQLtoSQL/QuantumQueryProcessor.cs:305-348 | `<subject> ?p ?o` with only the subject classified is exactly the subject fetch of its row (table, key column, key value, `prefix+db`), unrestricted |
| `Mediator.PredicateWithLiteral` | SPARQLtoSQL/QuantumQueryProcessor.cs:349-377 | `?s <predicate> "literal"` with only the predicate classified is exactly the predicate-object fetch of the predicate's column for that literal |
| `Mediator.PredicateWithIndividual` | SPARQLtoSQL/QuantumQueryProcessor.cs:378-400 | A classified predicate with a classified individual object is resolved as an object property |
| `Mediator.ObjectOnlyClassified` | SPARQLtoSQL/QuantumQueryProcessor.cs:459-470 | With only the object classified, the object part passes a null connection string and raises `ArgumentNullException` |
| `Mediator.ObjectPropertyTwice` | SPARQLtoSQL/QuantumQueryProcessor.cs:378-470 | With predicate and object classified, the object-property triples are added twice, once by the predicate part and once by the object part |
| `Mediator.InOrder` | SPARQLtoSQL/QuantumQueryProcessor.cs:305-471 | The subject, predicate and object parts run in that order: their triples concatenated, or the exception of the first part that fails |
| `Mediator.Patterns` | SPARQLtoSQL/QuantumQueryProcessor.cs:90-474 | The patterns of a basic graph pattern only ever append to the accumulator |
| `Mediator.PatternsAppend` | SPARQLtoSQL/QuantumQueryProcessor.cs:90-474 | Resolving two runs of patterns is resolving the first, then the second from where the first stopped |
| `Mediator.WalkIsPatterns` | SPARQLtoSQL/QuantumQueryProcessor.cs:476-488 | The walk (a unary operator into its inner algebra, a join left then right, anything else nothing) resolves the algebra's patterns left to right |
| `Mediator.PatternsFrame` | SPARQLtoSQL/QuantumQueryProcessor.cs:627-637 | Triples already accumulated are kept in front and never change what the patterns add or whether they fail |
| `Mediator.WalkFrame` | SPARQLtoSQL/QuantumQueryProcessor.cs:70-90 | The same for the whole walk: its result is the accumulator followed by what it adds alone |
| `Processor.StoredByPatterns` | SPARQLtoSQL/QuantumQueryProcessor.cs:825-846 | What is stored depends on the algebra only through its patterns in order |
| `Processor.StoredFailure` | SPARQLtoSQL/QuantumQueryProcessor.cs:842-846 | A failing `ExecuteSparql` either raises the mediator's exception or the fusion's `Exception` |
| `Processor.StoredAsDerived` | SPARQLtoSQL/QuantumQueryProcessor.cs:842-846 | Without ambiguous keys or IFP triples, exactly the derived triples are stored, with or without the ambiguity pass (`QuerySparqlFromDB`) |
| `LoaderFactory.RegisterEach` | SPARQLtoSQL/DBLoaderFactory.cs:36-53 | The loop only adds entries, never changes an existing one, maps each new string to the type, and fails only with `ArgumentException` |
| `LoaderFactory.RegisterEachExtends` | SPARQLtoSQL/DBLoaderFactory.cs:36-53 | The strings before the first empty one are registered (already registered ones skipped); an empty string then raises `ArgumentException` with no rollback |
| `LoaderFactory.Register` | SPARQLtoSQL/DBLoaderFactory.cs:32-45 | A type that is not a loader raises `ArgumentException` and leaves the registry unchanged; the registry only grows and existing entries keep their type |
| `LoaderFactory.RegisterValid` | SPARQLtoSQL/DBLoaderFactory.cs:30-54 | Registration keeps the registry valid: only non-empty connection strings, each mapped to a type that implements the loader interface |
| `LoaderFactory.GetLoader` | SPARQLtoSQL/DBLoaderFactory.cs:56-64 | Lookup succeeds exactly for a registered string, giving a loader of its type whose connection string is the argument. An unregistered string raises `ArgumentException`; a null one raises `ArgumentNullException` |
| `LoaderFactory.RegisterThenGet` | SPARQLtoSQL/DBLoaderFactory.cs:36-62 | After a successful registration, each listed string looks up a loader carrying that string: of the type it was already registered with, or else of the new type |
| `SqlLoader.CatalogAtSound` | SPARQLtoSQL/MSSQLdBLoader.cs:79 | A match found at a position spells `Initial\s+Catalog\s*=\s*(\w+)` there |
| `SqlLoader.CatalogAtComplete` | SPARQLtoSQL/MSSQLdBLoader.cs:79 | Every spelling of the pattern at a position is found, with the greedy group |
| `SqlLoader.DbNameOf` | SPARQLtoSQL/MSSQLdBLoader.cs:80-87 | The only failure of the search over the `;`-separated elements is `Exception` |
| `SqlLoader.DbNameIsWord` | SPARQLtoSQL/MSSQLdBLoader.cs:79-84 | The database name found is a word |
| `SqlLoader.DbNameMissing` | SPARQLtoSQL/MSSQLdBLoader.cs:80-87 | `GetDBName` fails exactly when no `;`-element matches |
| `SqlLoader.DbNameRoundTrip` | SPARQLtoSQL/MSSQLdBLoader.cs:76-88 | `…;Initial Catalog=name;…` gives back `name` |
| `SqlLoader.Field` | SPARQLtoSQL/MSSQLdBLoader.cs:154-156 | `reader[col]` succeeds exactly when some column's name equals `col` up to case. It reads the first exactly named column when there is one, otherwise a column named `col` up to case. A name the row lacks in both forms raises `IndexOutOfRangeException` |
| `SqlLoader.FirstNamed` | SPARQLtoSQL/MSSQLdBLoader.cs:156 | Each of the reader's two name searches (exact, then ignoring case) returns the value of the first column it accepts, and finds none exactly when it accepts no column |
| `SqlLoader.FieldIgnoresCase` | SPARQLtoSQL/MSSQLdBLoader.cs:156 | A predicate's `name` reads the table's `Name` column; an exact match wins over one differing in case; a name present in neither form raises `IndexOutOfRangeException` |
| `SqlLoader.RowTriple` | SPARQLtoSQL/MSSQLdBLoader.cs:152-157 | Each row gives subject `{prefix}{db}/{table}/{pk}.{pkValue}`, predicate `{prefix}{db}/{table}#{column}`, and the bound object or else the column value |
| `SqlLoader.PredicateObjectRows` | SPARQLtoSQL/MSSQLdBLoader.cs:150-161 | One triple per row, in row order, each that row's triple |
| `SqlLoader.PredicateObjectTriples` | SPARQLtoSQL/MSSQLdBLoader.cs:126-164 | An unreadable database name raises `Exception`, and a table without primary key raises `ArgumentOutOfRangeException` (`[0]` of an empty list). With a bound object, every triple's object is the object with its double quotes trimmed |
| `SqlLoader.PredicateObjectReadBack` | SPARQLtoSQL/MSSQLdBLoader.cs:152-157 | The mediator's parsers read back, from each triple, the prefix, db, table, key column and key value of its row and the column of its predicate |
| `SqlLoader.ColumnCells` | SPARQLtoSQL/MSSQLdBLoader.cs:228-237 | Predicate-only subject fetch: one triple per row, for that column |
| `SqlLoader.SubjectTriples` | SPARQLtoSQL/MSSQLdBLoader.cs:166-267 | Predicate and object both bound raises `ArgumentException`. Every triple has the subject `{prefix}{db}/{table}/{column}.{value}`, and a bound object is quote-trimmed |
| `SqlLoader.MatchingCellsAreFiltered` | SPARQLtoSQL/MSSQLdBLoader.cs:199-213 | The object-only fetch emits exactly the cells, of the full fetch, whose value equals the object |
| `SqlLoader.SubjectModes` | SPARQLtoSQL/MSSQLdBLoader.cs:181-263 | Object-only is the unrestricted fetch filtered by the quote-trimmed object. Predicate-only succeeds exactly when every row has the column, with one triple per row |
| `Mapping.PlaceholderEnd` | SPARQLtoSQL/Mapping.cs:23 | At a given start, the greedy `\{.+\}` ends at the latest end any match from that start can have; there is no end only when no match starts there |
| `Mapping.PlaceholderMatchSpec` | SPARQLtoSQL/Mapping.cs:23 | `\{.+\}` matches exactly when the text has a placeholder; the match is the leftmost, longest one |
| `Mapping.IsMatch` | SPARQLtoSQL/Mapping.cs:18-30 | A node matches iff subject, predicate and object are non-empty, its DB string has a placeholder and the subject is a variable, the predicate is its own, and its object has a placeholder or equals the object |
| `Mapping.FindByObject` | SPARQLtoSQL/Mapping.cs:69 | `Find` returns the first node with that object, or null exactly when none has it |
| `Mapping.GetMapNode` | SPARQLtoSQL/Mapping.cs:56-77 | The lookup succeeds exactly when `"pred obj"` is filed with a non-empty list, or is not filed and `pred` is. A node found is the first under `"pred obj"`, or one filed under `pred` with the requested object. None is found only when no node under `pred` has that object. The only failures are `ArgumentOutOfRangeException` and `Exception` |
| `Mapping.LookupPrecedence` | SPARQLtoSQL/Mapping.cs:56-77 | `"pred obj"` takes precedence over `pred`. With neither key filed, both the node lookup and `GetMappingForTripple` throw `Exception` |
| `Mapping.GetMapping` | SPARQLtoSQL/Mapping.cs:51-54 | The SQL of the node found; it fails when no node is found |
| `Mapping.LookupAfterAdd` | SPARQLtoSQL/Mapping.cs:59-62 | After filing a fully bound rule, a lookup of its predicate and object returns the first node under `"pred obj"` |
| `Mapping.LookupByPredicate` | SPARQLtoSQL/Mapping.cs:59-71 | A rule with a placeholder object is found through its predicate key, as the first node with the requested object |
| `Mapping.NewMapping` | SPARQLtoSQL/Mapping.cs:38-49 | A new mapping holds the given rules and the single `rdf` prefix |
| `Mapping.NormalizePrefix` | SPARQLtoSQL/Mapping.cs:79-92 | The only exception normalisation raises is `InvalidDataException`, for an unknown prefix |
| `Mapping.NormalizePrefixed` | SPARQLtoSQL/Mapping.cs:83-89 | `p:local` with `p` registered gives `<` + the IRI without brackets + `local>`; with `p` unknown it raises `InvalidDataException` |
| `Mapping.NormalizeNotPrefixed` | SPARQLtoSQL/Mapping.cs:81-91 | A term that does not split into exactly two parts on `:` gives the empty string |
| `Mapping.UnPrefixSpec` | SPARQLtoSQL/Mapping.cs:94-107 | `UnPrefix` succeeds exactly when dropping some run of characters before the final `>` gives a registered value. It returns the text dropped by the shortest such run, which is the longest prefix |
| `Mapping.UnPrefixOf` | SPARQLtoSQL/Mapping.cs:94-107 | `UnPrefix("<" + P + L + ">") == L` when `<P>` is registered and no longer prefix of the text is |
| `Mapping.MergeOfTemplate` | SPARQLtoSQL/Mapping.cs:175-185 | For a DB string un-prefixing to `stem{name}`, every `name` in the SQL becomes `concat("stem", name) AS x` |
| `Mapping.AddRule` | SPARQLtoSQL/Mapping.cs:160-169 | A node is appended to its key's list, created when absent; other keys are untouched |
| `Mapping.ReadRule` | SPARQLtoSQL/Mapping.cs:133-143 | A rule line gives a node whose three terms are the normalised first three words and whose SQL is the joined text. It fails only with `InvalidDataException` (unknown prefix) or `IndexOutOfRangeException` (a line of fewer than three words) |
| `Mapping.SqlRun` | SPARQLtoSQL/Mapping.cs:126 | The SQL lines are the tab-led lines that follow, up to the first other line |
| `Mapping.SqlTextJoin` | SPARQLtoSQL/Mapping.cs:126-130 | The continuation lines, without their tabs, are joined with a leading space each |
| `Mapping.PrefixLine` | SPARQLtoSQL/Mapping.cs:118-122 | A `PREFIX` line registers its name without `:` and touches no rule |
| `Mapping.RuleLine` | SPARQLtoSQL/Mapping.cs:124-169 | A rule line, with its SQL lines, files one node under its derived key, then reading goes on after its SQL |
| `Mapping.ReadLinesGrows` | SPARQLtoSQL/Mapping.cs:109-173 | Reading never removes a prefix or a rule; rule lists only grow at their end |
| `SparqlGraph.NewNode` | SPARQLtoSQL/SparqlGraph.cs:114-125 | The constructor keeps the tree well formed. The new node records its parent and is appended to the parent's child list, created when absent. Every other node is unchanged |
| `SparqlGraph.GetAllNodes` | SPARQLtoSQL/SparqlGraph.cs:69-98 | With a `null` root, as on a new graph, the walk throws `NullReferenceException`. Otherwise it returns the nodes of the tree in stack preorder, restricted to those of exactly the given type when one is given |
| `SparqlGraph.Walk` | SPARQLtoSQL/SparqlGraph.cs:73-97 | From a node of the tree, the stack loop returns the tree's nodes in stack preorder, filtered by type when a type is given |
| `SparqlGraph.PreorderSpec` | SPARQLtoSQL/SparqlGraph.cs:69-98 | The walk starts with the root and visits every descendant of the root, and nothing else, exactly once |
| `SparqlGraph.PreorderReaches` | SPARQLtoSQL/SparqlGraph.cs:73-94 | Every descendant is reached by the walk |
| `SparqlGraph.Visit` | SPARQLtoSQL/SparqlGraph.cs:54-67 | `Visit` marks the node permanent unless it is temporary, never changes a marked node or a later one, and inserts in front of the list only nodes created no later than it (the node and, through the parent recursion, its unmarked ancestors), keeping the list behind them |
| `SparqlGraph.Reset` | SPARQLtoSQL/SparqlGraph.cs:35-39 | Exactly the listed nodes become unmarked |
| `SparqlGraph.VisitAll` | SPARQLtoSQL/SparqlGraph.cs:43-49 | The loop visits the listed nodes in order, each time inserting the newly placed ones in front |
| `SparqlGraph.ReversedWalk` | SPARQLtoSQL/SparqlGraph.cs:41-66 | The reversed walk holds every node of the tree once, each before its parent, with the root last |
| `SparqlGraph.SortParentless` | SPARQLtoSQL/SparqlGraph.cs:41-51 | For a root without parent, the sort is the walk reversed |
| `SparqlGraph.TopologicalSort` | SPARQLtoSQL/SparqlGraph.cs:32-52 | With a `null` root, `NullReferenceException` before any mark changes. For any other root: the result is the reversed walk without the root, followed by what the root's own visit inserts (its unmarked ancestors and itself). Every node of the tree ends permanent; other marks are as the root's visit left them. For a parentless root: every node once, each before its parent, root last, and the marks of other nodes untouched |

## Left out

- UriCodec.ParsePropertyUri: `\w` is ASCII letters, digits and `_`; .NET's `\w` also accepts Unicode letters and digits, so URIs with such characters are refused by the model but parsed by the source. The same holds for UriCodec.ParseIndividualUri, UriCodec.MatchPropertyUri and UriCodec.MatchIndividualUri.
- UriCodec.ParseIndividualUri: `\w` is ASCII only, as above.
- SqlLoader.GetDbName: `\w` and `\s` are ASCII only, as above.
- Sources.IsLiteralValue: `TrimStart`, `TrimEnd` and `IsNullOrWhiteSpace` use the ASCII whitespace characters only. .NET also trims Unicode spaces.
- Mapping.ReadLines: `Split()` splits on ASCII whitespace only. File reading (`StreamReader`) is left out; the file is a sequence of lines.
- Sources.NodeOf: `new Uri(text)` is the identity. `UriFormatException` on a malformed URI, and .NET's normalisation of URIs (case of scheme and host, escaping), are not modelled. A node's `ToString()` is the text it was made from.
- Mediator.GraphTripleOf: the same `new Uri` simplification as `Sources.NodeOf`.
- Mediator.EquivalentStep: it calls the conversion as written (`Federated.ConvertAsWritten`), with the misread of the Findings row below. It has no contract of its own. Its skip is stated by `Mediator.EquivalentSkipsForeignIndividual`.
- Mediator.Dispatch: it has no contract of its own. Its cases are stated by the lemmas about it (`Mediator.SubjectRow`, `Mediator.PredicateWithLiteral`, `Mediator.ObjectOnlyClassified`, `Mediator.ObjectPropertyTwice`, `Mediator.UnclassifiedBoundSubject`). It goes through the same `new Uri` simplification.
- Mediator.Queried: `QuerySparqlFromDB` is an oracle that depends only on the query text. In the source (QuantumQueryProcessor.cs:690-707) the nested query runs over a copy of the ontology graph, and the triples accumulated so far are stored into that copy first. So its answer also depends on the accumulator.
- Ambiguity.EditDistance: `LevenshteinDistance.Compute` is not part of this model; the standard Levenshtein distance stands for it.
- The dotNetRDF side calls are oracles: `GetEquivalentProperties`, `GetIFPsFromOntology`, `GetSuperOntologyClassesURI`, `TryResolveObjectProperty`, the `rdfs:range` lookups, and `Uri.IsWellFormedUriString`.
- `ExecuteSparql`: loading the ontology file, the `RdfsReasoner` and the final evaluation of the query are left out, because they are engine and file calls. The same holds for `ExecuteSparql(string)`'s insertion of standard prefixes (QuantumQueryProcessor.cs:813-816) and the result-set conversions.
- The logging to `results_log.txt` and the console (QuantumQueryProcessor.cs:849-850, 861) is output only and is left out.
- Database I/O: `SqlConnection`, `SqlDataReader`, `GetSchema`, `GetTableNames`, `GetColumnNames`, `GetPrimaryKeys` and `GetTriplesFromTable`. Rows, table lists and primary-key names are parameters. `reader[pk] ?? ++counter` is modelled as the key value, since a reader never yields null there.
- Loader calls with signatures outside `IDBLoader` (`GetTriplesForPredicateObject(..., IFPs)`, `GetTriplesForPredicateObject_ObjProperty`) are opaque: they are calls of `Oracles.fetch` with the arguments the mediator passes.
- `Graph.Assert` keeps a set of triples. The fusion pass returns the asserted triples as a sequence in assertion order, with repeats.
- The marks of `SparqlGraph` nodes are a sequence beside the node arena, not a field of each node.
- The `JoinNode(parent, child1, child2)` and `OptionalNode` constructors add their children to a throwaway list while `_children` is null (SparqlGraph.cs:112, 158-161, 182-186). They attach nothing, so they are not modelled beyond the base `Node` constructor.
- `ToString` of the tree nodes (SparqlGraph.cs:127-130, 146-149) is display only.
- `CompareTo(...) == 0` in `IsMatch` is culture-sensitive string comparison in .NET; it is modelled as equality.
- Federated.SourceKeyAsWritten: `IndexOf(string)` at QuantumQueryProcessor.cs:512 is a culture-sensitive search in .NET, in which characters such as the soft hyphen are ignored; the model searches ordinally, so it states `InvalidOperationException` for an identifier in which the name occurs only with such characters inside it.
- SqlLoader.Field: the reader's case-insensitive fallback (`GetOrdinal`) compares with the culture's case, kana and width rules; the model folds the case of ASCII letters only.
- MirageQueryProcessor.cs, Program.cs, DBLoader.cs, the unit tests and the interface files are not part of this model. They are a wrapper, a demo, a legacy copy and a live-database test.

## Findings

| source | as written | input that shows it | evidently intended | confidence | as-written member | corrected member |
|---|---|---|---|---|---|---|
| SPARQLtoSQL/QuantumQueryProcessor.cs:512 | `Substring(IndexOf(dbName))` starts at the first occurrence of the database name anywhere in the federated identifier, even inside another piece's name | identifier `http://x/F/User/DB2.ID.1.DB.ID.5`, database `DB`: the key read is `ID.1` (the `DB2` piece) | the key `ID.5` of the piece whose database is exactly `DB` | not executed | `Federated.SourceKeyAsWrittenMisreads` (about `Federated.SourceKeyAsWritten`, used by `Federated.ConvertAsWritten`) | `Federated.ConvertFindsSourceRow` (about `Federated.ConvertFederatedIndividualUri`, with `Federated.SourceKey` and `Federated.SourceKeyOfId`) |

The mediator (`Mediator.EquivalentStep`) follows the code as written and calls `Federated.ConvertAsWritten`. The corrected conversion stands beside it with its property proved.

=== FILE: ambiguity.dfy ===
/** The default ambiguity policy (`GenericRecordsAmbiguityResolver`): two
    object values found for one subject and predicate are reconciled by
    containment, then by edit distance against a threshold, and otherwise
    kept side by side. */
module Ambiguity {
  import opened Strings

  /** Values at this edit distance or closer denote the same fact. */
  const SimilarityThreshold: nat := 10

  function Min3(x: nat, y: nat, z: nat): (m: nat)
    ensures m <= x && m <= y && m <= z && (m == x || m == y || m == z)
  {
    if x <= y && x <= z then x else if y <= z then y else z
  }

  /** The Levenshtein distance: the fewest single-character insertions,
      deletions and substitutions turning `a` into `b`, by the recurrence on
      the last characters. */
  function Lev(a: string, b: string): nat
    decreases |a| + |b|
  {
    if |a| == 0 then |b|
    else if |b| == 0 then |a|
    else
      Min3(Lev(a[..|a| - 1], b) + 1,
           Lev(a, b[..|b| - 1]) + 1,
           Lev(a[..|a| - 1], b[..|b| - 1]) + (if a[|a| - 1] == b[|b| - 1] then 0 else 1))
  }

  /** A string is at distance zero from itself. */
  lemma {:induction false} LevSelf(a: string)
    ensures Lev(a, a) == 0
    decreases |a|
  {
    if |a| > 0 {
      LevSelf(a[..|a| - 1]);
    }
  }

  /** The distance is at least the difference of the lengths. */
  lemma {:induction false} LevLowerBound(a: string, b: string)
    ensures Lev(a, b) >= |a| - |b| && Lev(a, b) >= |b| - |a|
    decreases |a| + |b|
  {
    if |a| > 0 && |b| > 0 {
      LevLowerBound(a[..|a| - 1], b);
      LevLowerBound(a, b[..|b| - 1]);
      LevLowerBound(a[..|a| - 1], b[..|b| - 1]);
    }
  }

  /** The distance is at most the longer length: substitute along the
      shorter string, then insert or delete the rest. */
  lemma {:induction false} LevUpperBound(a: string, b: string)
    ensures Lev(a, b) <= if |a| <= |b| then |b| else |a|
    decreases |a| + |b|
  {
    if |a| > 0 && |b| > 0 {
      LevUpperBound(a[..|a| - 1], b[..|b| - 1]);
    }
  }

  /** Deleting `x` from the end: `a + x` is within `|x|` of `a`. */
  lemma {:induction false} LevDropSuffix(a: string, x: string)
    ensures Lev(a + x, a) <= |x|
    decreases |x|
  {
    if |x| > 0 {
      var x' := x[..|x| - 1];
      assert (a + x)[..|a + x| - 1] == a + x';
      LevDropSuffix(a, x');
      if |a| == 0 {
        assert a + x == x;
      }
    } else {
      assert a + x == a;
      LevSelf(a);
    }
  }

  /** Deleting the infix `x`: `p + x + q` is within `|x|` of `p + q`. */
  lemma {:induction false} LevDropInfix(p: string, x: string, q: string)
    ensures Lev(p + x + q, p + q) <= |x|
    decreases |q|
  {
    if |q| == 0 {
      assert p + x + q == p + x && p + q == p;
      LevDropSuffix(p, x);
    } else {
      var q' := q[..|q| - 1];
      var a := p + x + q;
      var b := p + q;
      assert a[..|a| - 1] == p + x + q' && b[..|b| - 1] == p + q';
      assert a[|a| - 1] == b[|b| - 1];
      LevDropInfix(p, x, q');
    }
  }

  /** `LevenshteinDistance.Compute`: the distance by dynamic programming over
      two rows, `prev[j]` holding the distance between the first `i - 1`
      characters of `a` and the first `j` of `b`. */
  method EditDistance(a: string, b: string) returns (dist: nat)
    ensures dist == Lev(a, b)
  {
    var prev: seq<nat> := seq(|b| + 1, j requires 0 <= j <= |b| => j);
    var i := 0;
    while i < |a|
      invariant 0 <= i <= |a| && |prev| == |b| + 1
      invariant forall j :: 0 <= j <= |b| ==> prev[j] == Lev(a[..i], b[..j])
    {
      prev := NextRow(a, b, i, prev);
      i := i + 1;
    }
    assert a[..|a|] == a && b[..|b|] == b;
    dist := prev[|b|];
  }

  /** One row of the table: from the distances of `a[..i]` to every prefix
      of `b`, those of `a[..i + 1]`. */
  method NextRow(a: string, b: string, i: nat, prev: seq<nat>) returns (cur: seq<nat>)
    requires i < |a| && |prev| == |b| + 1
    requires forall j :: 0 <= j <= |b| ==> prev[j] == Lev(a[..i], b[..j])
    ensures |cur| == |b| + 1
    ensures forall j :: 0 <= j <= |b| ==> cur[j] == Lev(a[..i + 1], b[..j])
  {
    cur := [i + 1];
    var j := 1;
    assert Lev(a[..i + 1], b[..0]) == i + 1;
    while j <= |b|
      invariant 1 <= j <= |b| + 1 && |cur| == j
      invariant forall k :: 0 <= k < j ==> cur[k] == Lev(a[..i + 1], b[..k])
    {
      var cost := if a[i] == b[j - 1] then 0 else 1;
      var d := Min3(prev[j] + 1, cur[j - 1] + 1, prev[j - 1] + cost);
      RowEntry(a, b, i, j, prev[j], prev[j - 1], cur[j - 1]);
      RowGrows(a[..i + 1], b, cur, d);
      cur := cur + [d];
      j := j + 1;
    }
  }

  /** One entry of the table from its three neighbours. */
  lemma RowEntry(a: string, b: string, i: nat, j: nat, up: nat, diag: nat, left: nat)
    requires i < |a| && 0 < j <= |b|
    requires up == Lev(a[..i], b[..j]) && diag == Lev(a[..i], b[..j - 1])
    requires left == Lev(a[..i + 1], b[..j - 1])
    ensures Min3(up + 1, left + 1, diag + (if a[i] == b[j - 1] then 0 else 1)) == Lev(a[..i + 1], b[..j])
  {
    LevStep(a, b, i, j);
  }

  /** A row that holds the distances to the first prefixes of `b` grows by
      the distance to the next one. */
  lemma RowGrows(a: string, b: string, cur: seq<nat>, d: nat)
    requires |cur| <= |b|
    requires forall k :: 0 <= k < |cur| ==> cur[k] == Lev(a, b[..k])
    requires d == Lev(a, b[..|cur|])
    ensures forall k :: 0 <= k < |cur| + 1 ==> (cur + [d])[k] == Lev(a, b[..k])
  {
  }

  /** The recurrence of `Lev` read on prefixes. */
  lemma LevStep(a: string, b: string, i: nat, j: nat)
    requires i < |a| && 0 < j <= |b|
    ensures Lev(a[..i + 1], b[..j]) ==
      Min3(Lev(a[..i], b[..j]) + 1,
           Lev(a[..i + 1], b[..j - 1]) + 1,
           Lev(a[..i], b[..j - 1]) + (if a[i] == b[j - 1] then 0 else 1))
  {
    assert a[..i + 1][..i] == a[..i] && a[..i + 1][i] == a[i];
    assert b[..j][..j - 1] == b[..j - 1];
  }


  /** `Resolve`: the string that contains the other; else, for values
      within the threshold, the longer one (the second on a tie); else both,
      joined by `"; "`. */
  function Resolve(s1: string, s2: string): (r: string)
    ensures r == s1 || r == s2 || r == s1 + "; " + s2
    ensures |r| >= |s1| && |r| >= |s2|
  {
    if Contains(s1, s2) then s1
    else if Contains(s2, s1) then s2
    else if Lev(s1, s2) <= SimilarityThreshold then (if |s1| > |s2| then s1 else s2)
    else s1 + "; " + s2
  }

  /** Every string contains itself. */
  lemma ContainsSelf(s: string)
    ensures Contains(s, s)
  {
    assert OccursAt(s, s, 0);
  }

  /** Containment wins: a value that contains the other is kept, and
      resolving a value with itself returns it. */
  lemma ResolveContainment(s1: string, s2: string)
    ensures Contains(s1, s2) ==> Resolve(s1, s2) == s1
    ensures !Contains(s1, s2) && Contains(s2, s1) ==> Resolve(s1, s2) == s2
    ensures Resolve(s1, s1) == s1
  {
    ContainsSelf(s1);
  }

  /** Without containment, the threshold decides between keeping one value
      and keeping both. */
  lemma ResolveByDistance(s1: string, s2: string)
    requires !Contains(s1, s2) && !Contains(s2, s1)
    ensures Lev(s1, s2) <= SimilarityThreshold ==> Resolve(s1, s2) == (if |s1| > |s2| then s1 else s2)
    ensures Lev(s1, s2) > SimilarityThreshold <==> Resolve(s1, s2) == s1 + "; " + s2
  {
    if Lev(s1, s2) <= SimilarityThreshold {
      if |s1| > |s2| {
        assert |s1 + "; " + s2| > |s1|;
      } else {
        assert |s1 + "; " + s2| > |s2|;
      }
    }
  }

  /** Values whose lengths differ by more than the threshold never count as
      the same fact: without containment both are kept. */
  lemma ResolveFarApart(s1: string, s2: string)
    requires !Contains(s1, s2) && !Contains(s2, s1)
    requires |s1| > |s2| + SimilarityThreshold || |s2| > |s1| + SimilarityThreshold
    ensures Resolve(s1, s2) == s1 + "; " + s2
  {
    LevLowerBound(s1, s2);
  }

  /** The policy is not symmetric: for two values of equal length within
      the threshold, the second argument wins. */
  lemma ResolveNotSymmetric()
    ensures Resolve("ab", "ba") == "ba" && Resolve("ba", "ab") == "ab"
  {
    assert "ab"[0..2][0] != "ba"[0] && "ba"[0..2][0] != "ab"[0];
    assert !Contains("ab", "ba") && !Contains("ba", "ab");
    LevUpperBound("ab", "ba");
    LevUpperBound("ba", "ab");
  }

  /** `"Alexander Cole"` and `"Alex Cole"` are five deletions apart, within
      the threshold, so the longer value is kept rather than both. */
  lemma ResolveAbbreviatedName()
    ensures Resolve("Alexander Cole", "Alex Cole") == "Alexander Cole"
    ensures Resolve("Alexander Cole", "Alexander") == "Alexander Cole"
  {
    var long := "Alexander Cole";
    var short := "Alex Cole";
    assert long == "Alex" + "ander" + " Cole" && short == "Alex" + " Cole";
    LevDropInfix("Alex", "ander", " Cole");
    AbbreviationNotContained(long, short);
    assert OccursAt(long, "Alexander", 0);
  }

  lemma AbbreviationNotContained(long: string, short: string)
    requires long == "Alexander Cole" && short == "Alex Cole"
    ensures !Contains(long, short) && !Contains(short, long)
  {
    forall i | 0 <= i <= |long|
      ensures !OccursAt(long, short, i)
    {
      if i <= |long| - |short| {
        assert long[i..i + |short|][4] != short[4] || long[i..i + |short|][0] != short[0];
      }
    }
  }
}

=== FILE: ambiguity_pass.dfy ===
/** The ambiguity pass (`ResolveAmbiguitiesInTriples`) run over the triples
    derived for a query before they are stored: triples with the same
    subject and predicate but several objects are replaced by one triple
    whose object reconciles them. */
module AmbiguityPass {
  import opened Wrappers
  import opened Strings
  import opened Rdf
  import opened Sources
  import opened Groups
  import Ambiguity

  /** The dictionary key `$"{t.Subject}|{t.Predicate}"`. */
  function KeyOf(t: GraphTriple): string
  {
    t.subj + "|" + t.pred
  }

  /** The key and object text of every triple, in list order: what the
      first loop files into the dictionary. */
  function KeyedObjects(ts: seq<GraphTriple>): (r: seq<(string, string)>)
    ensures |r| == |ts|
    ensures forall i :: 0 <= i < |ts| ==> r[i] == (KeyOf(ts[i]), ts[i].obj.Text())
  {
    if |ts| == 0 then []
    else KeyedObjects(ts[..|ts| - 1]) + [(KeyOf(ts[|ts| - 1]), ts[|ts| - 1].obj.Text())]
  }

  /** The object texts of the triples with key `k`, in list order. */
  function ObjectsOf(ts: seq<GraphTriple>, k: string): seq<string>
  {
    ValuesOf(KeyedObjects(ts), k)
  }

  /** The keys of the triples, each once, in order of first occurrence. */
  function KeyOrder(ts: seq<GraphTriple>): seq<string>
  {
    Dedup(Keys(KeyedObjects(ts)))
  }

  /** `resolution = list[0]`, then `resolution = resolver.Resolve(resolution,
      list[i])` for each later value: a left fold. */
  function Fold(resolve: (string, string) -> string, acc: string, rest: seq<string>): string
    decreases |rest|
  {
    if |rest| == 0 then acc else Fold(resolve, resolve(acc, rest[0]), rest[1..])
  }

  /** The triple that replaces the ones of an ambiguous key: subject and
      predicate of `problem`, and the resolution of the objects, a literal
      node exactly when the resolution is a literal value. */
  function Fixed(problem: GraphTriple, objs: seq<string>, resolve: (string, string) -> string,
                 wellFormed: string -> bool): (t: GraphTriple)
    requires |objs| > 0
    ensures KeyOf(t) == KeyOf(problem)
  {
    GraphTriple(problem.subj, problem.pred, NodeOf(Fold(resolve, objs[0], objs[1..]), wellFormed))
  }

  /** `triplesToAdd.Find(t => key(t) == k)`: the first triple with key `k`. */
  function FirstWithKey(ts: seq<GraphTriple>, k: string): (r: Option<GraphTriple>)
    ensures r.Some? ==> r.value in ts && KeyOf(r.value) == k
    ensures r.None? ==> forall i :: 0 <= i < |ts| ==> KeyOf(ts[i]) != k
  {
    if |ts| == 0 then None
    else if KeyOf(ts[0]) == k then Some(ts[0])
    else FirstWithKey(ts[1..], k)
  }

  /** The triples whose key is not in `dropped`, in order; `RemoveAll` of one
      key is `Keep(ts, {k})`. */
  function Keep(ts: seq<GraphTriple>, dropped: set<string>): (r: seq<GraphTriple>)
    ensures |r| <= |ts|
  {
    if |ts| == 0 then []
    else (if KeyOf(ts[0]) in dropped then [] else [ts[0]]) + Keep(ts[1..], dropped)
  }

  /** The second loop, over a snapshot of the dictionary's entries: an entry
      with fewer than two objects is dropped; otherwise the triples of its
      key are removed and the fixed triple appended. The first triple of the
      key is looked up in the list as it stands; a miss would make
      `problemTriple.Graph` throw `NullReferenceException`. */
  function ResolveEach(ts: seq<GraphTriple>, groups: Groups, resolve: (string, string) -> string,
                       wellFormed: string -> bool): (r: Result<seq<GraphTriple>>)
    decreases |groups|
  {
    if |groups| == 0 then Ok(ts)
    else
      var k := groups[0].0;
      var objs := groups[0].1;
      if |objs| < 2 then ResolveEach(ts, groups[1..], resolve, wellFormed)
      else
        var problem := FirstWithKey(ts, k);
        if problem.None? then Err(NullReferenceError)
        else ResolveEach(Keep(ts, {k}) + [Fixed(problem.value, objs, resolve, wellFormed)],
                         groups[1..], resolve, wellFormed)
  }

  /** `ResolveAmbiguitiesInTriples(triplesToAdd, resolver)`. */
  function ResolveAmbiguities(ts: seq<GraphTriple>, resolve: (string, string) -> string,
                              wellFormed: string -> bool): Result<seq<GraphTriple>>
  {
    ResolveEach(ts, Group(KeyedObjects(ts), false), resolve, wellFormed)
  }

  /** The dictionary the first loop builds. */
  function KeyGroups(ts: seq<GraphTriple>): Groups
  {
    Group(KeyedObjects(ts), false)
  }

  /** The keys of the entries with at least two objects. */
  function Ambiguous(gs: Groups): set<string>
  {
    if |gs| == 0 then {}
    else (if |gs[0].1| >= 2 then {gs[0].0} else {}) + Ambiguous(gs[1..])
  }

  /** One fixed triple per entry with at least two objects, in entry order. */
  function Corrections(ts: seq<GraphTriple>, gs: Groups, resolve: (string, string) -> string,
                       wellFormed: string -> bool): seq<GraphTriple>
  {
    if |gs| == 0 then [] else CorrectionOf(ts, gs[0], resolve, wellFormed) + Corrections(ts, gs[1..], resolve, wellFormed)
  }

  /** The fixed triple of one entry, if it has several objects. */
  function CorrectionOf(ts: seq<GraphTriple>, g: (string, seq<string>), resolve: (string, string) -> string,
                        wellFormed: string -> bool): seq<GraphTriple>
  {
    var problem := FirstWithKey(ts, g.0);
    if |g.1| >= 2 && problem.Some? then [Fixed(problem.value, g.1, resolve, wellFormed)] else []
  }

  /** The pass never throws, and its result is the triples of keys with a
      single object, in their original order, followed by one fixed triple
      per ambiguous key, in the order the keys first occur. */
  lemma ResolveAmbiguitiesClosedForm(ts: seq<GraphTriple>, resolve: (string, string) -> string,
                                     wellFormed: string -> bool)
    ensures var gs := KeyGroups(ts);
      ResolveAmbiguities(ts, resolve, wellFormed) == Ok(Keep(ts, Ambiguous(gs)) + Corrections(ts, gs, resolve, wellFormed))
  {
    var gs := KeyGroups(ts);
    KeyGroupsKeys(ts);
    KeepNothing(ts);
    assert Keep(ts, {}) + [] == ts;
    ResolveEachSpec(ts, gs, {}, [], resolve, wellFormed);
    assert {} + Ambiguous(gs) == Ambiguous(gs);
    assert Keep(ts, Ambiguous(gs)) + [] == Keep(ts, Ambiguous(gs));
  }

  /** The entries of the dictionary hold distinct keys, each the key of some
      triple. */
  lemma KeyGroupsKeys(ts: seq<GraphTriple>)
    ensures var gs := KeyGroups(ts);
      && (forall i, j :: 0 <= i < j < |gs| ==> gs[i].0 != gs[j].0)
      && (forall i :: 0 <= i < |gs| ==> FirstWithKey(ts, gs[i].0).Some?)
  {
    var pairs := KeyedObjects(ts);
    var gs := Group(pairs, false);
    GroupKeys(pairs, false);
    forall i, j | 0 <= i < j < |gs|
      ensures gs[i].0 != gs[j].0
    {
      KeysDistinct(gs, Keys(pairs), i, j);
    }
    forall i | 0 <= i < |gs|
      ensures FirstWithKey(ts, gs[i].0).Some?
    {
      KeyGroupOccurs(ts, i);
    }
  }

  lemma KeyGroupOccurs(ts: seq<GraphTriple>, i: nat)
    requires i < |KeyGroups(ts)|
    ensures FirstWithKey(ts, KeyGroups(ts)[i].0).Some?
  {
    var pairs := KeyedObjects(ts);
    var gs := Group(pairs, false);
    var k := gs[i].0;
    assert k in Keys(pairs) by {
      GroupKeys(pairs, false);
      assert Keys(gs)[i] == k;
    }
    var j :| 0 <= j < |pairs| && Keys(pairs)[j] == k;
    assert KeyOf(ts[j]) == k;
  }

  /** What holds of the entries still to visit: their keys are neither
      dropped nor among the fixed triples, are distinct, and each is the key
      of some original triple. */
  predicate Pending(ts: seq<GraphTriple>, gs: Groups, dropped: set<string>, fixed: seq<GraphTriple>)
  {
    && (forall i :: 0 <= i < |gs| ==> gs[i].0 !in dropped && FirstWithKey(ts, gs[i].0).Some?)
    && (forall i, j :: 0 <= i < j < |gs| ==> gs[i].0 != gs[j].0)
    && (forall t, i :: t in fixed && 0 <= i < |gs| ==> KeyOf(t) != gs[i].0)
  }

  lemma PendingSkip(ts: seq<GraphTriple>, gs: Groups, dropped: set<string>, fixed: seq<GraphTriple>)
    requires |gs| > 0 && Pending(ts, gs, dropped, fixed)
    ensures Pending(ts, gs[1..], dropped, fixed)
  {
    DistinctRest(gs);
    forall i | 0 <= i < |gs[1..]|
      ensures gs[1..][i] == gs[i + 1]
    {
    }
  }

  lemma PendingFix(ts: seq<GraphTriple>, gs: Groups, dropped: set<string>, fixed: seq<GraphTriple>, f: GraphTriple)
    requires |gs| > 0 && Pending(ts, gs, dropped, fixed) && KeyOf(f) == gs[0].0
    ensures Pending(ts, gs[1..], dropped + {gs[0].0}, fixed + [f])
  {
    FixKeepsInvariant(ts, gs, dropped, fixed, f);
    PendingSkip(ts, gs, dropped, fixed);
  }

  /** The loop invariant of the second loop: the list is the original list
      without the keys fixed so far, followed by the fixed triples. */
  lemma {:induction false} ResolveEachSpec(ts: seq<GraphTriple>, gs: Groups, dropped: set<string>, fixed: seq<GraphTriple>,
                                           resolve: (string, string) -> string, wellFormed: string -> bool)
    requires Pending(ts, gs, dropped, fixed)
    ensures ResolveEach(Keep(ts, dropped) + fixed, gs, resolve, wellFormed) ==
      Ok(Keep(ts, dropped + Ambiguous(gs)) + fixed + Corrections(ts, gs, resolve, wellFormed))
    decreases |gs|
  {
    var list := Keep(ts, dropped) + fixed;
    if |gs| == 0 {
      assert dropped + Ambiguous(gs) == dropped;
      assert list + Corrections(ts, gs, resolve, wellFormed) == list;
    } else {
      var rest := gs[1..];
      var more := Corrections(ts, rest, resolve, wellFormed);
      if |gs[0].1| < 2 {
        SkipStep(ts, gs, list, resolve, wellFormed);
        PendingSkip(ts, gs, dropped, fixed);
        ResolveEachSpec(ts, rest, dropped, fixed, resolve, wellFormed);
      } else {
        var k := gs[0].0;
        var f := Fixed(FirstWithKey(ts, k).value, gs[0].1, resolve, wellFormed);
        FixStep(ts, gs, dropped, fixed, resolve, wellFormed);
        PendingFix(ts, gs, dropped, fixed, f);
        ResolveEachSpec(ts, rest, dropped + {k}, fixed + [f], resolve, wellFormed);
        var d' := dropped + {k} + Ambiguous(rest);
        assert d' == dropped + Ambiguous(gs);
        Regroup(Keep(ts, d'), fixed, [f], more);
      }
    }
  }

  /** An entry with one object is dropped and changes nothing. */
  lemma SkipStep(ts: seq<GraphTriple>, gs: Groups, list: seq<GraphTriple>,
                 resolve: (string, string) -> string, wellFormed: string -> bool)
    requires |gs| > 0 && |gs[0].1| < 2
    ensures ResolveEach(list, gs, resolve, wellFormed) == ResolveEach(list, gs[1..], resolve, wellFormed)
    ensures Ambiguous(gs) == Ambiguous(gs[1..])
    ensures Corrections(ts, gs, resolve, wellFormed) == Corrections(ts, gs[1..], resolve, wellFormed)
  {
  }

  /** An entry with several objects has its key's triples replaced by the
      fixed one, which goes to the end. */
  lemma FixStep(ts: seq<GraphTriple>, gs: Groups, dropped: set<string>, fixed: seq<GraphTriple>,
                resolve: (string, string) -> string, wellFormed: string -> bool)
    requires |gs| > 0 && |gs[0].1| >= 2
    requires forall i :: 0 <= i < |gs| ==> gs[i].0 !in dropped && FirstWithKey(ts, gs[i].0).Some?
    requires forall i, j :: 0 <= i < j < |gs| ==> gs[i].0 != gs[j].0
    requires forall t, i :: t in fixed && 0 <= i < |gs| ==> KeyOf(t) != gs[i].0
    ensures var k := gs[0].0;
      var f := Fixed(FirstWithKey(ts, k).value, gs[0].1, resolve, wellFormed);
      && ResolveEach(Keep(ts, dropped) + fixed, gs, resolve, wellFormed)
         == ResolveEach(Keep(ts, dropped + {k}) + (fixed + [f]), gs[1..], resolve, wellFormed)
      && Ambiguous(gs) == {k} + Ambiguous(gs[1..])
      && Corrections(ts, gs, resolve, wellFormed) == [f] + Corrections(ts, gs[1..], resolve, wellFormed)
  {
    var k := gs[0].0;
    var list := Keep(ts, dropped) + fixed;
    var problem := FirstWithKey(ts, k);
    var f := Fixed(problem.value, gs[0].1, resolve, wellFormed);
    assert forall t :: t in fixed ==> KeyOf(t) != k;
    assert FirstWithKey(list, k) == problem by {
      FirstOfKeep(ts, dropped, fixed, k);
    }
    assert ResolveEach(list, gs, resolve, wellFormed) == ResolveEach(Keep(list, {k}) + [f], gs[1..], resolve, wellFormed);
    assert Keep(list, {k}) + [f] == Keep(ts, dropped + {k}) + (fixed + [f]) by {
      DropOneMore(ts, dropped, fixed, k);
    }
  }

  /** After a fix, the remaining entries still meet the loop invariant. */
  lemma FixKeepsInvariant(ts: seq<GraphTriple>, gs: Groups, dropped: set<string>, fixed: seq<GraphTriple>, f: GraphTriple)
    requires |gs| > 0 && KeyOf(f) == gs[0].0
    requires forall i :: 0 <= i < |gs| ==> gs[i].0 !in dropped
    requires forall i, j :: 0 <= i < j < |gs| ==> gs[i].0 != gs[j].0
    requires forall t, i :: t in fixed && 0 <= i < |gs| ==> KeyOf(t) != gs[i].0
    ensures forall i :: 0 <= i < |gs[1..]| ==> gs[1..][i].0 !in dropped + {gs[0].0}
    ensures forall t, i :: t in fixed + [f] && 0 <= i < |gs[1..]| ==> KeyOf(t) != gs[1..][i].0
  {
    forall i | 1 <= i < |gs|
      ensures gs[i].0 != gs[0].0
    {
      assert gs[0].0 != gs[i].0;
    }
  }

  lemma Regroup(a: seq<GraphTriple>, b: seq<GraphTriple>, c: seq<GraphTriple>, d: seq<GraphTriple>)
    ensures a + (b + c) + d == a + b + (c + d)
  {
  }

  lemma {:induction false} KeepNothing(ts: seq<GraphTriple>)
    ensures Keep(ts, {}) == ts
    decreases |ts|
  {
    if |ts| > 0 {
      KeepNothing(ts[1..]);
      assert [ts[0]] + ts[1..] == ts;
    }
  }

  lemma {:induction false} KeepConcat(a: seq<GraphTriple>, b: seq<GraphTriple>, dropped: set<string>)
    ensures Keep(a + b, dropped) == Keep(a, dropped) + Keep(b, dropped)
    decreases |a|
  {
    if |a| == 0 {
      assert a + b == b;
    } else {
      assert (a + b)[1..] == a[1..] + b;
      KeepConcat(a[1..], b, dropped);
    }
  }

  lemma {:induction false} KeepTwice(ts: seq<GraphTriple>, dropped: set<string>, k: string)
    ensures Keep(Keep(ts, dropped), {k}) == Keep(ts, dropped + {k})
    decreases |ts|
  {
    if |ts| > 0 {
      KeepTwice(ts[1..], dropped, k);
      var head := if KeyOf(ts[0]) in dropped then [] else [ts[0]];
      KeepConcat(head, Keep(ts[1..], dropped), {k});
      if KeyOf(ts[0]) !in dropped {
        assert Keep(head, {k}) == (if KeyOf(ts[0]) == k then [] else [ts[0]]) + Keep([], {k});
      }
    }
  }

  lemma {:induction false} KeepNone(ts: seq<GraphTriple>, k: string)
    requires forall t :: t in ts ==> KeyOf(t) != k
    ensures Keep(ts, {k}) == ts
    decreases |ts|
  {
    if |ts| > 0 {
      KeepNone(ts[1..], k);
      assert [ts[0]] + ts[1..] == ts;
    }
  }

  /** Removing one more key from the list the loop keeps. */
  lemma DropOneMore(ts: seq<GraphTriple>, dropped: set<string>, fixed: seq<GraphTriple>, k: string)
    requires forall t :: t in fixed ==> KeyOf(t) != k
    ensures Keep(Keep(ts, dropped) + fixed, {k}) == Keep(ts, dropped + {k}) + fixed
  {
    KeepConcat(Keep(ts, dropped), fixed, {k});
    KeepTwice(ts, dropped, k);
    KeepNone(fixed, k);
  }

  lemma {:induction false} FirstOfConcat(a: seq<GraphTriple>, b: seq<GraphTriple>, k: string)
    ensures FirstWithKey(a + b, k) == if FirstWithKey(a, k).Some? then FirstWithKey(a, k) else FirstWithKey(b, k)
    decreases |a|
  {
    if |a| == 0 {
      assert a + b == b;
    } else {
      assert (a + b)[1..] == a[1..] + b;
      FirstOfConcat(a[1..], b, k);
    }
  }

  lemma {:induction false} FirstOfKept(ts: seq<GraphTriple>, dropped: set<string>, k: string)
    requires k !in dropped
    ensures FirstWithKey(Keep(ts, dropped), k) == FirstWithKey(ts, k)
    decreases |ts|
  {
    if |ts| > 0 {
      FirstOfKept(ts[1..], dropped, k);
      var head := if KeyOf(ts[0]) in dropped then [] else [ts[0]];
      FirstOfConcat(head, Keep(ts[1..], dropped), k);
      if KeyOf(ts[0]) !in dropped {
        assert FirstWithKey(head, k) == if KeyOf(ts[0]) == k then Some(ts[0]) else FirstWithKey([], k);
      }
    }
  }

  /** The first triple of a key not yet fixed is its first original triple. */
  lemma FirstOfKeep(ts: seq<GraphTriple>, dropped: set<string>, fixed: seq<GraphTriple>, k: string)
    requires k !in dropped && forall t :: t in fixed ==> KeyOf(t) != k
    requires FirstWithKey(ts, k).Some?
    ensures FirstWithKey(Keep(ts, dropped) + fixed, k) == FirstWithKey(ts, k)
  {
    FirstOfConcat(Keep(ts, dropped), fixed, k);
    FirstOfKept(ts, dropped, k);
  }

  // ---------------------------------------------------------------------
  // What the closed form says about one key
  // ---------------------------------------------------------------------

  /** The triples of `ts` with key `k`, in order. */
  function WithKey(ts: seq<GraphTriple>, k: string): (r: seq<GraphTriple>)
    ensures |r| <= |ts|
  {
    if |ts| == 0 then []
    else WithKey(ts[..|ts| - 1], k) + (if KeyOf(ts[|ts| - 1]) == k then [ts[|ts| - 1]] else [])
  }

  /** The objects filed under a key are the object texts of the triples with
      that key, in order. */
  lemma {:induction false} ObjectsOfWithKey(ts: seq<GraphTriple>, k: string)
    ensures |ObjectsOf(ts, k)| == |WithKey(ts, k)|
    ensures forall i :: 0 <= i < |WithKey(ts, k)| ==> ObjectsOf(ts, k)[i] == WithKey(ts, k)[i].obj.Text()
    decreases |ts|
  {
    if |ts| > 0 {
      var front := ts[..|ts| - 1];
      var last := ts[|ts| - 1];
      ObjectsOfWithKey(front, k);
      assert KeyedObjects(ts) == KeyedObjects(front) + [(KeyOf(last), last.obj.Text())];
      ValuesSnoc(KeyedObjects(front), (KeyOf(last), last.obj.Text()), k);
    }
  }

  lemma {:induction false} WithKeyConcat(a: seq<GraphTriple>, b: seq<GraphTriple>, k: string)
    ensures WithKey(a + b, k) == WithKey(a, k) + WithKey(b, k)
    decreases |b|
  {
    if |b| == 0 {
      assert a + b == a;
    } else {
      assert (a + b)[..|a + b| - 1] == a + b[..|b| - 1];
      WithKeyConcat(a, b[..|b| - 1], k);
    }
  }

  lemma {:induction false} WithKeyOfKeep(ts: seq<GraphTriple>, dropped: set<string>, k: string)
    ensures WithKey(Keep(ts, dropped), k) == if k in dropped then [] else WithKey(ts, k)
    decreases |ts|
  {
    if |ts| > 0 {
      var t, rest := ts[0], ts[1..];
      var head := if KeyOf(t) in dropped then [] else [t];
      var tail := Keep(rest, dropped);
      assert Keep(ts, dropped) == head + tail;
      assert ts == [t] + rest;
      WithKeyOfKeep(rest, dropped, k);
      WithKeyCons(t, rest, k);
      WithKeyOfKeptHead(t, dropped, k);
      WithKeyConcat(head, tail, k);
      if k in dropped {
        assert WithKey(head + tail, k) == [] + [];
      } else {
        assert WithKey(head + tail, k) == WithKey([t], k) + WithKey(rest, k);
      }
    }
  }

  lemma WithKeyCons(t: GraphTriple, rest: seq<GraphTriple>, k: string)
    ensures WithKey([t] + rest, k) == WithKey([t], k) + WithKey(rest, k)
  {
    WithKeyConcat([t], rest, k);
  }

  lemma WithKeyOfKeptHead(t: GraphTriple, dropped: set<string>, k: string)
    ensures WithKey(if KeyOf(t) in dropped then [] else [t], k) == if k in dropped then [] else WithKey([t], k)
  {
    WithKeyOne(t, k);
  }

  /** The first triple with a key heads the triples with that key. */
  lemma {:induction false} FirstWithKeyHeads(ts: seq<GraphTriple>, k: string)
    ensures FirstWithKey(ts, k).Some? <==> |WithKey(ts, k)| > 0
    ensures FirstWithKey(ts, k).Some? ==> FirstWithKey(ts, k).value == WithKey(ts, k)[0]
    decreases |ts|
  {
    if |ts| > 0 {
      FirstWithKeyHeads(ts[1..], k);
      WithKeyConcat([ts[0]], ts[1..], k);
      assert [ts[0]] + ts[1..] == ts;
      assert WithKey([ts[0]], k) == WithKey([], k) + (if KeyOf(ts[0]) == k then [ts[0]] else []);
    }
  }

  lemma {:induction false} AmbiguousMember(gs: Groups, k: string)
    ensures k in Ambiguous(gs) <==> exists i :: 0 <= i < |gs| && gs[i].0 == k && |gs[i].1| >= 2
    decreases |gs|
  {
    if |gs| > 0 {
      AmbiguousMember(gs[1..], k);
      if k in Ambiguous(gs[1..]) {
        var i :| 0 <= i < |gs[1..]| && gs[1..][i].0 == k && |gs[1..][i].1| >= 2;
        assert gs[i + 1] == gs[1..][i];
      }
      if exists i :: 0 <= i < |gs| && gs[i].0 == k && |gs[i].1| >= 2 {
        var i :| 0 <= i < |gs| && gs[i].0 == k && |gs[i].1| >= 2;
        if i > 0 {
          assert gs[1..][i - 1] == gs[i];
        }
      }
    }
  }

  /** No entry of `k` with several objects: no correction with key `k`. */
  lemma {:induction false} WithKeyOfNoCorrection(ts: seq<GraphTriple>, gs: Groups, k: string,
                                                 resolve: (string, string) -> string, wellFormed: string -> bool)
    requires forall i :: 0 <= i < |gs| && gs[i].0 == k ==> |gs[i].1| < 2
    ensures WithKey(Corrections(ts, gs, resolve, wellFormed), k) == []
    decreases |gs|
  {
    if |gs| > 0 {
      var rest := gs[1..];
      assert forall i :: 0 <= i < |rest| && rest[i].0 == k ==> |rest[i].1| < 2 by {
        forall i | 0 <= i < |rest| && rest[i].0 == k
          ensures |rest[i].1| < 2
        {
          assert rest[i] == gs[i + 1];
        }
      }
      WithKeyOfNoCorrection(ts, rest, k, resolve, wellFormed);
      WithKeyConcat(CorrectionOf(ts, gs[0], resolve, wellFormed), Corrections(ts, rest, resolve, wellFormed), k);
      WithKeyOfCorrectionOf(ts, gs[0], k, resolve, wellFormed);
    }
  }

  /** The entry `at` of `k` with several objects: exactly one correction
      with key `k`. */
  lemma {:induction false} WithKeyOfCorrection(ts: seq<GraphTriple>, gs: Groups, k: string, at: nat,
                                               resolve: (string, string) -> string, wellFormed: string -> bool)
    requires at < |gs| && gs[at].0 == k && |gs[at].1| >= 2 && FirstWithKey(ts, k).Some?
    requires forall i, j :: 0 <= i < j < |gs| ==> gs[i].0 != gs[j].0
    ensures WithKey(Corrections(ts, gs, resolve, wellFormed), k) == [Fixed(FirstWithKey(ts, k).value, gs[at].1, resolve, wellFormed)]
    decreases |gs|
  {
    var rest := gs[1..];
    var first := CorrectionOf(ts, gs[0], resolve, wellFormed);
    var more := Corrections(ts, rest, resolve, wellFormed);
    assert Corrections(ts, gs, resolve, wellFormed) == first + more;
    WithKeyConcat(first, more, k);
    WithKeyOfCorrectionOf(ts, gs[0], k, resolve, wellFormed);
    if at == 0 {
      RestLacksKey(gs, k);
      WithKeyOfNoCorrection(ts, rest, k, resolve, wellFormed);
    } else {
      assert gs[0].0 != gs[at].0;
      assert rest[at - 1] == gs[at];
      DistinctRest(gs);
      WithKeyOfCorrection(ts, rest, k, at - 1, resolve, wellFormed);
    }
  }

  /** With distinct keys, the key of the first entry is not among the rest. */
  lemma RestLacksKey(gs: Groups, k: string)
    requires |gs| > 0 && gs[0].0 == k
    requires forall i, j :: 0 <= i < j < |gs| ==> gs[i].0 != gs[j].0
    ensures forall i :: 0 <= i < |gs[1..]| ==> gs[1..][i].0 != k
  {
    forall i | 0 <= i < |gs[1..]|
      ensures gs[1..][i].0 != k
    {
      assert gs[1..][i] == gs[i + 1];
    }
  }

  /** The correction of one entry has key `k` exactly when the entry is
      that of `k` and has several objects. */
  lemma WithKeyOfCorrectionOf(ts: seq<GraphTriple>, g: (string, seq<string>), k: string,
                              resolve: (string, string) -> string, wellFormed: string -> bool)
    ensures WithKey(CorrectionOf(ts, g, resolve, wellFormed), k) ==
      if g.0 == k && |g.1| >= 2 && FirstWithKey(ts, k).Some? then [Fixed(FirstWithKey(ts, k).value, g.1, resolve, wellFormed)] else []
  {
    var problem := FirstWithKey(ts, g.0);
    if |g.1| >= 2 && problem.Some? {
      var f := Fixed(problem.value, g.1, resolve, wellFormed);
      assert KeyOf(f) == g.0;
      WithKeyOne(f, k);
      if g.0 == k {
        assert FirstWithKey(ts, k) == problem;
      }
    }
  }

  lemma DistinctRest(gs: Groups)
    requires |gs| > 0
    requires forall i, j :: 0 <= i < j < |gs| ==> gs[i].0 != gs[j].0
    ensures forall i, j :: 0 <= i < j < |gs[1..]| ==> gs[1..][i].0 != gs[1..][j].0
  {
    forall i, j | 0 <= i < j < |gs[1..]|
      ensures gs[1..][i].0 != gs[1..][j].0
    {
      assert gs[1..][i] == gs[i + 1] && gs[1..][j] == gs[j + 1];
    }
  }

  lemma WithKeyOne(t: GraphTriple, k: string)
    ensures WithKey([t], k) == if KeyOf(t) == k then [t] else []
  {
    assert WithKey([t], k) == WithKey([], k) + (if KeyOf(t) == k then [t] else []);
  }

  /** The dictionary holds, under every key, the objects of that key. */
  lemma KeyGroupValues(ts: seq<GraphTriple>, i: nat)
    requires i < |KeyGroups(ts)|
    ensures KeyGroups(ts)[i].1 == ObjectsOf(ts, KeyGroups(ts)[i].0)
  {
    GroupValues(KeyedObjects(ts), false, i);
  }

  /** A key with objects has an entry in the dictionary. */
  lemma KeyGroupFind(ts: seq<GraphTriple>, k: string) returns (at: nat)
    requires |ObjectsOf(ts, k)| > 0
    ensures at < |KeyGroups(ts)| && KeyGroups(ts)[at].0 == k
  {
    var pairs := KeyedObjects(ts);
    var gs := Group(pairs, false);
    assert k in Keys(pairs) by {
      if k !in Keys(pairs) {
        NoValues(pairs, k);
      }
    }
    GroupKeys(pairs, false);
    assert k in Keys(gs);
    at :| 0 <= at < |gs| && Keys(gs)[at] == k;
  }

  /** A key with at least two triples ends with exactly one: the first of
      them, with its object replaced by the resolution of all their
      objects, in list order. */
  lemma AmbiguousKeyResolved(ts: seq<GraphTriple>, k: string, resolve: (string, string) -> string,
                             wellFormed: string -> bool)
    requires |WithKey(ts, k)| >= 2
    ensures var r := ResolveAmbiguities(ts, resolve, wellFormed);
      && r.Ok?
      && |ObjectsOf(ts, k)| == |WithKey(ts, k)|
      && WithKey(r.value, k) == [Fixed(WithKey(ts, k)[0], ObjectsOf(ts, k), resolve, wellFormed)]
  {
    var gs := KeyGroups(ts);
    ResolveAmbiguitiesClosedForm(ts, resolve, wellFormed);
    ObjectsOfWithKey(ts, k);
    FirstWithKeyHeads(ts, k);
    var at := KeyGroupFind(ts, k);
    KeyGroupValues(ts, at);
    KeyGroupsKeys(ts);
    AmbiguousMember(gs, k);
    WithKeyConcat(Keep(ts, Ambiguous(gs)), Corrections(ts, gs, resolve, wellFormed), k);
    WithKeyOfKeep(ts, Ambiguous(gs), k);
    WithKeyOfCorrection(ts, gs, k, at, resolve, wellFormed);
  }

  /** A key with a single triple keeps it untouched. */
  lemma UnambiguousKeyKept(ts: seq<GraphTriple>, k: string, resolve: (string, string) -> string,
                           wellFormed: string -> bool)
    requires |WithKey(ts, k)| < 2
    ensures var r := ResolveAmbiguities(ts, resolve, wellFormed);
      r.Ok? && WithKey(r.value, k) == WithKey(ts, k)
  {
    var gs := KeyGroups(ts);
    ResolveAmbiguitiesClosedForm(ts, resolve, wellFormed);
    ObjectsOfWithKey(ts, k);
    forall i | 0 <= i < |gs| && gs[i].0 == k
      ensures |gs[i].1| < 2
    {
      KeyGroupValues(ts, i);
    }
    AmbiguousMember(gs, k);
    WithKeyConcat(Keep(ts, Ambiguous(gs)), Corrections(ts, gs, resolve, wellFormed), k);
    WithKeyOfKeep(ts, Ambiguous(gs), k);
    WithKeyOfNoCorrection(ts, gs, k, resolve, wellFormed);
  }

  /** Without ambiguity the pass returns its input. */
  lemma NoAmbiguityNoChange(ts: seq<GraphTriple>, resolve: (string, string) -> string, wellFormed: string -> bool)
    requires forall i :: 0 <= i < |ts| ==> |WithKey(ts, KeyOf(ts[i]))| < 2
    ensures ResolveAmbiguities(ts, resolve, wellFormed) == Ok(ts)
  {
    var gs := KeyGroups(ts);
    ResolveAmbiguitiesClosedForm(ts, resolve, wellFormed);
    forall i | 0 <= i < |gs|
      ensures |gs[i].1| < 2
    {
      KeyGroupValues(ts, i);
      KeyGroupOccurs(ts, i);
      var k := gs[i].0;
      FirstWithKeyHeads(ts, k);
      var t := FirstWithKey(ts, k).value;
      var j :| 0 <= j < |ts| && ts[j] == t;
      ObjectsOfWithKey(ts, k);
    }
    NoCorrections(ts, gs, resolve, wellFormed);
    assert Ambiguous(gs) == {} by {
      forall k | k in Ambiguous(gs)
        ensures false
      {
        AmbiguousMember(gs, k);
      }
    }
    KeepNothing(ts);
    assert ts + [] == ts;
  }

  lemma {:induction false} NoCorrections(ts: seq<GraphTriple>, gs: Groups, resolve: (string, string) -> string,
                                         wellFormed: string -> bool)
    requires forall i :: 0 <= i < |gs| ==> |gs[i].1| < 2
    ensures Corrections(ts, gs, resolve, wellFormed) == []
    decreases |gs|
  {
    if |gs| > 0 {
      assert forall i :: 0 <= i < |gs[1..]| ==> gs[1..][i] == gs[i + 1];
      NoCorrections(ts, gs[1..], resolve, wellFormed);
    }
  }

  // ---------------------------------------------------------------------
  // With the Levenshtein resolver
  // ---------------------------------------------------------------------

  /** Folding `Resolve` over values that all equal the start gives it back. */
  lemma {:induction false} FoldAgreeing(x: string, rest: seq<string>)
    requires forall i :: 0 <= i < |rest| ==> rest[i] == x
    ensures Fold(Ambiguity.Resolve, x, rest) == x
    decreases |rest|
  {
    if |rest| > 0 {
      Ambiguity.ResolveContainment(x, x);
      FoldAgreeing(x, rest[1..]);
    }
  }

  /** The resolution is at least as long as every value it reconciles. */
  lemma {:induction false} FoldCovers(acc: string, rest: seq<string>)
    ensures |Fold(Ambiguity.Resolve, acc, rest)| >= |acc|
    ensures forall i :: 0 <= i < |rest| ==> |Fold(Ambiguity.Resolve, acc, rest)| >= |rest[i]|
    decreases |rest|
  {
    if |rest| > 0 {
      FoldCovers(Ambiguity.Resolve(acc, rest[0]), rest[1..]);
      assert forall i :: 1 <= i < |rest| ==> rest[i] == rest[1..][i - 1];
    }
  }

  /** Copies of one record that agree on a value collapse to one triple
      carrying that value. */
  lemma AgreeingCopiesCollapse(ts: seq<GraphTriple>, k: string, wellFormed: string -> bool)
    requires |WithKey(ts, k)| >= 2
    requires forall i :: 0 <= i < |WithKey(ts, k)| ==> WithKey(ts, k)[i].obj.Text() == WithKey(ts, k)[0].obj.Text()
    ensures var r := ResolveAmbiguities(ts, Ambiguity.Resolve, wellFormed);
      var first := WithKey(ts, k)[0];
      && r.Ok?
      && WithKey(r.value, k) == [GraphTriple(first.subj, first.pred, NodeOf(first.obj.Text(), wellFormed))]
  {
    AmbiguousKeyResolved(ts, k, Ambiguity.Resolve, wellFormed);
    ObjectsOfWithKey(ts, k);
    var objs := ObjectsOf(ts, k);
    FoldAgreeing(objs[0], objs[1..]);
  }
}

=== FILE: federated.dfy ===
/** Identifiers of the federated schema. A row that several databases share
    gets an identifier `stem/db.pk.value.db.pk.value…` listing one piece per
    source database. This module holds the conversion from such an
    identifier back to the individual URI of one source
    (`ConvertFederatedIndividualUriToSource`) and the translation of a
    result row of a source into federated terms (the body of the loop over
    result rows in the federated part of `ResolveBGPsFromDB`). */
module Federated {
  import opened Wrappers
  import opened Strings
  import opened Rdf
  import opened UriCodec
  import opened Sources

  /** One piece of a federated identifier: a source database and the key
      column and key value of the row in it. */
  datatype Piece = Piece(db: string, key: string, value: string)

  /** The dot-separated components of a list of pieces, piece by piece. */
  function PartsOf(ps: seq<Piece>): (parts: seq<string>)
    ensures |parts| == 3 * |ps|
  {
    if |ps| == 0 then [] else [ps[0].db, ps[0].key, ps[0].value] + PartsOf(ps[1..])
  }

  /** The federated identifier `stem/db.pk.value.db.pk.value…`. */
  function FederatedId(stem: string, ps: seq<Piece>): string
  {
    stem + "/" + Join(".", PartsOf(ps))
  }

  /** Every component of every piece is a non-empty run of word characters. */
  predicate WordPieces(ps: seq<Piece>)
  {
    forall i :: 0 <= i < |ps| ==> IsWord(ps[i].db) && IsWord(ps[i].key) && IsWord(ps[i].value)
  }

  // ---------------------------------------------------------------------
  // The key of one database, as the code finds it
  // ---------------------------------------------------------------------

  /** The regular expression `(\w+)\.(\w+\.\w+)` tried at `i`: each `\w+` is
      greedy and is followed by `.` or by nothing, so each group is the
      longest run of word characters. On success, the second group is
      `s[g..e]` for the returned `(g, e)`. */
  function KeyPairAt(s: string, i: nat): (r: Option<(nat, nat)>)
    requires i <= |s|
    ensures r.Some? ==> i < r.value.0 < r.value.1 <= |s|
  {
    if i == |s| || !IsWordChar(s[i]) then None
    else
      var a := WordRunEnd(s, i);
      if a + 1 >= |s| || s[a] != '.' || !IsWordChar(s[a + 1]) then None
      else
        var b := WordRunEnd(s, a + 1);
        if b + 1 >= |s| || s[b] != '.' || !IsWordChar(s[b + 1]) then None
        else Some((a + 1, WordRunEnd(s, b + 1)))
  }

  /** The leftmost match at or after `i`, as the bounds of its second
      group. */
  function KeyPairFrom(s: string, i: nat): (r: Option<(nat, nat)>)
    requires i <= |s|
    ensures r.Some? ==> i < r.value.0 < r.value.1 <= |s|
    ensures r.Some? ==> exists j :: i <= j < |s| && KeyPairAt(s, j) == r
    ensures r.None? ==> forall j :: i <= j <= |s| ==> KeyPairAt(s, j).None?
    decreases |s| - i
  {
    if i == |s| then None
    else
      var m := KeyPairAt(s, i);
      if m.Some? then m else KeyPairFrom(s, i + 1)
  }

  /** How `ConvertFederatedIndividualUriToSource` finds the key of database
      `db` in the federated identifier `fed`: `Substring(IndexOf(db))`, searched ordinally, then
      the second group of `(\w+)\.(\w+\.\w+)`. A `db` that does not occur
      makes `Substring(-1)` throw `ArgumentOutOfRangeException`, which the
      method turns into `InvalidOperationException`; a rest without the
      pattern raises `ArgumentOutOfRangeException`. */
  function SourceKeyAsWritten(fed: string, db: string): (r: Result<string>)
    ensures !Contains(fed, db) <==> r == Err(InvalidOperationError)
    ensures r.Err? ==> r.error == InvalidOperationError || r.error == ArgumentOutOfRangeError
    ensures r.Ok? ==> exists i, g :: 0 <= i <= g && OccursAt(fed, db, i) && OccursAt(fed, r.value, g)
  {
    var at := IndexOf(fed, db);
    if at == -1 then Err(InvalidOperationError)
    else KeyOfRest(fed, at)
  }

  /** The second group of the first match of `(\w+)\.(\w+\.\w+)` in
      `fed[at..]`, or `ArgumentOutOfRangeException` when there is none. */
  function KeyOfRest(fed: string, at: nat): (r: Result<string>)
    requires at <= |fed|
    ensures r.Err? ==> r == Err(ArgumentOutOfRangeError)
    ensures r.Ok? ==> exists g :: at <= g && OccursAt(fed, r.value, g)
  {
    var rest := fed[at..];
    var k := KeyPairFrom(rest, 0);
    if k.None? then Err(ArgumentOutOfRangeError)
    else
      var g := k.value.0;
      var e := k.value.1;
      SliceOccurs(fed, at, g, e);
      Ok(rest[g..e])
  }

  /** A slice of a suffix occurs in the whole string. */
  lemma SliceOccurs(s: string, at: nat, g: nat, e: nat)
    requires at <= |s| && g <= e <= |s| - at
    ensures OccursAt(s, s[at..][g..e], at + g)
  {
    SliceOfSlice(s, at, |s|, g, e);
  }

  // ---------------------------------------------------------------------
  // The key of one database, as intended
  // ---------------------------------------------------------------------

  /** The key `pk.value` of the first piece of database `db`, reading the
      components three at a time. */
  function PieceKey(parts: seq<string>, db: string): (r: Option<string>)
    ensures r.Some? ==> exists k :: 0 <= k && 3 * k + 2 < |parts| && parts[3 * k] == db
                                    && r.value == parts[3 * k + 1] + "." + parts[3 * k + 2]
    decreases |parts|
  {
    if |parts| < 3 then None
    else if parts[0] == db then
      assert parts[3 * 0] == db;
      Some(parts[1] + "." + parts[2])
    else
      var r := PieceKey(parts[3..], db);
      if r.Some? then
        var k :| 0 <= k && 3 * k + 2 < |parts[3..]| && parts[3..][3 * k] == db
                 && r.value == parts[3..][3 * k + 1] + "." + parts[3..][3 * k + 2];
        assert parts[3 * (k + 1)] == db;
        r
      else r
  }

  /** The key of database `db` in the federated identifier `fed`: the text
      after the last `/` is split at the dots into components, and the
      first piece whose database component is `db` gives its key; no such
      piece means the identifier cannot be converted
      (`InvalidOperationException`). */
  function SourceKey(fed: string, db: string): (r: Result<string>)
    ensures r.Err? ==> r.error == InvalidOperationError
  {
    var tail := fed[LastIndexOf(fed, '/') + 1..];
    var k := PieceKey(Split(tail, {'.'}), db);
    if k.None? then Err(InvalidOperationError) else Ok(k.value)
  }

  /** The first piece of database `db`, if any. */
  function FirstPieceOf(ps: seq<Piece>, db: string): (r: Option<Piece>)
    ensures r.Some? ==> r.value in ps && r.value.db == db
    ensures r.None? <==> forall i :: 0 <= i < |ps| ==> ps[i].db != db
  {
    if |ps| == 0 then None
    else if ps[0].db == db then Some(ps[0])
    else FirstPieceOf(ps[1..], db)
  }

  /** Splitting on a character that `x` does not hold cuts right after `x`. */
  lemma {:induction false} SplitAfter(x: string, c: char, y: string)
    requires c !in x
    ensures Split(x + [c] + y, {c}) == [x] + Split(y, {c})
    decreases |x|
  {
    var s := x + [c] + y;
    if |x| == 0 {
      assert s == [c] + y;
      assert s[1..] == y;
    } else {
      var rest := Split(s[1..], {c});
      assert rest == [x[1..]] + Split(y, {c}) by {
        assert s[1..] == x[1..] + [c] + y;
        SplitAfter(x[1..], c, y);
      }
      assert Split(s, {c}) == [[x[0]] + rest[0]] + rest[1..] by {
        assert s[0] == x[0] && s[0] !in {c};
      }
      assert [x[0]] + x[1..] == x;
    }
  }

  /** Joining components that do not hold the separator and splitting again
      gives the components back. */
  lemma {:induction false} JoinSplit(parts: seq<string>, c: char)
    requires |parts| > 0
    requires forall i :: 0 <= i < |parts| ==> c !in parts[i]
    ensures Split(Join([c], parts), {c}) == parts
    decreases |parts|
  {
    if |parts| == 1 {
      SplitNone(parts[0], c);
    } else {
      JoinSplit(parts[1..], c);
      SplitAfter(parts[0], c, Join([c], parts[1..]));
      assert [parts[0]] + parts[1..] == parts;
    }
  }

  /** Reading the components three at a time finds the first piece of `db`. */
  lemma {:induction false} PieceKeyOfParts(ps: seq<Piece>, db: string)
    ensures PieceKey(PartsOf(ps), db) ==
      if FirstPieceOf(ps, db).None? then None
      else Some(FirstPieceOf(ps, db).value.key + "." + FirstPieceOf(ps, db).value.value)
    decreases |ps|
  {
    if |ps| > 0 {
      PieceKeyOfParts(ps[1..], db);
      assert PartsOf(ps)[3..] == PartsOf(ps[1..]);
    }
  }

  /** Word components hold neither `.` nor `/`. */
  lemma PartsAreWords(ps: seq<Piece>)
    requires WordPieces(ps)
    ensures forall i :: 0 <= i < |PartsOf(ps)| ==> IsWord(PartsOf(ps)[i])
    decreases |ps|
  {
    if |ps| > 0 {
      PartsAreWords(ps[1..]);
      assert forall i :: 3 <= i < |PartsOf(ps)| ==> PartsOf(ps)[i] == PartsOf(ps[1..])[i - 3];
    }
  }

  /** No `.` and no `/` in a word. */
  lemma WordHasNoSeparator(w: string)
    requires IsWord(w)
    ensures '.' !in w && '/' !in w
  {
    forall i | 0 <= i < |w|
      ensures w[i] != '.' && w[i] != '/'
    {
      assert IsWordChar(w[i]);
    }
  }

  /** No `/` in a join with `.` of words. */
  lemma {:induction false} JoinHasNoSlash(parts: seq<string>)
    requires forall i :: 0 <= i < |parts| ==> IsWord(parts[i])
    ensures '/' !in Join(".", parts)
    decreases |parts|
  {
    if |parts| > 0 {
      WordHasNoSeparator(parts[0]);
      if |parts| > 1 {
        JoinHasNoSlash(parts[1..]);
      }
    }
  }

  /** The intended key lookup finds, in an identifier built from word
      pieces, the key of the first piece of the database; it fails exactly
      when no piece is of that database. */
  lemma SourceKeyOfId(stem: string, ps: seq<Piece>, db: string)
    requires |ps| > 0 && WordPieces(ps)
    ensures FirstPieceOf(ps, db).None? <==> SourceKey(FederatedId(stem, ps), db).Err?
    ensures FirstPieceOf(ps, db).Some? ==>
      SourceKey(FederatedId(stem, ps), db) == Ok(FirstPieceOf(ps, db).value.key + "." + FirstPieceOf(ps, db).value.value)
  {
    var parts := PartsOf(ps);
    var body := Join(".", parts);
    var fed := FederatedId(stem, ps);
    PartsAreWords(ps);
    JoinHasNoSlash(parts);
    assert fed[|stem|] == '/';
    assert fed[|stem| + 1..] == body;
    assert forall j :: |stem| < j < |fed| ==> fed[j] == body[j - |stem| - 1];
    assert LastIndexOf(fed, '/') == |stem|;
    forall i | 0 <= i < |parts|
      ensures '.' !in parts[i]
    {
      WordHasNoSeparator(parts[i]);
    }
    JoinSplit(parts, '.');
    PieceKeyOfParts(ps, db);
  }

  /** The pieces of `DB2` and `DB` used below, and their identifier. */
  lemma MisreadPieces(ps: seq<Piece>)
    requires ps == [Piece("DB2", "ID", "1"), Piece("DB", "ID", "5")]
    ensures WordPieces(ps)
    ensures FederatedId("http://x/F/User", ps) == "http://x/F/User/DB2.ID.1.DB.ID.5"
    ensures FirstPieceOf(ps, "DB") == Some(Piece("DB", "ID", "5"))
  {
    assert WordPieces(ps) by {
      assert AllWordChars("DB2") && AllWordChars("DB") && AllWordChars("ID");
      assert AllWordChars("1") && AllWordChars("5");
    }
    assert ps[1..] == [Piece("DB", "ID", "5")];
    MisreadJoin(ps);
  }

  /** The identifier built from the two pieces. */
  lemma MisreadJoin(ps: seq<Piece>)
    requires ps == [Piece("DB2", "ID", "1"), Piece("DB", "ID", "5")]
    ensures FederatedId("http://x/F/User", ps) == "http://x/F/User/DB2.ID.1.DB.ID.5"
  {
    assert ps[1..] == [Piece("DB", "ID", "5")];
    assert ps[1..][1..] == [];
    var parts := ["DB2", "ID", "1", "DB", "ID", "5"];
    assert PartsOf(ps) == parts;
    JoinSix(parts);
  }

  lemma JoinSix(parts: seq<string>)
    requires parts == ["DB2", "ID", "1", "DB", "ID", "5"]
    ensures Join(".", parts) == "DB2.ID.1.DB.ID.5"
  {
    JoinPieces(parts[0], parts[1], parts[2], parts[3], parts[4], parts[5]);
    assert parts == [parts[0], parts[1], parts[2], parts[3], parts[4], parts[5]];
  }

  /** Six components joined with dots. */
  lemma JoinPieces(a: string, b: string, c: string, d: string, e: string, f: string)
    ensures Join(".", [a, b, c, d, e, f]) == a + "." + b + "." + c + "." + d + "." + e + "." + f
  {
    var s := [a, b, c, d, e, f];
    assert s[5..] == [f];
    JoinCons(".", e, s[5..]);
    assert s[4..] == [e] + s[5..];
    JoinCons(".", d, s[4..]);
    assert s[3..] == [d] + s[4..];
    JoinCons(".", c, s[3..]);
    assert s[2..] == [c] + s[3..];
    JoinCons(".", b, s[2..]);
    assert s[1..] == [b] + s[2..];
    JoinCons(".", a, s[1..]);
    assert s == [a] + s[1..];
  }

  /** The first occurrence of `DB` in that identifier starts `DB2`. */
  lemma MisreadIndex(fed: string)
    requires fed == "http://x/F/User/DB2.ID.1.DB.ID.5"
    ensures IndexOf(fed, "DB") == 16 && fed[16..] == "DB2.ID.1.DB.ID.5"
  {
    assert OccursAt(fed, "DB", 16);
    forall j | 0 <= j < 16
      ensures !OccursAt(fed, "DB", j)
    {
      assert fed[j] != 'D';
      assert fed[j..j + 2][0] == fed[j];
    }
  }

  /** The leftmost match of `(\w+)\.(\w+\.\w+)` in `DB2.ID.1.DB.ID.5` is
      at its start, and its second group is `ID.1`. */
  lemma MisreadKeyPair(rest: string)
    requires rest == "DB2.ID.1.DB.ID.5"
    ensures KeyPairFrom(rest, 0) == Some((4, 8)) && rest[4..8] == "ID.1"
  {
    assert rest[4..8] == "ID.1";
    assert IsWordChar(rest[0]) && IsWordChar(rest[1]) && IsWordChar(rest[2]) && rest[3] == '.';
    assert IsWordChar(rest[4]) && IsWordChar(rest[5]) && rest[6] == '.';
    assert IsWordChar(rest[7]) && rest[8] == '.';
    WordRunEndAt(rest, 0, 3);
    WordRunEndAt(rest, 4, 6);
    WordRunEndAt(rest, 7, 8);
    assert KeyPairAt(rest, 0) == Some((4, 8));
  }


  /** A source database whose name ends another one's, such as `DB` and
      `DB2`: in `http://x/F/User/DB2.ID.1.DB.ID.5` the first occurrence of
      `DB` is inside `DB2`, so the code takes the key `ID.1` of `DB2` for
      `DB`, whose key is `ID.5`. */
  lemma SourceKeyAsWrittenMisreads()
    ensures FederatedId("http://x/F/User", [Piece("DB2", "ID", "1"), Piece("DB", "ID", "5")])
            == "http://x/F/User/DB2.ID.1.DB.ID.5"
    ensures SourceKeyAsWritten("http://x/F/User/DB2.ID.1.DB.ID.5", "DB") == Ok("ID.1")
    ensures SourceKey("http://x/F/User/DB2.ID.1.DB.ID.5", "DB") == Ok("ID.5")
  {
    var ps := [Piece("DB2", "ID", "1"), Piece("DB", "ID", "5")];
    var fed := "http://x/F/User/DB2.ID.1.DB.ID.5";
    MisreadPieces(ps);
    MisreadIntended("http://x/F/User", ps, fed);
    MisreadIndex(fed);
    MisreadKeyPair(fed[16..]);
  }

  /** The intended lookup reads the piece of `DB`. */
  lemma MisreadIntended(stem: string, ps: seq<Piece>, fed: string)
    requires |ps| > 0 && WordPieces(ps) && FirstPieceOf(ps, "DB") == Some(Piece("DB", "ID", "5"))
    requires fed == FederatedId(stem, ps)
    ensures SourceKey(fed, "DB") == Ok("ID.5")
  {
    SourceKeyOfId(stem, ps, "DB");
    assert "ID" + "." + "5" == "ID.5";
  }

  // ---------------------------------------------------------------------
  // The conversion
  // ---------------------------------------------------------------------

  /** The first range of the property, in the order the ontology lists
      them, whose URI contains `text`. */
  function FirstContaining(ranges: seq<string>, text: string): (r: Option<string>)
    ensures r.Some? ==> r.value in ranges && Contains(r.value, text)
    ensures r.None? <==> forall i :: 0 <= i < |ranges| ==> !Contains(ranges[i], text)
  {
    if |ranges| == 0 then None
    else if Contains(ranges[0], text) then Some(ranges[0])
    else FirstContaining(ranges[1..], text)
  }

  /** `ConvertFederatedIndividualUriToSource` around a key lookup: both URIs
      lose their angle brackets; the source property is parsed (a malformed
      one raises `ArgumentException`); the key of its database is looked up
      in the federated identifier; the table is the first range of the
      property (`ranges`, the ontology's `rdfs:range` values) whose URI
      contains the property's prefix and database, and none raises
      `InvalidOperationException`. The result is `table/pk.value`. */
  function ConvertWith(fedUri: string, predicateSource: string, ranges: string -> seq<string>,
                       asWritten: bool): (r: Result<string>)
    ensures ParsePropertyUri(Trim(predicateSource, AngleBrackets)).Err? ==> r == Err(ArgumentError)
    ensures r.Ok? ==> exists table, key :: (r.value == table + "/" + key && table in ranges(Trim(predicateSource, AngleBrackets)))
  {
    var src := Trim(predicateSource, AngleBrackets);
    var info := ParsePropertyUri(src);
    if info.Err? then Err(info.error)
    else
      var fed := Trim(fedUri, AngleBrackets);
      var key := if asWritten then SourceKeyAsWritten(fed, info.value.db) else SourceKey(fed, info.value.db);
      if key.Err? then Err(key.error)
      else SourceRow(FirstContaining(ranges(src), info.value.prefix + info.value.db), key.value)
  }

  /** `tableUri/pk.value`, or `InvalidOperationException` when no range
      named the database. */
  function SourceRow(table: Option<string>, key: string): (r: Result<string>)
    ensures r.Ok? <==> table.Some?
    ensures r.Ok? ==> r.value == table.value + "/" + key
    ensures r.Err? ==> r.error == InvalidOperationError
  {
    if table.None? then Err(InvalidOperationError) else Ok(table.value + "/" + key)
  }

  /** The conversion reads the key `key` gives for the property's
      database: its failure is the conversion's, and otherwise the result
      is the row of that key in the first range naming the database. */
  predicate ConvertsWithKey(fedUri: string, predicateSource: string, ranges: string -> seq<string>,
                            key: string -> Result<string>, r: Result<string>)
  {
    var src := Trim(predicateSource, AngleBrackets);
    var info := ParsePropertyUri(src);
    info.Ok? ==>
      var k := key(info.value.db);
      && (k.Err? ==> r == Err(k.error))
      && (k.Ok? ==> r == SourceRow(FirstContaining(ranges(src), info.value.prefix + info.value.db), k.value))
  }

  /** The method as written, with `Substring(IndexOf(dbName))`: the key
      it reads is the one `SourceKeyAsWritten` finds. The mediator calls
      this one. */
  function ConvertAsWritten(fedUri: string, predicateSource: string, ranges: string -> seq<string>): (r: Result<string>)
    ensures ParsePropertyUri(Trim(predicateSource, AngleBrackets)).Err? ==> r == Err(ArgumentError)
    ensures r.Ok? ==> exists table, key :: (r.value == table + "/" + key && table in ranges(Trim(predicateSource, AngleBrackets)))
    ensures ConvertsWithKey(fedUri, predicateSource, ranges,
                            db => SourceKeyAsWritten(Trim(fedUri, AngleBrackets), db), r)
  {
    ConvertWith(fedUri, predicateSource, ranges, true)
  }

  /** The method as evidently intended: the key it reads is the one
      `SourceKey` finds, that of the database's own piece. */
  function ConvertFederatedIndividualUri(fedUri: string, predicateSource: string, ranges: string -> seq<string>): (r: Result<string>)
    ensures ParsePropertyUri(Trim(predicateSource, AngleBrackets)).Err? ==> r == Err(ArgumentError)
    ensures r.Ok? ==> exists table, key :: (r.value == table + "/" + key && table in ranges(Trim(predicateSource, AngleBrackets)))
    ensures ConvertsWithKey(fedUri, predicateSource, ranges,
                            db => SourceKey(Trim(fedUri, AngleBrackets), db), r)
  {
    ConvertWith(fedUri, predicateSource, ranges, false)
  }

  /** For a federated identifier made of word pieces and a source property
      text that needs no trimming and parses (as the text of every property
      of the usual shape does, by `PropertyRoundTrip`), the conversion gives
      the individual URI of the row of the property's database: the first
      range naming that database, then the key of the database's piece. It
      fails with `InvalidOperationException` when no piece is of that
      database or no range names it. */
  lemma ConvertFindsSourceRow(stem: string, ps: seq<Piece>, fed: string, text: string, src: PropertyUri,
                               ranges: string -> seq<string>)
    requires |ps| > 0 && WordPieces(ps) && '<' !in stem && '>' !in stem && |stem| > 0
    requires fed == FederatedId(stem, ps)
    requires Trim(text, AngleBrackets) == text && ParsePropertyUri(text) == Ok(src)
    ensures var r := ConvertFederatedIndividualUri(fed, text, ranges);
      var piece := FirstPieceOf(ps, src.db);
      var table := FirstContaining(ranges(text), src.prefix + src.db);
      && (piece.None? || table.None? <==> r == Err(InvalidOperationError))
      && (piece.Some? && table.Some? ==> r == Ok(table.value + "/" + (piece.value.key + "." + piece.value.value)))
  {
    KeyOfTrimmedId(stem, ps, src.db);
    ConvertOfKey(fed, text, ranges, src, FirstPieceOf(ps, src.db));
  }

  /** The key lookup of `SourceKeyOfId`, read after the angle brackets are
      trimmed from the identifier. */
  lemma KeyOfTrimmedId(stem: string, ps: seq<Piece>, db: string)
    requires |ps| > 0 && WordPieces(ps)
    requires '<' !in stem && '>' !in stem && |stem| > 0
    ensures var piece := FirstPieceOf(ps, db);
      var key := SourceKey(Trim(FederatedId(stem, ps), AngleBrackets), db);
      && (piece.None? ==> key == Err(InvalidOperationError))
      && (piece.Some? ==> key == Ok(piece.value.key + "." + piece.value.value))
  {
    var fed := FederatedId(stem, ps);
    var piece := FirstPieceOf(ps, db);
    var key := SourceKey(fed, db);
    assert SourceKey(Trim(fed, AngleBrackets), db) == key by {
      FederatedIdTrimmed(stem, ps);
    }
    assert (piece.None? ==> key == Err(InvalidOperationError))
        && (piece.Some? ==> key == Ok(piece.value.key + "." + piece.value.value)) by {
      SourceKeyOfId(stem, ps, db);
    }
  }

  /** The conversion of a property that needs no trimming, once the
      property has parsed and the key lookup in the trimmed identifier has
      found the piece `piece` or nothing. */
  lemma ConvertOfKey(fed: string, text: string, ranges: string -> seq<string>, src: PropertyUri, piece: Option<Piece>)
    requires Trim(text, AngleBrackets) == text && ParsePropertyUri(text) == Ok(src)
    requires piece.None? ==> SourceKey(Trim(fed, AngleBrackets), src.db) == Err(InvalidOperationError)
    requires piece.Some? ==> SourceKey(Trim(fed, AngleBrackets), src.db) == Ok(piece.value.key + "." + piece.value.value)
    ensures var r := ConvertFederatedIndividualUri(fed, text, ranges);
      var table := FirstContaining(ranges(text), src.prefix + src.db);
      && (piece.None? || table.None? <==> r == Err(InvalidOperationError))
      && (piece.Some? && table.Some? ==> r == Ok(table.value + "/" + (piece.value.key + "." + piece.value.value)))
  {
  }

  /** A federated identifier with a bracket-free stem has no angle bracket
      to trim: its last character is a word character. */
  lemma FederatedIdTrimmed(stem: string, ps: seq<Piece>)
    requires |ps| > 0 && WordPieces(ps)
    requires '<' !in stem && '>' !in stem && |stem| > 0
    ensures Trim(FederatedId(stem, ps), AngleBrackets) == FederatedId(stem, ps)
  {
    var fed := FederatedId(stem, ps);
    var parts := PartsOf(ps);
    PartsAreWords(ps);
    JoinEndsInWord(parts);
    assert fed[0] == stem[0];
    assert fed[|fed| - 1] == Join(".", parts)[|Join(".", parts)| - 1];
    TrimUnchanged(fed, AngleBrackets);
  }

  /** A join of words ends in a word character. */
  lemma {:induction false} JoinEndsInWord(parts: seq<string>)
    requires |parts| > 0 && forall i :: 0 <= i < |parts| ==> IsWord(parts[i])
    ensures |Join(".", parts)| > 0 && IsWordChar(Join(".", parts)[|Join(".", parts)| - 1])
    decreases |parts|
  {
    if |parts| == 1 {
      assert IsWordChar(parts[0][|parts[0]| - 1]);
    } else {
      JoinEndsInWord(parts[1..]);
    }
  }

  // ---------------------------------------------------------------------
  // Result rows of a source, in federated terms
  // ---------------------------------------------------------------------

  /** `db.pk.value` for an individual of a source. */
  function PieceText(u: IndividualUri): string
  {
    u.db + "." + u.column + "." + u.value
  }

  /** The federated stem of a predicate: its URI up to the first `#`. */
  function FederatedStem(pred: string): string
  {
    Split(Trim(pred, AngleBrackets), {'#'})[0]
  }

  /** The superclasses of a class that have no superclass themselves
      (`RemoveWhere` over the result of `GetSuperOntologyClassesURI`). */
  function SupremeClasses(superClasses: string -> seq<string>, cls: string): (r: seq<string>)
    ensures forall c :: c in r ==> c in superClasses(cls) && |superClasses(c)| == 0
  {
    Filter(superClasses(cls), superClasses)
  }

  function Filter(cs: seq<string>, superClasses: string -> seq<string>): (r: seq<string>)
    ensures forall c :: c in r ==> c in cs && |superClasses(c)| == 0
  {
    if |cs| == 0 then []
    else (if |superClasses(cs[0])| == 0 then [cs[0]] else []) + Filter(cs[1..], superClasses)
  }

  /** One result row `(subject, object)` of a source query issued for the
      federated pattern `tp` with predicate bound, in federated terms: the
      subject becomes `stem/db.pk.value`, the predicate is the federated
      one, and the object is the pattern's own object when it is bound
      (quotes or angle brackets trimmed), the row's object when that is a
      literal, and otherwise the federated identifier of the object
      individual under its supreme class (or the stem when it has none).
      An individual URI that does not parse raises `ArgumentException`. */
  function FederatedRowTriple(tp: TriplePattern, row: (string, string), wellFormed: string -> bool,
                              superClasses: string -> seq<string>): (r: Result<Triple>)
    ensures ParseIndividualUri(row.0).Err? ==> r == Err(ArgumentError)
    ensures r.Ok? ==> && r.value.subj == FederatedStem(tp.pred.Text()) + "/" + PieceText(ParseIndividualUri(row.0).value)
                      && r.value.pred == Trim(tp.pred.Text(), AngleBrackets)
    ensures r.Ok? && tp.obj.Bound? && IsLiteralValue(tp.obj.Text(), wellFormed) ==> r.value.obj == Trim(tp.obj.Text(), {'"'})
    ensures r.Ok? && tp.obj.Bound? && !IsLiteralValue(tp.obj.Text(), wellFormed) ==> r.value.obj == Trim(tp.obj.Text(), AngleBrackets)
    ensures r.Ok? && tp.obj.Variable? && IsLiteralValue(row.1, wellFormed) ==> r.value.obj == row.1
  {
    var info :- ParseIndividualUri(row.0);
    var stem := FederatedStem(tp.pred.Text());
    var subj := stem + "/" + PieceText(info);
    var pred := Trim(tp.pred.Text(), AngleBrackets);
    var obj :- if tp.obj.Bound? then
                 Ok(if IsLiteralValue(tp.obj.Text(), wellFormed) then Trim(tp.obj.Text(), {'"'})
                    else Trim(tp.obj.Text(), AngleBrackets))
               else if IsLiteralValue(row.1, wellFormed) then Ok(row.1)
               else
                 var target :- ParseIndividualUri(row.1);
                 var classes := SupremeClasses(superClasses, target.prefix + target.db + "/" + target.table);
                 Ok((if |classes| > 0 then classes[0] else stem) + "/" + PieceText(target));
    Ok(Triple(subj, pred, obj))
  }

  /** A row of a source whose subject is a source individual URI of the
      usual shape becomes a triple about `stem/db.pk.value` of that very
      row. */
  lemma FederatedSubjectOfRow(tp: TriplePattern, u: IndividualUri, obj: string, wellFormed: string -> bool,
                              superClasses: string -> seq<string>)
    requires IndividualShape(u) && '/' !in u.value && u.value[|u.value| - 1] !in AngleBrackets
    ensures var r := FederatedRowTriple(tp, (IndividualUriText(u), obj), wellFormed, superClasses);
      r.Ok? ==> r.value.subj == FederatedStem(tp.pred.Text()) + "/" + PieceText(u)
    ensures tp.obj.Bound? ==> FederatedRowTriple(tp, (IndividualUriText(u), obj), wellFormed, superClasses).Ok?
  {
    IndividualRoundTrip(u);
  }
}

=== FILE: groups.dfy ===
/** The `Dictionary<string, List<string>>` the fusion code fills by walking a
    list once and appending each value under its key: keys enumerate in the
    order they were first added, and each key's list keeps its values in
    the order they came. With `distinct`, a value already in its key's list
    is not added again (`if (!list.Contains(v)) list.Add(v)`). */
module Groups {

  /** Keys with their lists, in insertion order. */
  type Groups = seq<(string, seq<string>)>

  /** The elements of `s` without repetitions, each where it first occurs. */
  function Dedup(s: seq<string>): (r: seq<string>)
    ensures forall x :: x in r <==> x in s
    ensures forall i, j :: 0 <= i < j < |r| ==> r[i] != r[j]
    ensures |r| <= |s|
  {
    if |s| == 0 then []
    else
      var d := Dedup(s[..|s| - 1]);
      assert forall x :: x in s <==> x in s[..|s| - 1] || x == s[|s| - 1];
      if s[|s| - 1] in d then d else d + [s[|s| - 1]]
  }

  /** The first two elements of a deduplicated list are two different
      elements of the list. */
  lemma DedupFirstTwo(s: seq<string>)
    ensures |Dedup(s)| < 2 || (Dedup(s)[0] != Dedup(s)[1] && Dedup(s)[0] in s && Dedup(s)[1] in s)
  {
    var d := Dedup(s);
    assert |d| < 2 || (d[0] in d && d[1] in d);
  }

  /** A list whose elements are all one value deduplicates to at most one. */
  lemma DedupAllSame(s: seq<string>)
    requires forall x, y :: x in s && y in s ==> x == y
    ensures |Dedup(s)| < 2
  {
    DedupFirstTwo(s);
  }

  /** The keys of keyed pairs, in order: of the pairs a pass files, or of
      a dictionary in enumeration order. */
  function Keys<V>(pairs: seq<(string, V)>): (r: seq<string>)
    ensures |r| == |pairs|
    ensures forall i :: 0 <= i < |pairs| ==> r[i] == pairs[i].0
  {
    if |pairs| == 0 then [] else Keys(pairs[..|pairs| - 1]) + [pairs[|pairs| - 1].0]
  }

  /** The values paired with `k`, in order. */
  function ValuesOf(pairs: seq<(string, string)>, k: string): (r: seq<string>)
    ensures |r| <= |pairs|
  {
    if |pairs| == 0 then []
    else
      var last := pairs[|pairs| - 1];
      ValuesOf(pairs[..|pairs| - 1], k) + (if last.0 == k then [last.1] else [])
  }

  /** The entry of key `k`, or -1 (`ContainsKey`). */
  function Find(g: Groups, k: string): (r: int)
    ensures -1 <= r < |g|
    ensures r >= 0 ==> g[r].0 == k
    ensures r == -1 <==> forall i :: 0 <= i < |g| ==> g[i].0 != k
  {
    if |g| == 0 then -1
    else if g[|g| - 1].0 == k then |g| - 1
    else Find(g[..|g| - 1], k)
  }

  /** One step of the filling loop: append `v` under `k`, opening a new
      entry at the end for a new key. */
  function Add(g: Groups, k: string, v: string, distinct: bool): (r: Groups)
  {
    var i := Find(g, k);
    if i == -1 then g + [(k, [v])]
    else if distinct && v in g[i].1 then g
    else g[i := (k, g[i].1 + [v])]
  }

  /** The dictionary after the loop over `pairs`. */
  function Group(pairs: seq<(string, string)>, distinct: bool): Groups
  {
    if |pairs| == 0 then []
    else
      var last := pairs[|pairs| - 1];
      Add(Group(pairs[..|pairs| - 1], distinct), last.0, last.1, distinct)
  }

  /** The values the loop files under `k`. */
  function Expected(pairs: seq<(string, string)>, distinct: bool, k: string): seq<string>
  {
    if distinct then Dedup(ValuesOf(pairs, k)) else ValuesOf(pairs, k)
  }

  /** What the loop builds: one entry per key, in order of first
      occurrence, holding the key's values in order (without repetitions
      when `distinct`). */
  lemma GroupSpec(pairs: seq<(string, string)>, distinct: bool)
    ensures var g := Group(pairs, distinct);
      && Keys(g) == Dedup(Keys(pairs))
      && forall i :: 0 <= i < |g| ==> g[i].1 == Expected(pairs, distinct, g[i].0)
  {
    GroupKeys(pairs, distinct);
    var g := Group(pairs, distinct);
    forall i | 0 <= i < |g|
      ensures g[i].1 == Expected(pairs, distinct, g[i].0)
    {
      GroupValues(pairs, distinct, i);
    }
  }

  /** The keys of the dictionary are the keys of the pairs, each once, in
      order of first occurrence. */
  lemma {:induction false} GroupKeys(pairs: seq<(string, string)>, distinct: bool)
    ensures Keys(Group(pairs, distinct)) == Dedup(Keys(pairs))
    decreases |pairs|
  {
    if |pairs| > 0 {
      var front := pairs[..|pairs| - 1];
      var last := pairs[|pairs| - 1];
      GroupKeys(front, distinct);
      var g0 := Group(front, distinct);
      KeysAdd(g0, last.0, last.1, distinct);
      assert Keys(pairs) == Keys(front) + [last.0];
      DedupSnoc(Keys(front), last.0);
      assert Find(g0, last.0) == -1 <==> last.0 !in Keys(g0) by {
        if Find(g0, last.0) != -1 {
          assert Keys(g0)[Find(g0, last.0)] == last.0;
        }
      }
    }
  }

  /** The list of entry `i` holds the values of its key. */
  lemma {:induction false} GroupValues(pairs: seq<(string, string)>, distinct: bool, i: nat)
    requires i < |Group(pairs, distinct)|
    ensures Group(pairs, distinct)[i].1 == Expected(pairs, distinct, Group(pairs, distinct)[i].0)
    decreases |pairs|
  {
    var front := pairs[..|pairs| - 1];
    var last := pairs[|pairs| - 1];
    assert pairs == front + [last];
    var g0 := Group(front, distinct);
    var g := Group(pairs, distinct);
    var at := Find(g0, last.0);
    var k := g[i].0;
    ValuesSnoc(front, last, k);
    if i < |g0| && g0[i].0 != last.0 {
      assert g == Add(g0, last.0, last.1, distinct);
      assert g[i] == g0[i];
      GroupValues(front, distinct, i);
      assert k == g0[i].0;
    } else if at == -1 {
      assert i == |g0|;
      assert last.0 !in Keys(front) by {
        GroupKeys(front, distinct);
        assert last.0 !in Keys(g0);
      }
      NoValues(front, last.0);
      assert Dedup([last.1]) == [last.1] by {
        assert [last.1][..0] == [];
      }
    } else {
      assert i == at by {
        GroupKeys(front, distinct);
        if i != at {
          KeysDistinct(g0, Keys(front), i, at);
        }
      }
      GroupValues(front, distinct, at);
      DedupSnoc(ValuesOf(front, last.0), last.1);
    }
  }

  lemma KeysAdd(g: Groups, k: string, v: string, distinct: bool)
    ensures Keys(Add(g, k, v, distinct)) == if Find(g, k) == -1 then Keys(g) + [k] else Keys(g)
  {
    if Find(g, k) == -1 {
      assert (g + [(k, [v])])[..|g|] == g;
    }
  }

  lemma DedupSnoc(s: seq<string>, x: string)
    ensures Dedup(s + [x]) == if x in Dedup(s) then Dedup(s) else Dedup(s) + [x]
  {
    assert (s + [x])[..|s|] == s;
  }

  lemma ValuesSnoc(front: seq<(string, string)>, last: (string, string), k: string)
    ensures last.0 == k ==> ValuesOf(front + [last], k) == ValuesOf(front, k) + [last.1]
    ensures last.0 != k ==> ValuesOf(front + [last], k) == ValuesOf(front, k)
  {
    assert (front + [last])[..|front|] == front;
  }

  /** A key that no pair carries has no values. */
  lemma {:induction false} NoValues(pairs: seq<(string, string)>, k: string)
    requires k !in Keys(pairs)
    ensures ValuesOf(pairs, k) == []
    decreases |pairs|
  {
    if |pairs| > 0 {
      assert Keys(pairs)[..|pairs| - 1] == Keys(pairs[..|pairs| - 1]);
      assert pairs[|pairs| - 1].0 == Keys(pairs)[|pairs| - 1];
      NoValues(pairs[..|pairs| - 1], k);
    }
  }

  /** Distinct entries of the built dictionary hold distinct keys. */
  lemma KeysDistinct(g: Groups, ks: seq<string>, i: nat, j: nat)
    requires Keys(g) == Dedup(ks)
    requires i < |g| && j < |g| && i != j
    ensures g[i].0 != g[j].0
  {
    assert Keys(g)[i] == g[i].0 && Keys(g)[j] == g[j].0;
  }
}

=== FILE: ifp_fusion.dfy ===
/** The fusion pass (`MatchRecordsIFPAndStore`): records of different
    databases that carry the same value of an inverse functional property
    describe one individual, so their subjects are replaced by one federated
    URI built from the pieces of each record's URI. */
module IfpFusion {
  import opened Wrappers
  import opened Strings
  import opened Rdf
  import opened Sources
  import opened Groups
  import opened UriCodec
  import Federated

  // ---------------------------------------------------------------------
  // The subject pattern ((.+)/(.+)/(.+))/(.+)$
  // ---------------------------------------------------------------------

  /** Where `$` lets a match end: before a final newline, else at the end.
      A match cannot run past it, because `.` does not match a newline. */
  function LineEnd(s: string): (e: nat)
    ensures e <= |s|
  {
    if |s| > 0 && s[|s| - 1] == '\n' then |s| - 1 else |s|
  }

  /** The start of the last line before `LineEnd(s)`. */
  function LineStart(s: string): (i: nat)
    ensures i <= LineEnd(s)
    ensures forall x :: i <= x < LineEnd(s) ==> s[x] != '\n'
    ensures i > 0 ==> s[i - 1] == '\n'
  {
    var e := LineEnd(s);
    var n := LastIndexOf(s[..e], '\n');
    assert forall x :: n < x < e ==> s[..e][x] == s[x];
    n + 1
  }

  /** The pattern matches `s` from `i` with its three separating slashes at
      `p`, `m` and `l`: every group is at least one character long, the
      match holds no newline, and it ends where `$` allows. */
  predicate SubjectMatchAt(s: string, i: nat, p: nat, m: nat, l: nat)
  {
    var e := LineEnd(s);
    && i < p && p + 1 < m && m + 1 < l && l + 1 < e
    && s[p] == '/' && s[m] == '/' && s[l] == '/'
    && forall x :: i <= x < e ==> s[x] != '\n'
  }

  /** The slashes the match settles on: the last `/` that leaves group 5 a
      character, the last before it that leaves group 4 one, and the last
      before that that leaves groups 3 and 2 one each, all on the last
      line. */
  function Slashes(s: string): (r: Option<(nat, nat, nat)>)
    ensures r.Some? ==> LineStart(s) < r.value.0 && r.value.0 + 1 < r.value.1
                        && r.value.1 + 1 < r.value.2 && r.value.2 + 1 < LineEnd(s)
  {
    var i := LineStart(s);
    var e := LineEnd(s);
    if e < 1 then None
    else
      var l := LastIndexOf(s[..e - 1], '/');
      if l <= i then None
      else
        var m := LastIndexOf(s[..l - 1], '/');
        if m <= i then None
        else
          var p := LastIndexOf(s[..m - 1], '/');
          if p <= i then None else Some((p, m, l))
  }

  /** The slashes found are a match from the start of the last line. */
  lemma SlashesMatch(s: string)
    requires Slashes(s).Some?
    ensures var r := Slashes(s).value; SubjectMatchAt(s, LineStart(s), r.0, r.1, r.2)
  {
    var e := LineEnd(s);
    var r := Slashes(s).value;
    assert s[..e - 1][r.2] == s[r.2];
    assert s[..r.2 - 1][r.1] == s[r.1];
    assert s[..r.1 - 1][r.0] == s[r.0];
  }

  /** Every match starts on the last line and uses slashes no later than the
      ones found. The engine tries starts left to right and, at a start,
      group 2's length longest first, then group 3's, then group 4's, so
      it settles on the first start with a match and on the greatest slash
      positions in that order; as the matches from one start are closed
      under taking the later of two positions slash by slash, that is the
      greatest position of each slash, which is what `Slashes` finds. */
  lemma SlashesGreatest(s: string, i: nat, p: nat, m: nat, l: nat)
    requires SubjectMatchAt(s, i, p, m, l)
    ensures Slashes(s).Some?
    ensures LineStart(s) <= i
    ensures var r := Slashes(s).value; p <= r.0 && m <= r.1 && l <= r.2
  {
    var i0 := LineStart(s);
    var e := LineEnd(s);
    var l0 := LastIndexOf(s[..e - 1], '/');
    assert s[..e - 1][l] == '/';
    assert l <= l0;
    var m0 := LastIndexOf(s[..l0 - 1], '/');
    assert s[..l0 - 1][m] == '/';
    assert m <= m0;
    var p0 := LastIndexOf(s[..m0 - 1], '/');
    assert s[..m0 - 1][p] == '/';
    assert p <= p0;
  }

  /** The groups of the subject pattern the pass reads: group 1 (the class
      URI), group 3 (the database) and group 5 (the key column and value). */
  datatype SubjectGroups = SubjectGroups(classUri: string, db: string, row: string)

  /** `r.Match(subject)`: the groups of the match, or empty groups when the
      pattern does not match (`Group.Value` of a failed match is ""). */
  function MatchSubject(s: string): (g: SubjectGroups)
    ensures Slashes(s).None? ==> g == SubjectGroups("", "", "")
  {
    var r := Slashes(s);
    if r.None? then SubjectGroups("", "", "")
    else
      var p := r.value.0;
      var m := r.value.1;
      var l := r.value.2;
      SubjectGroups(s[LineStart(s)..l], s[p + 1..m], s[l + 1..LineEnd(s)])
  }

  /** The text of an individual URI whose value holds no `/` is read at its
      last three slashes: group 1 runs up to the table, group 3 is the
      database and group 5 the key column, a dot and the value. */
  lemma MatchIndividualSubject(u: IndividualUri)
    requires IndividualShape(u) && '/' !in u.value
    ensures MatchSubject(IndividualUriText(u))
         == SubjectGroups(u.prefix + u.db + "/" + u.table, u.db, u.column + "." + u.value)
  {
    var s := IndividualUriText(u);
    var n := |u.prefix|;
    var d := n + |u.db|;
    var t := d + 1 + |u.table|;
    SlashesOfIndividual(u);
    IndividualTextSlices(u);
    assert MatchSubject(s) == SubjectGroups(s[0..t], s[n..d], s[t + 1..|s|]);
  }

  /** The slashes found in the text of an individual URI whose value holds
      no `/`. */
  lemma SlashesOfIndividual(u: IndividualUri)
    requires IndividualShape(u) && '/' !in u.value
    ensures var s := IndividualUriText(u);
      var d := |u.prefix| + |u.db|;
      && LineStart(s) == 0 && LineEnd(s) == |s|
      && Slashes(s) == Some((|u.prefix| - 1, d, d + 1 + |u.table|))
  {
    var s := IndividualUriText(u);
    var n := |u.prefix|;
    var d := n + |u.db|;
    var t := d + 1 + |u.table|;
    IndividualSlashes(u);
    NoNewline(u);
    assert LineStart(s) == 0;
    SlashesGreatest(s, 0, n - 1, d, t);
    SlashesMatch(s);
  }

  /** The parts of the text of an individual URI, by position. */
  lemma IndividualTextSlices(u: IndividualUri)
    ensures var s := IndividualUriText(u);
      var n := |u.prefix|;
      var d := n + |u.db|;
      var t := d + 1 + |u.table|;
      && t < |s|
      && s[0..t] == u.prefix + u.db + "/" + u.table
      && s[n..d] == u.db
      && s[t + 1..|s|] == u.column + "." + u.value
  {
    var s := IndividualUriText(u);
    var front := u.prefix + u.db + "/" + u.table;
    var back := "/" + u.column + "." + u.value;
    assert s == front + back;
    assert front == u.prefix + u.db + ("/" + u.table);
    assert s[|front| + 1..|s|] == back[1..];
  }

  /** Where the slashes of the text of an individual URI are: the last
      character of the prefix and the separators after the database and the
      table, and none after the prefix's last. */
  lemma IndividualSlashes(u: IndividualUri)
    requires IndividualShape(u) && '/' !in u.value
    ensures var s := IndividualUriText(u);
      var n := |u.prefix|;
      var d := n + |u.db|;
      var t := d + 1 + |u.table|;
      && LineEnd(s) == |s| && t + 1 < |s|
      && s[n - 1] == '/' && s[d] == '/' && s[t] == '/'
      && (forall x :: n - 1 < x < |s| && x != d && x != t ==> s[x] != '/')
  {
    var s := IndividualUriText(u);
    var n := |u.prefix|;
    var d := n + |u.db|;
    var t := d + 1 + |u.table|;
    var c := t + 1 + |u.column|;
    IndividualLayout(u);
    assert s[|s| - 1] == u.value[|u.value| - 1];
    assert IsDotChar(u.value[|u.value| - 1]);
    assert s[n - 1] == u.prefix[n - 1];
    SlashesOnlyAtSeparators(u);
  }

  /** After the prefix, only the separators after the database and the
      table are slashes. */
  lemma SlashesOnlyAtSeparators(u: IndividualUri)
    requires IndividualShape(u) && '/' !in u.value
    ensures var s := IndividualUriText(u);
      var d := |u.prefix| + |u.db|;
      var t := d + 1 + |u.table|;
      forall x :: |u.prefix| - 1 < x < |s| && x != d && x != t ==> s[x] != '/'
  {
    var s := IndividualUriText(u);
    var n := |u.prefix|;
    var d := n + |u.db|;
    var t := d + 1 + |u.table|;
    var c := t + 1 + |u.column|;
    IndividualLayout(u);
    forall x | n - 1 < x < |s| && x != d && x != t
      ensures s[x] != '/'
    {
      if c < x {
        assert s[x] == s[c + 1..][x - c - 1];
      } else if x != c {
        assert IsWordChar(s[x]);
      }
    }
  }

  /** The text of an individual URI of the individual shape has no newline. */
  lemma NoNewline(u: IndividualUri)
    requires IndividualShape(u)
    ensures forall x :: 0 <= x < |IndividualUriText(u)| ==> IndividualUriText(u)[x] != '\n'
  {
    var s := IndividualUriText(u);
    IndividualLayout(u);
    var n := |u.prefix|;
    var c := n + |u.db| + 1 + |u.table| + 1 + |u.column|;
    forall x | 0 <= x < |s|
      ensures s[x] != '\n'
    {
      if x < n {
        assert s[x] == u.prefix[x];
        assert IsDotChar(u.prefix[x]);
      } else if c < x {
        assert s[x] == s[c + 1..][x - c - 1];
        assert IsDotChar(u.value[x - c - 1]);
      } else if x != n + |u.db| && x != n + |u.db| + 1 + |u.table| && x != c {
        assert IsWordChar(s[x]);
      }
    }
  }

  // ---------------------------------------------------------------------
  // The federated URI of one entry
  // ---------------------------------------------------------------------

  /** `match.Groups[3] + "." + match.Groups[5].Value`. */
  function PieceOf(subject: string): string
  {
    var g := MatchSubject(subject);
    g.db + "." + g.row
  }

  /** The pieces of the subjects, in order. */
  function Pieces(subjects: seq<string>): (r: seq<string>)
    ensures |r| == |subjects|
    ensures forall i :: 0 <= i < |subjects| ==> r[i] == PieceOf(subjects[i])
  {
    if |subjects| == 0 then [] else [PieceOf(subjects[0])] + Pieces(subjects[1..])
  }

  /** What the loop appends: every piece followed by a dot. */
  function DottedPieces(subjects: seq<string>): string
  {
    if |subjects| == 0 then "" else PieceOf(subjects[0]) + "." + DottedPieces(subjects[1..])
  }

  /** `federated_uri` after the loop and `Remove(Length - 1, 1)`. */
  function FusedUri(stem: string, subjects: seq<string>): string
  {
    var text := stem + "/" + DottedPieces(subjects);
    text[..|text| - 1]
  }

  /** Dropping the last character drops the dot after the last piece: the
      URI is the stem, a slash and the pieces joined by dots. */
  lemma FusedUriJoin(stem: string, subjects: seq<string>)
    requires |subjects| > 0
    ensures FusedUri(stem, subjects) == stem + "/" + Join(".", Pieces(subjects))
  {
    DottedJoin(subjects);
    DropDot(stem + "/", Join(".", Pieces(subjects)), DottedPieces(subjects));
  }

  lemma DropDot(head: string, joined: string, dotted: string)
    requires dotted == joined + "."
    ensures (head + dotted)[..|head + dotted| - 1] == head + joined
  {
    assert head + dotted == (head + joined) + ".";
  }

  lemma {:induction false} DottedJoin(subjects: seq<string>)
    requires |subjects| > 0
    ensures DottedPieces(subjects) == Join(".", Pieces(subjects)) + "."
    decreases |subjects|
  {
    var rest := subjects[1..];
    if |rest| > 0 {
      DottedJoin(rest);
      assert Pieces(subjects) == [PieceOf(subjects[0])] + Pieces(rest);
      assert Pieces(subjects)[1..] == Pieces(rest);
    }
  }

  /** The records the pass fuses are the individuals the SQL loaders name:
      their federated URI is the federated identifier of their pieces,
      database, key column and value. */
  lemma FusedIndividuals(stem: string, us: seq<IndividualUri>)
    requires |us| > 0
    requires forall i :: 0 <= i < |us| ==> IndividualShape(us[i]) && '/' !in us[i].value
    ensures FusedUri(stem, IndividualTexts(us)) == Federated.FederatedId(stem, IndividualPieces(us))
  {
    FusedUriJoin(stem, IndividualTexts(us));
    PiecesOfIndividuals(us);
  }

  /** The texts of individual URIs. */
  function IndividualTexts(us: seq<IndividualUri>): (r: seq<string>)
    ensures |r| == |us|
    ensures forall i :: 0 <= i < |us| ==> r[i] == IndividualUriText(us[i])
  {
    if |us| == 0 then [] else [IndividualUriText(us[0])] + IndividualTexts(us[1..])
  }

  /** The pieces a federated identifier lists for individual URIs. */
  function IndividualPieces(us: seq<IndividualUri>): (r: seq<Federated.Piece>)
    ensures |r| == |us|
    ensures forall i :: 0 <= i < |us| ==> r[i] == Federated.Piece(us[i].db, us[i].column, us[i].value)
  {
    if |us| == 0 then [] else [Federated.Piece(us[0].db, us[0].column, us[0].value)] + IndividualPieces(us[1..])
  }

  lemma {:induction false} PiecesOfIndividuals(us: seq<IndividualUri>)
    requires |us| > 0
    requires forall i :: 0 <= i < |us| ==> IndividualShape(us[i]) && '/' !in us[i].value
    ensures Join(".", Pieces(IndividualTexts(us))) == Join(".", Federated.PartsOf(IndividualPieces(us)))
    decreases |us|
  {
    var u := us[0];
    var rest := us[1..];
    var ps := Pieces(IndividualTexts(us));
    var parts := Federated.PartsOf(IndividualPieces(us));
    PieceOfIndividual(u);
    assert IndividualPieces(us)[1..] == IndividualPieces(rest);
    assert parts == [u.db, u.column, u.value] + Federated.PartsOf(IndividualPieces(rest));
    if |rest| == 0 {
      JoinThree(u.db, u.column, u.value, []);
      assert ps == [ps[0]];
    } else {
      var tail := Federated.PartsOf(IndividualPieces(rest));
      assert ps[1..] == Pieces(IndividualTexts(rest)) by {
        assert IndividualTexts(us)[1..] == IndividualTexts(rest);
      }
      PiecesOfIndividuals(rest);
      JoinCons(".", ps[0], ps[1..]);
      assert [ps[0]] + ps[1..] == ps;
      JoinThree(u.db, u.column, u.value, tail);
      Regroup(u.db, u.column, u.value, Join(".", tail));
    }
  }

  /** The piece of an individual URI of the individual shape. */
  lemma PieceOfIndividual(u: IndividualUri)
    requires IndividualShape(u) && '/' !in u.value
    ensures PieceOf(IndividualUriText(u)) == u.db + "." + (u.column + "." + u.value)
  {
    MatchIndividualSubject(u);
  }

  /** Joining the three parts of a piece and the rest. */
  lemma JoinThree(a: string, b: string, c: string, tail: seq<string>)
    ensures |tail| == 0 ==> Join(".", [a, b, c] + tail) == a + "." + (b + "." + c)
    ensures |tail| > 0 ==> Join(".", [a, b, c] + tail) == a + "." + (b + "." + (c + "." + Join(".", tail)))
  {
    var all := [a, b, c] + tail;
    var bc := [b] + ([c] + tail);
    assert Join(".", all) == a + "." + Join(".", bc) by {
      assert all[1..] == bc;
    }
    assert Join(".", bc) == b + "." + Join(".", [c] + tail) by {
      assert bc[1..] == [c] + tail;
    }
    if |tail| > 0 {
      assert Join(".", [c] + tail) == c + "." + Join(".", tail) by {
        assert ([c] + tail)[1..] == tail;
      }
    }
  }

  /** Moving the dot between a piece and the rest inside the piece. */
  lemma Regroup(a: string, b: string, c: string, d: string)
    ensures a + "." + (b + "." + c) + "." + d == a + "." + (b + "." + (c + "." + d))
  {
    var p, q := a + ".", b + ".";
    calc {
      a + "." + (b + "." + c) + "." + d;
      ((p + (q + c)) + ".") + d;
      { Assoc(p, q + c, "."); }
      (p + ((q + c) + ".")) + d;
      { Assoc(p, (q + c) + ".", d); }
      p + (((q + c) + ".") + d);
      { Assoc(q, c, "."); }
      p + ((q + (c + ".")) + d);
      { Assoc(q, c + ".", d); }
      p + (q + ((c + ".") + d));
    }
  }

  lemma Assoc(x: string, y: string, z: string)
    ensures (x + y) + z == x + (y + z)
  {
  }

  // ---------------------------------------------------------------------
  // The unified identifiers
  // ---------------------------------------------------------------------

  /** `superClassHSet.IntersectWith(nextSuper)`: the classes of `sup` also
      in `next`, in the order of `sup`. */
  function Intersect(sup: seq<string>, next: seq<string>): (r: seq<string>)
    ensures forall c :: c in r <==> c in sup && c in next
  {
    if |sup| == 0 then []
    else (if sup[0] in next then [sup[0]] else []) + Intersect(sup[1..], next)
  }

  /** `list.RemoveAt(i)`. */
  function RemoveAt(xs: seq<string>, i: nat): (r: seq<string>)
    requires i < |xs|
    ensures |r| == |xs| - 1
    ensures r[..i] == xs[..i] && r[i..] == xs[i + 1..]
    ensures forall x :: x in r ==> x in xs
  {
    xs[..i] + xs[i + 1..]
  }

  /** The loop over the subjects of an entry after the first, as written: a
      subject whose class has superclasses narrows the common superclasses;
      one whose class has none is removed at `i`, and the loop still moves
      on to `i + 1`, so the subject that slid into place `i` is not looked
      at. */
  function Prune(subjects: seq<string>, i: nat, sup: seq<string>, superClasses: string -> seq<string>)
    : (r: (seq<string>, seq<string>))
    requires 0 < i
    ensures |r.0| <= |subjects|
    ensures i <= |subjects| ==> i <= |r.0| && r.0[..i] == subjects[..i]
    ensures |subjects| < i ==> r.0 == subjects
    ensures forall x :: x in r.0 ==> x in subjects
    ensures forall c :: c in r.1 ==> c in sup
    decreases |subjects| + 1 - i
  {
    if i >= |subjects| then (subjects, sup)
    else
      var next := superClasses(MatchSubject(subjects[i]).classUri);
      if |next| > 0 then
        var r := Prune(subjects, i + 1, Intersect(sup, next), superClasses);
        PrefixShrink(r.0, subjects, i);
        r
      else
        var rest := RemoveAt(subjects, i);
        var r := Prune(rest, i + 1, sup, superClasses);
        if i < |rest| then PrefixShrink(r.0, rest, i); r else r
  }

  /** Agreeing on the first `i + 1` items, two lists agree on the first `i`. */
  lemma PrefixShrink(a: seq<string>, b: seq<string>, i: nat)
    requires i + 1 <= |a| && i + 1 <= |b| && a[..i + 1] == b[..i + 1]
    ensures a[..i] == b[..i]
  {
    assert a[..i] == a[..i + 1][..i];
  }

  /** `FirstOrDefault` and the check after it: the stem is the first common
      superclass; none, or an empty one, throws. */
  function Stem(sup: seq<string>): (r: Result<string>)
    ensures r.Ok? <==> |sup| > 0 && sup[0] != ""
    ensures r.Ok? ==> r.value == sup[0]
    ensures r.Err? ==> r.error == GeneralError
  {
    if |sup| == 0 || sup[0] == "" then Err(GeneralError) else Ok(sup[0])
  }

  /** One entry of at least two subjects: the subjects left after pruning
      and their federated URI. */
  function UnifyEntry(subjects: seq<string>, superClasses: string -> seq<string>): (r: Result<(seq<string>, string)>)
    requires |subjects| > 0
  {
    var sup0 := superClasses(MatchSubject(subjects[0]).classUri);
    var pruned := Prune(subjects, 1, sup0, superClasses);
    var stem :- Stem(pruned.1);
    Ok((pruned.0, FusedUri(stem, pruned.0)))
  }

  /** `unifiedIDs.Add(subj, federated_uri)` for each kept subject not yet
      mapped: the first group to map a subject wins. */
  function Bind(m: map<string, string>, subjects: seq<string>, uri: string): (r: map<string, string>)
    ensures forall x :: x in r <==> x in m || x in subjects
    ensures forall x :: x in m ==> r[x] == m[x]
    ensures forall x :: x in subjects && x !in m ==> r[x] == uri
    decreases |subjects|
  {
    if |subjects| == 0 then m
    else
      var m' := if subjects[0] in m then m else m[subjects[0] := uri];
      assert forall x :: x in subjects <==> x == subjects[0] || x in subjects[1..];
      Bind(m', subjects[1..], uri)
  }

  /** The loop over the grouped entries: entries of fewer than two subjects
      are skipped, each other entry binds its kept subjects to its federated
      URI; a failed stem ends the pass. */
  function UnifyAll(gs: Groups, superClasses: string -> seq<string>, m: map<string, string>)
    : (r: Result<map<string, string>>)
    ensures r.Err? ==> r.error == GeneralError
    decreases |gs|
  {
    if |gs| == 0 then Ok(m)
    else if |gs[0].1| < 2 then UnifyAll(gs[1..], superClasses, m)
    else
      var e :- UnifyEntry(gs[0].1, superClasses);
      UnifyAll(gs[1..], superClasses, Bind(m, e.0, e.1))
  }

  /** The federated URI the first entry of two or more subjects that keeps
      `x` gives it: an independent reading of "first group wins". */
  function FirstUnifying(gs: Groups, superClasses: string -> seq<string>, x: string): Option<string>
    decreases |gs|
  {
    if |gs| == 0 then None
    else if |gs[0].1| >= 2 && UnifyEntry(gs[0].1, superClasses).Ok?
         && x in UnifyEntry(gs[0].1, superClasses).value.0
    then Some(UnifyEntry(gs[0].1, superClasses).value.1)
    else FirstUnifying(gs[1..], superClasses, x)
  }

  /** An entry of two or more subjects whose stem cannot be derived. */
  predicate StemFails(gs: Groups, superClasses: string -> seq<string>, i: int)
    requires 0 <= i < |gs|
  {
    |gs[i].1| >= 2 && UnifyEntry(gs[i].1, superClasses).Err?
  }

  /** The unification fails exactly when some entry of two or more subjects
      has no stem. */
  lemma {:induction false} UnifyAllFails(gs: Groups, superClasses: string -> seq<string>, m: map<string, string>)
    ensures UnifyAll(gs, superClasses, m).Err? <==> exists i :: 0 <= i < |gs| && StemFails(gs, superClasses, i)
    decreases |gs|
  {
    if |gs| > 0 {
      var rest := gs[1..];
      if StemFails(gs, superClasses, 0) {
        assert UnifyAll(gs, superClasses, m).Err?;
      } else if |gs[0].1| < 2 {
        assert UnifyAll(gs, superClasses, m) == UnifyAll(rest, superClasses, m);
        UnifyAllFails(rest, superClasses, m);
      } else {
        var e := UnifyEntry(gs[0].1, superClasses).value;
        assert UnifyAll(gs, superClasses, m) == UnifyAll(rest, superClasses, Bind(m, e.0, e.1));
        UnifyAllFails(rest, superClasses, Bind(m, e.0, e.1));
      }
      if i :| 0 <= i < |gs| && StemFails(gs, superClasses, i) {
        if i > 0 {
          assert gs[i] == rest[i - 1];
          assert StemFails(rest, superClasses, i - 1);
        }
      }
      if j :| 0 <= j < |rest| && StemFails(rest, superClasses, j) {
        assert gs[j + 1] == rest[j];
        assert StemFails(gs, superClasses, j + 1);
      }
    }
  }

  /** What the unified map holds: the subjects already mapped keep their
      URI, and every other subject is mapped, to the URI of the first entry
      that keeps it, exactly when some entry keeps it. */
  lemma {:induction false} UnifyAllMap(gs: Groups, superClasses: string -> seq<string>, m: map<string, string>)
    requires UnifyAll(gs, superClasses, m).Ok?
    ensures var u := UnifyAll(gs, superClasses, m).value;
      forall x :: (x in u <==> x in m || FirstUnifying(gs, superClasses, x).Some?)
        && (x in u ==> u[x] == if x in m then m[x] else FirstUnifying(gs, superClasses, x).value)
    decreases |gs|
  {
    if |gs| > 0 {
      var rest := gs[1..];
      if |gs[0].1| < 2 {
        UnifyAllMap(rest, superClasses, m);
      } else {
        var e := UnifyEntry(gs[0].1, superClasses).value;
        UnifyAllMap(rest, superClasses, Bind(m, e.0, e.1));
      }
    }
  }

  /** Entries of fewer than two subjects produce no mapping. */
  lemma {:induction false} SmallEntriesUnifyNothing(gs: Groups, superClasses: string -> seq<string>, m: map<string, string>)
    requires forall i :: 0 <= i < |gs| ==> |gs[i].1| < 2
    ensures UnifyAll(gs, superClasses, m) == Ok(m)
    decreases |gs|
  {
    if |gs| > 0 {
      SmallEntriesUnifyNothing(gs[1..], superClasses, m);
    }
  }

  // ---------------------------------------------------------------------
  // Grouping the subjects by the value of an inverse functional property
  // ---------------------------------------------------------------------

  /** `(object text, subject)` of each triple whose predicate is an inverse
      functional property, in list order: what the first loop files. */
  function IfpPairs(ts: seq<GraphTriple>, ifps: set<string>): (r: seq<(string, string)>)
    ensures |r| <= |ts|
  {
    if |ts| == 0 then []
    else
      var t := ts[|ts| - 1];
      IfpPairs(ts[..|ts| - 1], ifps) + (if t.pred in ifps then [(t.obj.Text(), t.subj)] else [])
  }

  /** The dictionary `matchIFPDict`. */
  function IfpGroups(ts: seq<GraphTriple>, ifps: set<string>): Groups
  {
    Group(IfpPairs(ts, ifps), true)
  }

  /** The values the triples give to inverse functional properties, in
      order. */
  function IfpValues(ts: seq<GraphTriple>, ifps: set<string>): seq<string>
  {
    if |ts| == 0 then []
    else
      var t := ts[|ts| - 1];
      IfpValues(ts[..|ts| - 1], ifps) + (if t.pred in ifps then [t.obj.Text()] else [])
  }

  /** The subjects of the triples that give value `v` to an inverse
      functional property, in order. */
  function SubjectsWithValue(ts: seq<GraphTriple>, ifps: set<string>, v: string): seq<string>
  {
    if |ts| == 0 then []
    else
      var t := ts[|ts| - 1];
      SubjectsWithValue(ts[..|ts| - 1], ifps, v) + (if t.pred in ifps && t.obj.Text() == v then [t.subj] else [])
  }

  /** The grouping: one entry per value in order of first occurrence, each
      listing the subjects that give it that value, each once, in order of
      first occurrence; no entry at all exactly when no triple has an
      inverse functional predicate. */
  lemma IfpGroupsSpec(ts: seq<GraphTriple>, ifps: set<string>)
    ensures var gs := IfpGroups(ts, ifps);
      && Keys(gs) == Dedup(IfpValues(ts, ifps))
      && (forall i :: 0 <= i < |gs| ==> gs[i].1 == Dedup(SubjectsWithValue(ts, ifps, gs[i].0)))
      && (|gs| == 0 <==> forall i :: 0 <= i < |ts| ==> ts[i].pred !in ifps)
  {
    var pairs := IfpPairs(ts, ifps);
    GroupSpec(pairs, true);
    IfpPairsFirsts(ts, ifps);
    forall v {
      IfpPairsValues(ts, ifps, v);
    }
    IfpValuesEmpty(ts, ifps);
  }

  lemma {:induction false} IfpPairsFirsts(ts: seq<GraphTriple>, ifps: set<string>)
    ensures Keys(IfpPairs(ts, ifps)) == IfpValues(ts, ifps)
    decreases |ts|
  {
    if |ts| > 0 {
      var front := ts[..|ts| - 1];
      IfpPairsFirsts(front, ifps);
      KeysConcat(IfpPairs(front, ifps), if ts[|ts| - 1].pred in ifps then [(ts[|ts| - 1].obj.Text(), ts[|ts| - 1].subj)] else []);
    }
  }

  lemma KeysConcat(a: seq<(string, string)>, b: seq<(string, string)>)
    requires |b| <= 1
    ensures Keys(a + b) == Keys(a) + Keys(b)
  {
    if |b| == 1 {
      assert (a + b)[..|a + b| - 1] == a;
    } else {
      assert a + b == a;
    }
  }

  lemma {:induction false} IfpPairsValues(ts: seq<GraphTriple>, ifps: set<string>, v: string)
    ensures ValuesOf(IfpPairs(ts, ifps), v) == SubjectsWithValue(ts, ifps, v)
    decreases |ts|
  {
    if |ts| > 0 {
      var front := ts[..|ts| - 1];
      var t := ts[|ts| - 1];
      IfpPairsValues(front, ifps, v);
      if t.pred in ifps {
        ValuesSnoc(IfpPairs(front, ifps), (t.obj.Text(), t.subj), v);
      } else {
        assert IfpPairs(ts, ifps) == IfpPairs(front, ifps) + [];
        assert IfpPairs(front, ifps) + [] == IfpPairs(front, ifps);
      }
    }
  }

  lemma {:induction false} IfpValuesEmpty(ts: seq<GraphTriple>, ifps: set<string>)
    ensures |Dedup(IfpValues(ts, ifps))| == 0 <==> forall i :: 0 <= i < |ts| ==> ts[i].pred !in ifps
    decreases |ts|
  {
    if |ts| > 0 {
      var front := ts[..|ts| - 1];
      IfpValuesEmpty(front, ifps);
      if ts[|ts| - 1].pred in ifps {
        assert ts[|ts| - 1].obj.Text() in IfpValues(ts, ifps);
      } else {
        assert forall i :: 0 <= i < |front| ==> front[i] == ts[i];
      }
    }
  }

  // ---------------------------------------------------------------------
  // Storing the triples
  // ---------------------------------------------------------------------

  /** `List<Triple>.Remove(t)`: drops the first element equal to `t`. */
  function RemoveFirst(xs: seq<GraphTriple>, x: GraphTriple): (r: seq<GraphTriple>)
    ensures x in xs ==> |r| == |xs| - 1
    ensures x !in xs ==> r == xs
  {
    if |xs| == 0 then []
    else if xs[0] == x then xs[1..]
    else [xs[0]] + RemoveFirst(xs[1..], x)
  }

  /** The triple stored for a triple whose subject was unified: the
      federated subject, the same predicate, and the object, itself replaced
      when it is a unified subject, as a literal node exactly when it is a
      literal value. */
  function Rewrite(t: GraphTriple, u: map<string, string>, wellFormed: string -> bool): GraphTriple
    requires t.subj in u
  {
    var obj := if t.obj.Text() in u then u[t.obj.Text()] else t.obj.Text();
    GraphTriple(u[t.subj], t.pred, NodeOf(obj, wellFormed))
  }

  /** The loop over a snapshot of the pending triples: each triple whose
      subject was unified is stored rewritten, its federated subject noted,
      and the triple removed from the pending list. Returns the stored
      triples, the noted subjects and what is left pending. */
  function RewriteLoop(snapshot: seq<GraphTriple>, pending: seq<GraphTriple>, u: map<string, string>,
                       wellFormed: string -> bool): (r: (seq<GraphTriple>, seq<string>, seq<GraphTriple>))
    ensures |r.0| == |r.1|
    ensures forall i :: 0 <= i < |r.0| ==> r.1[i] == r.0[i].subj
    decreases |snapshot|
  {
    if |snapshot| == 0 then ([], [], pending)
    else
      var t := snapshot[0];
      if t.subj !in u then RewriteLoop(snapshot[1..], pending, u, wellFormed)
      else
        var rest := RewriteLoop(snapshot[1..], RemoveFirst(pending, t), u, wellFormed);
        var stored := Rewrite(t, u, wellFormed);
        ([stored] + rest.0, [stored.subj] + rest.1, rest.2)
  }

  /** `federatedSubjectsAdded.Contains(x, new StringContainmentComparer())`:
      the comparer is called as `Equals(element, x)`, so the question is
      whether some noted subject contains `x`. */
  predicate AnyContains(added: seq<string>, x: string)
  {
    exists i :: 0 <= i < |added| && Contains(added[i], x)
  }

  /** The last loop: a pending triple is stored unless a noted federated
      subject contains its subject. */
  function Survivors(pending: seq<GraphTriple>, added: seq<string>): seq<GraphTriple>
  {
    if |pending| == 0 then []
    else (if AnyContains(added, pending[0].subj) then [] else [pending[0]]) + Survivors(pending[1..], added)
  }

  /** The map `unifiedIDs` built from the triples. */
  function Unified(ts: seq<GraphTriple>, ifps: set<string>, superClasses: string -> seq<string>)
    : Result<map<string, string>>
  {
    UnifyAll(IfpGroups(ts, ifps), superClasses, map[])
  }

  /** `MatchRecordsIFPAndStore`: the triples stored, in the order they are
      asserted into the graph. Without any inverse functional triple every
      pending triple is stored unchanged. */
  function MatchRecords(ts: seq<GraphTriple>, ifps: set<string>, superClasses: string -> seq<string>,
                        wellFormed: string -> bool): Result<seq<GraphTriple>>
  {
    if |IfpGroups(ts, ifps)| == 0 then Ok(ts)
    else
      var u :- Unified(ts, ifps, superClasses);
      var pass := RewriteLoop(ts, ts, u, wellFormed);
      Ok(pass.0 + Survivors(pass.2, pass.1))
  }

  // ---------------------------------------------------------------------
  // What the pass stores
  // ---------------------------------------------------------------------

  /** The triples whose subject was not unified, in order. */
  function Unmapped(ts: seq<GraphTriple>, u: map<string, string>): seq<GraphTriple>
  {
    if |ts| == 0 then []
    else (if ts[0].subj in u then [] else [ts[0]]) + Unmapped(ts[1..], u)
  }

  /** Some triple whose subject was unified has a federated subject
      containing `x`. */
  predicate Covered(ts: seq<GraphTriple>, u: map<string, string>, x: string)
  {
    exists t :: t in ts && t.subj in u && Contains(u[t.subj], x)
  }

  /** Removing a triple that is not among the first ones removes its
      first occurrence after them. */
  lemma {:induction false} RemoveFirstSkips(kept: seq<GraphTriple>, x: GraphTriple, rest: seq<GraphTriple>)
    requires x !in kept
    ensures RemoveFirst(kept + [x] + rest, x) == kept + rest
    decreases |kept|
  {
    if |kept| > 0 {
      assert (kept + [x] + rest)[1..] == kept[1..] + [x] + rest;
      RemoveFirstSkips(kept[1..], x, rest);
      assert [kept[0]] + (kept[1..] + rest) == kept + rest;
    }
  }

  /** The removals in the loop leave pending exactly the triples whose
      subject was not unified, in their order: `Remove` of each rewritten
      triple removes that very triple, since no earlier pending triple
      equals it. */
  lemma {:induction false} RewriteLoopPending(s: seq<GraphTriple>, kept: seq<GraphTriple>, u: map<string, string>,
                                              wellFormed: string -> bool)
    requires forall t :: t in kept ==> t.subj !in u
    ensures RewriteLoop(s, kept + s, u, wellFormed).2 == kept + Unmapped(s, u)
    decreases |s|
  {
    if |s| == 0 {
      assert kept + s == kept;
    } else {
      var t := s[0];
      var rest := s[1..];
      if t.subj in u {
        PendingStepMapped(s, kept, u, wellFormed);
        RewriteLoopPending(rest, kept, u, wellFormed);
      } else {
        PendingStepUnmapped(s, kept, u, wellFormed);
        RewriteLoopPending(rest, kept + [t], u, wellFormed);
        assert (kept + [t]) + Unmapped(rest, u) == kept + ([t] + Unmapped(rest, u));
      }
    }
  }

  lemma PendingStepMapped(s: seq<GraphTriple>, kept: seq<GraphTriple>, u: map<string, string>,
                          wellFormed: string -> bool)
    requires forall t :: t in kept ==> t.subj !in u
    requires |s| > 0 && s[0].subj in u
    ensures RewriteLoop(s, kept + s, u, wellFormed).2 == RewriteLoop(s[1..], kept + s[1..], u, wellFormed).2
    ensures Unmapped(s, u) == Unmapped(s[1..], u)
  {
    var t, rest := s[0], s[1..];
    assert t !in kept;
    assert RemoveFirst(kept + s, t) == kept + rest by {
      assert kept + s == kept + [t] + rest;
      RemoveFirstSkips(kept, t, rest);
    }
  }

  lemma PendingStepUnmapped(s: seq<GraphTriple>, kept: seq<GraphTriple>, u: map<string, string>,
                            wellFormed: string -> bool)
    requires |s| > 0 && s[0].subj !in u
    ensures RewriteLoop(s, kept + s, u, wellFormed).2 == RewriteLoop(s[1..], (kept + [s[0]]) + s[1..], u, wellFormed).2
    ensures Unmapped(s, u) == [s[0]] + Unmapped(s[1..], u)
  {
    assert kept + s == (kept + [s[0]]) + s[1..];
  }

  /** The loop stores the rewriting of every triple whose subject was
      unified, and nothing else. */
  lemma {:induction false} RewriteLoopStored(s: seq<GraphTriple>, pending: seq<GraphTriple>, u: map<string, string>,
                                             wellFormed: string -> bool)
    ensures forall x :: x in RewriteLoop(s, pending, u, wellFormed).0 <==>
      exists t :: t in s && t.subj in u && x == Rewrite(t, u, wellFormed)
    decreases |s|
  {
    if |s| > 0 {
      var t := s[0];
      var rest := s[1..];
      assert forall y :: y in s <==> y == t || y in rest;
      if t.subj in u {
        RewriteLoopStored(rest, RemoveFirst(pending, t), u, wellFormed);
      } else {
        RewriteLoopStored(rest, pending, u, wellFormed);
      }
    }
  }

  /** A noted federated subject contains `x` exactly when some triple's
      federated subject does. */
  lemma AddedCovered(ts: seq<GraphTriple>, pending: seq<GraphTriple>, u: map<string, string>,
                     wellFormed: string -> bool, x: string)
    ensures AnyContains(RewriteLoop(ts, pending, u, wellFormed).1, x) <==> Covered(ts, u, x)
  {
    var r := RewriteLoop(ts, pending, u, wellFormed);
    RewriteLoopStored(ts, pending, u, wellFormed);
    if AnyContains(r.1, x) {
      var i :| 0 <= i < |r.1| && Contains(r.1[i], x);
      assert r.0[i] in r.0;
      var t :| t in ts && t.subj in u && r.0[i] == Rewrite(t, u, wellFormed);
      assert Contains(u[t.subj], x);
    }
    if Covered(ts, u, x) {
      var t :| t in ts && t.subj in u && Contains(u[t.subj], x);
      assert Rewrite(t, u, wellFormed) in r.0;
      var i :| 0 <= i < |r.0| && r.0[i] == Rewrite(t, u, wellFormed);
      assert Contains(r.1[i], x);
    }
  }

  lemma {:induction false} UnmappedMembers(ts: seq<GraphTriple>, u: map<string, string>)
    ensures forall x :: x in Unmapped(ts, u) <==> x in ts && x.subj !in u
    decreases |ts|
  {
    if |ts| > 0 {
      UnmappedMembers(ts[1..], u);
      assert forall y :: y in ts <==> y == ts[0] || y in ts[1..];
    }
  }

  lemma {:induction false} SurvivorsMembers(pending: seq<GraphTriple>, added: seq<string>)
    ensures forall x :: x in Survivors(pending, added) <==> x in pending && !AnyContains(added, x.subj)
    decreases |pending|
  {
    if |pending| > 0 {
      SurvivorsMembers(pending[1..], added);
      assert forall y :: y in pending <==> y == pending[0] || y in pending[1..];
    }
  }

  /** After unification the pass stores the rewriting of every triple whose
      subject was unified, and every other triple unless a federated subject
      contains its subject; nothing else. */
  lemma MatchRecordsStores(ts: seq<GraphTriple>, ifps: set<string>, superClasses: string -> seq<string>,
                           wellFormed: string -> bool)
    requires |IfpGroups(ts, ifps)| > 0
    requires Unified(ts, ifps, superClasses).Ok?
    ensures MatchRecords(ts, ifps, superClasses, wellFormed).Ok?
    ensures var u := Unified(ts, ifps, superClasses).value;
      forall x :: x in MatchRecords(ts, ifps, superClasses, wellFormed).value <==>
        (exists t :: t in ts && t.subj in u && x == Rewrite(t, u, wellFormed))
        || (x in ts && x.subj !in u && !Covered(ts, u, x.subj))
  {
    var u := Unified(ts, ifps, superClasses).value;
    var pass := RewriteLoop(ts, ts, u, wellFormed);
    assert MatchRecords(ts, ifps, superClasses, wellFormed) == Ok(pass.0 + Survivors(pass.2, pass.1));
    RewriteLoopPending(ts, [], u, wellFormed);
    assert [] + ts == ts;
    assert pass.2 == Unmapped(ts, u);
    RewriteLoopStored(ts, ts, u, wellFormed);
    UnmappedMembers(ts, u);
    SurvivorsMembers(pass.2, pass.1);
    forall x: string {
      AddedCovered(ts, ts, u, wellFormed, x);
    }
  }

  /** The pass fails, always with the same error, exactly when an entry of
      two or more subjects has no common superclass to stem from. */
  lemma MatchRecordsFails(ts: seq<GraphTriple>, ifps: set<string>, superClasses: string -> seq<string>,
                          wellFormed: string -> bool)
    ensures var gs := IfpGroups(ts, ifps);
      MatchRecords(ts, ifps, superClasses, wellFormed).Err? <==> exists i :: 0 <= i < |gs| && StemFails(gs, superClasses, i)
    ensures MatchRecords(ts, ifps, superClasses, wellFormed).Err? ==>
      MatchRecords(ts, ifps, superClasses, wellFormed).error == GeneralError
  {
    UnifyAllFails(IfpGroups(ts, ifps), superClasses, map[]);
  }

  /** Without any triple of an inverse functional predicate every triple is
      stored unchanged. */
  lemma NoIfpStoresAll(ts: seq<GraphTriple>, ifps: set<string>, superClasses: string -> seq<string>,
                       wellFormed: string -> bool)
    requires forall i :: 0 <= i < |ts| ==> ts[i].pred !in ifps
    ensures MatchRecords(ts, ifps, superClasses, wellFormed) == Ok(ts)
  {
    IfpGroupsSpec(ts, ifps);
  }

  /** When no two subjects share the value of an inverse functional
      property nothing is unified and every triple is stored unchanged. */
  lemma NoSharedValueStoresAll(ts: seq<GraphTriple>, ifps: set<string>, superClasses: string -> seq<string>,
                               wellFormed: string -> bool)
    requires SharedByOne(ts, ifps)
    ensures MatchRecords(ts, ifps, superClasses, wellFormed) == Ok(ts)
  {
    var gs := IfpGroups(ts, ifps);
    if |gs| > 0 {
      SharedByOneSmall(ts, ifps);
      SmallEntriesUnifyNothing(gs, superClasses, map[]);
      assert Unified(ts, ifps, superClasses) == Ok(map[]);
      var u: map<string, string> := map[];
      var pass := RewriteLoop(ts, ts, u, wellFormed);
      RewriteLoopPending(ts, [], u, wellFormed);
      assert [] + ts == ts;
      RewriteLoopStored(ts, ts, u, wellFormed);
      HeadMember(pass.0);
      assert pass.0 == [];
      UnmappedNone(ts);
      SurvivorsNone(pass.2);
    }
  }

  /** A non-empty list holds its first element. */
  lemma HeadMember(s: seq<GraphTriple>)
    ensures |s| == 0 || s[0] in s
  {
  }

  /** No two subjects give the same value to inverse functional
      properties. */
  predicate SharedByOne(ts: seq<GraphTriple>, ifps: set<string>)
  {
    forall i, j ::
      (0 <= i < |ts| && 0 <= j < |ts| && ts[i].pred in ifps && ts[j].pred in ifps
       && ts[i].obj.Text() == ts[j].obj.Text()) ==> ts[i].subj == ts[j].subj
  }

  lemma SharedByOneSmall(ts: seq<GraphTriple>, ifps: set<string>)
    requires SharedByOne(ts, ifps)
    ensures forall i :: 0 <= i < |IfpGroups(ts, ifps)| ==> |IfpGroups(ts, ifps)[i].1| < 2
  {
    var gs := IfpGroups(ts, ifps);
    IfpGroupsSpec(ts, ifps);
    forall i | 0 <= i < |gs|
      ensures |gs[i].1| < 2
    {
      OneSubjectPerValue(ts, ifps, gs[i].0);
      DedupAllSame(SubjectsWithValue(ts, ifps, gs[i].0));
    }
  }

  /** Without shared values, the subjects that give a value are all one. */
  lemma OneSubjectPerValue(ts: seq<GraphTriple>, ifps: set<string>, v: string)
    requires SharedByOne(ts, ifps)
    ensures forall x, y :: x in SubjectsWithValue(ts, ifps, v) && y in SubjectsWithValue(ts, ifps, v) ==> x == y
  {
    SubjectsWithValueFrom(ts, ifps, v);
  }

  lemma {:induction false} SubjectsWithValueFrom(ts: seq<GraphTriple>, ifps: set<string>, v: string)
    ensures forall x :: x in SubjectsWithValue(ts, ifps, v) ==>
      exists i :: 0 <= i < |ts| && ts[i].pred in ifps && ts[i].obj.Text() == v && ts[i].subj == x
    decreases |ts|
  {
    if |ts| > 0 {
      var front := ts[..|ts| - 1];
      SubjectsWithValueFrom(front, ifps, v);
      forall x | x in SubjectsWithValue(ts, ifps, v)
        ensures exists i :: 0 <= i < |ts| && ts[i].pred in ifps && ts[i].obj.Text() == v && ts[i].subj == x
      {
        if x in SubjectsWithValue(front, ifps, v) {
          var i :| 0 <= i < |front| && front[i].pred in ifps && front[i].obj.Text() == v && front[i].subj == x;
          assert ts[i] == front[i];
        } else {
          assert ts[|ts| - 1].subj == x;
        }
      }
    }
  }

  lemma {:induction false} UnmappedNone(ts: seq<GraphTriple>)
    ensures Unmapped(ts, map[]) == ts
    decreases |ts|
  {
    if |ts| > 0 {
      UnmappedNone(ts[1..]);
      assert [ts[0]] + ts[1..] == ts;
    }
  }

  lemma {:induction false} SurvivorsNone(pending: seq<GraphTriple>)
    ensures Survivors(pending, []) == pending
    decreases |pending|
  {
    if |pending| > 0 {
      SurvivorsNone(pending[1..]);
      assert [pending[0]] + pending[1..] == pending;
    }
  }
}

=== FILE: loader_factory.dfy ===
/** The loader registry (`DBLoaderFactory`): which loader class serves each
    connection string. The registry is static in the C# code; here it is a
    value passed in and returned. */
module LoaderFactory {
  import opened Wrappers

  /** A .NET type handed to the factory: its name, and whether it implements
      the `IDBLoader` interface (`GetInterface("IDBLoader") != null`). */
  datatype LoaderType = LoaderType(name: string, implementsLoader: bool)

  /** `dbConStringLoaderDict`: connection string to loader type. */
  type Registry = map<string, LoaderType>

  /** A loader instance made by the factory. */
  datatype Loader = Loader(kind: LoaderType, connectionString: string)

  /** The registry after a call, and the exception the call ended with, if
      any. The registry is a static field, so whatever was registered before
      an exception stays registered. */
  datatype Registered = Registered(registry: Registry, failure: Option<Error>)

  /** What the factory keeps true: every key is a non-empty connection
      string served by a type that implements the loader interface. */
  predicate Valid(reg: Registry)
  {
    forall c :: c in reg ==> |c| > 0 && reg[c].implementsLoader
  }

  /** The `foreach` of `RegisterDBLoaders`: a connection string already
      present is skipped; a new one goes through `AddDBLoader`, which
      refuses the empty string with `ArgumentException`. */
  function RegisterEach(reg: Registry, t: LoaderType, connStrings: seq<string>): (r: Registered)
    ensures reg.Keys <= r.registry.Keys
    ensures forall c :: c in reg ==> r.registry[c] == reg[c]
    ensures forall c :: c in r.registry && c !in reg ==> r.registry[c] == t && c in connStrings
    ensures r.failure.Some? ==> r.failure.value == ArgumentError
    decreases |connStrings|
  {
    if |connStrings| == 0 then Registered(reg, None)
    else
      var c := connStrings[0];
      if c in reg then RegisterEach(reg, t, connStrings[1..])
      else if |c| == 0 then Registered(reg, Some(ArgumentError))
      else RegisterEach(reg[c := t], t, connStrings[1..])
  }

  /** `RegisterDBLoaders(dbLoader, connStrings)`: a type that does not
      implement the loader interface is refused with `ArgumentException`
      before anything is registered. */
  function Register(reg: Registry, t: LoaderType, connStrings: seq<string>): (r: Registered)
    ensures !t.implementsLoader ==> r == Registered(reg, Some(ArgumentError))
    ensures reg.Keys <= r.registry.Keys && forall c :: c in reg ==> r.registry[c] == reg[c]
  {
    if !t.implementsLoader then Registered(reg, Some(ArgumentError))
    else RegisterEach(reg, t, connStrings)
  }

  /** The registry extended with every string of `connStrings` that it does
      not hold yet, each mapped to `t`. */
  function Extended(reg: Registry, t: LoaderType, connStrings: seq<string>): Registry
  {
    map c | c in reg.Keys + (set x | x in connStrings) :: if c in reg then reg[c] else t
  }

  /** The first index at which the empty string occurs, or `|s|`. */
  function FirstEmpty(s: seq<string>): (k: nat)
    ensures k <= |s| && (k < |s| ==> s[k] == "")
    ensures forall i :: 0 <= i < k ==> s[i] != ""
  {
    if |s| == 0 then 0 else if s[0] == "" then 0 else FirstEmpty(s[1..]) + 1
  }

  /** Registering with a valid type adds exactly the strings before the first
      empty one (the first registration of a string wins), and fails with
      `ArgumentException` exactly when an empty string is met; nothing
      registered before the failure is rolled back. */
  lemma {:induction false} RegisterEachExtends(reg: Registry, t: LoaderType, connStrings: seq<string>)
    requires "" !in reg
    ensures var k := FirstEmpty(connStrings);
      RegisterEach(reg, t, connStrings) ==
        Registered(Extended(reg, t, connStrings[..k]), if k < |connStrings| then Some(ArgumentError) else None)
    decreases |connStrings|
  {
    var k := FirstEmpty(connStrings);
    if |connStrings| == 0 {
      assert Extended(reg, t, connStrings[..k]) == reg;
    } else if connStrings[0] == "" {
      assert connStrings[..k] == [];
      assert Extended(reg, t, connStrings[..k]) == reg;
    } else {
      var c := connStrings[0];
      var rest := connStrings[1..];
      var reg' := if c in reg then reg else reg[c := t];
      RegisterEachExtends(reg', t, rest);
      assert FirstEmpty(rest) == k - 1;
      assert connStrings[..k] == [c] + rest[..k - 1];
      ExtendedCons(reg, t, c, rest[..k - 1]);
    }
  }

  /** Extending by `c` and then by `rest` is extending by `[c] + rest`. */
  lemma ExtendedCons(reg: Registry, t: LoaderType, c: string, rest: seq<string>)
    ensures Extended(reg, t, [c] + rest) == Extended(if c in reg then reg else reg[c := t], t, rest)
  {
    var reg' := if c in reg then reg else reg[c := t];
    var a := Extended(reg, t, [c] + rest);
    var b := Extended(reg', t, rest);
    assert (set x | x in [c] + rest) == {c} + (set x | x in rest);
    assert a.Keys == b.Keys;
    forall x | x in a.Keys
      ensures a[x] == b[x]
    {
    }
  }

  /** Registration keeps the registry valid, whatever the outcome. */
  lemma {:induction false} RegisterValid(reg: Registry, t: LoaderType, connStrings: seq<string>)
    requires Valid(reg)
    ensures Valid(Register(reg, t, connStrings).registry)
  {
    if t.implementsLoader {
      RegisterEachExtends(reg, t, connStrings);
      var k := FirstEmpty(connStrings);
      forall c | c in Extended(reg, t, connStrings[..k])
        ensures |c| > 0
      {
        if c !in reg {
          var i :| 0 <= i < k && connStrings[..k][i] == c;
        }
      }
    }
  }

  /** `GetDBLoader(connString)`: a fresh loader of the registered type whose
      `ConnectionString` is the argument; an unregistered string raises
      `ArgumentException`, and a null one `ArgumentNullException` (from the
      dictionary lookup). */
  function GetLoader(reg: Registry, connString: Option<string>): (r: Result<Loader>)
    ensures r.Ok? <==> connString.Some? && connString.value in reg
    ensures r.Ok? ==> r.value == Loader(reg[connString.value], connString.value)
    ensures connString.None? ==> r == Err(ArgumentNullError)
    ensures connString.Some? && connString.value !in reg ==> r == Err(ArgumentError)
  {
    if connString.None? then Err(ArgumentNullError)
    else if connString.value !in reg then Err(ArgumentError)
    else Ok(Loader(reg[connString.value], connString.value))
  }

  /** After a registration that did not fail, every string it was given has
      a loader, and the first registration of each string decides its type. */
  lemma RegisterThenGet(reg: Registry, t: LoaderType, connStrings: seq<string>, c: string)
    requires "" !in reg && Register(reg, t, connStrings).failure.None? && c in connStrings
    ensures GetLoader(Register(reg, t, connStrings).registry, Some(c)) ==
      Ok(Loader(if c in reg then reg[c] else t, c))
  {
    RegisterEachExtends(reg, t, connStrings);
  }
}

=== FILE: mapping.dfy ===
/** The mapping rules of the older SQL-generation path (`Mapping`,
    `MapNode`): rules read from a text file pair a subject template, a
    predicate and an object with an SQL query; a rule is found for a triple
    by its predicate and object, and its SQL is completed with the
    subject template's stem. */
module Mapping {
  import opened Wrappers
  import opened Strings
  import opened UriCodec

  /** A rule: the subject template (`<…/{pk}>`), predicate, object and
      SQL. */
  datatype MapNode = MapNode(dbString: string, pred: string, obj: string, sql: string)

  /** The rules by key, and the prefixes by name. */
  datatype Mapping = Mapping(rules: map<string, seq<MapNode>>, prefixes: map<string, string>)

  // ---------------------------------------------------------------------
  // The placeholder pattern \{.+\}
  // ---------------------------------------------------------------------

  /** A match of `\{.+\}` from `i` to `j` inclusive: braces around at least
      one character, none of them a line feed. */
  predicate PlaceholderAt(s: string, i: int, j: int)
  {
    0 <= i && i + 1 < j < |s| && s[i] == '{' && s[j] == '}'
    && forall k :: i < k < j ==> s[k] != '\n'
  }

  /** `Regex.IsMatch(s)` for the placeholder pattern. */
  predicate HasPlaceholder(s: string)
  {
    exists i, j | 0 <= i < j < |s| :: PlaceholderAt(s, i, j)
  }

  /** Where a match starting at `i` ends: `.+` runs to the end of the line,
      then gives back characters until a `}` follows, so the match ends at
      the last `}` of the line. */
  function PlaceholderEnd(s: string, i: nat): (r: Option<nat>)
    requires i < |s|
    ensures r.Some? ==> PlaceholderAt(s, i, r.value)
    ensures r.Some? ==> forall j :: PlaceholderAt(s, i, j) ==> j <= r.value
    ensures r.None? ==> forall j :: !PlaceholderAt(s, i, j)
  {
    if s[i] != '{' then None
    else
      var e := LineEnd(s, i + 1);
      LineChars(s, i + 1);
      var j := LastIndexOf(s[..e], '}');
      assert forall j' :: PlaceholderAt(s, i, j') ==> j' < e && s[..e][j'] == '}' by {
        forall j' | PlaceholderAt(s, i, j')
          ensures j' < e
        {
          assert e == |s| || s[e] == '\n';
        }
      }
      if j >= i + 2 then
        assert j < e && s[j] == s[..e][j] == '}';
        assert forall k :: i < k < j ==> s[k] != '\n' by {
          forall k | i < k < j
            ensures s[k] != '\n'
          {
            assert IsDotChar(s[k]);
          }
        }
        Some(j)
      else None
  }

  /** The leftmost match at or after `i`. */
  function PlaceholderFrom(s: string, i: nat): (r: Option<(nat, nat)>)
    decreases |s| - i
  {
    if i >= |s| then None
    else
      var end := PlaceholderEnd(s, i);
      if end.Some? then Some((i, end.value)) else PlaceholderFrom(s, i + 1)
  }

  /** `Regex.Match(s)`: the leftmost start, and from it the greedy end. */
  function PlaceholderMatch(s: string): Option<(nat, nat)>
  {
    PlaceholderFrom(s, 0)
  }

  /** The matched text, or `""` when nothing matches. */
  function PlaceholderText(s: string): string
  {
    var m := PlaceholderMatch(s);
    if m.Some? && m.value.1 < |s| && m.value.0 <= m.value.1 then s[m.value.0..m.value.1 + 1] else ""
  }

  /** The engine's match exists exactly when the pattern occurs, and it is
      the leftmost occurrence, extended as far as possible. */
  lemma PlaceholderMatchSpec(s: string)
    ensures PlaceholderMatch(s).Some? <==> HasPlaceholder(s)
    ensures var m := PlaceholderMatch(s);
      m.Some? ==> (PlaceholderAt(s, m.value.0, m.value.1)
        && forall i, j :: PlaceholderAt(s, i, j) ==> m.value.0 < i || (m.value.0 == i && j <= m.value.1))
  {
    PlaceholderFromSpec(s, 0);
  }

  lemma {:induction false} PlaceholderFromSpec(s: string, i: nat)
    requires forall i', j :: PlaceholderAt(s, i', j) ==> i <= i'
    ensures PlaceholderFrom(s, i).Some? <==> HasPlaceholder(s)
    ensures var m := PlaceholderFrom(s, i);
      m.Some? ==> (PlaceholderAt(s, m.value.0, m.value.1)
        && forall i', j :: PlaceholderAt(s, i', j) ==> m.value.0 < i' || (m.value.0 == i' && j <= m.value.1))
    decreases |s| - i
  {
    if i < |s| && PlaceholderEnd(s, i).None? {
      PlaceholderFromSpec(s, i + 1);
    }
  }

  // ---------------------------------------------------------------------
  // Matching and finding rules
  // ---------------------------------------------------------------------

  /** `MapNode.IsMatch`: never for an empty term; otherwise the rule's
      subject is a template and the subject a variable, the predicates are
      equal, and the rule's object is a template or equal to the object. */
  function IsMatch(node: MapNode, subj: string, pred: string, obj: string): (r: bool)
    ensures r <==> (|subj| > 0 && |pred| > 0 && |obj| > 0
      && HasPlaceholder(node.dbString) && subj[0] == '?'
      && pred == node.pred
      && (HasPlaceholder(node.obj) || obj == node.obj))
  {
    PlaceholderMatchSpec(node.dbString);
    PlaceholderMatchSpec(node.obj);
    if |subj| == 0 || |pred| == 0 || |obj| == 0 then false
    else
      var matchSubj := PlaceholderMatch(node.dbString).Some? && subj[0] == '?';
      var matchPred := pred == node.pred;
      var matchObj := PlaceholderMatch(node.obj).Some? || obj == node.obj;
      matchSubj && matchPred && matchObj
  }

  /** `List.Find(n => n.Object == obj)`: the first rule with that object. */
  function FindByObject(nodes: seq<MapNode>, obj: string): (r: Option<MapNode>)
    ensures r.Some? ==> exists i :: (0 <= i < |nodes| && nodes[i] == r.value && nodes[i].obj == obj
      && forall k :: 0 <= k < i ==> nodes[k].obj != obj)
    ensures r.None? <==> forall i :: 0 <= i < |nodes| ==> nodes[i].obj != obj
  {
    if |nodes| == 0 then None
    else if nodes[0].obj == obj then Some(nodes[0])
    else
      var r := FindByObject(nodes[1..], obj);
      assert r.Some? ==> exists i :: (0 <= i < |nodes| - 1 && nodes[1..][i] == r.value && nodes[1..][i].obj == obj
        && forall k :: 0 <= k < i ==> nodes[1..][k].obj != obj);
      r
  }

  /** `GetMapNodeForTripple`: the first rule under `"pred obj"`; else the
      first rule under `pred` with object `obj`, or none (`null`); else the
      lookup throws. */
  function GetMapNode(rules: map<string, seq<MapNode>>, subj: string, pred: string, obj: string)
    : (r: Result<Option<MapNode>>)
    ensures r.Ok? <==>
      || (pred + " " + obj in rules && |rules[pred + " " + obj]| > 0)
      || (pred + " " + obj !in rules && pred in rules)
    ensures r.Err? ==> r.error == ArgumentOutOfRangeError || r.error == GeneralError
    ensures r.Ok? && r.value.Some? ==>
      || (pred + " " + obj in rules && r.value.value == rules[pred + " " + obj][0])
      || (pred + " " + obj !in rules && r.value.value in rules[pred] && r.value.value.obj == obj)
    ensures r.Ok? && r.value.None? ==>
      pred + " " + obj !in rules && forall n :: n in rules[pred] ==> n.obj != obj
  {
    var key := pred + " " + obj;
    if key in rules then
      if |rules[key]| == 0 then Err(ArgumentOutOfRangeError) else Ok(Some(rules[key][0]))
    else if pred in rules then Ok(FindByObject(rules[pred], obj))
    else Err(GeneralError)
  }

  /** The order in which a lookup consults the rules: the `"pred obj"`
      key first, its list's first node (an empty list throws); then the
      predicate key, searched by object; and with neither key filed, the
      lookup throws. */
  lemma LookupPrecedence(rules: map<string, seq<MapNode>>, subj: string, pred: string, obj: string)
    ensures var key := pred + " " + obj;
      key in rules && |rules[key]| > 0 ==> GetMapNode(rules, subj, pred, obj) == Ok(Some(rules[key][0]))
    ensures var key := pred + " " + obj;
      key in rules && |rules[key]| == 0 ==> GetMapNode(rules, subj, pred, obj) == Err(ArgumentOutOfRangeError)
    ensures var key := pred + " " + obj;
      key !in rules && pred in rules ==> GetMapNode(rules, subj, pred, obj) == Ok(FindByObject(rules[pred], obj))
    ensures var key := pred + " " + obj;
      key !in rules && pred !in rules ==>
        && GetMapNode(rules, subj, pred, obj) == Err(GeneralError)
        && GetMapping(rules, subj, pred, obj) == Err(GeneralError)
  {
  }

  /** `GetMappingForTripple`: the SQL of the rule found; a missing rule is
      dereferenced. */
  function GetMapping(rules: map<string, seq<MapNode>>, subj: string, pred: string, obj: string)
    : (r: Result<string>)
    ensures r.Ok? <==> GetMapNode(rules, subj, pred, obj).Ok? && GetMapNode(rules, subj, pred, obj).value.Some?
    ensures r.Ok? ==> r.value == GetMapNode(rules, subj, pred, obj).value.value.sql
  {
    var node :- GetMapNode(rules, subj, pred, obj);
    if node.None? then Err(NullReferenceError) else Ok(node.value.sql)
  }

  // ---------------------------------------------------------------------
  // Prefixes
  // ---------------------------------------------------------------------

  /** `AddStdPrefixes`: the one prefix every mapping starts with. */
  const RdfPrefix: string := "<http://www.w3.org/1999/02/22-rdf-syntax-ns#>"

  /** The constructors: the given rules and the standard prefix. */
  function NewMapping(rules: map<string, seq<MapNode>>): (m: Mapping)
    ensures m.rules == rules && m.prefixes.Keys == {"rdf"} && m.prefixes["rdf"] == RdfPrefix
  {
    Mapping(rules, map["rdf" := RdfPrefix])
  }

  /** `NormalizePrefix`: `p:local` with `p` registered becomes `<iri local>`
      with the registered IRI stripped of its brackets; an unregistered `p`
      throws; a term that does not split into exactly two parts at `:`
      becomes the empty string. */
  function NormalizePrefix(prefixes: map<string, string>, spo: string): (r: Result<string>)
    ensures r.Err? ==> r.error == InvalidDataError
  {
    var parts := Split(spo, {':'});
    if |parts| != 2 then Ok("")
    else if parts[0] in prefixes then Ok("<" + Trim(prefixes[parts[0]], AngleBrackets) + parts[1] + ">")
    else Err(InvalidDataError)
  }

  /** A prefixed name with one colon is expanded with the registered IRI,
      or rejected when its prefix is not registered. */
  lemma NormalizePrefixed(prefixes: map<string, string>, p: string, local: string)
    requires ':' !in p && ':' !in local
    ensures p in prefixes ==>
      NormalizePrefix(prefixes, p + ":" + local) == Ok("<" + Trim(prefixes[p], AngleBrackets) + local + ">")
    ensures p !in prefixes ==> NormalizePrefix(prefixes, p + ":" + local) == Err(InvalidDataError)
  {
    SplitFirst(p, ':', local);
    SplitNone(local, ':');
  }

  /** A term without a colon, or with two or more, becomes the empty
      string. */
  lemma NormalizeNotPrefixed(prefixes: map<string, string>, spo: string)
    requires ':' !in spo || exists a, b, c :: spo == a + ":" + b + ":" + c
    ensures NormalizePrefix(prefixes, spo) == Ok("")
  {
    if ':' !in spo {
      SplitNone(spo, ':');
    } else {
      var a, b, c :| spo == a + ":" + b + ":" + c;
      SplitMany(a, b, c);
    }
  }

  /** Two colons give at least three parts. */
  lemma {:induction false} SplitMany(a: string, b: string, c: string)
    ensures |Split(a + ":" + b + ":" + c, {':'})| >= 3
    decreases |a|
  {
    var s := a + ":" + b + ":" + c;
    if |a| == 0 {
      assert s == [':'] + (b + ":" + c);
      assert s[1..] == b + ":" + c;
      SplitTwo(b, c);
    } else if a[0] == ':' {
      assert s[1..] == a[1..] + ":" + b + ":" + c;
      SplitMany(a[1..], b, c);
    } else {
      assert s[1..] == a[1..] + ":" + b + ":" + c;
      SplitMany(a[1..], b, c);
    }
  }

  /** One colon gives at least two parts. */
  lemma {:induction false} SplitTwo(b: string, c: string)
    ensures |Split(b + ":" + c, {':'})| >= 2
    decreases |b|
  {
    var s := b + ":" + c;
    if |b| == 0 {
      assert s[0] == ':';
    } else {
      assert s[1..] == b[1..] + ":" + c;
      SplitTwo(b[1..], c);
    }
  }

  /** `sb` after `k` removals of the character before the last. */
  function Shortened(v: string, k: nat): string
    requires k + 1 <= |v|
  {
    v[..|v| - 1 - k] + [v[|v| - 1]]
  }

  /** The loop of `UnPrefix` from its `k`-th removal on: while more than two
      characters are left, the one before the last is removed, and once the
      rest is a registered prefix the removed characters are returned. */
  function UnPrefixFrom(values: set<string>, v: string, k: nat): (r: Result<string>)
    requires 1 <= k
    ensures r.Err? ==> r.error == ArgumentOutOfRangeError
    decreases |v| - k
  {
    if |v| < k + 2 then Err(ArgumentOutOfRangeError)
    else if Shortened(v, k) in values then Ok(v[|v| - 1 - k..|v| - 1])
    else UnPrefixFrom(values, v, k + 1)
  }

  /** `UnPrefix`. */
  function UnPrefix(prefixes: map<string, string>, v: string): Result<string>
  {
    UnPrefixFrom(prefixes.Values, v, 1)
  }

  /** `UnPrefix` succeeds exactly when some shortening of the term is a
      registered prefix, and then returns what the least shortening, the
      longest prefix, removed. */
  lemma UnPrefixSpec(prefixes: map<string, string>, v: string)
    ensures UnPrefix(prefixes, v).Ok? <==>
      exists k :: 1 <= k <= |v| - 2 && Shortened(v, k) in prefixes.Values
    ensures UnPrefix(prefixes, v).Ok? ==>
      exists k :: 1 <= k <= |v| - 2 && Shortened(v, k) in prefixes.Values
        && (forall k' :: 1 <= k' < k ==> Shortened(v, k') !in prefixes.Values)
        && UnPrefix(prefixes, v).value == v[|v| - 1 - k..|v| - 1]
  {
    UnPrefixFromSpec(prefixes.Values, v, 1);
  }

  lemma {:induction false} UnPrefixFromSpec(values: set<string>, v: string, k: nat)
    requires 1 <= k
    requires forall k' :: 1 <= k' < k && k' + 2 <= |v| ==> Shortened(v, k') !in values
    ensures UnPrefixFrom(values, v, k).Ok? <==>
      exists k' :: 1 <= k' <= |v| - 2 && Shortened(v, k') in values
    ensures UnPrefixFrom(values, v, k).Ok? ==>
      exists k' :: 1 <= k' <= |v| - 2 && Shortened(v, k') in values
        && (forall k'' :: 1 <= k'' < k' ==> Shortened(v, k'') !in values)
        && UnPrefixFrom(values, v, k).value == v[|v| - 1 - k'..|v| - 1]
    decreases |v| - k
  {
    if |v| >= k + 2 && Shortened(v, k) !in values {
      UnPrefixFromSpec(values, v, k + 1);
    }
  }

  /** Un-prefixing `<` + P + L + `>` with `<P>` registered gives L back when
      no longer registered prefix leaves a non-empty rest. */
  lemma UnPrefixOf(prefixes: map<string, string>, p: string, local: string)
    requires "<" + p + ">" in prefixes.Values
    requires |local| >= 1
    requires forall j :: 0 < j < |local| ==> "<" + p + local[..j] + ">" !in prefixes.Values
    ensures UnPrefix(prefixes, "<" + p + local + ">") == Ok(local)
  {
    var v := "<" + p + local + ">";
    var n := |v|;
    forall k | 1 <= k <= |local|
      ensures Shortened(v, k) == "<" + p + local[..|local| - k] + ">"
    {
      assert v[..n - 1 - k] == "<" + p + local[..|local| - k];
    }
    UnPrefixFromSpec(prefixes.Values, v, 1);
    assert Shortened(v, |local|) in prefixes.Values by {
      assert local[..0] == [];
      assert "<" + p + [] + ">" == "<" + p + ">";
    }
    var k' :| 1 <= k' <= n - 2 && Shortened(v, k') in prefixes.Values
        && (forall k'' :: 1 <= k'' < k' ==> Shortened(v, k'') !in prefixes.Values)
        && UnPrefix(prefixes, v).value == v[n - 1 - k'..n - 1];
    assert k' == |local|;
    assert v[n - 1 - k'..n - 1] == local;
  }

  // ---------------------------------------------------------------------
  // Completing the SQL of a rule
  // ---------------------------------------------------------------------

  const Braces: set<char> := {'{', '}'}

  /** `MergeSqlDBString`: the placeholder of the un-prefixed subject
      template is cut out to leave the stem, and every occurrence of the
      placeholder's name in the SQL becomes `concat("stem", name) AS x`. An
      empty placeholder text or name makes `String.Replace` throw. */
  function MergeSqlDbString(prefixes: map<string, string>, node: MapNode): (r: Result<string>)
  {
    var unprefixed :- UnPrefix(prefixes, node.dbString);
    var placeholder := PlaceholderText(unprefixed);
    if placeholder == "" then Err(ArgumentError)
    else
      var stem := ReplaceAll(unprefixed, placeholder, "");
      var pk := Trim(placeholder, Braces);
      if pk == "" then Err(ArgumentError)
      else Ok(ReplaceAll(node.sql, pk, "concat(\"" + stem + "\", " + pk + ") AS x"))
  }

  /** For a template `stem{name}` the SQL has `name` replaced by the key
      expression over `stem`. */
  lemma MergeOfTemplate(prefixes: map<string, string>, node: MapNode, stem: string, name: string)
    requires UnPrefix(prefixes, node.dbString) == Ok(stem + "{" + name + "}")
    requires '{' !in stem && |name| > 0 && '{' !in name && '}' !in name && '\n' !in name
    ensures MergeSqlDbString(prefixes, node) ==
      Ok(ReplaceAll(node.sql, name, "concat(\"" + stem + "\", " + name + ") AS x"))
  {
    TemplateParts(stem, name);
  }

  /** In `stem{name}` the placeholder is `{name}`, cutting it leaves the
      stem, and trimming its braces leaves the name. */
  lemma TemplateParts(stem: string, name: string)
    requires '{' !in stem && |name| > 0 && '{' !in name && '}' !in name && '\n' !in name
    ensures PlaceholderText(stem + "{" + name + "}") == "{" + name + "}"
    ensures ReplaceAll(stem + "{" + name + "}", "{" + name + "}", "") == stem
    ensures Trim("{" + name + "}", Braces) == name
  {
    var u := stem + "{" + name + "}";
    var holder := "{" + name + "}";
    assert u == stem + holder;
    assert PlaceholderText(u) == holder by {
      PlaceholderOfTemplate(stem, name);
      assert u[|stem|..|stem| + |name| + 2] == holder;
    }
    assert ReplaceAll(u, holder, "") == stem by {
      ReplaceAllSkips(stem, holder, "");
      ReplaceAllWhole(holder);
    }
    assert Trim(holder, Braces) == name by {
      assert holder == ['{'] + name + ['}'];
      TrimWrapped('{', name, '}', Braces);
    }
  }

  lemma ReplaceAllWhole(pattern: string)
    requires |pattern| > 0
    ensures ReplaceAll(pattern, pattern, "") == ""
  {
    assert pattern[..|pattern|] == pattern;
    assert pattern[|pattern|..] == [];
  }

  /** The match in `stem{name}` is the whole `{name}`. */
  lemma PlaceholderOfTemplate(stem: string, name: string)
    requires '{' !in stem && |name| > 0 && '{' !in name && '}' !in name && '\n' !in name
    ensures PlaceholderMatch(stem + "{" + name + "}") == Some((|stem|, |stem| + |name| + 1))
  {
    var u := stem + "{" + name + "}";
    var i, j := |stem|, |stem| + |name| + 1;
    assert PlaceholderAt(u, i, j) by {
      forall k | i < k < j
        ensures u[k] != '\n'
      {
        assert u[k] == name[k - i - 1];
      }
    }
    PlaceholderMatchSpec(u);
    var m := PlaceholderMatch(u).value;
    assert m.0 == i;
    assert m.1 == j;
  }

  /** Replacing a pattern that cannot start inside `a` leaves `a` alone. */
  lemma {:induction false} ReplaceAllSkips(a: string, pattern: string, replacement: string)
    requires |pattern| > 0 && pattern[0] !in a
    ensures ReplaceAll(a + pattern, pattern, replacement) == a + ReplaceAll(pattern, pattern, replacement)
    decreases |a|
  {
    if |a| > 0 {
      var s := a + pattern;
      assert s[0] == a[0] && s[1..] == a[1..] + pattern;
      ReplaceAllPasses(s, pattern, replacement);
      ReplaceAllSkips(a[1..], pattern, replacement);
      HeadRegroup(a, ReplaceAll(pattern, pattern, replacement));
    } else {
      assert a + pattern == pattern;
    }
  }

  lemma HeadRegroup(a: string, b: string)
    requires |a| > 0
    ensures [a[0]] + (a[1..] + b) == a + b
  {
    assert a == [a[0]] + a[1..];
  }

  // ---------------------------------------------------------------------
  // Reading the rules
  // ---------------------------------------------------------------------

  /** A continuation line of SQL: it starts with a tab (`sr.Peek() == '\t'`). */
  predicate IsSqlLine(line: string)
  {
    |line| > 0 && line[0] == '\t'
  }

  /** How many lines from the start are SQL lines. */
  function SqlRun(lines: seq<string>): (n: nat)
    ensures n <= |lines|
    ensures forall i {:trigger lines[i]} :: 0 <= i < n ==> IsSqlLine(lines[i])
    ensures n < |lines| ==> !IsSqlLine(lines[n])
  {
    if |lines| > 0 && IsSqlLine(lines[0]) then 1 + SqlRun(lines[1..]) else 0
  }

  /** `sql += " " + line.Remove(0, 1)` over the SQL lines. */
  function SqlText(lines: seq<string>): string
    requires forall i {:trigger lines[i]} :: 0 <= i < |lines| ==> IsSqlLine(lines[i])
  {
    if |lines| == 0 then ""
    else
      assert IsSqlLine(lines[0]);
      " " + lines[0][1..] + SqlText(lines[1..])
  }

  /** The lines without their tab. */
  function Untabbed(lines: seq<string>): (r: seq<string>)
    requires forall i {:trigger lines[i]} :: 0 <= i < |lines| ==> IsSqlLine(lines[i])
    ensures |r| == |lines|
    ensures forall i :: 0 <= i < |lines| ==> IsSqlLine(lines[i]) && r[i] == lines[i][1..]
  {
    if |lines| == 0 then []
    else
      assert IsSqlLine(lines[0]);
      [lines[0][1..]] + Untabbed(lines[1..])
  }

  /** The SQL of a rule is its continuation lines, without their tabs,
      joined by spaces, after a leading space. */
  lemma {:induction false} SqlTextJoin(lines: seq<string>)
    requires |lines| > 0
    requires forall i {:trigger lines[i]} :: 0 <= i < |lines| ==> IsSqlLine(lines[i])
    ensures SqlText(lines) == " " + Join(" ", Untabbed(lines))
    decreases |lines|
  {
    var head := lines[0][1..];
    var rest := lines[1..];
    assert forall i :: 0 <= i < |rest| ==> rest[i] == lines[i + 1];
    assert Untabbed(lines) == [head] + Untabbed(rest);
    assert SqlText(lines) == " " + head + SqlText(rest);
    if |rest| > 0 {
      SqlTextJoin(rest);
      JoinCons(" ", head, Untabbed(rest));
    }
  }

  const SqlTrim: set<char> := {' ', '.'}

  /** The key a rule is filed under: its object when the predicate is a
      template, its predicate when the object is, else both. */
  function RuleKey(pred: string, obj: string): string
  {
    if HasPlaceholder(pred) then obj
    else if HasPlaceholder(obj) then pred
    else pred + " " + obj
  }

  /** `mappings[key].Add(node)`, opening the list for a new key. */
  function AddRule(rules: map<string, seq<MapNode>>, key: string, node: MapNode): (r: map<string, seq<MapNode>>)
    ensures r.Keys == rules.Keys + {key}
    ensures forall k :: k in rules && k != key ==> r[k] == rules[k]
    ensures r[key] == (if key in rules then rules[key] else []) + [node]
  {
    rules[key := (if key in rules then rules[key] else []) + [node]]
  }

  /** The rule of a line split at white space, its terms normalised in
      order; a missing term is an index out of range. */
  function ReadRule(prefixes: map<string, string>, parts: seq<string>, sql: string): (r: Result<MapNode>)
    requires |parts| > 0
    ensures r.Ok? ==> (|parts| >= 3 && r.value.sql == sql
      && NormalizePrefix(prefixes, parts[0]) == Ok(r.value.dbString)
      && NormalizePrefix(prefixes, parts[1]) == Ok(r.value.pred)
      && NormalizePrefix(prefixes, parts[2]) == Ok(r.value.obj))
    ensures r.Err? ==> r.error == InvalidDataError || r.error == IndexOutOfRangeError
    ensures |parts| < 3 && (forall k :: 0 <= k < |parts| ==> NormalizePrefix(prefixes, parts[k]).Ok?) ==>
      r == Err(IndexOutOfRangeError)
  {
    var subject :- NormalizePrefix(prefixes, parts[0]);
    if |parts| < 2 then Err(IndexOutOfRangeError)
    else
      var property :- NormalizePrefix(prefixes, parts[1]);
      if |parts| < 3 then Err(IndexOutOfRangeError)
      else
        var target :- NormalizePrefix(prefixes, parts[2]);
        Ok(MapNode(subject, property, target, sql))
  }

  /** `ReadMappings` over the lines of the file: a `PREFIX` line registers
      a prefix; any other line is a rule, followed by its SQL lines. The
      mapping changed so far, and the exception that stopped the reading,
      if any. */
  function ReadLines(lines: seq<string>, m: Mapping): (r: (Mapping, Option<Error>))
    decreases |lines|
  {
    if |lines| == 0 then (m, None)
    else
      var parts := Split(lines[0], WhiteSpace);
      if parts[0] == "PREFIX" then
        if |parts| < 3 then (m, Some(IndexOutOfRangeError))
        else ReadLines(lines[1..], m.(prefixes := m.prefixes[RemoveChar(parts[1], ':') := parts[2]]))
      else
        var n := SqlRun(lines[1..]);
        var sql := Trim(SqlText(lines[1..1 + n]), SqlTrim);
        var node := ReadRule(m.prefixes, parts, sql);
        if node.Err? then (m, Some(node.error))
        else ReadLines(lines[1 + n..], m.(rules := AddRule(m.rules, RuleKey(node.value.pred, node.value.obj), node.value)))
  }

  /** Reading only adds: every prefix stays registered, and every key keeps
      its rules, later rules of the file coming after them. */
  lemma {:induction false} ReadLinesGrows(lines: seq<string>, m: Mapping)
    ensures var r := ReadLines(lines, m).0;
      && m.prefixes.Keys <= r.prefixes.Keys
      && forall k :: k in m.rules ==> k in r.rules && m.rules[k] <= r.rules[k]
    decreases |lines|
  {
    if |lines| > 0 {
      var parts := Split(lines[0], WhiteSpace);
      if parts[0] == "PREFIX" {
        if |parts| >= 3 {
          ReadLinesGrows(lines[1..], m.(prefixes := m.prefixes[RemoveChar(parts[1], ':') := parts[2]]));
        }
      } else {
        var n := SqlRun(lines[1..]);
        var sql := Trim(SqlText(lines[1..1 + n]), SqlTrim);
        var node := ReadRule(m.prefixes, parts, sql);
        if node.Ok? {
          var m' := m.(rules := AddRule(m.rules, RuleKey(node.value.pred, node.value.obj), node.value));
          RuleLine(lines, m, n, node.value);
          ReadLinesGrows(lines[1 + n..], m');
          var r := ReadLines(lines, m).0;
          forall k | k in m.rules
            ensures m.rules[k] <= r.rules[k]
          {
            assert m.rules[k] <= m'.rules[k];
          }
        }
      }
    }
  }

  /** A rule line that reads files its rule and goes on after its SQL lines. */
  lemma RuleLine(lines: seq<string>, m: Mapping, n: nat, node: MapNode)
    requires |lines| > 0 && Split(lines[0], WhiteSpace)[0] != "PREFIX"
    requires n == SqlRun(lines[1..])
    requires ReadRule(m.prefixes, Split(lines[0], WhiteSpace), Trim(SqlText(lines[1..1 + n]), SqlTrim)) == Ok(node)
    ensures ReadLines(lines, m) == ReadLines(lines[1 + n..], m.(rules := AddRule(m.rules, RuleKey(node.pred, node.obj), node)))
  {
  }

  /** A `PREFIX` line registers its name without the colon and leaves the
      rules alone. */
  lemma PrefixLine(line: string, rest: seq<string>, m: Mapping)
    requires var parts := Split(line, WhiteSpace); parts[0] == "PREFIX" && |parts| >= 3
    ensures var parts := Split(line, WhiteSpace);
      ReadLines([line] + rest, m) == ReadLines(rest, Mapping(m.rules, m.prefixes[RemoveChar(parts[1], ':') := parts[2]]))
    ensures ':' !in RemoveChar(Split(line, WhiteSpace)[1], ':')
  {
    assert ([line] + rest)[1..] == rest;
  }

  /** A rule with constant predicate and object is what the lookup finds
      for that predicate and object, unless a rule was filed under the same
      key before it: the first rule read wins. */
  lemma LookupAfterAdd(rules: map<string, seq<MapNode>>, node: MapNode, subj: string)
    requires !HasPlaceholder(node.pred) && !HasPlaceholder(node.obj)
    ensures var key := node.pred + " " + node.obj;
      GetMapNode(AddRule(rules, RuleKey(node.pred, node.obj), node), subj, node.pred, node.obj) ==
        Ok(Some(if key in rules && |rules[key]| > 0 then rules[key][0] else node))
  {
  }

  /** A rule whose object is a template is filed under its predicate; the
      lookup by predicate finds the first rule filed there whose object is
      the same text. */
  lemma LookupByPredicate(rules: map<string, seq<MapNode>>, node: MapNode, subj: string, obj: string)
    requires !HasPlaceholder(node.pred) && HasPlaceholder(node.obj)
    requires node.pred + " " + obj !in rules
    ensures var filed := (if node.pred in rules then rules[node.pred] else []) + [node];
      GetMapNode(AddRule(rules, RuleKey(node.pred, node.obj), node), subj, node.pred, obj) ==
        Ok(FindByObject(filed, obj))
  {
    var key := RuleKey(node.pred, node.obj);
    assert key == node.pred;
    assert node.pred + " " + obj != key by {
      assert |node.pred + " " + obj| > |key|;
    }
  }
}

=== FILE: mediator.dfy ===
/** The mediator's query-time work (`ResolveBGPsFromDB` and its helpers):
    every triple pattern of the query's algebra is classified by the
    databases its terms belong to and turned into loader calls, or, when no
    term belongs to a database, into queries over the equivalent source
    properties of the federated schema. The triples derived on the way are
    appended, in order, to one accumulator.

    The loaders, the ontology and the nested SPARQL engine are outside the
    model; they are the fields of `Oracles`. */
module Mediator {
  import opened Wrappers
  import opened Strings
  import opened Rdf
  import opened UriCodec
  import opened Sources
  import opened LoaderFactory
  import opened Federated

  /** The algebra of a parsed query as the walk sees it: a basic graph
      pattern, an operator over one inner algebra (filter, projection,
      distinct, …), a join of two (join, left join, union, …), or anything
      else. */
  datatype Algebra =
    | Bgp(patterns: seq<TriplePattern>)
    | Unary(inner: Algebra)
    | Join(lhs: Algebra, rhs: Algebra)
    | Other

  /** A call into a loader, with the arguments the mediator passes. */
  datatype Fetch =
      /** `GetTriplesForSubject`: the row `keyColumn = keyValue` of `table`,
          restricted by a bound predicate column or a bound object. */
    | ForSubject(loader: Loader, table: string, keyColumn: string, keyValue: string, prefix: string,
                 predColumn: Option<string>, obj: Option<string>)
      /** `GetTriplesForPredicateObject`: the column `column` of every row
          of `table`, or the rows where it equals a bound object. */
    | ForPredicateObject(loader: Loader, table: string, column: string, prefix: string, obj: Option<string>)
      /** `GetTriplesForPredicateObject_ObjProperty`: the rows of `lhsTable`
          linked through `nmTable` to `rhsTable`, optionally only those
          linked to the row `key.0 = key.1`. */
    | ForObjectProperty(loader: Loader, lhsTable: string, nmTable: string, rhsTable: string, prefix: string,
                        key: Option<(string, string)>)

  /** What a nested query (`QuerySparqlFromDB`) yields: the triples its own
      resolution appended to the accumulator, and its result rows as
      (first, second) bound values. */
  datatype QueryAnswer = QueryAnswer(derived: seq<GraphTriple>, rows: seq<(string, string)>)

  /** The side calls of the mediator. */
  datatype Oracles = Oracles(
    /** `Uri.IsWellFormedUriString(_, UriKind.Absolute)`. */
    wellFormed: string -> bool,
    /** A loader call and the raw triples it returns, or the exception it raises. */
    fetch: Fetch -> Result<seq<Triple>>,
    /** `GetTableNames()` of a loader. */
    tableNames: Loader -> seq<string>,
    /** `TryResolveObjectProperty`: the ranges of the object property with
        this URI, or `None` when the ontology has no such object property. */
    objectPropertyRanges: string -> Option<seq<string>>,
    /** The `rdfs:range` values of a property. */
    ranges: string -> seq<string>,
    /** `GetEquivalentProperties`: the properties equivalent to a federated one. */
    equivalents: string -> seq<string>,
    /** The properties whose `rdfs:range` is the given class. */
    propertiesWithRange: string -> seq<string>,
    /** `GetSuperOntologyClassesURI`. */
    superClasses: string -> seq<string>,
    /** `QuerySparqlFromDB` of a query text. */
    query: string -> Result<QueryAnswer>)

  /** The mediator's state: the database URIs (`dbURIs`) and the loader
      registry. */
  datatype State = State(dbUris: DbUris, registry: Registry)

  /** The state after a call, and the exception the call ended with, if any. */
  datatype Step = Step(state: State, failure: Option<Error>)

  // ---------------------------------------------------------------------
  // Registering a database
  // ---------------------------------------------------------------------

  /** `AddDBInfo`: the loader type is registered for the connection string,
      then the database URI is added. A failure of the second step leaves
      the registration of the first in place. */
  function AddDbInfo(st: State, connString: string, dbUri: string, t: LoaderType): (r: Step)
    ensures r.failure.Some? ==> r.failure.value == ArgumentError
    ensures r.failure.Some? ==> r.state.dbUris == st.dbUris
  {
    var reg := Register(st.registry, t, [connString]);
    if reg.failure.Some? then
      Step(State(st.dbUris, reg.registry), reg.failure)
    else
      var added := AddDbUri(st.dbUris, dbUri, connString);
      if added.Err? then Step(State(st.dbUris, reg.registry), Some(added.error))
      else Step(State(added.value, reg.registry), None)
  }

  /** Registration fails exactly when the type is not a loader, the
      connection string is new and empty, or the database URI is already
      registered. */
  lemma AddDbInfoOutcome(st: State, connString: string, dbUri: string, t: LoaderType)
    ensures AddDbInfo(st, connString, dbUri, t).failure.None? <==>
      t.implementsLoader && (connString in st.registry || |connString| > 0) && AddDbUri(st.dbUris, dbUri, connString).Ok?
  {
    if t.implementsLoader {
      var rest: seq<string> := [connString][1..];
      assert rest == [];
      assert RegisterEach(st.registry, t, rest) == Registered(st.registry, None);
      assert RegisterEach(st.registry[connString := t], t, rest) == Registered(st.registry[connString := t], None);
    }
  }

  /** What the mediator keeps true of its state. */
  predicate ValidState(st: State)
  {
    DistinctKeys(st.dbUris) && Valid(st.registry)
  }

  /** Registering a database keeps the state valid, whatever the outcome. */
  lemma AddDbInfoValid(st: State, connString: string, dbUri: string, t: LoaderType)
    requires ValidState(st)
    ensures ValidState(AddDbInfo(st, connString, dbUri, t).state)
  {
    RegisterValid(st.registry, t, [connString]);
  }

  /** After a successful registration, a URI that no earlier database
      claimed and that starts with the new database URI is classified to
      the new connection string, whose loader can then be made. */
  lemma AddDbInfoClassifies(st: State, connString: string, dbUri: string, t: LoaderType, uri: string)
    requires ValidState(st)
    requires AddDbInfo(st, connString, dbUri, t).failure.None?
    requires Classify(st.dbUris, uri).None? && IsPrefix(dbUri, CleanUri(uri))
    ensures var st' := AddDbInfo(st, connString, dbUri, t).state;
      && Classify(st'.dbUris, uri) == Some(connString)
      && GetLoader(st'.registry, Some(connString)) ==
           Ok(Loader(if connString in st.registry then st.registry[connString] else t, connString))
  {
    assert "" !in st.registry;
    ClassifyAppend(st.dbUris, dbUri, connString, uri);
    RegisterThenGet(st.registry, t, [connString], connString);
  }

  // ---------------------------------------------------------------------
  // Raw triples
  // ---------------------------------------------------------------------

  /** `AddRawTripleToList`: subject and predicate become URI nodes; the
      object a literal node when it is a literal value, a URI node
      otherwise. */
  function GraphTripleOf(t: Triple, wellFormed: string -> bool): (g: GraphTriple)
    ensures g.subj == t.subj && g.pred == t.pred && g.obj.Text() == t.obj
    ensures g.obj.LiteralNode? <==> IsLiteralValue(t.obj, wellFormed)
  {
    GraphTriple(t.subj, t.pred, NodeOf(t.obj, wellFormed))
  }

  /** The raw triples of a loader call, added one by one in order. */
  function AddRaw(ts: seq<Triple>, wellFormed: string -> bool): (gs: seq<GraphTriple>)
    ensures |gs| == |ts|
    ensures forall i :: 0 <= i < |ts| ==> gs[i] == GraphTripleOf(ts[i], wellFormed)
  {
    if |ts| == 0 then [] else [GraphTripleOf(ts[0], wellFormed)] + AddRaw(ts[1..], wellFormed)
  }

  /** A loader call whose raw triples are added. */
  function Fetched(f: Fetch, o: Oracles): (r: Result<seq<GraphTriple>>)
    ensures o.fetch(f).Err? ==> r == Err(o.fetch(f).error)
    ensures o.fetch(f).Ok? ==> r == Ok(AddRaw(o.fetch(f).value, o.wellFormed))
  {
    var raw :- o.fetch(f);
    Ok(AddRaw(raw, o.wellFormed))
  }

  // ---------------------------------------------------------------------
  // Patterns over the federated schema
  // ---------------------------------------------------------------------

  /** The result rows of a nested query in federated terms, each added. */
  function FederatedRows(tp: TriplePattern, rows: seq<(string, string)>, o: Oracles): (r: Result<seq<GraphTriple>>)
    ensures r.Ok? ==> |r.value| == |rows|
    decreases |rows|
  {
    if |rows| == 0 then Ok([])
    else
      var t :- FederatedRowTriple(tp, rows[0], o.wellFormed, o.superClasses);
      var rest :- FederatedRows(tp, rows[1..], o);
      Ok([GraphTripleOf(t, o.wellFormed)] + rest)
  }

  /** `QuerySparqlFromDB` on `text`, followed by the translation of its
      rows: what the nested resolution appended comes first. */
  function Queried(tp: TriplePattern, text: string, o: Oracles): (r: Result<seq<GraphTriple>>)
    ensures o.query(text).Err? ==> r == Err(o.query(text).error)
    ensures r.Ok? ==> o.query(text).Ok? && o.query(text).value.derived <= r.value
  {
    var answer :- o.query(text);
    var rows :- FederatedRows(tp, answer.rows, o);
    Ok(answer.derived + rows)
  }

  /** The query for one equivalent property `p` of the pattern's federated
      predicate: with a literal object, the object as written; with a
      federated individual as object, its individual in the source of `p`
      (a federated identifier that cannot be converted skips `p`); with a
      variable object, the variable's bare name. */
  function EquivalentStep(tp: TriplePattern, p: string, o: Oracles): (r: Result<seq<GraphTriple>>)
  {
    var objText := tp.obj.Text();
    if IsLiteralValue(objText, o.wellFormed) then
      Queried(tp, "SELECT * WHERE { ?subj <" + p + "> " + objText + " } ", o)
    else if tp.obj.Bound? then
      var source := ConvertAsWritten(objText, p, o.ranges);
      if source == Err(InvalidOperationError) then Ok([])
      else
        var uri :- source;
        Queried(tp, "SELECT * WHERE { ?subj <" + p + "> <" + uri + "> } ", o)
    else
      Queried(tp, "SELECT * WHERE { ?subj <" + p + "> " + tp.obj.name + " } ", o)
  }

  /** An equivalent property whose database name occurs nowhere in the
      federated individual is skipped: `IndexOf` finds no piece, the
      conversion raises `InvalidOperationException`, and the loop goes on
      to the next property with nothing added. */
  lemma EquivalentSkipsForeignIndividual(tp: TriplePattern, p: string, o: Oracles, info: PropertyUri)
    requires tp.obj.Bound? && !IsLiteralValue(tp.obj.Text(), o.wellFormed)
    requires ParsePropertyUri(Trim(p, AngleBrackets)) == Ok(info)
    requires !Contains(Trim(tp.obj.Text(), AngleBrackets), info.db)
    ensures EquivalentStep(tp, p, o) == Ok([])
  {
    assert SourceKeyAsWritten(Trim(tp.obj.Text(), AngleBrackets), info.db) == Err(InvalidOperationError);
  }

  /** The loop over the equivalent properties, in the order the ontology
      lists them. */
  function EquivalentSteps(tp: TriplePattern, props: seq<string>, o: Oracles): (r: Result<seq<GraphTriple>>)
    ensures |props| == 0 ==> r == Ok([])
    decreases |props|
  {
    if |props| == 0 then Ok([])
    else
      var head :- EquivalentStep(tp, props[0], o);
      var rest :- EquivalentSteps(tp, props[1..], o);
      Ok(head + rest)
  }

  /** `?s ?p <federated individual>`: one nested query per federated
      property whose range is the individual's class; only what those
      queries append is kept. */
  function RangeQueries(objText: string, props: seq<string>, o: Oracles): (r: Result<seq<GraphTriple>>)
    ensures |props| == 0 ==> r == Ok([])
    decreases |props|
  {
    if |props| == 0 then Ok([])
    else
      var answer :- o.query("SELECT * WHERE { ?subj <" + Trim(props[0], AngleBrackets) + "> " + objText + " }");
      var rest :- RangeQueries(objText, props[1..], o);
      Ok(answer.derived + rest)
  }

  /** The bound-object part of the federated block: nothing more for a
      bound predicate (its queries were issued above); for a variable
      predicate and an individual as object, the range queries; a literal
      object is refused with `NotImplementedException`. */
  function FederatedObject(tp: TriplePattern, o: Oracles): (r: Result<seq<GraphTriple>>)
    requires tp.obj.Bound?
  {
    var objText := tp.obj.Text();
    if tp.pred.Bound? then Ok([])
    else if IsLiteralValue(objText, o.wellFormed) then Err(NotImplementedError)
    else
      var info :- ParseIndividualUri(Trim(objText, AngleBrackets));
      RangeQueries(objText, o.propertiesWithRange(info.prefix + info.db + "/" + info.table), o)
  }

  /** A pattern none of whose terms belongs to a database: its subject must
      be a variable (`InvalidOperationException` otherwise); a bound
      predicate is answered through its equivalent source properties, then
      a bound object through the federated properties of its class. */
  function FederatedPattern(tp: TriplePattern, o: Oracles): (r: Result<seq<GraphTriple>>)
    ensures tp.subj.Bound? ==> r == Err(InvalidOperationError)
    ensures tp.subj.Variable? && tp.pred.Variable? && tp.obj.Variable? ==> r.Ok? && |r.value| == 0
  {
    if tp.subj.Bound? then Err(InvalidOperationError)
    else
      var byPredicate :- if tp.pred.Bound? then EquivalentSteps(tp, o.equivalents(tp.pred.Text()), o) else Ok([]);
      var byObject :- if tp.obj.Bound? then FederatedObject(tp, o) else Ok([]);
      Ok(byPredicate + byObject)
  }

  // ---------------------------------------------------------------------
  // Patterns over the sources
  // ---------------------------------------------------------------------

  /** The key column and key value of an individual object written as
      `<…/column.value>`: the text before the last `.`, after its last `/`,
      and the text after the last `.` without trailing `>`. An object with
      no `.` makes `Substring(0, -1)` raise `ArgumentOutOfRangeException`. */
  function ObjectKey(objText: string): (r: Result<(string, string)>)
    ensures r.Err? <==> '.' !in objText
    ensures r.Err? ==> r.error == ArgumentOutOfRangeError
  {
    var dot := LastIndexOf(objText, '.');
    if dot == -1 then Err(ArgumentOutOfRangeError)
    else
      var head := objText[..dot];
      Ok((head[LastIndexOf(head, '/') + 1..], TrimEnd(objText[dot + 1..], {'>'})))
  }

  /** The predicate as `TryResolveObjectProperty` compares it: with every
      angle bracket removed. */
  function BareUri(text: string): string
  {
    RemoveChar(RemoveChar(text, '<'), '>')
  }

  /** The table named by a range URI: the text after its last `/`. */
  function RangeTable(range: string): string
  {
    range[LastIndexOf(range, '/') + 1..]
  }

  /** `ResolveTriplesForPredObj_ObjectProperty`: the predicate's database
      (`predConn`, null when the predicate is not classified, which makes
      `GetDBLoader` raise `ArgumentNullException`) must hold an object
      property; the right-hand table is named by its first range, and a
      bound object restricts the rows to the one it names. */
  function ObjectPropertyStep(st: State, tp: TriplePattern, predConn: Option<string>, o: Oracles): (r: Result<seq<GraphTriple>>)
    ensures predConn.None? ==> r == Err(ArgumentNullError)
    ensures predConn.Some? && predConn.value !in st.registry ==> r == Err(ArgumentError)
  {
    var loader :- GetLoader(st.registry, predConn);
    var info :- ParsePropertyUri(tp.pred.Text());
    var ranges := o.objectPropertyRanges(BareUri(tp.pred.Text()));
    if ranges.None? then Err(ArgumentError)
    else if |ranges.value| == 0 then Err(InvalidOperationError)
    else
      var rhs := RangeTable(ranges.value[0]);
      var key :- if tp.obj.Bound? then (var k :- ObjectKey(tp.obj.Text()); Ok(Some(k))) else Ok(None);
      Fetched(ForObjectProperty(loader, info.table, info.column, rhs, info.prefix + info.db, key), o)
  }

  /** A subject that belongs to the database `conn`: the subject fetch for
      its row, restricted by the predicate's column and by the object
      (without angle brackets) when they are bound. */
  function SubjectPart(st: State, tp: TriplePattern, conn: string, o: Oracles): (r: Result<seq<GraphTriple>>)
    ensures conn !in st.registry ==> r == Err(ArgumentError)
  {
    var loader :- GetLoader(st.registry, Some(conn));
    var info :- ParseIndividualUri(tp.subj.Text());
    var predColumn :- if tp.pred.Variable? then Ok(None)
                      else (var p :- ParsePropertyUri(tp.pred.Text()); Ok(Some(p.column)));
    var obj := if tp.obj.Variable? then None else Some(Trim(tp.obj.Text(), AngleBrackets));
    Fetched(ForSubject(loader, info.table, info.column, info.value, info.prefix + info.db, predColumn, obj), o)
  }

  /** A predicate that belongs to the database `conn`. A literal object
      selects the rows holding it; an object of a database goes through the
      object-property step; a variable object fetches the whole column, or,
      for an object property whose range names one of the loader's tables,
      the linked rows. */
  function PredicatePart(st: State, tp: TriplePattern, conn: string, objConn: Option<string>, o: Oracles): (r: Result<seq<GraphTriple>>)
  {
    var objText := tp.obj.Text();
    if tp.obj.Bound? then
      if IsLiteralValue(objText, o.wellFormed) then
        var loader :- GetLoader(st.registry, Some(conn));
        var info :- ParsePropertyUri(tp.pred.Text());
        Fetched(ForPredicateObject(loader, info.table, info.column, info.prefix + info.db, Some(objText)), o)
      else if objConn.Some? then ObjectPropertyStep(st, tp, Some(conn), o)
      else Ok([])
    else
      var loader :- GetLoader(st.registry, Some(conn));
      var info :- ParsePropertyUri(tp.pred.Text());
      var ranges := o.objectPropertyRanges(BareUri(tp.pred.Text()));
      var prefix := info.prefix + info.db;
      if ranges.Some? then
        if |ranges.value| == 0 then Err(InvalidOperationError)
        else
          var rhs := RangeTable(ranges.value[0]);
          if rhs in o.tableNames(loader) then
            Fetched(ForObjectProperty(loader, info.table, info.column, rhs, prefix, None), o)
          else Fetched(ForPredicateObject(loader, info.table, info.column, prefix, None), o)
      else Fetched(ForPredicateObject(loader, info.table, info.column, prefix, None), o)
  }

  /** The classification of the three terms of a pattern. */
  datatype Classes = Classes(subj: Option<string>, pred: Option<string>, obj: Option<string>)

  function ClassesOf(st: State, tp: TriplePattern): Classes
  {
    Classes(Classify(st.dbUris, tp.subj.Text()), Classify(st.dbUris, tp.pred.Text()), Classify(st.dbUris, tp.obj.Text()))
  }

  /** The body of the loop over the patterns of a basic graph pattern, for
      a pattern whose terms are classified as `c`: the federated block when
      no term is classified; otherwise the subject, predicate and object
      parts, each for its classified term, in that order. */
  function Dispatch(st: State, tp: TriplePattern, c: Classes, o: Oracles): (r: Result<seq<GraphTriple>>)
  {
    if c.subj.None? && c.pred.None? && c.obj.None? then FederatedPattern(tp, o)
    else
      InOrder(if c.subj.Some? then SubjectPart(st, tp, c.subj.value, o) else Ok([]),
              if c.pred.Some? then PredicatePart(st, tp, c.pred.value, c.obj, o) else Ok([]),
              if c.obj.Some? then ObjectPropertyStep(st, tp, c.pred, o) else Ok([]))
  }

  /** Three parts run one after the other: their triples in order, or the
      exception of the first that fails. */
  function InOrder(first: Result<seq<GraphTriple>>, second: Result<seq<GraphTriple>>,
                   third: Result<seq<GraphTriple>>): (r: Result<seq<GraphTriple>>)
    ensures r.Ok? <==> first.Ok? && second.Ok? && third.Ok?
    ensures r.Ok? ==> r.value == first.value + second.value + third.value
    ensures first.Err? ==> r == first
    ensures first.Ok? && second.Err? ==> r == second
    ensures first.Ok? && second.Ok? && third.Err? ==> r == third
  {
    var a :- first;
    var b :- second;
    var c :- third;
    Ok(a + b + c)
  }

  function ResolvePattern(st: State, tp: TriplePattern, o: Oracles): Result<seq<GraphTriple>>
  {
    Dispatch(st, tp, ClassesOf(st, tp), o)
  }

  // ---------------------------------------------------------------------
  // The walk
  // ---------------------------------------------------------------------

  /** The patterns of a basic graph pattern, resolved in order by
      `resolve`; each pattern's triples are appended to the accumulator,
      and the first exception ends the walk. */
  function Patterns(ps: seq<TriplePattern>, resolve: TriplePattern -> Result<seq<GraphTriple>>,
                    acc: seq<GraphTriple>): (r: Result<seq<GraphTriple>>)
    ensures r.Ok? ==> acc <= r.value
    decreases |ps|
  {
    if |ps| == 0 then Ok(acc)
    else
      var d :- resolve(ps[0]);
      Patterns(ps[1..], resolve, acc + d)
  }

  /** The recursion of `ResolveBGPsFromDB`: a basic graph pattern resolves
      its patterns, an operator recurses into its inner algebra, a join
      into its left and then its right side, and anything else contributes
      nothing. */
  function Walk(a: Algebra, resolve: TriplePattern -> Result<seq<GraphTriple>>, acc: seq<GraphTriple>): (r: Result<seq<GraphTriple>>)
  {
    match a
    case Bgp(ps) => Patterns(ps, resolve, acc)
    case Unary(inner) => Walk(inner, resolve, acc)
    case Join(lhs, rhs) =>
      var mid :- Walk(lhs, resolve, acc);
      Walk(rhs, resolve, mid)
    case Other => Ok(acc)
  }

  /** `ResolveBGPsFromDB` with the mediator's state and side calls. */
  function ResolveBgps(a: Algebra, st: State, o: Oracles, acc: seq<GraphTriple>): Result<seq<GraphTriple>>
  {
    Walk(a, tp => ResolvePattern(st, tp, o), acc)
  }

  /** The patterns of an algebra, left to right. */
  function Leaves(a: Algebra): seq<TriplePattern>
  {
    match a
    case Bgp(ps) => ps
    case Unary(inner) => Leaves(inner)
    case Join(lhs, rhs) => Leaves(lhs) + Leaves(rhs)
    case Other => []
  }

  /** Resolving two runs of patterns one after the other is resolving their
      concatenation. */
  lemma {:induction false} PatternsAppend(p1: seq<TriplePattern>, p2: seq<TriplePattern>,
                                          resolve: TriplePattern -> Result<seq<GraphTriple>>, acc: seq<GraphTriple>)
    ensures Patterns(p1 + p2, resolve, acc) ==
      (var mid := Patterns(p1, resolve, acc); if mid.Err? then mid else Patterns(p2, resolve, mid.value))
    decreases |p1|
  {
    if |p1| == 0 {
      assert p1 + p2 == p2;
    } else {
      assert (p1 + p2)[0] == p1[0] && (p1 + p2)[1..] == p1[1..] + p2;
      var d := resolve(p1[0]);
      if d.Ok? {
        PatternsAppend(p1[1..], p2, resolve, acc + d.value);
      }
    }
  }

  /** The walk resolves exactly the patterns of the algebra, left to
      right, whatever its operators and joins. */
  lemma {:induction false} WalkIsPatterns(a: Algebra, resolve: TriplePattern -> Result<seq<GraphTriple>>, acc: seq<GraphTriple>)
    ensures Walk(a, resolve, acc) == Patterns(Leaves(a), resolve, acc)
  {
    match a
    case Bgp(ps) =>
    case Unary(inner) =>
      WalkIsPatterns(inner, resolve, acc);
    case Join(lhs, rhs) =>
      WalkIsPatterns(lhs, resolve, acc);
      var mid := Walk(lhs, resolve, acc);
      if mid.Ok? {
        WalkIsPatterns(rhs, resolve, mid.value);
      }
      PatternsAppend(Leaves(lhs), Leaves(rhs), resolve, acc);
    case Other =>
  }

  /** The accumulator is only appended to: what the patterns derive does
      not depend on what was there before. */
  lemma {:induction false} PatternsFrame(ps: seq<TriplePattern>, resolve: TriplePattern -> Result<seq<GraphTriple>>,
                                         acc: seq<GraphTriple>)
    ensures var r := Patterns(ps, resolve, acc);
            var alone := Patterns(ps, resolve, []);
      && (r.Ok? <==> alone.Ok?)
      && (r.Err? ==> r == alone)
      && (r.Ok? ==> r.value == acc + alone.value)
    decreases |ps|
  {
    if |ps| > 0 {
      var d := resolve(ps[0]);
      if d.Ok? {
        PatternsFrame(ps[1..], resolve, acc + d.value);
        PatternsFrame(ps[1..], resolve, d.value);
        assert [] + d.value == d.value;
        var rest := Patterns(ps[1..], resolve, []);
        if rest.Ok? {
          assert acc + d.value + rest.value == acc + (d.value + rest.value);
        }
      }
    }
  }

  /** The walk appends to the accumulator and never rewrites it. */
  lemma WalkFrame(a: Algebra, resolve: TriplePattern -> Result<seq<GraphTriple>>, acc: seq<GraphTriple>)
    ensures var r := Walk(a, resolve, acc);
            var alone := Walk(a, resolve, []);
      && (r.Ok? <==> alone.Ok?)
      && (r.Err? ==> r == alone)
      && (r.Ok? ==> r.value == acc + alone.value)
  {
    WalkIsPatterns(a, resolve, acc);
    WalkIsPatterns(a, resolve, []);
    PatternsFrame(Leaves(a), resolve, acc);
  }

  // ---------------------------------------------------------------------
  // Properties of the dispatch
  // ---------------------------------------------------------------------

  /** A pattern whose terms belong to no database must have a variable
      subject: a bound one raises `InvalidOperationException`, and so does
      any query made of that one pattern. */
  lemma UnclassifiedBoundSubject(st: State, tp: TriplePattern, o: Oracles)
    requires ClassesOf(st, tp) == Classes(None, None, None) && tp.subj.Bound?
    ensures ResolvePattern(st, tp, o) == Err(InvalidOperationError)
    ensures forall a :: Leaves(a) == [tp] ==> ResolveBgps(a, st, o, []) == Err(InvalidOperationError)
  {
    forall a | Leaves(a) == [tp]
      ensures ResolveBgps(a, st, o, []) == Err(InvalidOperationError)
    {
      WalkIsPatterns(a, tp => ResolvePattern(st, tp, o), []);
    }
  }

  /** Only the object belongs to a database: the object-property step runs
      with a null connection string and raises `ArgumentNullException`. */
  lemma ObjectOnlyClassified(st: State, tp: TriplePattern, c: Classes, o: Oracles)
    requires c.subj.None? && c.pred.None? && c.obj.Some?
    ensures Dispatch(st, tp, c, o) == Err(ArgumentNullError)
  {
  }

  /** A pattern with a variable subject, a classified predicate and an
      object of a database runs the object-property step twice, once from
      the predicate part and once from the object part, so each of its
      triples is derived twice. */
  lemma ObjectPropertyTwice(st: State, tp: TriplePattern, c: Classes, o: Oracles)
    requires c.subj.None? && c.pred.Some? && c.obj.Some?
    requires tp.obj.Bound? && !IsLiteralValue(tp.obj.Text(), o.wellFormed)
    ensures var step := ObjectPropertyStep(st, tp, c.pred, o);
      Dispatch(st, tp, c, o) == if step.Err? then step else Ok(step.value + step.value)
  {
    var step := ObjectPropertyStep(st, tp, c.pred, o);
    assert Dispatch(st, tp, c, o) == InOrder(Ok([]), PredicatePart(st, tp, c.pred.value, c.obj, o), step);
    PredicateWithIndividual(st, tp, c.pred.value, c.obj, o);
    InOrderRepeated(step);
  }

  /** Running one result twice after an empty first part. */
  lemma InOrderRepeated(x: Result<seq<GraphTriple>>)
    ensures InOrder(Ok([]), x, x) == if x.Err? then x else Ok(x.value + x.value)
  {
    if x.Ok? {
      assert [] + x.value + x.value == x.value + x.value;
    }
  }

  /** A predicate part with an object of a database is the object-property
      step. */
  lemma PredicateWithIndividual(st: State, tp: TriplePattern, conn: string, objConn: Option<string>, o: Oracles)
    requires tp.obj.Bound? && !IsLiteralValue(tp.obj.Text(), o.wellFormed) && objConn.Some?
    ensures PredicatePart(st, tp, conn, objConn, o) == ObjectPropertyStep(st, tp, Some(conn), o)
  {
  }

  /** A pattern `?s <p> "literal"` whose predicate belongs to a registered
      database and parses as a column's property URI fetches the rows whose
      column holds the literal, through the loader of that database. */
  lemma PredicateWithLiteral(st: State, tp: TriplePattern, c: Classes, col: PropertyUri, o: Oracles)
    requires c.subj.None? && c.obj.None? && c.pred.Some? && c.pred.value in st.registry
    requires ParsePropertyUri(tp.pred.Text()) == Ok(col)
    requires tp.obj.Bound? && IsLiteralValue(tp.obj.Text(), o.wellFormed)
    ensures Dispatch(st, tp, c, o) ==
      Fetched(ForPredicateObject(Loader(st.registry[c.pred.value], c.pred.value), col.table, col.column,
                                 col.prefix + col.db, Some(tp.obj.Text())), o)
  {
    var r := PredicatePart(st, tp, c.pred.value, None, o);
    if r.Ok? {
      assert [] + r.value + [] == r.value;
    }
  }

  /** A pattern `<individual> ?p ?o` whose subject is an individual URI of
      a registered database fetches that whole row, through the loader of
      that database. */
  lemma SubjectRow(st: State, tp: TriplePattern, c: Classes, u: IndividualUri, o: Oracles)
    requires c.pred.None? && c.obj.None? && c.subj.Some? && c.subj.value in st.registry
    requires ParseIndividualUri(tp.subj.Text()) == Ok(u)
    requires tp.pred.Variable? && tp.obj.Variable?
    ensures Dispatch(st, tp, c, o) ==
      Fetched(ForSubject(Loader(st.registry[c.subj.value], c.subj.value), u.table, u.column, u.value,
                         u.prefix + u.db, None, None), o)
  {
    var r := SubjectPart(st, tp, c.subj.value, o);
    if r.Ok? {
      assert r.value + [] + [] == r.value;
    }
  }

  /** The key an individual object names: its key column and key value,
      when the value has no `.` and no `>`. */
  lemma ObjectKeyOfIndividual(u: IndividualUri)
    requires IndividualShape(u) && '.' !in u.value && '>' !in u.value
    ensures ObjectKey("<" + IndividualUriText(u) + ">") == Ok((u.column, u.value))
  {
    var front := "<" + u.prefix + u.db + "/" + u.table;
    assert "<" + IndividualUriText(u) + ">" == front + ['/'] + u.column + ['.'] + (u.value + ">");
    WordHasNoSeparator(u.column);
    ObjectKeyOfParts(front, u.column, u.value);
  }

  /** The key read from `front/column.value>`, when the column has no `/`
      and the value neither `.` nor `>`. */
  lemma ObjectKeyOfParts(front: string, column: string, value: string)
    requires '/' !in column && '.' !in value && '>' !in value
    ensures ObjectKey(front + ['/'] + column + ['.'] + (value + ">")) == Ok((column, value))
  {
    var head := front + ['/'] + column;
    var tail := value + ">";
    assert LastIndexOf(head + ['.'] + tail, '.') == |head| by {
      ValueTail(value);
      LastIndexOfSplit(head, '.', tail);
    }
    assert LastIndexOf(head, '/') == |front| by {
      LastIndexOfSplit(front, '/', column);
    }
    assert (head + ['.'] + tail)[..|head|] == head;
    assert (head + ['.'] + tail)[|head| + 1..] == tail;
    assert head[|front| + 1..] == column;
    ValueTail(value);
  }


  /** A value without `.` or `>`, closed by `>`: no `.` in it, and trimming
      the `>` gives the value back. */
  lemma ValueTail(value: string)
    requires '.' !in value && '>' !in value
    ensures '.' !in value + ">" && TrimEnd(value + ">", {'>'}) == value
  {
    var tail := value + ">";
    forall j | 0 <= j < |tail| ensures tail[j] != '.' {
      if j < |value| {
        assert tail[j] == value[j];
      }
    }
    assert tail[..|tail| - 1] == value;
    if |value| > 0 {
      assert value[|value| - 1] in value;
    }
  }


}

=== FILE: processor.dfy ===
/** `ExecuteSparql` up to the point where the query is evaluated: the
    triples derived from the databases for the query's patterns pass
    through the ambiguity pass and the fusion pass and are stored into the
    working graph. Loading the ontology, the reasoner and the evaluation of
    the query over the graph are side calls outside the model. */
module Processor {
  import opened Wrappers
  import opened Rdf
  import opened Mediator
  import AmbiguityPass
  import IfpFusion
  import Ambiguity

  /** The triples `ExecuteSparql` stores for algebra `a`, in the order they
      are asserted, with `ifps` the inverse functional properties of the
      ontology and `resolve` the ambiguity resolver. */
  function Stored(a: Algebra, st: State, o: Oracles, ifps: set<string>,
                  resolve: (string, string) -> string): Result<seq<GraphTriple>>
  {
    var derived :- ResolveBgps(a, st, o, []);
    var resolved :- AmbiguityPass.ResolveAmbiguities(derived, resolve, o.wellFormed);
    IfpFusion.MatchRecords(resolved, ifps, o.superClasses, o.wellFormed)
  }

  /** `ExecuteSparql` without a resolver argument uses the default one. */
  function StoredByDefault(a: Algebra, st: State, o: Oracles, ifps: set<string>): Result<seq<GraphTriple>>
  {
    Stored(a, st, o, ifps, Ambiguity.Resolve)
  }

  /** `QuerySparqlFromDB`: the same pipeline without the ambiguity pass. */
  function StoredUnresolved(a: Algebra, st: State, o: Oracles, ifps: set<string>): Result<seq<GraphTriple>>
  {
    var derived :- ResolveBgps(a, st, o, []);
    IfpFusion.MatchRecords(derived, ifps, o.superClasses, o.wellFormed)
  }

  /** What is stored depends on the algebra only through its patterns in
      left-to-right order: how they are nested in joins and unary
      operators does not matter. */
  lemma StoredByPatterns(a: Algebra, b: Algebra, st: State, o: Oracles, ifps: set<string>,
                         resolve: (string, string) -> string)
    requires Leaves(a) == Leaves(b)
    ensures Stored(a, st, o, ifps, resolve) == Stored(b, st, o, ifps, resolve)
    ensures StoredUnresolved(a, st, o, ifps) == StoredUnresolved(b, st, o, ifps)
  {
    WalkIsPatterns(a, tp => ResolvePattern(st, tp, o), []);
    WalkIsPatterns(b, tp => ResolvePattern(st, tp, o), []);
  }

  /** The ambiguity pass never fails, so the pipeline fails only with the
      exception of a source call or with the stem error of the fusion. */
  lemma StoredFailure(a: Algebra, st: State, o: Oracles, ifps: set<string>, resolve: (string, string) -> string)
    requires Stored(a, st, o, ifps, resolve).Err?
    ensures var derived := ResolveBgps(a, st, o, []);
      || (derived.Err? && Stored(a, st, o, ifps, resolve).error == derived.error)
      || (derived.Ok? && Stored(a, st, o, ifps, resolve).error == GeneralError)
  {
    var derived := ResolveBgps(a, st, o, []);
    if derived.Ok? {
      AmbiguityPass.ResolveAmbiguitiesClosedForm(derived.value, resolve, o.wellFormed);
      var resolved := AmbiguityPass.ResolveAmbiguities(derived.value, resolve, o.wellFormed).value;
      IfpFusion.MatchRecordsFails(resolved, ifps, o.superClasses, o.wellFormed);
    }
  }

  /** Derived triples with no conflicting objects and no inverse
      functional predicate are stored exactly as derived, with or without
      the ambiguity pass. */
  lemma StoredAsDerived(a: Algebra, st: State, o: Oracles, ifps: set<string>, resolve: (string, string) -> string,
                        derived: seq<GraphTriple>)
    requires ResolveBgps(a, st, o, []) == Ok(derived)
    requires forall i :: 0 <= i < |derived| ==> |AmbiguityPass.WithKey(derived, AmbiguityPass.KeyOf(derived[i]))| < 2
    requires forall i :: 0 <= i < |derived| ==> derived[i].pred !in ifps
    ensures Stored(a, st, o, ifps, resolve) == Ok(derived)
    ensures StoredUnresolved(a, st, o, ifps) == Ok(derived)
  {
    AmbiguityPass.NoAmbiguityNoChange(derived, resolve, o.wellFormed);
    IfpFusion.NoIfpStoresAll(derived, ifps, o.superClasses, o.wellFormed);
  }
}

=== FILE: rdf.dfy ===
/** RDF values exchanged between the mediator, the source loaders and the
    working graph. Nodes are represented by their printed form: a URI node by
    its URI, a literal node by its lexical text. */
module Rdf {

  /** A derived triple (`RawTriple` of a loader, or a `Triple` of the graph). */
  datatype Triple = Triple(subj: string, pred: string, obj: string)

  /** One position of a SPARQL triple pattern: a named variable, or a bound
      token written as the parser prints it (`<uri>` or `"literal"`). */
  datatype PatternItem = Variable(name: string) | Bound(text: string) {
    /** `ToString()` of the pattern item. */
    function Text(): string
    {
      match this
      case Variable(n) => "?" + n
      case Bound(t) => t
    }
  }

  datatype TriplePattern = TriplePattern(subj: PatternItem, pred: PatternItem, obj: PatternItem)

  /** A node of the working graph: a URI node or a literal node. */
  datatype Node = UriNode(uri: string) | LiteralNode(text: string) {
    /** `ToString()` of the node: the URI, or the literal's text. */
    function Text(): string
    {
      match this
      case UriNode(u) => u
      case LiteralNode(t) => t
    }
  }

  /** A triple of the working graph (`VDS.RDF.Triple`); subject and
      predicate are always URI nodes here, so they are kept as their URIs. */
  datatype GraphTriple = GraphTriple(subj: string, pred: string, obj: Node)
}

=== FILE: sources.dfy ===
/** Which registered database a URI of a triple pattern belongs to
    (`GetConnStringFromURI`), and whether a pattern term is a literal
    (`IsLiteralValue`). */
module Sources {
  import opened Wrappers
  import opened Strings
  import opened UriCodec
  import opened Rdf

  /** The mediator's `dbURIs` dictionary: database URI and connection string
      pairs in insertion order, which is the order a .NET dictionary that
      never loses an entry enumerates its keys in. */
  type DbUris = seq<(string, string)>

  /** No database URI is registered twice (`Dictionary.Add` refuses it). */
  predicate DistinctKeys(reg: DbUris)
  {
    forall i, j :: 0 <= i < j < |reg| ==> reg[i].0 != reg[j].0
  }

  /** `Dictionary.Add(dbUri, connString)`: a new key is appended; a key
      already present raises `ArgumentException` and changes nothing. */
  function AddDbUri(reg: DbUris, dbUri: string, connString: string): (r: Result<DbUris>)
    ensures r.Ok? <==> forall i :: 0 <= i < |reg| ==> reg[i].0 != dbUri
    ensures r.Ok? ==> r.value == reg + [(dbUri, connString)]
    ensures r.Err? ==> r.error == ArgumentError
    ensures r.Ok? && DistinctKeys(reg) ==> DistinctKeys(r.value)
  {
    if exists i :: 0 <= i < |reg| && reg[i].0 == dbUri then Err(ArgumentError)
    else Ok(reg + [(dbUri, connString)])
  }

  /** The URI as it is compared with the keys: angle brackets trimmed from
      both ends, then every space removed. */
  function CleanUri(uri: string): string
  {
    RemoveChar(Trim(uri, AngleBrackets), ' ')
  }

  /** The index of the first key, in registry order, that is a prefix of `s`. */
  function FirstPrefixKey(reg: DbUris, s: string): (r: Option<nat>)
    ensures r.Some? ==> r.value < |reg| && IsPrefix(reg[r.value].0, s)
    ensures r.Some? ==> forall j :: 0 <= j < r.value ==> !IsPrefix(reg[j].0, s)
    ensures r.None? ==> forall j :: 0 <= j < |reg| ==> !IsPrefix(reg[j].0, s)
    decreases |reg|
  {
    if |reg| == 0 then None
    else if IsPrefix(reg[0].0, s) then Some(0)
    else
      var r := FirstPrefixKey(reg[1..], s);
      if r.None? then None else Some(r.value + 1)
  }

  /** `GetConnStringFromURI`: the connection string of the first registered
      database URI that starts the cleaned URI, or null when none does. */
  function Classify(reg: DbUris, uri: string): Option<string>
  {
    var k := FirstPrefixKey(reg, CleanUri(uri));
    if k.None? then None else Some(reg[k.value].1)
  }

  /** A URI is classified exactly when some registered key starts its
      cleaned form, and then by the first such key in registry order. */
  lemma ClassifyFirstMatch(reg: DbUris, uri: string)
    ensures Classify(reg, uri).None? <==> forall j :: 0 <= j < |reg| ==> !IsPrefix(reg[j].0, CleanUri(uri))
    ensures Classify(reg, uri).Some? ==>
      exists j :: (&& 0 <= j < |reg| && IsPrefix(reg[j].0, CleanUri(uri))
                   && Classify(reg, uri).value == reg[j].1
                   && forall i :: 0 <= i < j ==> !IsPrefix(reg[i].0, CleanUri(uri)))
  {
    var k := FirstPrefixKey(reg, CleanUri(uri));
    if k.Some? {
      assert Classify(reg, uri).value == reg[k.value].1;
    }
  }

  /** The first matching key of a registry with one more entry at its end. */
  lemma {:induction false} FirstPrefixKeyAppend(reg: DbUris, entry: (string, string), s: string)
    ensures FirstPrefixKey(reg + [entry], s) ==
      if FirstPrefixKey(reg, s).Some? then FirstPrefixKey(reg, s)
      else if IsPrefix(entry.0, s) then Some(|reg|)
      else None
    decreases |reg|
  {
    if |reg| > 0 {
      assert (reg + [entry])[1..] == reg[1..] + [entry];
      FirstPrefixKeyAppend(reg[1..], entry, s);
    } else {
      assert reg + [entry] == [entry];
    }
  }

  /** Registering a further database never changes how an already
      classified URI is classified; an unclassified URI is classified by the
      new key exactly when that key starts it. */
  lemma ClassifyAppend(reg: DbUris, key: string, conn: string, uri: string)
    ensures Classify(reg, uri).Some? ==> Classify(reg + [(key, conn)], uri) == Classify(reg, uri)
    ensures Classify(reg, uri).None? ==>
      Classify(reg + [(key, conn)], uri) == (if IsPrefix(key, CleanUri(uri)) then Some(conn) else None)
  {
    FirstPrefixKeyAppend(reg, (key, conn), CleanUri(uri));
  }

  /** Classification is by the first key, not the longest: with a general
      database URI registered before a more specific one, a URI under the
      specific one still goes to the general database. */
  lemma ClassifyNotLongestPrefix()
    ensures Classify([("a/", "general"), ("a/b/", "specific")], "<a/b/c>") == Some("general")
  {
    var reg := [("a/", "general"), ("a/b/", "specific")];
    assert CleanUri("<a/b/c>") == "a/b/c" by {
      CleanExample();
    }
    assert IsPrefix(reg[0].0, "a/b/c");
  }

  /** The brackets of `<a/b/c>` are trimmed. */
  lemma CleanExample()
    ensures CleanUri("<a/b/c>") == "a/b/c"
  {
    var x := "a/b/c";
    assert ' ' !in x by {
      assert x == ['a', '/', 'b', '/', 'c'];
    }
    assert "<a/b/c>" == ['<'] + x + ['>'];
    TrimWrapped('<', x, '>', AngleBrackets);
  }


  // ---------------------------------------------------------------------
  // Literal test
  // ---------------------------------------------------------------------

  predicate AllWhiteSpace(s: string)
  {
    forall i :: 0 <= i < |s| ==> IsWhiteSpace(s[i])
  }

  /** Double quotes at both ends (one `"` alone counts). */
  predicate Quoted(v: string)
  {
    |v| > 0 && v[0] == '"' && v[|v| - 1] == '"'
  }

  /** Angle brackets at both ends. */
  predicate Bracketed(v: string)
  {
    |v| > 0 && v[0] == '<' && v[|v| - 1] == '>'
  }

  /** `IsLiteralValue`: after trimming white space, a non-blank term that is
      quoted or not bracketed, and that `Uri.IsWellFormedUriString(_,
      UriKind.Absolute)` (the parameter `wellFormed`) rejects. */
  function IsLiteralValue(value: string, wellFormed: string -> bool): bool
  {
    var v := Trim(value, WhiteSpace);
    if v == "" || AllWhiteSpace(v) then false
    else (Quoted(v) || !Bracketed(v)) && !wellFormed(v)
  }

  /** The node made for a term of a derived triple: a literal node when the
      term is a literal, a URI node otherwise. */
  function NodeOf(text: string, wellFormed: string -> bool): (n: Node)
    ensures n.Text() == text
    ensures n.LiteralNode? <==> IsLiteralValue(text, wellFormed)
  {
    if IsLiteralValue(text, wellFormed) then LiteralNode(text) else UriNode(text)
  }

  /** A blank term is never a literal. */
  lemma BlankNotLiteral(value: string, wellFormed: string -> bool)
    requires AllWhiteSpace(value)
    ensures !IsLiteralValue(value, wellFormed)
  {
    TrimStartDropped(value, WhiteSpace);
  }

  /** Leading white space does not change the verdict. */
  lemma LeadingSpaceIgnored(c: char, value: string, wellFormed: string -> bool)
    requires IsWhiteSpace(c)
    ensures IsLiteralValue([c] + value, wellFormed) == IsLiteralValue(value, wellFormed)
  {
    assert ([c] + value)[1..] == value;
  }

  /** The trimmed term decides: a term whose ends are not white space is a
      literal exactly when it is quoted or unbracketed and not a
      well-formed absolute URI. */
  lemma LiteralOfTrimmed(v: string, wellFormed: string -> bool)
    requires |v| > 0 && !IsWhiteSpace(v[0]) && !IsWhiteSpace(v[|v| - 1])
    ensures IsLiteralValue(v, wellFormed) <==> (Quoted(v) || !Bracketed(v)) && !wellFormed(v)
  {
    TrimUnchanged(v, WhiteSpace);
  }

  /** A bracketed IRI such as `<http://x/y>` is never a literal, and a
      quoted string is one unless it is itself a well-formed URI. */
  lemma BracketedNotLiteral(x: string, wellFormed: string -> bool)
    ensures !IsLiteralValue("<" + x + ">", wellFormed)
    ensures IsLiteralValue("\"" + x + "\"", wellFormed) <==> !wellFormed("\"" + x + "\"")
  {
    var b := "<" + x + ">";
    var q := "\"" + x + "\"";
    assert b[0] == '<' && b[|b| - 1] == '>';
    assert q[0] == '"' && q[|q| - 1] == '"';
    LiteralOfTrimmed(b, wellFormed);
    LiteralOfTrimmed(q, wellFormed);
  }
}

=== FILE: sparql_graph.dfy ===
/** The query tree of the older SQL-generation path (`SparqlGraph`,
    `Node`): nodes point to their parent and hold the list of their
    children; `GetAllNodes` walks the tree from the root with an explicit
    stack, and `TopologicalSort` orders the nodes so that every node comes
    before its parent.

    The objects of the source live here in an arena: a node is its index
    in a sequence, and a node created later gets a larger index. The
    topological marks, a mutable field of every node in the source, are a
    sequence beside the arena, indexed the same way. */
module SparqlGraph {
  import opened Wrappers

  /** The node classes, with what each constructor stores. */
  datatype Kind =
    | Terminal(subj: string, pred: string, obj: string)
    | Join(variables: seq<string>)
    | Project(projection: seq<string>)
    | Optional(joinCondition: string)
    | Union
    | Filter(expression: string)

  /** The runtime types `GetAllNodes` can be asked for. */
  datatype NodeType = TerminalType | JoinType | ProjectType | OptionalType | UnionType | FilterType

  /** `curr.GetType() == nodeType`. */
  predicate OfType(k: Kind, t: NodeType)
  {
    match k
    case Terminal(_, _, _) => t == TerminalType
    case Join(_) => t == JoinType
    case Project(_) => t == ProjectType
    case Optional(_) => t == OptionalType
    case Union => t == UnionType
    case Filter(_) => t == FilterType
  }

  /** A node: what it is, its parent, and its child list, `null` until a
      first child is attached. */
  datatype Node = Node(kind: Kind, parent: Option<nat>, children: Option<seq<nat>>)

  type Arena = seq<Node>

  datatype Mark = Unmarked | Tmp | Permanent

  // ---------------------------------------------------------------------
  // Shape of the tree
  // ---------------------------------------------------------------------

  /** Every parent was created before its child. */
  predicate ParentsBelow(g: Arena)
  {
    forall i :: 0 <= i < |g| && g[i].parent.Some? ==> g[i].parent.value < i
  }

  /** `cs` lists, in order of creation, nodes whose parent is `p`. */
  predicate ChildList(g: Arena, p: nat, cs: seq<nat>)
  {
    && (forall k :: 0 <= k < |cs| ==> p < cs[k] < |g| && g[cs[k]].parent == Some(p))
    && (forall k, l :: 0 <= k < l < |cs| ==> cs[k] < cs[l])
  }

  /** A child list, once there is one, holds only children of `i`. */
  predicate Listed(g: Arena, i: nat)
    requires i < |g|
  {
    g[i].children.Some? ==> ChildList(g, i, g[i].children.value)
  }

  /** A node with a parent is in the parent's child list. */
  predicate Linked(g: Arena, c: nat)
    requires c < |g|
  {
    g[c].parent.Some? ==>
      (var p := g[c].parent.value; p < |g| && g[p].children.Some? && c in g[p].children.value)
  }

  /** The links the constructor keeps. */
  predicate WellFormed(g: Arena)
  {
    && ParentsBelow(g)
    && (forall i :: 0 <= i < |g| ==> Listed(g, i))
    && (forall c :: 0 <= c < |g| ==> Linked(g, c))
  }

  /** The child list of `x`, empty when it is `null`. */
  function Kids(g: Arena, x: nat): (cs: seq<nat>)
    requires WellFormed(g) && x < |g|
    ensures ChildList(g, x, cs)
  {
    assert Listed(g, x);
    if g[x].children.Some? then g[x].children.value else []
  }

  /** The `Node(parent)` constructor: the new node records its parent and
      is appended to the parent's child list, which is created when the
      parent had none. Every node class goes through it. */
  function NewNode(g: Arena, kind: Kind, parent: Option<nat>): (r: Arena)
    requires WellFormed(g)
    requires parent.Some? ==> parent.value < |g|
    ensures WellFormed(r)
    ensures |r| == |g| + 1 && r[|g|] == Node(kind, parent, None)
    ensures parent.Some? ==>
      (r[parent.value].children == Some(Kids(g, parent.value) + [|g|]))
    ensures forall i :: 0 <= i < |g| && Some(i) != parent ==> r[i] == g[i]
  {
    NewNodeWellFormed(g, kind, parent);
    Attached(g, kind, parent)
  }

  function Attached(g: Arena, kind: Kind, parent: Option<nat>): Arena
    requires WellFormed(g)
    requires parent.Some? ==> parent.value < |g|
  {
    var created := Node(kind, parent, None);
    if parent.None? then g + [created]
    else g[parent.value := g[parent.value].(children := Some(Kids(g, parent.value) + [|g|]))] + [created]
  }

  /** Attaching a node keeps the links of the tree. */
  lemma NewNodeWellFormed(g: Arena, kind: Kind, parent: Option<nat>)
    requires WellFormed(g)
    requires parent.Some? ==> parent.value < |g|
    ensures WellFormed(Attached(g, kind, parent))
  {
    var r := Attached(g, kind, parent);
    assert forall x :: 0 <= x < |g| ==> r[x].parent == g[x].parent;
    forall i | 0 <= i < |r|
      ensures Listed(r, i)
    {
      AttachedListed(g, kind, parent, i);
    }
    forall c | 0 <= c < |r|
      ensures Linked(r, c)
    {
      AttachedLinked(g, kind, parent, c);
    }
  }

  lemma AttachedListed(g: Arena, kind: Kind, parent: Option<nat>, i: nat)
    requires WellFormed(g)
    requires parent.Some? ==> parent.value < |g|
    requires i <= |g|
    ensures Listed(Attached(g, kind, parent), i)
  {
    var r := Attached(g, kind, parent);
    assert forall x :: 0 <= x < |g| ==> r[x].parent == g[x].parent;
    if i < |g| {
      var cs := Kids(g, i);
      ChildListGrows(g, r, i, cs);
      if Some(i) == parent {
        assert r[i].children == Some(cs + [|g|]);
        ChildListSnoc(r, i, cs, |g|);
      } else {
        assert Listed(g, i);
        assert r[i] == g[i];
      }
    }
  }

  /** A child list stays one when nodes are added and no parent changes. */
  lemma ChildListGrows(g: Arena, r: Arena, p: nat, cs: seq<nat>)
    requires |g| <= |r|
    requires forall x :: 0 <= x < |g| ==> r[x].parent == g[x].parent
    requires ChildList(g, p, cs)
    ensures ChildList(r, p, cs)
    ensures forall k :: 0 <= k < |cs| ==> cs[k] < |g|
  {
  }

  /** A child list stays one when a newer child of the node is appended. */
  lemma ChildListSnoc(g: Arena, p: nat, cs: seq<nat>, n: nat)
    requires ChildList(g, p, cs)
    requires p < n < |g| && g[n].parent == Some(p)
    requires forall k :: 0 <= k < |cs| ==> cs[k] < n
    ensures ChildList(g, p, cs + [n])
  {
  }

  lemma AttachedLinked(g: Arena, kind: Kind, parent: Option<nat>, c: nat)
    requires WellFormed(g)
    requires parent.Some? ==> parent.value < |g|
    requires c <= |g|
    ensures Linked(Attached(g, kind, parent), c)
  {
    var r := Attached(g, kind, parent);
    if c < |g| && g[c].parent.Some? {
      assert Linked(g, c);
      var q := g[c].parent.value;
      assert r[c].parent == g[c].parent;
      if Some(q) == parent {
        assert Kids(g, q) == g[q].children.value;
        assert r[q].children.value == Kids(g, q) + [|g|];
      } else {
        assert r[q] == g[q];
      }
    } else if c == |g| && parent.Some? {
      assert r[parent.value].children.value == Kids(g, parent.value) + [|g|];
    }
  }

  // ---------------------------------------------------------------------
  // Descendants
  // ---------------------------------------------------------------------

  /** `a` is `y` or on the chain of parents above `y`. */
  predicate Ancestor(g: Arena, a: nat, y: nat)
    requires ParentsBelow(g) && y < |g|
    decreases y
  {
    y == a || (g[y].parent.Some? && Ancestor(g, a, g[y].parent.value))
  }

  /** Ancestors come first in the arena. */
  lemma {:induction false} AncestorBelow(g: Arena, a: nat, y: nat)
    requires ParentsBelow(g) && y < |g|
    requires Ancestor(g, a, y)
    ensures a <= y
    decreases y
  {
    if y != a {
      AncestorBelow(g, a, g[y].parent.value);
    }
  }

  /** The descendants of a child of `x` are descendants of `x`. */
  lemma {:induction false} AncestorThroughChild(g: Arena, x: nat, c: nat, y: nat)
    requires ParentsBelow(g) && y < |g| && c < |g|
    requires g[c].parent == Some(x) && Ancestor(g, c, y)
    ensures Ancestor(g, x, y)
    decreases y
  {
    if y != c {
      AncestorThroughChild(g, x, c, g[y].parent.value);
    }
  }

  /** A proper descendant of `x` lies below one of the children of `x`. */
  lemma {:induction false} ChildOnPath(g: Arena, x: nat, y: nat) returns (c: nat)
    requires WellFormed(g) && y < |g|
    requires Ancestor(g, x, y) && y != x
    ensures c < |g| && g[c].parent == Some(x) && Ancestor(g, c, y)
    ensures c in Kids(g, x)
    decreases y
  {
    var p := g[y].parent.value;
    if p == x {
      assert Linked(g, y);
      c := y;
    } else {
      c := ChildOnPath(g, x, p);
    }
  }

  /** Two ancestors of one node are ancestors of each other. */
  lemma {:induction false} AncestorsOrdered(g: Arena, a: nat, b: nat, y: nat)
    requires ParentsBelow(g) && y < |g|
    requires Ancestor(g, a, y) && Ancestor(g, b, y)
    ensures a < |g| && b < |g|
    ensures Ancestor(g, a, b) || Ancestor(g, b, a)
    decreases y
  {
    if y != a && y != b {
      AncestorsOrdered(g, a, b, g[y].parent.value);
    } else {
      AncestorBelow(g, a, y);
      AncestorBelow(g, b, y);
    }
  }

  /** Different children of one node have no descendant in common. */
  lemma SiblingsDisjoint(g: Arena, c: nat, d: nat, y: nat)
    requires ParentsBelow(g) && y < |g| && c < |g| && d < |g| && c != d
    requires g[c].parent.Some? && g[c].parent == g[d].parent
    requires Ancestor(g, c, y)
    ensures !Ancestor(g, d, y)
  {
    if Ancestor(g, d, y) {
      AncestorsOrdered(g, c, d, y);
      if Ancestor(g, c, d) {
        AncestorBelow(g, c, g[d].parent.value);
        assert false;
      } else {
        AncestorBelow(g, d, g[c].parent.value);
        assert false;
      }
    }
  }

  // ---------------------------------------------------------------------
  // The order of the stack walk
  // ---------------------------------------------------------------------

  function Reverse(s: seq<nat>): (r: seq<nat>)
    ensures |r| == |s|
    ensures forall i :: 0 <= i < |s| ==> r[i] == s[|s| - 1 - i]
  {
    if |s| == 0 then [] else [s[|s| - 1]] + Reverse(s[..|s| - 1])
  }

  /** The children of `x` in the order the stack gives them back: the last
      pushed comes out first. */
  function Popped(g: Arena, x: nat): (r: seq<nat>)
    requires WellFormed(g) && x < |g|
  {
    Reverse(Kids(g, x))
  }

  /** The walk from `x`: `x`, then the walks from its children, last child
      first. */
  function Preorder(g: Arena, x: nat): (r: seq<nat>)
    requires WellFormed(g) && x < |g|
    decreases |g| - x, 1, 0
  {
    [x] + Forest(g, x, Popped(g, x))
  }

  /** The walks from `xs`, one after the other; every node of `xs` comes
      after `lo`. */
  function Forest(g: Arena, lo: int, xs: seq<nat>): (r: seq<nat>)
    requires WellFormed(g) && -1 <= lo < |g|
    requires forall k :: 0 <= k < |xs| ==> lo < xs[k] < |g|
    decreases |g| - lo, 0, |xs|
  {
    if |xs| == 0 then [] else Preorder(g, xs[0]) + Forest(g, lo, xs[1..])
  }

  /** The stack, read from its top down, stands for the walks of its
      nodes in that order. */
  function Pending(g: Arena, stack: seq<nat>): seq<nat>
    requires WellFormed(g)
    requires forall k :: 0 <= k < |stack| ==> stack[k] < |g|
  {
    Forest(g, -1, Reverse(stack))
  }

  /** `nodeType == null || curr.GetType() == nodeType`. */
  predicate Fits(g: Arena, x: nat, t: Option<NodeType>)
  {
    t.None? || (x < |g| && OfType(g[x].kind, t.value))
  }

  /** The nodes of `xs` that fit `t`, in order. */
  function Matching(g: Arena, xs: seq<nat>, t: Option<NodeType>): (r: seq<nat>)
    ensures forall y :: y in r <==> y in xs && Fits(g, y, t)
  {
    if |xs| == 0 then []
    else
      var last := xs[|xs| - 1];
      Matching(g, xs[..|xs| - 1], t) + (if Fits(g, last, t) then [last] else [])
  }

  lemma {:induction false} MatchingAll(g: Arena, xs: seq<nat>)
    ensures Matching(g, xs, None) == xs
    decreases |xs|
  {
    if |xs| > 0 {
      MatchingAll(g, xs[..|xs| - 1]);
      SplitLast(xs);
    }
  }

  lemma ReverseAppend(a: seq<nat>, b: seq<nat>)
    ensures Reverse(a + b) == Reverse(b) + Reverse(a)
  {
  }

  lemma {:induction false} ForestAppend(g: Arena, lo: int, a: seq<nat>, b: seq<nat>)
    requires WellFormed(g) && -1 <= lo < |g|
    requires forall k :: 0 <= k < |a| ==> lo < a[k] < |g|
    requires forall k :: 0 <= k < |b| ==> lo < b[k] < |g|
    ensures Forest(g, lo, a + b) == Forest(g, lo, a) + Forest(g, lo, b)
    decreases |a|
  {
    if |a| > 0 {
      var x, t := a[0], a[1..];
      assert a == [x] + t && a + b == [x] + (t + b);
      BelowAppend(g, lo, t, b);
      ForestAppend(g, lo, t, b);
      ForestConsOf(g, lo, x, t + b);
      ForestConsOf(g, lo, x, t);
      Assoc(Preorder(g, x), Forest(g, lo, t), Forest(g, lo, b));
    } else {
      assert a + b == b;
    }
  }

  /** Nodes above `lo` in two lists are nodes above `lo` in both together. */
  lemma BelowAppend(g: Arena, lo: int, a: seq<nat>, b: seq<nat>)
    requires forall k :: 0 <= k < |a| ==> lo < a[k] < |g|
    requires forall k :: 0 <= k < |b| ==> lo < b[k] < |g|
    ensures forall k :: 0 <= k < |a + b| ==> lo < (a + b)[k] < |g|
  {
  }

  /** The forest of `[x] + t` is the walk from `x`, then the forest of `t`. */
  lemma ForestConsOf(g: Arena, lo: int, x: nat, t: seq<nat>)
    requires WellFormed(g) && -1 <= lo < x < |g|
    requires forall k :: 0 <= k < |t| ==> lo < t[k] < |g|
    ensures Forest(g, lo, [x] + t) == Preorder(g, x) + Forest(g, lo, t)
  {
    assert ([x] + t)[1..] == t;
  }

  /** A forest is the walk of its first node, then the rest of the forest. */
  lemma ForestCons(g: Arena, lo: int, xs: seq<nat>)
    requires WellFormed(g) && -1 <= lo < |g| && |xs| > 0
    requires forall k :: 0 <= k < |xs| ==> lo < xs[k] < |g|
    ensures Forest(g, lo, xs) == Preorder(g, xs[0]) + Forest(g, lo, xs[1..])
  {
  }

  /** The bound a forest is checked against does not change it. */
  lemma {:induction false} ForestBound(g: Arena, lo: int, lo': int, xs: seq<nat>)
    requires WellFormed(g) && -1 <= lo < |g| && -1 <= lo' < |g|
    requires forall k :: 0 <= k < |xs| ==> lo < xs[k] < |g| && lo' < xs[k]
    ensures Forest(g, lo, xs) == Forest(g, lo', xs)
    decreases |xs|
  {
    if |xs| > 0 {
      ForestBound(g, lo, lo', xs[1..]);
    }
  }

  /** The walk from `x` is `x` followed by the walks from its children,
      whatever bound they are checked against. */
  lemma PreorderKids(g: Arena, x: nat)
    requires WellFormed(g) && x < |g|
    ensures forall k :: 0 <= k < |Reverse(Kids(g, x))| ==> -1 < Reverse(Kids(g, x))[k] < |g|
    ensures Preorder(g, x) == [x] + Forest(g, -1, Reverse(Kids(g, x)))
  {
    ForestBound(g, x, -1, Reverse(Kids(g, x)));
  }

  /** Popping the top of the stack takes its walk off the front. */
  lemma PendingPop(g: Arena, rest: seq<nat>, x: nat)
    requires WellFormed(g) && x < |g|
    requires forall k :: 0 <= k < |rest| ==> rest[k] < |g|
    ensures Pending(g, rest + [x]) == Preorder(g, x) + Pending(g, rest)
  {
    var up := [x] + Reverse(rest);
    ReverseAppend(rest, [x]);
    assert Reverse(rest + [x]) == up;
    assert up[1..] == Reverse(rest);
  }

  /** Pushing nodes puts their walks in front, the last pushed first. */
  lemma PendingPush(g: Arena, rest: seq<nat>, cs: seq<nat>)
    requires WellFormed(g)
    requires forall k :: 0 <= k < |rest| ==> rest[k] < |g|
    requires forall k :: 0 <= k < |cs| ==> cs[k] < |g|
    ensures Pending(g, rest + cs) == Forest(g, -1, Reverse(cs)) + Pending(g, rest)
  {
    ReverseAppend(rest, cs);
    ForestAppend(g, -1, Reverse(cs), Reverse(rest));
  }

  /** One turn of the walk: popping `x` off the stack and pushing its
      children moves `x` from the pending walks to the output. */
  lemma PopStep(g: Arena, rest: seq<nat>, x: nat)
    requires WellFormed(g) && x < |g|
    requires forall k :: 0 <= k < |rest| ==> rest[k] < |g|
    ensures forall k :: 0 <= k < |Kids(g, x)| ==> Kids(g, x)[k] < |g|
    ensures Pending(g, rest + [x]) == [x] + Pending(g, rest + Kids(g, x))
  {
    var f := Forest(g, -1, Reverse(Kids(g, x)));
    PendingPop(g, rest, x);
    PreorderKids(g, x);
    PendingPush(g, rest, Kids(g, x));
    Assoc([x], f, Pending(g, rest));
  }

  lemma Assoc(a: seq<nat>, b: seq<nat>, c: seq<nat>)
    ensures (a + b) + c == a + (b + c)
  {
  }

  /** One turn of the loop of `GetAllNodes` keeps its invariant. */
  lemma WalkStep(g: Arena, root: nat, t: Option<NodeType>, visited: seq<nat>, r: seq<nat>, rest: seq<nat>, x: nat)
    requires WellFormed(g) && root < |g| && x < |g| && InRange(g, rest)
    requires visited + Pending(g, rest + [x]) == Preorder(g, root)
    requires r == Matching(g, visited, t)
    ensures InRange(g, rest + Kids(g, x))
    ensures (visited + [x]) + Pending(g, rest + Kids(g, x)) == Preorder(g, root)
    ensures Matching(g, visited + [x], t) == r + (if t.None? || OfType(g[x].kind, t.value) then [x] else [])
  {
    PopStep(g, rest, x);
    Assoc(visited, [x], Pending(g, rest + Kids(g, x)));
    assert (visited + [x])[..|visited|] == visited;
    assert Fits(g, x, t) <==> t.None? || OfType(g[x].kind, t.value);
  }

  /** `GetAllNodes`: the nodes of the tree below the graph's `Root` in
      the order the stack walk reaches them (the root, then each subtree,
      last child first), keeping those of type `t`, or all when `t` is
      `null`. A new graph's `Root` is `null`: the walk pops it and
      dereferences it. */
  method GetAllNodes(g: Arena, root: Option<nat>, t: Option<NodeType>) returns (r: Result<seq<nat>>)
    requires WellFormed(g) && (root.Some? ==> root.value < |g|)
    ensures root.None? <==> r.Err?
    ensures root.None? ==> r == Err(NullReferenceError)
    ensures root.Some? ==> r == Ok(Matching(g, Preorder(g, root.value), t))
  {
    if root.None? {
      return Err(NullReferenceError);
    }
    var nodes := Walk(g, root.value, t);
    r := Ok(nodes);
  }

  /** The loop of `GetAllNodes` from a node of the arena. */
  method Walk(g: Arena, root: nat, t: Option<NodeType>) returns (r: seq<nat>)
    requires WellFormed(g) && root < |g|
    ensures r == Matching(g, Preorder(g, root), t)
  {
    r := [];
    var stack: seq<nat> := [root];
    ghost var visited: seq<nat> := [];
    assert Reverse(stack) == [root];
    assert Forest(g, -1, [root]) == Preorder(g, root) + Forest(g, -1, []);
    while |stack| > 0
      invariant InRange(g, stack)
      invariant visited + Pending(g, stack) == Preorder(g, root)
      invariant r == Matching(g, visited, t)
      decreases |Preorder(g, root)| - |visited|
    {
      var curr := stack[|stack| - 1];
      var rest := stack[..|stack| - 1];
      SplitLast(stack);
      WalkStep(g, root, t, visited, r, rest, curr);
      if t.None? || OfType(g[curr].kind, t.value) {
        r := r + [curr];
      }
      visited := visited + [curr];
      stack := rest + Kids(g, curr);
    }
    assert Reverse(stack) == [];
    assert Pending(g, stack) == [];
    assert visited == Preorder(g, root);
  }

  // ---------------------------------------------------------------------
  // What the walk reaches
  // ---------------------------------------------------------------------

  /** No node repeats. */
  predicate Distinct(s: seq<nat>)
  {
    forall i, j :: 0 <= i < j < |s| ==> s[i] != s[j]
  }

  predicate InRange(g: Arena, s: seq<nat>)
  {
    forall k :: 0 <= k < |s| ==> s[k] < |g|
  }

  /** Node `s[i]` has a parent, and it is `lo` or comes earlier in `s`. */
  predicate ParentAt(g: Arena, s: seq<nat>, lo: int, i: nat)
    requires i < |s| && s[i] < |g|
  {
    g[s[i]].parent.Some? && (g[s[i]].parent.value == lo || g[s[i]].parent.value in s[..i])
  }

  /** Every node of `s` is a child of `lo` or comes after its parent. */
  predicate ParentFirst(g: Arena, s: seq<nat>, lo: int)
    requires InRange(g, s)
  {
    forall i :: 0 <= i < |s| ==> ParentAt(g, s, lo, i)
  }

  /** Every node of `s` but the first comes after its parent. */
  predicate Rooted(g: Arena, s: seq<nat>)
    requires InRange(g, s)
  {
    forall i :: 0 < i < |s| ==> ParentAt(g, s, -1, i)
  }

  /** The nodes of a walk are the descendants of its starting points. */
  lemma {:induction false} PreorderMembers(g: Arena, x: nat)
    requires WellFormed(g) && x < |g|
    ensures forall k :: 0 <= k < |Preorder(g, x)| ==> Preorder(g, x)[k] < |g|
    ensures forall y :: y in Preorder(g, x) ==> y < |g| && Ancestor(g, x, y)
    decreases |g| - x, 1, 0
  {
    var cs := Popped(g, x);
    assert forall k :: 0 <= k < |cs| ==> g[cs[k]].parent == Some(x);
    ForestMembers(g, x, cs);
    BelowAppend(g, -1, [x], Forest(g, x, cs));
    forall y | y in Preorder(g, x)
      ensures y < |g| && Ancestor(g, x, y)
    {
      if y != x {
        assert y in Forest(g, x, cs);
        DescendsThroughChild(g, x, cs, y);
      }
    }
  }

  /** A descendant of a child of `x` is a descendant of `x`. */
  lemma DescendsThroughChild(g: Arena, x: nat, cs: seq<nat>, y: nat)
    requires WellFormed(g) && x < |g|
    requires forall k :: 0 <= k < |cs| ==> cs[k] < |g| && g[cs[k]].parent == Some(x)
    requires exists k :: 0 <= k < |cs| && y < |g| && Ancestor(g, cs[k], y)
    ensures y < |g| && Ancestor(g, x, y)
  {
    var k :| 0 <= k < |cs| && y < |g| && Ancestor(g, cs[k], y);
    AncestorThroughChild(g, x, cs[k], y);
  }

  lemma {:induction false} ForestMembers(g: Arena, lo: int, xs: seq<nat>)
    requires WellFormed(g) && -1 <= lo < |g|
    requires forall k :: 0 <= k < |xs| ==> lo < xs[k] < |g|
    ensures forall k :: 0 <= k < |Forest(g, lo, xs)| ==> Forest(g, lo, xs)[k] < |g|
    ensures forall y :: y in Forest(g, lo, xs) ==> exists k :: 0 <= k < |xs| && y < |g| && Ancestor(g, xs[k], y)
    decreases |g| - lo, 0, |xs|
  {
    if |xs| > 0 {
      PreorderMembers(g, xs[0]);
      ForestMembers(g, lo, xs[1..]);
      var f := Forest(g, lo, xs);
      var head, tail := Preorder(g, xs[0]), Forest(g, lo, xs[1..]);
      assert f == head + tail;
      forall y | y in f
        ensures exists k :: 0 <= k < |xs| && y < |g| && Ancestor(g, xs[k], y)
      {
        if y in head {
          assert Ancestor(g, xs[0], y);
        } else {
          assert y in tail;
          var k :| 0 <= k < |xs| - 1 && y < |g| && Ancestor(g, xs[1..][k], y);
          assert Ancestor(g, xs[k + 1], y);
        }
      }
      BelowAppend(g, -1, head, tail);
    }
  }

  /** Every descendant of `x` is reached from `x`. */
  lemma {:induction false} PreorderReaches(g: Arena, x: nat, y: nat)
    requires WellFormed(g) && x < |g| && y < |g|
    requires Ancestor(g, x, y)
    ensures y in Preorder(g, x)
    decreases |g| - x
  {
    if y != x {
      var c := ChildOnPath(g, x, y);
      var j := PoppedIndex(g, x, c);
      PreorderReaches(g, c, y);
      ReachedThroughChild(g, x, j, y);
    }
  }

  /** Where a child of `x` is among the children as popped. */
  lemma PoppedIndex(g: Arena, x: nat, c: nat) returns (j: nat)
    requires WellFormed(g) && x < |g| && c in Kids(g, x)
    ensures j < |Popped(g, x)| && Popped(g, x)[j] == c
  {
    var cs := Kids(g, x);
    var k :| 0 <= k < |cs| && cs[k] == c;
    j := |cs| - 1 - k;
    assert Popped(g, x)[j] == cs[k];
  }

  /** What the walk from a child of `x` reaches, the walk from `x` does. */
  lemma ReachedThroughChild(g: Arena, x: nat, j: nat, y: nat)
    requires WellFormed(g) && x < |g| && j < |Popped(g, x)|
    requires y in Preorder(g, Popped(g, x)[j])
    ensures y in Preorder(g, x)
  {
    var ps := Popped(g, x);
    PoppedChildren(g, x);
    ForestHas(g, x, ps, j, y);
    assert Preorder(g, x) == [x] + Forest(g, x, ps);
  }

  /** The children of `x` as popped are children of `x`. */
  lemma PoppedChildren(g: Arena, x: nat)
    requires WellFormed(g) && x < |g|
    ensures forall k :: 0 <= k < |Popped(g, x)| ==> x < Popped(g, x)[k] < |g| && g[Popped(g, x)[k]].parent == Some(x)
  {
    var cs := Kids(g, x);
    var ps := Popped(g, x);
    forall k | 0 <= k < |ps|
      ensures x < ps[k] < |g| && g[ps[k]].parent == Some(x)
    {
      assert ps[k] == cs[|cs| - 1 - k];
    }
  }

  /** No child of `x` is popped twice. */
  lemma PoppedDistinct(g: Arena, x: nat)
    requires WellFormed(g) && x < |g|
    ensures forall k, l :: 0 <= k < l < |Popped(g, x)| ==> Popped(g, x)[k] != Popped(g, x)[l]
  {
    var cs := Kids(g, x);
    var ps := Popped(g, x);
    forall k, l | 0 <= k < l < |ps|
      ensures ps[k] != ps[l]
    {
      assert ps[k] == cs[|cs| - 1 - k] && ps[l] == cs[|cs| - 1 - l];
    }
  }

  lemma {:induction false} ForestHas(g: Arena, lo: int, xs: seq<nat>, k: nat, y: nat)
    requires WellFormed(g) && -1 <= lo < |g|
    requires forall k :: 0 <= k < |xs| ==> lo < xs[k] < |g|
    requires k < |xs| && y in Preorder(g, xs[k])
    ensures y in Forest(g, lo, xs)
    decreases k
  {
    if k > 0 {
      ForestHas(g, lo, xs[1..], k - 1, y);
    }
  }

  /** The walk from `x` reaches every node at most once. */
  lemma {:induction false} PreorderDistinct(g: Arena, x: nat)
    requires WellFormed(g) && x < |g|
    ensures Distinct(Preorder(g, x))
    decreases |g| - x, 1, 0
  {
    var cs := Popped(g, x);
    PoppedChildren(g, x);
    PoppedDistinct(g, x);
    ForestDistinct(g, x, cs);
    ForestOmitsRoot(g, x);
    DistinctAppend([x], Forest(g, x, cs));
  }

  /** The walks from the children of `x` do not come back to `x`. */
  lemma ForestOmitsRoot(g: Arena, x: nat)
    requires WellFormed(g) && x < |g|
    ensures x !in Forest(g, x, Popped(g, x))
  {
    var cs := Popped(g, x);
    ForestMembers(g, x, cs);
    if x in Forest(g, x, cs) {
      var k :| 0 <= k < |cs| && x < |g| && Ancestor(g, cs[k], x);
      AncestorBelow(g, cs[k], x);
    }
  }

  /** The walks from different children of one node are disjoint and each
      without repetition. */
  lemma {:induction false} ForestDistinct(g: Arena, lo: int, xs: seq<nat>)
    requires WellFormed(g) && 0 <= lo < |g|
    requires forall k :: 0 <= k < |xs| ==> lo < xs[k] < |g| && g[xs[k]].parent == Some(lo)
    requires forall k, l :: 0 <= k < l < |xs| ==> xs[k] != xs[l]
    ensures Distinct(Forest(g, lo, xs))
    decreases |g| - lo, 0, |xs|
  {
    if |xs| > 0 {
      PreorderDistinct(g, xs[0]);
      ForestDistinct(g, lo, xs[1..]);
      HeadDisjoint(g, lo, xs);
      DistinctAppend(Preorder(g, xs[0]), Forest(g, lo, xs[1..]));
    }
  }

  /** The walk from the first of several siblings shares no node with
      the walks from the others. */
  lemma HeadDisjoint(g: Arena, lo: int, xs: seq<nat>)
    requires WellFormed(g) && 0 <= lo < |g| && |xs| > 0
    requires forall k :: 0 <= k < |xs| ==> lo < xs[k] < |g| && g[xs[k]].parent == Some(lo)
    requires forall k, l :: 0 <= k < l < |xs| ==> xs[k] != xs[l]
    ensures forall y :: y in Preorder(g, xs[0]) ==> y !in Forest(g, lo, xs[1..])
  {
    PreorderMembers(g, xs[0]);
    ForestMembers(g, lo, xs[1..]);
    forall y | y in Preorder(g, xs[0])
      ensures y !in Forest(g, lo, xs[1..])
    {
      if y in Forest(g, lo, xs[1..]) {
        var k :| 0 <= k < |xs| - 1 && y < |g| && Ancestor(g, xs[1..][k], y);
        SiblingsDisjoint(g, xs[0], xs[k + 1], y);
      }
    }
  }

  lemma DistinctAppend(a: seq<nat>, b: seq<nat>)
    requires Distinct(a) && Distinct(b)
    requires forall y :: y in a ==> y !in b
    ensures Distinct(a + b)
  {
    forall i, j | 0 <= i < j < |a + b|
      ensures (a + b)[i] != (a + b)[j]
    {
      if i < |a| && |a| <= j {
        assert (a + b)[i] in a && (a + b)[j] in b;
      }
    }
  }

  /** In the walk from `x`, every node but `x` comes after its parent. */
  lemma {:induction false} PreorderRooted(g: Arena, x: nat)
    requires WellFormed(g) && x < |g|
    ensures InRange(g, Preorder(g, x)) && Rooted(g, Preorder(g, x))
    decreases |g| - x, 1, 0
  {
    PreorderMembers(g, x);
    ForestParentFirst(g, x, Popped(g, x));
    ConsParentFirst(g, x, Forest(g, x, Popped(g, x)));
  }

  /** A node put in front of walks from its children. */
  lemma ConsParentFirst(g: Arena, x: nat, f: seq<nat>)
    requires x < |g| && InRange(g, f)
    requires ParentFirst(g, f, x)
    ensures InRange(g, [x] + f) && Rooted(g, [x] + f)
  {
    var p := [x] + f;
    forall i | 0 < i < |p|
      ensures ParentAt(g, p, -1, i)
    {
      assert p[i] == f[i - 1];
      assert ParentAt(g, f, x, i - 1);
      if g[f[i - 1]].parent.value == x {
        assert p[0] == x;
      } else {
        assert f[..i - 1] == p[1..i];
      }
    }
  }

  lemma {:induction false} ForestParentFirst(g: Arena, lo: int, xs: seq<nat>)
    requires WellFormed(g) && 0 <= lo < |g|
    requires forall k :: 0 <= k < |xs| ==> lo < xs[k] < |g| && g[xs[k]].parent == Some(lo)
    ensures InRange(g, Forest(g, lo, xs)) && ParentFirst(g, Forest(g, lo, xs), lo)
    decreases |g| - lo, 0, |xs|
  {
    ForestMembers(g, lo, xs);
    if |xs| > 0 {
      var p := Preorder(g, xs[0]);
      PreorderRooted(g, xs[0]);
      assert p[0] == xs[0];
      forall i | 0 <= i < |p|
        ensures ParentAt(g, p, lo, i)
      {
        if i > 0 {
          assert ParentAt(g, p, -1, i);
        }
      }
      ForestParentFirst(g, lo, xs[1..]);
      ParentFirstAppend(g, p, Forest(g, lo, xs[1..]), lo);
    }
  }

  lemma ParentFirstAppend(g: Arena, a: seq<nat>, b: seq<nat>, lo: int)
    requires InRange(g, a) && InRange(g, b)
    requires ParentFirst(g, a, lo) && ParentFirst(g, b, lo)
    ensures InRange(g, a + b) && ParentFirst(g, a + b, lo)
  {
    var s := a + b;
    forall i | 0 <= i < |s|
      ensures ParentAt(g, s, lo, i)
    {
      if i < |a| {
        assert ParentAt(g, a, lo, i);
        assert s[..i] == a[..i];
      } else {
        assert ParentAt(g, b, lo, i - |a|);
        assert b[..i - |a|] == s[|a|..i];
      }
    }
  }

  /** What `GetAllNodes(null)` returns: the root first, then every node
      below it, each once and after its parent. */
  lemma PreorderSpec(g: Arena, root: nat)
    requires WellFormed(g) && root < |g|
    ensures var p := Preorder(g, root);
      && |p| > 0 && p[0] == root
      && (forall y: nat :: y in p <==> y < |g| && Ancestor(g, root, y))
      && Distinct(p)
      && InRange(g, p)
      && Rooted(g, p)
  {
    var p := Preorder(g, root);
    PreorderMembers(g, root);
    PreorderDistinct(g, root);
    forall y: nat | y < |g| && Ancestor(g, root, y)
      ensures y in p
    {
      PreorderReaches(g, root, y);
    }
    PreorderRooted(g, root);
  }

  // ---------------------------------------------------------------------
  // The topological sort
  // ---------------------------------------------------------------------

  /** `Visit`: a node marked TMP is left alone; an unmarked node is marked
      TMP, its parent is visited, and then it is marked PERMANENT and
      inserted at the front; a PERMANENT node is left alone. */
  function Visit(g: Arena, marks: seq<Mark>, n: nat, sorted: seq<nat>): (r: (seq<Mark>, seq<nat>))
    requires ParentsBelow(g) && |marks| == |g| && n < |g|
    ensures |r.0| == |marks|
    ensures |sorted| <= |r.1| && r.1[|r.1| - |sorted|..] == sorted
    ensures r.0[n] == (if marks[n] == Tmp then Tmp else Permanent)
    ensures forall x :: 0 <= x < |marks| && marks[x] != Unmarked ==> r.0[x] == marks[x]
    ensures forall x :: n < x < |marks| ==> r.0[x] == marks[x]
    ensures forall k :: 0 <= k < |r.1| - |sorted| ==> r.1[k] <= n
    decreases n
  {
    WholeSuffix(sorted);
    if marks[n] == Tmp then (marks, sorted)
    else if marks[n] == Unmarked then
      var inProgress := marks[n := Tmp];
      var v := if g[n].parent.Some? then Visit(g, inProgress, g[n].parent.value, sorted) else (inProgress, sorted);
      PlacedInFront(marks, n, sorted, v, if g[n].parent.Some? then g[n].parent.value else n - 1);
      (v.0[n := Permanent], [n] + v.1)
    else
      assert marks[n] == Permanent;
      (marks, sorted)
  }

  lemma WholeSuffix(s: seq<nat>)
    ensures s[|s| - |s|..] == s
  {
  }

  /** Marking `n` PERMANENT and putting it in front, after a visit of
      nodes up to `p` below it that started from `n` marked TMP, keeps what
      `Visit` promises. */
  lemma PlacedInFront(marks: seq<Mark>, n: nat, sorted: seq<nat>, v: (seq<Mark>, seq<nat>), p: int)
    requires n < |marks| && marks[n] == Unmarked && -1 <= p < n
    requires |v.0| == |marks| && |sorted| <= |v.1| && v.1[|v.1| - |sorted|..] == sorted
    requires forall x :: 0 <= x < |marks| && marks[n := Tmp][x] != Unmarked ==> v.0[x] == marks[n := Tmp][x]
    requires forall x :: p < x < |marks| ==> v.0[x] == marks[n := Tmp][x]
    requires forall k :: 0 <= k < |v.1| - |sorted| ==> v.1[k] <= p
    ensures var r := (v.0[n := Permanent], [n] + v.1);
      && |r.0| == |marks|
      && |sorted| <= |r.1| && r.1[|r.1| - |sorted|..] == sorted
      && r.0[n] == Permanent
      && (forall x :: 0 <= x < |marks| && marks[x] != Unmarked ==> r.0[x] == marks[x])
      && (forall x :: n < x < |marks| ==> r.0[x] == marks[x])
      && (forall k :: 0 <= k < |r.1| - |sorted| ==> r.1[k] <= n)
  {
    var front := [n] + v.1;
    assert front[|front| - |sorted|..] == v.1[|v.1| - |sorted|..];
    forall x | 0 <= x < |marks| && marks[x] != Unmarked
      ensures v.0[n := Permanent][x] == marks[x]
    {
      assert x != n;
      assert marks[n := Tmp][x] == marks[x];
    }
    forall k | 0 <= k < |front| - |sorted|
      ensures front[k] <= n
    {
      if k > 0 {
        assert front[k] == v.1[k - 1];
      }
    }
  }

  /** Visiting an unmarked node whose parent is already placed (or which
      has none) places just that node, in front. */
  lemma VisitPlaced(g: Arena, marks: seq<Mark>, n: nat, sorted: seq<nat>)
    requires ParentsBelow(g) && |marks| == |g| && n < |g|
    requires marks[n] == Unmarked
    requires g[n].parent.None? || marks[g[n].parent.value] == Permanent
    ensures Visit(g, marks, n, sorted) == (marks[n := Permanent], [n] + sorted)
  {
    assert marks[n := Tmp][n := Permanent] == marks[n := Permanent];
  }

  /** The first loop of `TopologicalSort`: every node listed becomes
      unmarked, the others keep their mark. */
  function Reset(marks: seq<Mark>, nodes: seq<nat>): (r: seq<Mark>)
    ensures |r| == |marks|
    ensures forall x :: 0 <= x < |marks| ==> r[x] == if x in nodes then Unmarked else marks[x]
  {
    if |nodes| == 0 then marks
    else
      var m := Reset(marks, nodes[..|nodes| - 1]);
      var x := nodes[|nodes| - 1];
      assert forall y :: y in nodes <==> y in nodes[..|nodes| - 1] || y == x;
      if x < |m| then m[x := Unmarked] else m
  }

  /** What the loop of `TopologicalSort` requires of the list it visits
      and of the marks: the list starts at a node above all others in it,
      every node but the first comes after its parent, no node repeats,
      and every listed node starts unmarked. */
  predicate Visitable(g: Arena, all: seq<nat>, marks: seq<Mark>)
  {
    && ParentsBelow(g) && |marks| == |g|
    && InRange(g, all) && Distinct(all) && Rooted(g, all)
    && (forall k :: 0 < k < |all| ==> all[0] < all[k])
    && (forall k :: 0 <= k < |all| ==> marks[all[k]] == Unmarked)
  }

  /** Where the loop of `TopologicalSort` stands after visiting the first
      `i` listed nodes, `first` being what the visit of the first one
      left: each later one has been put in front, every visited node is
      PERMANENT and every other node keeps the mark that first visit left. */
  predicate Placed(all: seq<nat>, first: (seq<Mark>, seq<nat>), i: nat, after: seq<Mark>, sorted: seq<nat>)
    requires 0 < i <= |all|
  {
    && |after| == |first.0|
    && sorted == Reverse(all[1..i]) + first.1
    && (forall k :: 0 <= k < i ==> all[k] < |after| && after[all[k]] == Permanent)
    && (forall x :: 0 <= x < |after| && x !in all[..i] ==> after[x] == first.0[x])
  }

  lemma FirstPlaced(g: Arena, all: seq<nat>, marks: seq<Mark>)
    requires Visitable(g, all, marks) && |all| > 0
    ensures var first := Visit(g, marks, all[0], []);
      Placed(all, first, 1, first.0, first.1)
  {
    var first := Visit(g, marks, all[0], []);
    assert marks[all[0]] == Unmarked;
    assert Reverse(all[1..1]) == [];
  }

  /** Any turn of the loop, the first or a later one. */
  lemma TurnPlaced(g: Arena, all: seq<nat>, marks: seq<Mark>, i: nat, after: seq<Mark>, sorted: seq<nat>)
    requires Visitable(g, all, marks) && i < |all| && |after| == |g|
    requires i == 0 ==> sorted == [] && after == marks
    requires i > 0 ==> Placed(all, Visit(g, marks, all[0], []), i, after, sorted)
    ensures all[i] < |g|
    ensures Placed(all, Visit(g, marks, all[0], []), i + 1, Visit(g, after, all[i], sorted).0, Visit(g, after, all[i], sorted).1)
  {
    if i == 0 {
      FirstPlaced(g, all, marks);
    } else {
      NextPlaced(g, all, marks, i, after, sorted);
    }
  }

  /** One more turn of the loop: the next listed node is unmarked and its
      parent is placed, so its visit puts just that node in front. */
  lemma NextPlaced(g: Arena, all: seq<nat>, marks: seq<Mark>, i: nat, after: seq<Mark>, sorted: seq<nat>)
    requires Visitable(g, all, marks) && 0 < i < |all|
    requires Placed(all, Visit(g, marks, all[0], []), i, after, sorted)
    ensures |after| == |g|
    ensures Visit(g, after, all[i], sorted) == (after[all[i] := Permanent], [all[i]] + sorted)
    ensures Placed(all, Visit(g, marks, all[0], []), i + 1, after[all[i] := Permanent], [all[i]] + sorted)
  {
    var first := Visit(g, marks, all[0], []);
    var n := all[i];
    assert n !in all[..i] by {
      assert forall k :: 0 <= k < i ==> all[k] != all[i];
    }
    assert all[0] < n;
    assert after[n] == first.0[n] == marks[n] == Unmarked;
    assert ParentAt(g, all, -1, i);
    var k :| 0 <= k < i && all[k] == g[n].parent.value;
    assert after[all[k]] == Permanent;
    VisitPlaced(g, after, n, sorted);
    PlacedStep(all, first, i, after, sorted);
  }

  lemma PlacedStep(all: seq<nat>, first: (seq<Mark>, seq<nat>), i: nat, after: seq<Mark>, sorted: seq<nat>)
    requires 0 < i < |all| && Placed(all, first, i, after, sorted)
    requires all[i] < |after| && all[i] !in all[..i]
    ensures Placed(all, first, i + 1, after[all[i] := Permanent], [all[i]] + sorted)
  {
    var n := all[i];
    SliceSnoc(all, 1, i);
    SliceSnoc(all, 0, i);
    ReverseAppend(all[1..i], [n]);
  }

  lemma SplitLast(s: seq<nat>)
    requires |s| > 0
    ensures s == s[..|s| - 1] + [s[|s| - 1]]
  {
  }

  lemma SliceSnoc(s: seq<nat>, lo: nat, i: nat)
    requires lo <= i < |s|
    ensures s[lo..i + 1] == s[lo..i] + [s[i]]
  {
  }

  /** The loop of `TopologicalSort` over the nodes as listed: after the
      first visit, each later node's parent is already placed, so each
      later visit places just that node, in front. */
  method VisitAll(g: Arena, all: seq<nat>, marks: seq<Mark>) returns (sorted: seq<nat>, after: seq<Mark>)
    requires Visitable(g, all, marks)
    ensures |after| == |g|
    ensures |all| == 0 ==> sorted == [] && after == marks
    ensures |all| > 0 ==> Placed(all, Visit(g, marks, all[0], []), |all|, after, sorted)
  {
    after := marks;
    sorted := [];
    var pending := all;
    ghost var i := 0;
    while |pending| > 0
      invariant 0 <= i <= |all| && pending == all[i..]
      invariant |after| == |g|
      invariant i == 0 ==> sorted == [] && after == marks
      invariant i > 0 ==> Placed(all, Visit(g, marks, all[0], []), i, after, sorted)
    {
      var curr := pending[0];
      pending := pending[1..];
      assert curr == all[i];
      TurnPlaced(g, all, marks, i, after, sorted);
      var v := Visit(g, after, curr, sorted);
      after, sorted := v.0, v.1;
      i := i + 1;
    }
  }

  /** Node `s[i]` has a parent, and it comes later in `s`. */
  predicate ParentLater(g: Arena, s: seq<nat>, i: nat)
    requires i < |s| && s[i] < |g|
  {
    g[s[i]].parent.Some? && g[s[i]].parent.value in s[i + 1..]
  }

  /** Reversing a list in which every node but the first comes after its
      parent puts every node but the last before its parent. */
  lemma ReverseRooted(g: Arena, p: seq<nat>)
    requires InRange(g, p) && Rooted(g, p)
    ensures InRange(g, Reverse(p))
    ensures forall i :: 0 <= i < |p| - 1 ==> ParentLater(g, Reverse(p), i)
  {
    var s := Reverse(p);
    forall k | 0 <= k < |s|
      ensures s[k] < |g|
    {
      assert s[k] == p[|p| - 1 - k];
    }
    forall i | 0 <= i < |p| - 1
      ensures ParentLater(g, s, i)
    {
      ReverseParentLater(g, p, i);
    }
  }

  lemma ReverseParentLater(g: Arena, p: seq<nat>, i: nat)
    requires InRange(g, p) && Rooted(g, p) && i < |p| - 1
    ensures Reverse(p)[i] < |g| && ParentLater(g, Reverse(p), i)
  {
    var s := Reverse(p);
    var n := |p|;
    var at := n - 1 - i;
    assert s[i] == p[at];
    assert ParentAt(g, p, -1, at);
    var q := g[p[at]].parent.value;
    var j :| 0 <= j < at && p[j] == q;
    assert s[n - 1 - j] == q;
    assert s[i + 1..][n - 1 - j - (i + 1)] == q;
  }

  lemma ReverseMembers(s: seq<nat>)
    ensures forall y :: y in Reverse(s) <==> y in s
    ensures Distinct(s) ==> Distinct(Reverse(s))
  {
    var r := Reverse(s);
    forall y | y in s
      ensures y in r
    {
      var k :| 0 <= k < |s| && s[k] == y;
      assert r[|s| - 1 - k] == y;
    }
  }

  /** With a root that has no parent, the first visit of the sort places
      just the root and marks nothing outside the tree. */
  lemma FirstVisitParentless(g: Arena, root: nat, marks: seq<Mark>)
    requires WellFormed(g) && root < |g| && g[root].parent.None? && |marks| == |g|
    ensures var first := Visit(g, Reset(marks, Preorder(g, root)), root, []);
      && first.1 == [root]
      && forall x :: 0 <= x < |g| && !Ancestor(g, root, x) ==> first.0[x] == marks[x]
  {
    var all := Preorder(g, root);
    var unmarked := Reset(marks, all);
    assert root in all;
    VisitPlaced(g, unmarked, root, []);
    var first := Visit(g, unmarked, root, []);
    assert first.0 == unmarked[root := Permanent];
    PreorderMembers(g, root);
    forall x | 0 <= x < |g| && !Ancestor(g, root, x)
      ensures first.0[x] == marks[x]
    {
      assert x !in all;
      assert unmarked[x] == marks[x];
    }
  }

  /** `s` lists every node of the tree below `root` once, each before
      its parent, the root last. */
  ghost predicate ChildrenFirst(g: Arena, root: nat, s: seq<nat>)
    requires ParentsBelow(g)
  {
    && (forall y: nat :: y in s <==> y < |g| && Ancestor(g, root, y))
    && Distinct(s)
    && |s| > 0 && s[|s| - 1] == root
    && InRange(g, s)
    && (forall i :: 0 <= i < |s| - 1 ==> ParentLater(g, s, i))
  }

  /** The walk of `GetAllNodes(null)` reversed lists the tree children
      first. */
  lemma ReversedWalk(g: Arena, root: nat)
    requires WellFormed(g) && root < |g|
    ensures ChildrenFirst(g, root, Reverse(Preorder(g, root)))
  {
    var all := Preorder(g, root);
    PreorderSpec(g, root);
    ReverseMembers(all);
    ReverseRooted(g, all);
  }

  /** With a root that has no parent, the result is the walk reversed. */
  lemma SortParentless(g: Arena, root: nat, marks: seq<Mark>, sorted: seq<nat>)
    requires WellFormed(g) && root < |g| && g[root].parent.None? && |marks| == |g|
    requires sorted == Reverse(Preorder(g, root)[1..]) + Visit(g, Reset(marks, Preorder(g, root)), root, []).1
    ensures sorted == Reverse(Preorder(g, root))
  {
    var all := Preorder(g, root);
    FirstVisitParentless(g, root, marks);
    ReverseAfterHead(all);
  }

  lemma {:induction false} ReverseAfterHead(s: seq<nat>)
    requires |s| > 0
    ensures Reverse(s[1..]) + [s[0]] == Reverse(s)
    decreases |s|
  {
    var n := |s|;
    if n > 1 {
      var init := s[..n - 1];
      ReverseAfterHead(init);
      assert s[1..][..n - 2] == init[1..];
      assert Reverse(s[1..]) == [s[n - 1]] + Reverse(init[1..]);
      assert Reverse(s) == [s[n - 1]] + Reverse(init);
      assert init[0] == s[0];
    }
  }

  /** The walk of `GetAllNodes(null)`, with the marks of its nodes
      reset, is what the loop of the sort can visit. */
  lemma SortReady(g: Arena, root: nat, marks: seq<Mark>)
    requires WellFormed(g) && root < |g| && |marks| == |g|
    ensures Visitable(g, Preorder(g, root), Reset(marks, Preorder(g, root)))
  {
    var all := Preorder(g, root);
    PreorderSpec(g, root);
    PreorderRootFirst(g, root);
    ResetListed(marks, all);
  }

  /** The root of a walk is its smallest node. */
  lemma PreorderRootFirst(g: Arena, root: nat)
    requires WellFormed(g) && root < |g|
    ensures var all := Preorder(g, root); forall k :: 0 < k < |all| ==> all[0] < all[k]
  {
    var all := Preorder(g, root);
    PreorderSpec(g, root);
    forall k | 0 < k < |all|
      ensures all[0] < all[k]
    {
      AncestorBelow(g, root, all[k]);
      assert all[k] != all[0];
    }
  }

  /** Every listed node is unmarked after the reset. */
  lemma ResetListed(marks: seq<Mark>, all: seq<nat>)
    requires forall k :: 0 <= k < |all| ==> all[k] < |marks|
    ensures forall k :: 0 <= k < |all| ==> Reset(marks, all)[all[k]] == Unmarked
  {
  }

  /** Where the loop of the sort ends, in terms of the tree. */
  lemma SortDone(g: Arena, root: nat, marks: seq<Mark>, sorted: seq<nat>, after: seq<Mark>)
    requires WellFormed(g) && root < |g| && |marks| == |g|
    requires var all := Preorder(g, root); var unmarked := Reset(marks, all);
      |after| == |g| && Placed(all, Visit(g, unmarked, root, []), |all|, after, sorted)
    ensures var all := Preorder(g, root); var first := Visit(g, Reset(marks, all), root, []);
      && sorted == Reverse(all[1..]) + first.1
      && forall x :: 0 <= x < |g| ==> after[x] == if Ancestor(g, root, x) then Permanent else first.0[x]
  {
    var all := Preorder(g, root);
    PreorderSpec(g, root);
    assert all[..|all|] == all;
    assert all[1..|all|] == all[1..];
    forall x | 0 <= x < |g|
      ensures after[x] == if Ancestor(g, root, x) then Permanent else Visit(g, Reset(marks, all), root, []).0[x]
    {
      if x in all {
        var k :| 0 <= k < |all| && all[k] == x;
      }
    }
  }

  /** `TopologicalSort`: the nodes of the tree are unmarked, then visited
      in the order `GetAllNodes(null)` lists them. The first visit places
      the root and those of its ancestors it reaches unmarked; each later
      visit places one node in front. Every node of the tree ends
      PERMANENT. When the root has no parent, the result is that order
      reversed: every node of the tree once, each before its parent, the
      root last, and the marks of the other nodes untouched. On a new
      graph, whose `Root` is `null`, the walk throws before any mark
      changes. */
  method TopologicalSort(g: Arena, root: Option<nat>, marks: seq<Mark>) returns (sorted: Result<seq<nat>>, after: seq<Mark>)
    requires WellFormed(g) && (root.Some? ==> root.value < |g|) && |marks| == |g|
    ensures root.None? ==> sorted == Err(NullReferenceError) && after == marks
    ensures root.Some? ==> var x := root.value; var all := Preorder(g, x);
      var first := Visit(g, Reset(marks, all), x, []);
      && sorted == Ok(Reverse(all[1..]) + first.1)
      && |after| == |g|
      && forall y :: 0 <= y < |g| ==> after[y] == if Ancestor(g, x, y) then Permanent else first.0[y]
    ensures root.Some? && g[root.value].parent.None? ==> sorted == Ok(Reverse(Preorder(g, root.value)))
    ensures root.Some? && g[root.value].parent.None? ==> ChildrenFirst(g, root.value, sorted.value)
    ensures root.Some? && g[root.value].parent.None? ==>
      forall y :: 0 <= y < |g| ==> after[y] == if Ancestor(g, root.value, y) then Permanent else marks[y]
  {
    var listed := GetAllNodes(g, root, None);
    if listed.Err? {
      return Err(listed.error), marks;
    }
    var x := root.value;
    var all := listed.value;
    MatchingAll(g, Preorder(g, x));
    SortReady(g, x, marks);
    var unmarked := Reset(marks, all);
    var order;
    order, after := VisitAll(g, all, unmarked);
    SortDone(g, x, marks, order, after);
    if g[x].parent.None? {
      SortParentless(g, x, marks, order);
      ReversedWalk(g, x);
      FirstVisitParentless(g, x, marks);
    }
    sorted := Ok(order);
  }
}

=== FILE: sql_loader.dfy ===
/** The SQL Server loader (`MSSQLdBLoader`): the database name read from a
    connection string, and the triples made from the rows a query returns.
    The queries themselves run on the server; their result rows are inputs
    here, as is the primary-key list the server reports for a table. */
module SqlLoader {
  import opened Wrappers
  import opened Strings
  import opened Rdf
  import opened UriCodec

  // ---------------------------------------------------------------------
  // GetDBName: the regular expression Initial\s+Catalog\s*=\s*(\w+)
  // ---------------------------------------------------------------------

  predicate AllSpace(s: string)
  {
    forall k {:trigger IsWhiteSpace(s[k])} :: 0 <= k < |s| ==> IsWhiteSpace(s[k])
  }

  /** The regular expression matched at index `i` of `e` with its parts at
      the given places: `Initial` at `i`, white space up to `a`, `Catalog`
      at `a`, white space up to `b`, `=` at `b`, white space up to `g`, and
      the captured word `e[g..h]`, which no further word character follows. */
  predicate CatalogSpelled(e: string, i: nat, a: nat, b: nat, g: nat, h: nat)
  {
    && i + 7 < a && a + 7 <= b < g <= h <= |e| && g < h
    && OccursAt(e, "Initial", i) && AllSpace(e[i + 7..a])
    && OccursAt(e, "Catalog", a) && AllSpace(e[a + 7..b])
    && e[b] == '=' && AllSpace(e[b + 1..g])
    && AllWordChars(e[g..h]) && (h == |e| || !IsWordChar(e[h]))
  }

  /** The match at index `i`, as the bounds of the captured group. Each
      white-space run is followed by a character it cannot contain (`C`,
      `=`, a word character), so backtracking never shortens it: every run
      is the longest one. */
  function CatalogAt(e: string, i: nat): (r: Option<(nat, nat)>)
    requires i <= |e|
    ensures r.Some? ==> i + 16 <= r.value.0 < r.value.1 <= |e|
  {
    if !OccursAt(e, "Initial", i) then None
    else
      var a := SpaceRunEnd(e, i + 7);
      if a == i + 7 || !OccursAt(e, "Catalog", a) then None
      else
        var b := SpaceRunEnd(e, a + 7);
        if b == |e| || e[b] != '=' then None
        else
          var g := SpaceRunEnd(e, b + 1);
          var h := WordRunEnd(e, g);
          if h == g then None else Some((g, h))
  }

  lemma SpaceSlice(s: string, a: nat, b: nat)
    requires a <= b <= |s|
    requires forall i {:trigger IsWhiteSpace(s[i])} :: a <= i < b ==> IsWhiteSpace(s[i])
    ensures AllSpace(s[a..b])
  {
    forall k | 0 <= k < b - a
      ensures IsWhiteSpace(s[a..b][k])
    {
      assert s[a..b][k] == s[a + k];
    }
  }

  /** The group `CatalogAt` returns is where the regular expression puts it. */
  lemma CatalogAtSound(e: string, i: nat, g: nat, h: nat)
    requires i <= |e| && CatalogAt(e, i) == Some((g, h))
    ensures exists a, b :: CatalogSpelled(e, i, a, b, g, h)
  {
    var a := SpaceRunEnd(e, i + 7);
    var b := SpaceRunEnd(e, a + 7);
    SpaceSlice(e, i + 7, a);
    SpaceSlice(e, a + 7, b);
    SpaceSlice(e, b + 1, g);
    WordRunChars(e, g);
    WordSlice(e, g, h);
    assert CatalogSpelled(e, i, a, b, g, h);
  }

  lemma SpaceUnslice(s: string, a: nat, b: nat)
    requires a <= b <= |s| && AllSpace(s[a..b])
    ensures forall k {:trigger IsWhiteSpace(s[k])} :: a <= k < b ==> IsWhiteSpace(s[k])
  {
    forall k | a <= k < b
      ensures IsWhiteSpace(s[k])
    {
      assert s[a..b][k - a] == s[k];
    }
  }

  /** A white-space run spelled from `x` to `y`, followed by `c`, is the
      longest one. */
  lemma SpaceRunSpelled(e: string, x: nat, y: nat)
    requires x <= y < |e| && AllSpace(e[x..y]) && !IsWhiteSpace(e[y])
    ensures SpaceRunEnd(e, x) == y
  {
    SpaceUnslice(e, x, y);
    SpaceRunEndAt(e, x, y);
  }

  /** The runs of a spelled match are the ones `CatalogAt` measures. */
  lemma CatalogRuns(e: string, i: nat, a: nat, b: nat, g: nat, h: nat)
    requires CatalogSpelled(e, i, a, b, g, h)
    ensures SpaceRunEnd(e, i + 7) == a && SpaceRunEnd(e, a + 7) == b
    ensures SpaceRunEnd(e, b + 1) == g && WordRunEnd(e, g) == h
  {
    assert e[a] == 'C' by {
      assert e[a..a + 7] == "Catalog";
      assert e[a..a + 7][0] == e[a] && "Catalog"[0] == 'C';
    }
    SpaceRunSpelled(e, i + 7, a);
    SpaceRunSpelled(e, a + 7, b);
    assert forall k {:trigger IsWordChar(e[k])} :: g <= k < h ==> IsWordChar(e[k]) by {
      forall k | g <= k < h ensures IsWordChar(e[k]) { assert e[g..h][k - g] == e[k]; }
    }
    assert !IsWhiteSpace(e[g]) by { assert IsWordChar(e[g]); }
    SpaceRunSpelled(e, b + 1, g);
    WordRunEndAt(e, g, h);
  }

  /** Where the regular expression matches at `i`, `CatalogAt` finds that
      match: the spelled places are forced. */
  lemma CatalogAtComplete(e: string, i: nat, a: nat, b: nat, g: nat, h: nat)
    requires CatalogSpelled(e, i, a, b, g, h)
    ensures CatalogAt(e, i) == Some((g, h))
  {
    CatalogRuns(e, i, a, b, g, h);
  }

  /** The leftmost match at or after index `i`: the captured word. */
  function FirstCatalog(e: string, i: nat): (r: Option<string>)
    requires i <= |e|
    decreases |e| - i
  {
    var m := CatalogAt(e, i);
    if m.Some? then Some(e[m.value.0..m.value.1])
    else if i < |e| then FirstCatalog(e, i + 1)
    else None
  }

  /** A string in which `Initial` does not occur has no match. */
  lemma {:induction false} NoCatalogWithoutInitial(e: string, i: nat)
    requires i <= |e| && !Contains(e, "Initial")
    ensures FirstCatalog(e, i) == None
    decreases |e| - i
  {
    assert !OccursAt(e, "Initial", i);
    if i < |e| {
      NoCatalogWithoutInitial(e, i + 1);
    }
  }

  /** The first element of the list that the regular expression matches
      decides; no match anywhere raises `Exception`. */
  function DbNameOf(elements: seq<string>): (r: Result<string>)
    ensures r.Err? ==> r.error == GeneralError
  {
    if |elements| == 0 then Err(GeneralError)
    else
      var m := FirstCatalog(elements[0], 0);
      if m.Some? then Ok(m.value) else DbNameOf(elements[1..])
  }

  /** `GetDBName`: the connection string split at `;`, searched element by
      element. */
  function GetDbName(connString: string): Result<string>
  {
    DbNameOf(Split(connString, {';'}))
  }

  /** Whatever `GetDbName` returns is a word: non-empty, of word characters. */
  lemma {:induction false} DbNameIsWord(elements: seq<string>, name: string)
    requires DbNameOf(elements) == Ok(name)
    ensures IsWord(name)
    decreases |elements|
  {
    var m := FirstCatalog(elements[0], 0);
    if m.Some? {
      FirstCatalogIsWord(elements[0], 0, name);
    } else {
      DbNameIsWord(elements[1..], name);
    }
  }

  lemma {:induction false} FirstCatalogIsWord(e: string, i: nat, name: string)
    requires i <= |e| && FirstCatalog(e, i) == Some(name)
    ensures IsWord(name)
    decreases |e| - i
  {
    var m := CatalogAt(e, i);
    if m.Some? {
      CatalogAtSound(e, i, m.value.0, m.value.1);
    } else {
      FirstCatalogIsWord(e, i + 1, name);
    }
  }

  /** The captured name of `Initial Catalog=name`. */
  lemma CatalogOfClause(name: string)
    requires IsWord(name)
    ensures FirstCatalog("Initial Catalog=" + name, 0) == Some(name)
  {
    var e := "Initial Catalog=" + name;
    assert e[0..7] == "Initial" && e[8..15] == "Catalog";
    assert e[15] == '=';
    assert forall k :: 16 <= k < |e| ==> IsWordChar(e[k]) by {
      forall k | 16 <= k < |e| ensures IsWordChar(e[k]) { assert e[k] == name[k - 16]; }
    }
    assert e[16] == name[0];
    SpaceRunEndAt(e, 7, 8);
    SpaceRunEndAt(e, 15, 15);
    SpaceRunEndAt(e, 16, 16);
    WordRunEndAt(e, 16, |e|);
    assert e[16..|e|] == name;
  }

  /** Reading back a database name: after a first element without
      `Initial`, the element `Initial Catalog=name` gives `name`. */
  lemma DbNameRoundTrip(pre: string, name: string, post: string)
    requires ';' !in pre && !Contains(pre, "Initial") && IsWord(name)
    ensures GetDbName(pre + ";Initial Catalog=" + name + ";" + post) == Ok(name)
  {
    var clause := "Initial Catalog=" + name;
    assert ';' !in clause by {
      assert forall k :: 0 <= k < |name| ==> IsWordChar(name[k]);
    }
    var s := pre + ";Initial Catalog=" + name + ";" + post;
    assert s == pre + [';'] + (clause + [';'] + post);
    SplitFirst(pre, ';', clause + [';'] + post);
    SplitFirst(clause, ';', post);
    NoCatalogWithoutInitial(pre, 0);
    CatalogOfClause(name);
    var parts := Split(s, {';'});
    assert parts == [pre] + ([clause] + Split(post, {';'}));
    assert parts[0] == pre && parts[1..] == [clause] + Split(post, {';'});
    assert DbNameOf(parts[1..]) == Ok(name);
  }

  /** The search fails, with `Exception`, exactly when no element of the
      split connection string holds a match. */
  lemma {:induction false} DbNameMissing(elements: seq<string>)
    ensures DbNameOf(elements).Err? <==> forall k :: 0 <= k < |elements| ==> FirstCatalog(elements[k], 0).None?
    decreases |elements|
  {
    if |elements| > 0 {
      DbNameMissing(elements[1..]);
      assert forall k :: 1 <= k < |elements| ==> elements[k] == elements[1..][k - 1];
    }
  }

  // ---------------------------------------------------------------------
  // Rows to triples
  // ---------------------------------------------------------------------

  /** One row a query returned: its columns in order, each with its name
      (`GetName(i)`) and its value as text (`ToString()`). */
  type Row = seq<(string, string)>

  /** ASCII case folding, as the reader's case-insensitive name lookup
      applies it to the letters `A`-`Z`. */
  function FoldCase(c: char): char
  {
    if 'A' <= c <= 'Z' then (c as int + 32) as char else c
  }

  /** Two column names that differ at most in the case of their letters. */
  predicate SameName(a: string, b: string)
  {
    |a| == |b| && forall i :: 0 <= i < |a| ==> FoldCase(a[i]) == FoldCase(b[i])
  }

  /** The value of the first column whose name `matches` the requested one. */
  function FirstNamed(row: Row, col: string, exact: bool): (r: Option<string>)
    ensures r.Some? ==> exists k :: (&& 0 <= k < |row| && row[k].1 == r.value
                                     && (if exact then row[k].0 == col else SameName(row[k].0, col))
                                     && forall j :: 0 <= j < k ==>
                                          (if exact then row[j].0 != col else !SameName(row[j].0, col)))
    ensures r.None? <==> forall k :: 0 <= k < |row| ==>
      (if exact then row[k].0 != col else !SameName(row[k].0, col))
    decreases |row|
  {
    if |row| == 0 then None
    else if (if exact then row[0].0 == col else SameName(row[0].0, col)) then Some(row[0].1)
    else
      var r := FirstNamed(row[1..], col, exact);
      assert forall k :: 1 <= k < |row| ==> row[k] == row[1..][k - 1];
      r
  }

  /** `reader[col]` (`GetOrdinal`): the value of the first column named
      exactly `col`; failing that, of the first column whose name equals
      `col` up to case; a name the row has in neither form raises
      `IndexOutOfRangeException`. */
  function Field(row: Row, col: string): (r: Result<string>)
    ensures r.Ok? <==> exists k :: 0 <= k < |row| && SameName(row[k].0, col)
    ensures (exists k :: 0 <= k < |row| && row[k].0 == col) ==> r == Ok(FirstNamed(row, col, true).value)
    ensures r.Ok? ==> exists k :: 0 <= k < |row| && SameName(row[k].0, col) && row[k].1 == r.value
    ensures r.Err? ==> r.error == IndexOutOfRangeError
  {
    var exact := FirstNamed(row, col, true);
    if exact.Some? then
      assert SameName(col, col);
      Ok(exact.value)
    else
      var folded := FirstNamed(row, col, false);
      if folded.Some? then Ok(folded.value) else Err(IndexOutOfRangeError)
  }

  /** A predicate URI may name a column in another case than the table
      does: the reader still finds it, but prefers an exact match. */
  lemma FieldIgnoresCase()
    ensures Field([("Name", "Bob")], "name") == Ok("Bob")
    ensures Field([("name", "x"), ("Name", "y")], "Name") == Ok("y")
    ensures Field([("Name", "Bob")], "Nome") == Err(IndexOutOfRangeError)
  {
    assert SameName("Name", "name");
    assert !SameName("Name", "Nome") by { assert FoldCase("Name"[1]) != FoldCase("Nome"[1]); }
  }

  /** The subject the loader writes for a row: the individual URI of the
      row whose key column `key` holds `value`. */
  function RowSubject(prefix: string, db: string, table: string, key: string, value: string): string
  {
    IndividualUriText(IndividualUri(prefix, db, table, key, value))
  }

  /** The predicate the loader writes for a column: its property URI. */
  function ColumnPredicate(prefix: string, db: string, table: string, column: string): string
  {
    PropertyUriText(PropertyUri(prefix, db, table, column))
  }

  /** The triple of one row of `GetTriplesForPredicateObject`: its subject
      made from the key column, its object the bound object when there is
      one and the column's value otherwise; a missing column raises
      `IndexOutOfRangeException` (from the reader's indexer). */
  function RowTriple(prefix: string, db: string, table: string, column: string, pk: string,
                     obj: Option<string>, row: Row): (r: Result<Triple>)
    ensures r.Ok? <==> Field(row, pk).Ok? && (obj.None? ==> Field(row, column).Ok?)
    ensures r.Ok? ==>
      && r.value.subj == RowSubject(prefix, db, table, pk, Field(row, pk).value)
      && r.value.pred == ColumnPredicate(prefix, db, table, column)
      && r.value.obj == if obj.Some? then obj.value else Field(row, column).value
    ensures r.Err? ==> r.error == IndexOutOfRangeError
  {
    var key :- Field(row, pk);
    var o :- if obj.Some? then Ok(obj.value) else Field(row, column);
    Ok(Triple(RowSubject(prefix, db, table, pk, key), ColumnPredicate(prefix, db, table, column), o))
  }

  /** The `while (reader.Read())` loop of `GetTriplesForPredicateObject`:
      one triple per row, in row order; the first row that lacks a column
      ends the loop with its exception. */
  function PredicateObjectRows(prefix: string, db: string, table: string, column: string, pk: string,
                               obj: Option<string>, rows: seq<Row>): (r: Result<seq<Triple>>)
    ensures r.Ok? <==> forall i :: 0 <= i < |rows| ==> RowTriple(prefix, db, table, column, pk, obj, rows[i]).Ok?
    ensures r.Ok? ==> |r.value| == |rows|
    ensures r.Ok? ==> forall i :: 0 <= i < |rows| ==> RowTriple(prefix, db, table, column, pk, obj, rows[i]) == Ok(r.value[i])
    ensures r.Err? ==> r.error == IndexOutOfRangeError
    decreases |rows|
  {
    if |rows| == 0 then Ok([])
    else
      var t := RowTriple(prefix, db, table, column, pk, obj, rows[0]);
      var rest := PredicateObjectRows(prefix, db, table, column, pk, obj, rows[1..]);
      RowsShift(rows);
      if t.Err? then Err(t.error)
      else if rest.Err? then Err(rest.error)
      else Ok([t.value] + rest.value)
  }

  lemma RowsShift(rows: seq<Row>)
    requires |rows| > 0
    ensures forall i :: 1 <= i < |rows| ==> rows[i] == rows[1..][i - 1]
  {
  }

  /** `GetTriplesForPredicateObject`: a bound object loses its surrounding
      double quotes; the database name comes from the connection string and
      the key column is the first primary key the server reports (none
      raises `ArgumentOutOfRangeException`). */
  function PredicateObjectTriples(connString: string, table: string, column: string, prefix: string,
                                  obj: Option<string>, pks: seq<string>, rows: seq<Row>): (r: Result<seq<Triple>>)
    ensures GetDbName(connString).Err? ==> r == Err(GeneralError)
    ensures GetDbName(connString).Ok? && |pks| == 0 ==> r == Err(ArgumentOutOfRangeError)
    ensures r.Ok? && obj.Some? ==> forall t :: t in r.value ==> t.obj == Trim(obj.value, {'"'})
  {
    var o := if obj.Some? then Some(Trim(obj.value, {'"'})) else None;
    var db :- GetDbName(connString);
    if |pks| == 0 then Err(ArgumentOutOfRangeError)
    else PredicateObjectRows(prefix, db, table, column, pks[0], o, rows)
  }

  /** The triples the loader writes for a predicate and an object are read
      back by the mediator's URI parsers: the subject of each is the row's
      individual URI and the predicate the column's property URI, provided
      the names have the shapes the parsers expect. */
  lemma PredicateObjectReadBack(connString: string, table: string, column: string, prefix: string,
                                obj: Option<string>, pks: seq<string>, rows: seq<Row>, i: nat)
    requires PredicateObjectTriples(connString, table, column, prefix, obj, pks, rows).Ok?
    requires IsHttpPrefix(prefix) && IsWord(table) && IsWord(column) && |pks| > 0 && IsWord(pks[0])
    requires i < |rows|
    requires var v := Field(rows[i], pks[0]);
      v.Ok? && |v.value| > 0 && '/' !in v.value && v.value[|v.value| - 1] !in AngleBrackets
      && forall k :: 0 <= k < |v.value| ==> IsDotChar(v.value[k])
    ensures var ts := PredicateObjectTriples(connString, table, column, prefix, obj, pks, rows).value;
      var db := GetDbName(connString).value;
      && i < |ts|
      && ParseIndividualUri(ts[i].subj) == Ok(IndividualUri(prefix, db, table, pks[0], Field(rows[i], pks[0]).value))
      && ParsePropertyUri(ts[i].pred) == Ok(PropertyUri(prefix, db, table, column))
  {
    var db := GetDbName(connString).value;
    DbNameIsWord(Split(connString, {';'}), db);
    var u := IndividualUri(prefix, db, table, pks[0], Field(rows[i], pks[0]).value);
    assert IndividualShape(u);
    IndividualRoundTrip(u);
    PropertyRoundTrip(PropertyUri(prefix, db, table, column));
  }

  /** The triples of one row for a subject: one per column, named after the
      column, holding the column's value. */
  function RowCells(subj: string, prefix: string, db: string, table: string, row: Row): (ts: seq<Triple>)
    ensures |ts| == |row|
    ensures forall k :: 0 <= k < |row| ==>
      ts[k] == Triple(subj, ColumnPredicate(prefix, db, table, row[k].0), row[k].1)
  {
    seq(|row|, k requires 0 <= k < |row| => Triple(subj, ColumnPredicate(prefix, db, table, row[k].0), row[k].1))
  }

  /** Every column of every row, row by row (the subject-only fetch). */
  function AllCells(subj: string, prefix: string, db: string, table: string, rows: seq<Row>): seq<Triple>
    decreases |rows|
  {
    if |rows| == 0 then []
    else RowCells(subj, prefix, db, table, rows[0]) + AllCells(subj, prefix, db, table, rows[1..])
  }

  /** The columns of one row whose value is `obj`, in column order. */
  function RowMatches(subj: string, prefix: string, db: string, table: string, obj: string, row: Row): seq<Triple>
    decreases |row|
  {
    if |row| == 0 then []
    else
      var rest := RowMatches(subj, prefix, db, table, obj, row[1..]);
      if row[0].1 == obj then [Triple(subj, ColumnPredicate(prefix, db, table, row[0].0), obj)] + rest
      else rest
  }

  /** The `for` loop over the columns of every row, keeping the columns whose
      value is `obj` (the subject-and-object fetch). */
  function MatchingCells(subj: string, prefix: string, db: string, table: string, obj: string, rows: seq<Row>): seq<Triple>
    decreases |rows|
  {
    if |rows| == 0 then []
    else RowMatches(subj, prefix, db, table, obj, rows[0]) + MatchingCells(subj, prefix, db, table, obj, rows[1..])
  }

  /** The column of every row (the subject-and-predicate fetch). */
  function ColumnCells(subj: string, prefix: string, db: string, table: string, column: string, rows: seq<Row>): (r: Result<seq<Triple>>)
    ensures r.Ok? <==> forall i :: 0 <= i < |rows| ==> Field(rows[i], column).Ok?
    ensures r.Ok? ==> |r.value| == |rows|
    ensures r.Ok? ==> forall i :: 0 <= i < |rows| ==>
      r.value[i] == Triple(subj, ColumnPredicate(prefix, db, table, column), Field(rows[i], column).value)
    decreases |rows|
  {
    if |rows| == 0 then Ok([])
    else
      var v :- Field(rows[0], column);
      var rest :- ColumnCells(subj, prefix, db, table, column, rows[1..]);
      assert forall i :: 1 <= i < |rows| ==> rows[i] == rows[1..][i - 1];
      Ok([Triple(subj, ColumnPredicate(prefix, db, table, column), v)] + rest)
  }

  /** `GetTriplesForSubject`: the subject is the individual URI of
      `individualColName = individualColValue`; a bound predicate and a
      bound object together raise `ArgumentException`; otherwise the object,
      the predicate, or neither selects which cells become triples. */
  function SubjectTriples(connString: string, table: string, keyColumn: string, keyValue: string, prefix: string,
                          predColumn: Option<string>, obj: Option<string>, pks: seq<string>, rows: seq<Row>): (r: Result<seq<Triple>>)
    ensures predColumn.Some? && obj.Some? ==> r == Err(ArgumentError)
    ensures r.Ok? ==> GetDbName(connString).Ok? && forall t :: t in r.value ==>
      t.subj == RowSubject(prefix, GetDbName(connString).value, table, keyColumn, keyValue)
    ensures r.Ok? && obj.Some? ==> forall t :: t in r.value ==> t.obj == Trim(obj.value, {'"'})
  {
    var o := if obj.Some? then Some(Trim(obj.value, {'"'})) else None;
    if o.Some? && predColumn.Some? then Err(ArgumentError)
    else
      var db :- GetDbName(connString);
      var subj := RowSubject(prefix, db, table, keyColumn, keyValue);
      if o.Some? then
        if |pks| == 0 then Err(ArgumentOutOfRangeError)
        else
          SubjectsOfMatches(subj, prefix, db, table, o.value, rows);
          Ok(MatchingCells(subj, prefix, db, table, o.value, rows))
      else if predColumn.Some? then ColumnCells(subj, prefix, db, table, predColumn.value, rows)
      else
        SubjectsOfCells(subj, prefix, db, table, rows);
        Ok(AllCells(subj, prefix, db, table, rows))
  }

  lemma {:induction false} SubjectsOfCells(subj: string, prefix: string, db: string, table: string, rows: seq<Row>)
    ensures forall t :: t in AllCells(subj, prefix, db, table, rows) ==> t.subj == subj
    decreases |rows|
  {
    if |rows| > 0 {
      SubjectsOfCells(subj, prefix, db, table, rows[1..]);
    }
  }

  lemma {:induction false} SubjectsOfMatches(subj: string, prefix: string, db: string, table: string, obj: string, rows: seq<Row>)
    ensures forall t :: t in MatchingCells(subj, prefix, db, table, obj, rows) ==> t.subj == subj && t.obj == obj
    decreases |rows|
  {
    if |rows| > 0 {
      RowMatchesFacts(subj, prefix, db, table, obj, rows[0]);
      SubjectsOfMatches(subj, prefix, db, table, obj, rows[1..]);
    }
  }

  lemma {:induction false} RowMatchesFacts(subj: string, prefix: string, db: string, table: string, obj: string, row: Row)
    ensures forall t :: t in RowMatches(subj, prefix, db, table, obj, row) ==> t.subj == subj && t.obj == obj
    decreases |row|
  {
    if |row| > 0 {
      RowMatchesFacts(subj, prefix, db, table, obj, row[1..]);
    }
  }

  /** The triples whose object is `obj`, in order. */
  function WithObject(ts: seq<Triple>, obj: string): seq<Triple>
  {
    if |ts| == 0 then []
    else if ts[0].obj == obj then [ts[0]] + WithObject(ts[1..], obj)
    else WithObject(ts[1..], obj)
  }

  lemma {:induction false} WithObjectAppend(a: seq<Triple>, b: seq<Triple>, obj: string)
    ensures WithObject(a + b, obj) == WithObject(a, obj) + WithObject(b, obj)
    decreases |a|
  {
    if |a| == 0 {
      assert a + b == b;
    } else {
      assert (a + b)[1..] == a[1..] + b;
      WithObjectAppend(a[1..], b, obj);
    }
  }

  lemma {:induction false} RowMatchesAreFiltered(subj: string, prefix: string, db: string, table: string, obj: string, row: Row)
    ensures RowMatches(subj, prefix, db, table, obj, row) == WithObject(RowCells(subj, prefix, db, table, row), obj)
    decreases |row|
  {
    if |row| > 0 {
      var cells := RowCells(subj, prefix, db, table, row);
      assert cells[1..] == RowCells(subj, prefix, db, table, row[1..]);
      RowMatchesAreFiltered(subj, prefix, db, table, obj, row[1..]);
    }
  }

  /** The object-bound subject fetch keeps, in order, exactly the triples of
      the unbound fetch whose object is the (quote-trimmed) bound object. */
  lemma {:induction false} MatchingCellsAreFiltered(subj: string, prefix: string, db: string, table: string, obj: string, rows: seq<Row>)
    ensures MatchingCells(subj, prefix, db, table, obj, rows) == WithObject(AllCells(subj, prefix, db, table, rows), obj)
    decreases |rows|
  {
    if |rows| > 0 {
      RowMatchesAreFiltered(subj, prefix, db, table, obj, rows[0]);
      MatchingCellsAreFiltered(subj, prefix, db, table, obj, rows[1..]);
      WithObjectAppend(RowCells(subj, prefix, db, table, rows[0]), AllCells(subj, prefix, db, table, rows[1..]), obj);
    }
  }

  /** How the three modes of the subject fetch relate: with an object bound
      the result is the unbound result filtered by that object; with a
      column bound it has one triple per row. */
  lemma SubjectModes(connString: string, table: string, keyColumn: string, keyValue: string, prefix: string,
                     column: string, obj: string, pks: seq<string>, rows: seq<Row>)
    requires GetDbName(connString).Ok? && |pks| > 0
    ensures var all := SubjectTriples(connString, table, keyColumn, keyValue, prefix, None, None, pks, rows);
      var byObj := SubjectTriples(connString, table, keyColumn, keyValue, prefix, None, Some(obj), pks, rows);
      all.Ok? && byObj.Ok? && byObj.value == WithObject(all.value, Trim(obj, {'"'}))
    ensures var byCol := SubjectTriples(connString, table, keyColumn, keyValue, prefix, Some(column), None, pks, rows);
      byCol.Ok? <==> forall i :: 0 <= i < |rows| ==> Field(rows[i], column).Ok?
    ensures var byCol := SubjectTriples(connString, table, keyColumn, keyValue, prefix, Some(column), None, pks, rows);
      byCol.Ok? ==> |byCol.value| == |rows|
  {
    var db := GetDbName(connString).value;
    var subj := RowSubject(prefix, db, table, keyColumn, keyValue);
    MatchingCellsAreFiltered(subj, prefix, db, table, Trim(obj, {'"'}), rows);
  }
}

=== FILE: strings.dfy ===
/** The handful of .NET string operations the mediator relies on, over
    `string` = `seq<char>`, together with the character classes of the .NET
    regular-expression engine that the URI and connection-string parsers use. */
module Strings {

  /** `\w` of .NET regular expressions, restricted to ASCII. */
  predicate IsWordChar(c: char)
  {
    ('a' <= c <= 'z') || ('A' <= c <= 'Z') || ('0' <= c <= '9') || c == '_'
  }

  /** The ASCII characters that `\s` and `char.IsWhiteSpace` accept. */
  const WhiteSpace: set<char> := {' ', '\t', '\n', '\r', '\U{000B}', '\U{000C}'}

  /** `\s` of .NET regular expressions and `char.IsWhiteSpace`, restricted to ASCII. */
  predicate IsWhiteSpace(c: char)
  {
    c in WhiteSpace
  }

  /** `.` of .NET regular expressions: any character except a line feed. */
  predicate IsDotChar(c: char)
  {
    c != '\n'
  }

  predicate AllWordChars(s: string)
  {
    forall i {:trigger IsWordChar(s[i])} :: 0 <= i < |s| ==> IsWordChar(s[i])
  }

  /** A slice over word characters is made of word characters. */
  lemma WordSlice(s: string, a: nat, b: nat)
    requires a <= b <= |s|
    requires forall i {:trigger IsWordChar(s[i])} :: a <= i < b ==> IsWordChar(s[i])
    ensures AllWordChars(s[a..b])
  {
    forall i | 0 <= i < b - a
      ensures IsWordChar(s[a..b][i])
    {
      assert s[a..b][i] == s[a + i];
    }
  }

  /** A slice over `.`-characters is made of `.`-characters. */
  lemma DotSlice(s: string, a: nat, b: nat)
    requires a <= b <= |s|
    requires forall i {:trigger IsDotChar(s[i])} :: a <= i < b ==> IsDotChar(s[i])
    ensures forall i {:trigger IsDotChar(s[a..b][i])} :: 0 <= i < b - a ==> IsDotChar(s[a..b][i])
  {
    forall i | 0 <= i < b - a
      ensures IsDotChar(s[a..b][i])
    {
      assert s[a..b][i] == s[a + i];
    }
  }

  /** `s.StartsWith(p)` in the ordinal sense. */
  predicate IsPrefix(p: string, s: string)
  {
    |p| <= |s| && s[..|p|] == p
  }

  /** `t` occurs in `s` starting at index `i`. */
  predicate OccursAt(s: string, t: string, i: int)
  {
    0 <= i && i + |t| <= |s| && s[i..i + |t|] == t
  }

  /** A slice of a slice is a slice of the original. */
  lemma SliceOfSlice(s: string, i: nat, j: nat, a: nat, b: nat)
    requires i <= j <= |s| && a <= b <= j - i
    ensures s[i..j][a..b] == s[i + a..i + b]
  {
    assert forall k :: 0 <= k < b - a ==> s[i..j][a..b][k] == s[i + a..i + b][k];
  }

  /** `s.Contains(t)`; every string contains the empty string. */
  predicate Contains(s: string, t: string)
  {
    exists i | 0 <= i <= |s| :: OccursAt(s, t, i)
  }

  /** `s.IndexOf(t)`: the first occurrence of `t` at or after `from`, or -1. */
  function IndexOfFrom(s: string, t: string, from: nat): (r: int)
    ensures r == -1 || (from <= r && OccursAt(s, t, r))
    ensures forall j :: from <= j && (r == -1 || j < r) ==> !OccursAt(s, t, j)
    decreases |s| - from
  {
    if from + |t| > |s| then -1
    else if s[from..from + |t|] == t then from
    else IndexOfFrom(s, t, from + 1)
  }

  function IndexOf(s: string, t: string): (r: int)
    ensures r == -1 <==> !Contains(s, t)
    ensures r != -1 ==> OccursAt(s, t, r) && forall j :: 0 <= j < r ==> !OccursAt(s, t, j)
  {
    IndexOfFrom(s, t, 0)
  }

  /** `s.LastIndexOf(c)`, or -1. */
  function LastIndexOf(s: string, c: char): (r: int)
    ensures -1 <= r < |s|
    ensures r >= 0 ==> s[r] == c
    ensures forall j :: r < j < |s| ==> s[j] != c
  {
    if |s| == 0 then -1
    else if s[|s| - 1] == c then |s| - 1
    else LastIndexOf(s[..|s| - 1], c)
  }

  /** The last `c` of `a + [c] + b`, when `b` holds none, is the one after
      `a`. */
  lemma {:induction false} LastIndexOfSplit(a: string, c: char, b: string)
    requires c !in b
    ensures LastIndexOf(a + [c] + b, c) == |a|
    decreases |b|
  {
    var s := a + [c] + b;
    if |b| == 0 {
      assert s[|s| - 1] == c;
    } else {
      assert s[..|s| - 1] == a + [c] + b[..|b| - 1];
      assert s[|s| - 1] == b[|b| - 1];
      LastIndexOfSplit(a, c, b[..|b| - 1]);
    }
  }

  /** `s.TrimStart(cs)`: drop every leading character that is in `cs`. */
  function TrimStart(s: string, cs: set<char>): (r: string)
    ensures |r| <= |s| && r == s[|s| - |r|..]
    ensures |r| > 0 ==> r[0] !in cs
  {
    if |s| > 0 && s[0] in cs then TrimStart(s[1..], cs) else s
  }

  /** `s.TrimEnd(cs)`: drop every trailing character that is in `cs`. */
  function TrimEnd(s: string, cs: set<char>): (r: string)
    ensures |r| <= |s| && r == s[..|r|]
    ensures |r| > 0 ==> r[|r| - 1] !in cs
  {
    if |s| > 0 && s[|s| - 1] in cs then TrimEnd(s[..|s| - 1], cs) else s
  }

  /** `s.Trim(cs)`. */
  function Trim(s: string, cs: set<char>): string
  {
    TrimEnd(TrimStart(s, cs), cs)
  }

  /** What `TrimStart` drops is made of characters of `cs`. */
  lemma {:induction false} TrimStartDropped(s: string, cs: set<char>)
    ensures forall i :: 0 <= i < |s| - |TrimStart(s, cs)| ==> s[i] in cs
    decreases |s|
  {
    if |s| > 0 && s[0] in cs {
      TrimStartDropped(s[1..], cs);
      assert forall i :: 1 <= i < |s| - |TrimStart(s, cs)| ==> s[i] == s[1..][i - 1];
    }
  }

  /** What `TrimEnd` drops is made of characters of `cs`. */
  lemma {:induction false} TrimEndDropped(s: string, cs: set<char>)
    ensures forall i :: |TrimEnd(s, cs)| <= i < |s| ==> s[i] in cs
    decreases |s|
  {
    if |s| > 0 && s[|s| - 1] in cs {
      TrimEndDropped(s[..|s| - 1], cs);
    }
  }

  /** A string whose first and last characters are outside `cs` is its own trim. */
  lemma TrimUnchanged(s: string, cs: set<char>)
    requires |s| > 0 && s[0] !in cs && s[|s| - 1] !in cs
    ensures Trim(s, cs) == s
  {
  }

  /** One character of `cs` at each end of such a string is trimmed off. */
  lemma TrimWrapped(l: char, s: string, r: char, cs: set<char>)
    requires l in cs && r in cs && |s| > 0 && s[0] !in cs && s[|s| - 1] !in cs
    ensures Trim([l] + s + [r], cs) == s
  {
    var w := [l] + s + [r];
    assert w[1..] == s + [r];
    assert TrimStart(w, cs) == s + [r];
    assert (s + [r])[..|s|] == s;
    TrimUnchanged(s, cs);
  }

  /** `s.Replace(c.ToString(), "")`: every occurrence of `c` removed. */
  function RemoveChar(s: string, c: char): (r: string)
    ensures c !in r
    ensures forall x :: x != c ==> (x in r <==> x in s)
    ensures c !in s ==> r == s
  {
    if |s| == 0 then ""
    else if s[0] == c then RemoveChar(s[1..], c)
    else [s[0]] + RemoveChar(s[1..], c)
  }

  /** `s.Split(seps)` without options: the pieces between separator
      characters, empty pieces included, so there is always one more piece
      than there are separators. */
  function Split(s: string, seps: set<char>): (parts: seq<string>)
    ensures |parts| > 0
    ensures forall k :: 0 <= k < |parts| ==> forall c :: c in parts[k] ==> c !in seps
    decreases |s|
  {
    if |s| == 0 then [""]
    else if s[0] in seps then [""] + Split(s[1..], seps)
    else
      var rest := Split(s[1..], seps);
      [[s[0]] + rest[0]] + rest[1..]
  }

  /** `string.Join(sep, parts)`. */
  function Join(sep: string, parts: seq<string>): string
  {
    if |parts| == 0 then ""
    else if |parts| == 1 then parts[0]
    else parts[0] + sep + Join(sep, parts[1..])
  }

  /** Splitting on one character and joining with it gives the string back. */
  lemma {:induction false} SplitJoin(s: string, c: char)
    ensures Join([c], Split(s, {c})) == s
    decreases |s|
  {
    if |s| > 0 {
      var rest := Split(s[1..], {c});
      assert Join([c], rest) == s[1..] by {
        SplitJoin(s[1..], c);
      }
      if s[0] == c {
        assert Split(s, {c}) == [""] + rest;
        JoinEmptyHead(rest, [c]);
      } else {
        assert Split(s, {c}) == [[s[0]] + rest[0]] + rest[1..];
        JoinExtendHead(s[0], rest, [c]);
      }
      assert s == [s[0]] + s[1..];
    }
  }

  /** Splitting at a separator that `a` does not hold: `a` is the first piece. */
  lemma {:induction false} SplitFirst(a: string, c: char, b: string)
    requires c !in a
    ensures Split(a + [c] + b, {c}) == [a] + Split(b, {c})
    decreases |a|
  {
    var s := a + [c] + b;
    if |a| == 0 {
      assert s == [c] + b && s[1..] == b;
    } else {
      assert s[1..] == a[1..] + [c] + b;
      SplitFirst(a[1..], c, b);
      assert [s[0]] + a[1..] == a;
    }
  }

  /** A string without the separator is one piece. */
  lemma {:induction false} SplitNone(s: string, c: char)
    requires c !in s
    ensures Split(s, {c}) == [s]
    decreases |s|
  {
    if |s| > 0 {
      SplitNone(s[1..], c);
      assert [s[0]] + s[1..] == s;
    }
  }

  /** Joining a part in front of others puts the separator between. */
  lemma JoinCons(sep: string, a: string, rest: seq<string>)
    requires |rest| > 0
    ensures Join(sep, [a] + rest) == a + sep + Join(sep, rest)
  {
    assert ([a] + rest)[1..] == rest;
  }

  /** Joining after an empty first part starts with the separator. */
  lemma JoinEmptyHead(rest: seq<string>, sep: string)
    requires |rest| > 0
    ensures Join(sep, [""] + rest) == sep + Join(sep, rest)
  {
    assert ([""] + rest)[1..] == rest;
  }

  /** Prefixing the first part prefixes the join. */
  lemma JoinExtendHead(x: char, rest: seq<string>, sep: string)
    requires |rest| > 0
    ensures Join(sep, [[x] + rest[0]] + rest[1..]) == [x] + Join(sep, rest)
  {
    var parts := [[x] + rest[0]] + rest[1..];
    if |rest| > 1 {
      assert parts[1..] == rest[1..];
    }
  }


  /** `s.Replace(pattern, replacement)` for a non-empty `pattern`: every occurrence, scanned
      left to right without overlap, replaced. */
  function ReplaceAll(s: string, pattern: string, replacement: string): (r: string)
    requires |pattern| > 0
    ensures !Contains(s, pattern) ==> r == s
    decreases |s|
  {
    if |s| < |pattern| then s
    else if s[..|pattern|] == pattern then
      assert OccursAt(s, pattern, 0);
      replacement + ReplaceAll(s[|pattern|..], pattern, replacement)
    else
      assert forall i :: OccursAt(s[1..], pattern, i) ==> OccursAt(s, pattern, i + 1);
      [s[0]] + ReplaceAll(s[1..], pattern, replacement)
  }

  /** Where the text does not start with the pattern, the first character
      is kept and the replacing goes on from the second. */
  lemma ReplaceAllPasses(s: string, pattern: string, replacement: string)
    requires |pattern| > 0 && |s| > 0 && s[0] != pattern[0]
    ensures ReplaceAll(s, pattern, replacement) == [s[0]] + ReplaceAll(s[1..], pattern, replacement)
  {
    if |s| >= |pattern| {
      assert s[..|pattern|][0] == s[0];
    } else {
      assert s == [s[0]] + s[1..];
    }
  }

  /** End of the longest run of word characters starting at `k`. */
  function WordRunEnd(s: string, k: nat): (e: nat)
    requires k <= |s|
    ensures k <= e <= |s|
    ensures e < |s| ==> !IsWordChar(s[e])
    decreases |s| - k
  {
    if k < |s| && IsWordChar(s[k]) then WordRunEnd(s, k + 1) else k
  }

  /** Every character of the run is a word character. */
  lemma {:induction false} WordRunChars(s: string, k: nat)
    requires k <= |s|
    ensures forall i {:trigger IsWordChar(s[i])} :: k <= i < WordRunEnd(s, k) ==> IsWordChar(s[i])
    decreases |s| - k
  {
    if k < |s| && IsWordChar(s[k]) {
      WordRunChars(s, k + 1);
    }
  }

  /** End of the longest run of white space starting at `k`. */
  function SpaceRunEnd(s: string, k: nat): (e: nat)
    requires k <= |s|
    ensures k <= e <= |s|
    ensures forall i {:trigger IsWhiteSpace(s[i])} :: k <= i < e ==> IsWhiteSpace(s[i])
    ensures e < |s| ==> !IsWhiteSpace(s[e])
    decreases |s| - k
  {
    if k < |s| && IsWhiteSpace(s[k]) then SpaceRunEnd(s, k + 1) else k
  }

  /** End of the longest run of `.`-characters (no line feed) starting at `k`. */
  function LineEnd(s: string, k: nat): (e: nat)
    requires k <= |s|
    ensures k <= e <= |s|
    ensures e < |s| ==> !IsDotChar(s[e])
    decreases |s| - k
  {
    if k < |s| && IsDotChar(s[k]) then LineEnd(s, k + 1) else k
  }

  /** No line feed lies between `k` and the end of its line. */
  lemma {:induction false} LineChars(s: string, k: nat)
    requires k <= |s|
    ensures forall i {:trigger IsDotChar(s[i])} :: k <= i < LineEnd(s, k) ==> IsDotChar(s[i])
    decreases |s| - k
  {
    if k < |s| && IsDotChar(s[k]) {
      LineChars(s, k + 1);
    }
  }

  /** A run that ends at a character outside the class is exactly the maximal run. */
  lemma WordRunEndAt(s: string, k: nat, e: nat)
    requires k <= e <= |s|
    requires forall i {:trigger IsWordChar(s[i])} :: k <= i < e ==> IsWordChar(s[i])
    requires e == |s| || !IsWordChar(s[e])
    ensures WordRunEnd(s, k) == e
    decreases e - k
  {
    if k < e {
      WordRunEndAt(s, k + 1, e);
    }
  }

  lemma SpaceRunEndAt(s: string, k: nat, e: nat)
    requires k <= e <= |s|
    requires forall i {:trigger IsWhiteSpace(s[i])} :: k <= i < e ==> IsWhiteSpace(s[i])
    requires e == |s| || !IsWhiteSpace(s[e])
    ensures SpaceRunEnd(s, k) == e
    decreases e - k
  {
    if k < e {
      SpaceRunEndAt(s, k + 1, e);
    }
  }

  lemma LineEndAt(s: string, k: nat, e: nat)
    requires k <= e <= |s|
    requires forall i {:trigger IsDotChar(s[i])} :: k <= i < e ==> IsDotChar(s[i])
    requires e == |s| || !IsDotChar(s[e])
    ensures LineEnd(s, k) == e
    decreases e - k
  {
    if k < e {
      LineEndAt(s, k + 1, e);
    }
  }
}

=== FILE: uri_codec.dfy ===
/** The URI helpers of `QuantumQueryProcessor`: the property-URI and
    individual-URI parsers (two .NET regular expressions, modelled by hand in
    the engine's backtracking order), source classification by URI prefix, and
    the literal-versus-URI test. */
module UriCodec {
  import opened Wrappers
  import opened Strings

  /** Characters removed by `Trim('<', '>')`. */
  const AngleBrackets: set<char> := {'<', '>'}

  /** `prefix/db/table#column`, the address of one column of one table. */
  datatype PropertyUri = PropertyUri(prefix: string, db: string, table: string, column: string)

  /** `prefix/db/table/column.value`, the address of one row, identified by
      the value `value` of its key column `column`. */
  datatype IndividualUri = IndividualUri(prefix: string, db: string, table: string, column: string, value: string)

  function PropertyUriText(u: PropertyUri): string
  {
    u.prefix + u.db + "/" + u.table + "#" + u.column
  }

  /** The string the loaders build for a row (MSSQLdBLoader.cs, line 154). */
  function IndividualUriText(u: IndividualUri): string
  {
    u.prefix + u.db + "/" + u.table + "/" + u.column + "." + u.value
  }

  /** A namespace prefix the group `(http\w{0,1}://.+/)` accepts: `http`, at
      most one word character, `://`, at least one more character, and a
      final `/`, all on one line. */
  predicate IsHttpPrefix(p: string)
  {
    && 9 <= |p| && p[..4] == "http" && p[|p| - 1] == '/'
    && (p[4..7] == "://" || (10 <= |p| && IsWordChar(p[4]) && p[5..8] == "://"))
    && forall k {:trigger IsDotChar(p[k])} :: 0 <= k < |p| ==> IsDotChar(p[k])
  }

  predicate IsWord(s: string)
  {
    |s| > 0 && AllWordChars(s)
  }

  /** What the property regex can capture. */
  predicate PropertyShape(u: PropertyUri)
  {
    IsHttpPrefix(u.prefix) && IsWord(u.db) && IsWord(u.table) && IsWord(u.column)
  }

  /** What the individual regex can capture: the value is any non-empty
      rest of the line. */
  predicate IndividualShape(u: IndividualUri)
  {
    && IsHttpPrefix(u.prefix) && IsWord(u.db) && IsWord(u.table) && IsWord(u.column)
    && |u.value| > 0 && forall k {:trigger IsDotChar(u.value[k])} :: 0 <= k < |u.value| ==> IsDotChar(u.value[k])
  }

  // ---------------------------------------------------------------------
  // The two regular expressions
  //   (http\w{0,1}://.+/)(\w+)/(\w+)#(\w+)          property URI
  //   (http\w{0,1}://.+/)(\w+)/(\w+)/(\w+).(.+)     individual URI
  // are unanchored; .NET returns the match with the leftmost start, and at
  // that start the first success in backtracking order: the greedy `.+`
  // of the prefix tries its longest extent first.
  // ---------------------------------------------------------------------

  datatype Shape = PropertyPattern | IndividualPattern

  /** Where the groups after the prefix end, for a tail matched at `j`:
      db = `s[j..d]`, table = `s[d+1..t]`, column = `s[t+1..c]`, and for an
      individual value = `s[c+1..e]` (for a property `e == c`). */
  datatype Cut = Cut(d: nat, t: nat, c: nat, e: nat)

  /** The index order every tail match keeps. */
  predicate CutWithin(j: nat, k: Cut, n: nat)
  {
    j < k.d < k.t < k.c <= k.e <= n
  }

  /** `http\w{0,1}://` at index `i`: the index just after `://`. */
  function SchemeEnd(s: string, i: nat): (r: Option<nat>)
    ensures r.Some? ==> i + 7 <= r.value <= |s|
  {
    if i + 8 <= |s| && s[i..i + 4] == "http" && IsWordChar(s[i + 4]) && s[i + 5..i + 8] == "://" then Some(i + 8)
    else if i + 7 <= |s| && s[i..i + 4] == "http" && s[i + 4..i + 7] == "://" then Some(i + 7)
    else None
  }

  /** Where the key column group `(\w+)` of the individual pattern ends,
      trying the longest extent `m` first: the `.` after it and the first
      character of `(.+)` must both exist on the line. */
  function KeyEnd(s: string, start: nat, m: nat): (r: Option<nat>)
    requires start < m <= |s|
    ensures r.Some? ==> start < r.value <= m && r.value + 1 < |s|
    decreases m
  {
    if m + 1 < |s| && IsDotChar(s[m]) && IsDotChar(s[m + 1]) then Some(m)
    else if m - 1 > start then KeyEnd(s, start, m - 1)
    else None
  }

  /** The key column ends where a `.` and one more character of the line follow. */
  lemma {:induction false} KeyEndFacts(s: string, start: nat, m: nat)
    requires start < m <= |s| && KeyEnd(s, start, m).Some?
    ensures IsDotChar(s[KeyEnd(s, start, m).value]) && IsDotChar(s[KeyEnd(s, start, m).value + 1])
    decreases m
  {
    if !(m + 1 < |s| && IsDotChar(s[m]) && IsDotChar(s[m + 1])) {
      KeyEndFacts(s, start, m - 1);
    }
  }

  function Separator(shape: Shape): char
  {
    if shape == PropertyPattern then '#' else '/'
  }

  /** The part of a pattern after the prefix, matched at index `j`. A `(\w+)`
      group followed by `/` or `#` can only succeed with its longest extent,
      so each is the maximal word run; the key column of an individual then
      backs off until `.(.+)` can follow it, and `(.+)` takes the rest of
      the line. */
  function TailCut(s: string, j: nat, shape: Shape): (r: Option<Cut>)
    ensures r.Some? ==> CutWithin(j, r.value, |s|)
  {
    if j > |s| then None
    else
      var d := WordRunEnd(s, j);
      if !(j < d < |s| && s[d] == '/') then None
      else
        var t := WordRunEnd(s, d + 1);
        if !(d + 1 < t < |s| && s[t] == Separator(shape)) then None
        else
          var c := WordRunEnd(s, t + 1);
          if c == t + 1 then None
          else if shape == PropertyPattern then Some(Cut(d, t, c, c))
          else
            var m := KeyEnd(s, t + 1, c);
            if m.None? then None else Some(Cut(d, t, m.value, LineEnd(s, m.value + 1)))
  }

  /** A `/` at index `k` followed by a text the tail matches. */
  predicate SlashMatchAt(s: string, k: nat, shape: Shape)
    requires k < |s|
  {
    s[k] == '/' && TailCut(s, k + 1, shape).Some?
  }

  /** The greedy `.+/` of the prefix: the last `/` at index `q` or below
      (and above `p`, since `.+` is non-empty) after which the tail matches. */
  function LastSlashMatch(s: string, p: nat, q: int, shape: Shape): (r: Option<(nat, Cut)>)
    requires q < |s|
    ensures r.Some? ==> p + 2 <= r.value.0 <= q + 1 && CutWithin(r.value.0, r.value.1, |s|)
    decreases q
  {
    if q <= p then None
    else if SlashMatchAt(s, q, shape) then Some((q + 1, TailCut(s, q + 1, shape).value))
    else LastSlashMatch(s, p, q - 1, shape)
  }

  /** The match whose prefix group starts at index `i`, if there is one:
      the end of the prefix group and the cut of the remaining groups. */
  function MatchAt(s: string, i: nat, shape: Shape): (r: Option<(nat, Cut)>)
    requires i <= |s|
    ensures r.Some? ==> i + 9 <= r.value.0 && CutWithin(r.value.0, r.value.1, |s|)
  {
    match SchemeEnd(s, i)
    case None => None
    case Some(p) => LastSlashMatch(s, p, LineEnd(s, p) - 1, shape)
  }

  /** The leftmost match at or after index `i`: its start, the end of its
      prefix group, and the cut of the remaining groups. */
  function MatchFrom(s: string, i: nat, shape: Shape): (r: Option<(nat, nat, Cut)>)
    requires i <= |s|
    ensures r.Some? ==> i <= r.value.0 <= |s| && MatchAt(s, r.value.0, shape) == Some((r.value.1, r.value.2))
    decreases |s| - i
  {
    if MatchAt(s, i, shape).Some? then Some((i, MatchAt(s, i, shape).value.0, MatchAt(s, i, shape).value.1))
    else if i < |s| then MatchFrom(s, i + 1, shape)
    else None
  }

  // ---------------------------------------------------------------------
  // What a match says about the text
  // ---------------------------------------------------------------------

  /** What the greedy search returns: a `/` just before a tail match. */
  lemma {:induction false} LastSlashMatchFacts(s: string, p: nat, q: int, shape: Shape)
    requires q < |s| && LastSlashMatch(s, p, q, shape).Some?
    ensures var r := LastSlashMatch(s, p, q, shape).value;
      s[r.0 - 1] == '/' && TailCut(s, r.0, shape) == Some(r.1)
    decreases q
  {
    if !SlashMatchAt(s, q, shape) {
      LastSlashMatchFacts(s, p, q - 1, shape);
    }
  }

  /** A match at `i` ends its prefix group where a tail match starts. */
  lemma MatchAtTail(s: string, i: nat, j: nat, k: Cut, shape: Shape)
    requires i <= |s| && MatchAt(s, i, shape) == Some((j, k))
    ensures TailCut(s, j, shape) == Some(k)
  {
    var p := SchemeEnd(s, i).value;
    LastSlashMatchFacts(s, p, LineEnd(s, p) - 1, shape);
  }

  /** The prefix group of a match at `i` is a scheme followed by a run of
      `.`-characters ending in `/`. */
  lemma MatchAtFacts(s: string, i: nat, j: nat, k: Cut, shape: Shape)
    requires i <= |s| && MatchAt(s, i, shape) == Some((j, k))
    ensures && SchemeEnd(s, i).Some? && SchemeEnd(s, i).value + 2 <= j && s[j - 1] == '/'
      && forall x {:trigger IsDotChar(s[x])} :: SchemeEnd(s, i).value <= x < j ==> IsDotChar(s[x])
  {
    var p := SchemeEnd(s, i).value;
    LastSlashMatchFacts(s, p, LineEnd(s, p) - 1, shape);
    LineChars(s, p);
  }

  /** The characters a tail match at `j` has read: three word groups
      separated by `/` and the shape's separator. */
  lemma TailCutWords(s: string, j: nat, k: Cut, shape: Shape)
    requires TailCut(s, j, shape) == Some(k)
    ensures && s[k.d] == '/' && s[k.t] == Separator(shape)
      && IsWord(s[j..k.d]) && IsWord(s[k.d + 1..k.t]) && IsWord(s[k.t + 1..k.c])
      && (shape == PropertyPattern ==> k.e == k.c)
  {
    WordRunChars(s, j);
    WordRunChars(s, k.d + 1);
    WordRunChars(s, k.t + 1);
    WordSlice(s, j, k.d);
    WordSlice(s, k.d + 1, k.t);
    WordSlice(s, k.t + 1, k.c);
  }

  /** The value of an individual tail match: one `.`-character after the
      key column, then a non-empty rest of the line. */
  lemma TailCutValue(s: string, j: nat, k: Cut)
    requires TailCut(s, j, IndividualPattern) == Some(k)
    ensures && k.c + 1 < k.e && IsDotChar(s[k.c])
      && forall x {:trigger IsDotChar(s[k.c + 1..k.e][x])} :: 0 <= x < k.e - k.c - 1 ==> IsDotChar(s[k.c + 1..k.e][x])
  {
    var d := WordRunEnd(s, j);
    var t := WordRunEnd(s, d + 1);
    var c := WordRunEnd(s, t + 1);
    KeyEndFacts(s, t + 1, c);
    LineChars(s, k.c + 1);
    DotSlice(s, k.c + 1, k.e);
  }

  /** What a tail match at `j` has read, as facts about the text. */
  predicate TailGroups(s: string, j: nat, k: Cut, shape: Shape)
  {
    && CutWithin(j, k, |s|) && s[k.d] == '/' && s[k.t] == Separator(shape)
    && IsWord(s[j..k.d]) && IsWord(s[k.d + 1..k.t]) && IsWord(s[k.t + 1..k.c])
    && (shape == PropertyPattern ==> k.e == k.c)
    && (shape == IndividualPattern ==>
          && k.c + 1 < k.e && IsDotChar(s[k.c])
          && forall x {:trigger IsDotChar(s[k.c + 1..k.e][x])} :: 0 <= x < k.e - k.c - 1 ==> IsDotChar(s[k.c + 1..k.e][x]))
  }

  lemma TailCutGroups(s: string, j: nat, k: Cut, shape: Shape)
    requires TailCut(s, j, shape) == Some(k)
    ensures TailGroups(s, j, k, shape)
  {
    TailCutWords(s, j, k, shape);
    if shape == IndividualPattern {
      TailCutValue(s, j, k);
    }
  }

  /** A match at `i` reads an http prefix, then a tail. */
  lemma MatchAtGroups(s: string, i: nat, j: nat, k: Cut, shape: Shape)
    requires i <= |s| && MatchAt(s, i, shape) == Some((j, k))
    ensures TailGroups(s, j, k, shape) && i <= j && IsHttpPrefix(s[i..j])
  {
    MatchAtPrefix(s, i, j, k, shape);
    MatchAtTail(s, i, j, k, shape);
    TailCutGroups(s, j, k, shape);
  }

  /** The prefix group of a match is an http prefix. */
  lemma MatchPrefixIsHttp(s: string, i: nat, j: nat)
    requires i <= j <= |s|
    requires SchemeEnd(s, i).Some? && SchemeEnd(s, i).value + 2 <= j
    requires s[j - 1] == '/' && forall k {:trigger IsDotChar(s[k])} :: SchemeEnd(s, i).value <= k < j ==> IsDotChar(s[k])
    ensures IsHttpPrefix(s[i..j])
  {
    var p := s[i..j];
    var e := SchemeEnd(s, i).value;
    SliceOfSlice(s, i, j, 0, 4);
    if e == i + 8 {
      SliceOfSlice(s, i, j, 5, 8);
    } else {
      SliceOfSlice(s, i, j, 4, 7);
    }
    forall k | 0 <= k < |p|
      ensures IsDotChar(p[k])
    {
      if i + k < i + 4 {
        assert s[i + k] == s[i..i + 4][k];
      } else if i + k < e {
        assert s[i + k] in s[i + 4..e];
        assert s[i + 4..e] == "://" || s[i + 4..e] == [s[i + 4]] + "://";
      } else {
        assert IsDotChar(s[i + k]);
      }
    }
  }

  /** The prefix group of a match at `i` is an http prefix. */
  lemma MatchAtPrefix(s: string, i: nat, j: nat, k: Cut, shape: Shape)
    requires i <= |s| && MatchAt(s, i, shape) == Some((j, k))
    ensures IsHttpPrefix(s[i..j])
  {
    MatchAtFacts(s, i, j, k, shape);
    MatchPrefixIsHttp(s, i, j);
  }

  /** A slice made of the pieces between the cut points. */
  lemma HeadText(s: string, i: nat, j: nat, k: Cut, sep: char)
    requires i <= j && CutWithin(j, k, |s|) && s[k.d] == '/' && s[k.t] == sep
    ensures s[i..k.c] == s[i..j] + s[j..k.d] + "/" + s[k.d + 1..k.t] + [sep] + s[k.t + 1..k.c]
  {
    assert s[i..k.c] == s[i..j] + s[j..k.d] + [s[k.d]] + s[k.d + 1..k.t] + [s[k.t]] + s[k.t + 1..k.c];
  }

  // ---------------------------------------------------------------------
  // The two parsers
  // ---------------------------------------------------------------------

  /** The property URI a property match at `i` reads. */
  function PropertyOf(s: string, i: nat, j: nat, k: Cut): PropertyUri
    requires i <= j && CutWithin(j, k, |s|)
  {
    PropertyUri(s[i..j], s[j..k.d], s[k.d + 1..k.t], s[k.t + 1..k.c])
  }

  /** The individual URI an individual match at `i` reads. */
  function IndividualOf(s: string, i: nat, j: nat, k: Cut): IndividualUri
    requires i <= j && CutWithin(j, k, |s|)
  {
    var value := if k.c < k.e then s[k.c + 1..k.e] else "";
    IndividualUri(s[i..j], s[j..k.d], s[k.d + 1..k.t], s[k.t + 1..k.c], value)
  }

  /** The property pattern applied to a string: its first match, or
      `ArgumentException` when the pattern does not occur. */
  function MatchPropertyUri(s: string): (r: Result<PropertyUri>)
    ensures r.Err? ==> r.error == ArgumentError
  {
    var m := MatchFrom(s, 0, PropertyPattern);
    if m.None? then Err(ArgumentError)
    else Ok(PropertyOf(s, m.value.0, m.value.1, m.value.2))
  }

  /** `GetPrefixDbNameTableNameColNameFromURI`: the property pattern applied
      to the URI stripped of angle brackets. */
  function ParsePropertyUri(uri: string): Result<PropertyUri>
  {
    MatchPropertyUri(Trim(uri, AngleBrackets))
  }


  /** The groups of a property match at `i` have the property shape, and
      their text occurs at `i`. */
  lemma PropertyMatchSound(s: string, i: nat, j: nat, k: Cut)
    requires i <= |s| && MatchAt(s, i, PropertyPattern) == Some((j, k))
    ensures var u := PropertyOf(s, i, j, k);
      PropertyShape(u) && OccursAt(s, PropertyUriText(u), i)
  {
    MatchAtGroups(s, i, j, k, PropertyPattern);
    PropertyGroupsSound(s, i, j, k);
  }

  lemma PropertyGroupsSound(s: string, i: nat, j: nat, k: Cut)
    requires TailGroups(s, j, k, PropertyPattern) && i <= j && IsHttpPrefix(s[i..j])
    ensures var u := PropertyOf(s, i, j, k);
      PropertyShape(u) && OccursAt(s, PropertyUriText(u), i)
  {
    HeadText(s, i, j, k, '#');
  }

  /** A parsed property URI has the property shape and its text occurs in
      the input. */
  lemma ParsePropertyUriSound(uri: string)
    requires ParsePropertyUri(uri).Ok?
    ensures PropertyShape(ParsePropertyUri(uri).value)
    ensures Contains(Trim(uri, AngleBrackets), PropertyUriText(ParsePropertyUri(uri).value))
  {
    var s := Trim(uri, AngleBrackets);
    var m := MatchFrom(s, 0, PropertyPattern).value;
    PropertyMatchSound(s, m.0, m.1, m.2);
  }

  /** The individual pattern applied to a string: its first match, or
      `ArgumentException` when the pattern does not occur. */
  function MatchIndividualUri(s: string): (r: Result<IndividualUri>)
    ensures r.Err? ==> r.error == ArgumentError
  {
    var m := MatchFrom(s, 0, IndividualPattern);
    if m.None? then Err(ArgumentError)
    else Ok(IndividualOf(s, m.value.0, m.value.1, m.value.2))
  }

  /** `GetDatabaseInfoForIndividualURI`: the individual pattern applied to
      the URI stripped of angle brackets. */
  function ParseIndividualUri(uri: string): Result<IndividualUri>
  {
    MatchIndividualUri(Trim(uri, AngleBrackets))
  }


  /** The groups of an individual match at `i` have the individual shape. */
  lemma IndividualMatchShape(s: string, i: nat, j: nat, k: Cut)
    requires i <= |s| && MatchAt(s, i, IndividualPattern) == Some((j, k))
    ensures IndividualShape(IndividualOf(s, i, j, k))
  {
    MatchAtGroups(s, i, j, k, IndividualPattern);
    IndividualGroupsShape(s, i, j, k);
  }

  lemma IndividualGroupsShape(s: string, i: nat, j: nat, k: Cut)
    requires TailGroups(s, j, k, IndividualPattern) && i <= j && IsHttpPrefix(s[i..j])
    ensures IndividualShape(IndividualOf(s, i, j, k))
  {
  }

  /** The text `prefix db/table/column` of `u` occurs at `i` of `s`, and its
      value one character after it. */
  predicate IndividualOccursAt(s: string, u: IndividualUri, i: nat)
  {
    var head := u.prefix + u.db + "/" + u.table + "/" + u.column;
    OccursAt(s, head, i) && OccursAt(s, u.value, i + |head| + 1)
  }

  /** The head of an individual match occurs at `i`, and its value one
      character after the head. */
  lemma IndividualMatchOccurs(s: string, i: nat, j: nat, k: Cut)
    requires i <= |s| && MatchAt(s, i, IndividualPattern) == Some((j, k))
    ensures IndividualOccursAt(s, IndividualOf(s, i, j, k), i)
  {
    MatchAtGroups(s, i, j, k, IndividualPattern);
    IndividualCutOccurs(s, i, j, k);
  }

  /** The groups an individual cut reads occur where the cut puts them. */
  lemma IndividualCutOccurs(s: string, i: nat, j: nat, k: Cut)
    requires i <= j && CutWithin(j, k, |s|) && k.c + 1 < k.e && s[k.d] == '/' && s[k.t] == '/'
    ensures IndividualOccursAt(s, IndividualOf(s, i, j, k), i)
  {
    var u := IndividualOf(s, i, j, k);
    var head := u.prefix + u.db + "/" + u.table + "/" + u.column;
    assert head == s[i..k.c] by {
      HeadText(s, i, j, k, '/');
    }
    assert OccursAt(s, head, i);
    assert u.value == s[k.c + 1..k.e];
    assert OccursAt(s, u.value, i + |head| + 1);
  }

  /** A parsed individual URI has the individual shape. */
  lemma ParseIndividualUriShape(uri: string)
    requires ParseIndividualUri(uri).Ok?
    ensures IndividualShape(ParseIndividualUri(uri).value)
  {
    var s := Trim(uri, AngleBrackets);
    var m := MatchFrom(s, 0, IndividualPattern).value;
    IndividualMatchShape(s, m.0, m.1, m.2);
  }

  /** The parts of a parsed individual URI occur in the input in order, with
      exactly one character (the regex's unescaped `.`) between the key
      column and the value. */
  lemma ParseIndividualUriOccurs(uri: string)
    requires ParseIndividualUri(uri).Ok?
    ensures exists i :: IndividualOccursAt(Trim(uri, AngleBrackets), ParseIndividualUri(uri).value, i)
  {
    var s := Trim(uri, AngleBrackets);
    var m := MatchFrom(s, 0, IndividualPattern).value;
    IndividualMatchOccurs(s, m.0, m.1, m.2);
  }

  // ---------------------------------------------------------------------
  // Round trips: parsing the text the loaders build gives back its parts.
  // ---------------------------------------------------------------------

  /** The greedy search passes over every `/` after which the tail fails. */
  lemma {:induction false} LastSlashSkip(s: string, p: nat, q: int, q': int, shape: Shape)
    requires q' <= q < |s|
    requires forall x :: q' < x <= q && p < x ==> !SlashMatchAt(s, x, shape)
    ensures LastSlashMatch(s, p, q, shape) == LastSlashMatch(s, p, q', shape)
    decreases q - q'
  {
    if q == q' {
    } else if q <= p {
      assert LastSlashMatch(s, p, q', shape) == None;
    } else {
      assert !SlashMatchAt(s, q, shape);
      LastSlashSkip(s, p, q - 1, q', shape);
    }
  }

  /** A string that starts with a scheme and stays on one line, whose last
      `/` followed by a tail match ends at index `n`, is matched from its
      very start with a prefix group ending at `n`. */
  lemma MatchFromStart(s: string, shape: Shape, n: nat, k: Cut)
    requires SchemeEnd(s, 0).Some? && SchemeEnd(s, 0).value + 2 <= n <= |s|
    requires LineEnd(s, SchemeEnd(s, 0).value) == |s|
    requires s[n - 1] == '/' && TailCut(s, n, shape) == Some(k)
    requires forall x :: n - 1 < x < |s| ==> !SlashMatchAt(s, x, shape)
    ensures MatchFrom(s, 0, shape) == Some((0, n, k))
  {
    var e := SchemeEnd(s, 0).value;
    LastSlashSkip(s, e, |s| - 1, n - 1, shape);
    assert SlashMatchAt(s, n - 1, shape);
    assert MatchAt(s, 0, shape) == Some((n, k));
  }

  /** The scheme of a well-formed prefix at the start of a string. */
  lemma SchemeOfPrefix(s: string, prefix: string)
    requires IsHttpPrefix(prefix) && IsPrefix(prefix, s)
    ensures SchemeEnd(s, 0).Some? && SchemeEnd(s, 0).value + 2 <= |prefix|
  {
    assert s[..4] == prefix[..4];
    if prefix[4..7] == "://" {
      assert s[4..7] == prefix[4..7];
    } else {
      assert s[4] == prefix[4] && s[5..8] == prefix[5..8];
    }
  }

  /** A string that begins with a well-formed prefix and has no line feed
      after it stays on one line from its scheme on. */
  lemma OneLine(s: string, prefix: string)
    requires IsHttpPrefix(prefix) && IsPrefix(prefix, s)
    requires forall x :: |prefix| <= x < |s| ==> IsDotChar(s[x])
    ensures SchemeEnd(s, 0).Some? && LineEnd(s, SchemeEnd(s, 0).value) == |s|
  {
    SchemeOfPrefix(s, prefix);
    forall x | SchemeEnd(s, 0).value <= x < |s|
      ensures IsDotChar(s[x])
    {
      if x < |prefix| {
        assert s[x] == prefix[x];
      }
    }
    LineEndAt(s, SchemeEnd(s, 0).value, |s|);
  }

  /** Three word groups `db/table<sep>column` read as the head of a tail. */
  lemma HeadRuns(s: string, j: nat, d: nat, t: nat, c: nat)
    requires j < d < t < c <= |s|
    requires forall x :: j <= x < c && x != d && x != t ==> IsWordChar(s[x])
    requires !IsWordChar(s[d]) && !IsWordChar(s[t]) && (c == |s| || !IsWordChar(s[c]))
    ensures WordRunEnd(s, j) == d && WordRunEnd(s, d + 1) == t && WordRunEnd(s, t + 1) == c
  {
    WordRunEndAt(s, j, d);
    WordRunEndAt(s, d + 1, t);
    WordRunEndAt(s, t + 1, c);
  }

  /** `s` spells `u` as `prefix db/table#column`, described index by index. */
  predicate PropertyLaidOut(s: string, u: PropertyUri)
  {
    var n := |u.prefix|;
    var d := n + |u.db|;
    var t := d + 1 + |u.table|;
    && |s| == t + 1 + |u.column| && IsPrefix(u.prefix, s) && s[d] == '/' && s[t] == '#'
    && s[n..d] == u.db && s[d + 1..t] == u.table && s[t + 1..] == u.column
    && forall x {:trigger IsWordChar(s[x])} :: n <= x < |s| && x != d && x != t ==> IsWordChar(s[x])
  }

  /** The text of a property URI spells it. */
  lemma PropertyLayout(u: PropertyUri)
    requires PropertyShape(u)
    ensures PropertyLaidOut(PropertyUriText(u), u)
  {
    var s := PropertyUriText(u);
    var n := |u.prefix|;
    var d := n + |u.db|;
    var t := d + 1 + |u.table|;
    assert s == u.prefix + u.db + "/" + u.table + "#" + u.column;
    forall x | n <= x < |s| && x != d && x != t
      ensures IsWordChar(s[x])
    {
      if x < d {
        assert s[x] == u.db[x - n];
      } else if x < t {
        assert s[x] == u.table[x - d - 1];
      } else {
        assert s[x] == u.column[x - t - 1];
      }
    }
  }

  /** A property tail: three word groups separated by `/` and `#`, up to
      the end of the string. */
  lemma PropertyTailAt(s: string, j: nat, d: nat, t: nat)
    requires j < d && d + 1 < t && t + 1 < |s|
    requires forall x :: j <= x < |s| && x != d && x != t ==> IsWordChar(s[x])
    requires s[d] == '/' && s[t] == '#'
    ensures TailCut(s, j, PropertyPattern) == Some(Cut(d, t, |s|, |s|))
  {
    HeadRuns(s, j, d, t, |s|);
  }

  /** No `/` after the prefix of a property spelling starts a tail match:
      the one after the database is followed by a single group. */
  lemma PropertyNoLaterSlash(s: string, n: nat, d: nat, t: nat)
    requires n < d && d + 1 < t && t + 1 < |s|
    requires forall x {:trigger IsWordChar(s[x])} :: n <= x < |s| && x != d && x != t ==> IsWordChar(s[x])
    requires s[d] == '/' && s[t] == '#'
    ensures forall x :: n - 1 < x < |s| ==> !SlashMatchAt(s, x, PropertyPattern)
  {
    forall x | n - 1 < x < |s|
      ensures !SlashMatchAt(s, x, PropertyPattern)
    {
      if x == d {
        WordRunEndAt(s, d + 1, t);
      }
    }
  }

  /** The property pattern matches `prefix db/table#column` from its start,
      with the prefix group ending where the prefix ends. */
  lemma PropertyMatchesFromStart(s: string, prefix: string, d: nat, t: nat)
    requires IsHttpPrefix(prefix) && IsPrefix(prefix, s)
    requires |prefix| < d && d + 1 < t && t + 1 < |s|
    requires forall x :: |prefix| <= x < |s| && x != d && x != t ==> IsWordChar(s[x])
    requires s[d] == '/' && s[t] == '#'
    ensures MatchFrom(s, 0, PropertyPattern) == Some((0, |prefix|, Cut(d, t, |s|, |s|)))
  {
    var n := |prefix|;
    assert forall x :: n <= x < |s| ==> IsDotChar(s[x]);
    OneLine(s, prefix);
    PropertyTailAt(s, n, d, t);
    PropertyNoLaterSlash(s, n, d, t);
    SchemeOfPrefix(s, prefix);
    MatchFromStart(s, PropertyPattern, n, Cut(d, t, |s|, |s|));
  }

  /** Matching a spelling of a property URI of the property shape gives it back. */
  lemma MatchLaidOutProperty(s: string, u: PropertyUri)
    requires PropertyShape(u) && PropertyLaidOut(s, u)
    ensures MatchPropertyUri(s) == Ok(u)
  {
    var n := |u.prefix|;
    var d := n + |u.db|;
    var t := d + 1 + |u.table|;
    var k := Cut(d, t, |s|, |s|);
    assert MatchFrom(s, 0, PropertyPattern) == Some((0, n, k)) by {
      PropertyMatchesFromStart(s, u.prefix, d, t);
    }
    assert PropertyOf(s, 0, n, k) == u by {
      assert s[..n] == u.prefix;
    }
  }

  /** Matching the text of a property URI of the property shape gives it back. */
  lemma MatchPropertyText(u: PropertyUri)
    requires PropertyShape(u)
    ensures MatchPropertyUri(PropertyUriText(u)) == Ok(u)
  {
    PropertyLayout(u);
    MatchLaidOutProperty(PropertyUriText(u), u);
  }

  /** The text of a property URI of the property shape has no angle bracket
      to trim: it starts with `h` and ends in a word character. */
  lemma PropertyTextTrimmed(u: PropertyUri)
    requires PropertyShape(u)
    ensures Trim(PropertyUriText(u), AngleBrackets) == PropertyUriText(u)
  {
    var s := PropertyUriText(u);
    assert s == u.prefix + u.db + "/" + u.table + "#" + u.column;
    assert s[0] == u.prefix[0];
    assert s[|s| - 1] == u.column[|u.column| - 1];
    assert IsWordChar(u.column[|u.column| - 1]);
    TrimUnchanged(s, AngleBrackets);
  }

  /** Parsing the text of a property URI of the property shape gives it back. */
  lemma PropertyRoundTrip(u: PropertyUri)
    requires PropertyShape(u)
    ensures ParsePropertyUri(PropertyUriText(u)) == Ok(u)
  {
    PropertyTextTrimmed(u);
    MatchPropertyText(u);
  }

  /** An individual tail: three word groups separated by `/`, a `.` and a
      non-empty rest of the line. */
  lemma IndividualTailAt(s: string, j: nat, d: nat, t: nat, c: nat)
    requires j < d && d + 1 < t && t + 1 < c && c + 1 < |s|
    requires forall x :: j <= x < c && x != d && x != t ==> IsWordChar(s[x])
    requires s[d] == '/' && s[t] == '/' && s[c] == '.'
    requires forall x :: c < x < |s| ==> IsDotChar(s[x])
    ensures TailCut(s, j, IndividualPattern) == Some(Cut(d, t, c, |s|))
  {
    HeadRuns(s, j, d, t, c);
    assert KeyEnd(s, t + 1, c) == Some(c);
    LineEndAt(s, c + 1, |s|);
  }

  /** `s` spells `u` as `prefix db/table/column.value`, described index by index. */
  predicate IndividualLaidOut(s: string, u: IndividualUri)
  {
    var n := |u.prefix|;
    var d := n + |u.db|;
    var t := d + 1 + |u.table|;
    var c := t + 1 + |u.column|;
    && |s| == c + 1 + |u.value| && IsPrefix(u.prefix, s) && s[d] == '/' && s[t] == '/' && s[c] == '.'
    && s[n..d] == u.db && s[d + 1..t] == u.table && s[t + 1..c] == u.column && s[c + 1..] == u.value
    && (forall x {:trigger IsWordChar(s[x])} :: n <= x < c && x != d && x != t ==> IsWordChar(s[x]))
  }

  /** The text of an individual URI spells it. */
  lemma IndividualLayout(u: IndividualUri)
    requires IndividualShape(u)
    ensures IndividualLaidOut(IndividualUriText(u), u)
  {
    var s := IndividualUriText(u);
    var n := |u.prefix|;
    var d := n + |u.db|;
    var t := d + 1 + |u.table|;
    var c := t + 1 + |u.column|;
    assert s == u.prefix + u.db + "/" + u.table + "/" + u.column + "." + u.value;
    forall x | n <= x < c && x != d && x != t
      ensures IsWordChar(s[x])
    {
      if x < d {
        assert s[x] == u.db[x - n];
      } else if x < t {
        assert s[x] == u.table[x - d - 1];
      } else {
        assert s[x] == u.column[x - t - 1];
      }
    }
  }

  /** No `/` after the prefix of an individual spelling starts a tail match:
      the ones after the database and the table are followed by too few
      groups, and the value holds none. */
  lemma IndividualNoLaterSlash(s: string, n: nat, d: nat, t: nat, c: nat)
    requires n < d && d + 1 < t && t + 1 < c && c + 1 < |s|
    requires forall x {:trigger IsWordChar(s[x])} :: n <= x < c && x != d && x != t ==> IsWordChar(s[x])
    requires s[d] == '/' && s[t] == '/' && s[c] == '.'
    requires forall x :: c < x < |s| ==> s[x] != '/'
    ensures forall x :: n - 1 < x < |s| ==> !SlashMatchAt(s, x, IndividualPattern)
  {
    forall x | n - 1 < x < |s|
      ensures !SlashMatchAt(s, x, IndividualPattern)
    {
      if x == d {
        WordRunEndAt(s, d + 1, t);
        WordRunEndAt(s, t + 1, c);
      } else if x == t {
        WordRunEndAt(s, t + 1, c);
      }
    }
  }

  /** The characters after the prefix of an individual spelling stay on
      one line, and those of the value are not `/`. */
  lemma IndividualTailChars(s: string, u: IndividualUri)
    requires IndividualShape(u) && IndividualLaidOut(s, u) && '/' !in u.value
    ensures var c := |u.prefix| + |u.db| + 1 + |u.table| + 1 + |u.column|;
      && (forall x :: |u.prefix| <= x < |s| ==> IsDotChar(s[x]))
      && (forall x :: c < x < |s| ==> s[x] != '/')
  {
    var d := |u.prefix| + |u.db|;
    var t := d + 1 + |u.table|;
    var c := t + 1 + |u.column|;
    forall x | |u.prefix| <= x < |s|
      ensures IsDotChar(s[x]) && (c < x ==> s[x] != '/')
    {
      if c < x {
        assert s[x] == s[c + 1..][x - c - 1];
      } else if x != d && x != t && x != c {
        assert IsWordChar(s[x]);
      }
    }
  }

  /** The individual pattern matches a spelling of `u` from its start, with
      the prefix group ending where the prefix ends, when the value holds
      no `/`. */
  lemma IndividualMatchesFromStart(s: string, u: IndividualUri)
    requires IndividualShape(u) && IndividualLaidOut(s, u) && '/' !in u.value
    ensures var n := |u.prefix|;
      var d := n + |u.db|;
      var t := d + 1 + |u.table|;
      var c := t + 1 + |u.column|;
      MatchFrom(s, 0, IndividualPattern) == Some((0, n, Cut(d, t, c, |s|)))
  {
    var n := |u.prefix|;
    var d := n + |u.db|;
    var t := d + 1 + |u.table|;
    var c := t + 1 + |u.column|;
    IndividualTailChars(s, u);
    IndividualSpellingMatches(s, u.prefix, d, t, c);
  }

  /** The individual pattern matches `prefix db/table/column.value` from its
      start, with the prefix group ending where the prefix ends. */
  lemma IndividualSpellingMatches(s: string, prefix: string, d: nat, t: nat, c: nat)
    requires IsHttpPrefix(prefix) && IsPrefix(prefix, s)
    requires |prefix| < d && d + 1 < t && t + 1 < c && c + 1 < |s|
    requires forall x {:trigger IsWordChar(s[x])} :: |prefix| <= x < c && x != d && x != t ==> IsWordChar(s[x])
    requires s[d] == '/' && s[t] == '/' && s[c] == '.'
    requires forall x :: |prefix| <= x < |s| ==> IsDotChar(s[x])
    requires forall x :: c < x < |s| ==> s[x] != '/'
    ensures MatchFrom(s, 0, IndividualPattern) == Some((0, |prefix|, Cut(d, t, c, |s|)))
  {
    var n := |prefix|;
    OneLine(s, prefix);
    IndividualTailAt(s, n, d, t, c);
    IndividualNoLaterSlash(s, n, d, t, c);
    SchemeOfPrefix(s, prefix);
    MatchFromStart(s, IndividualPattern, n, Cut(d, t, c, |s|));
  }

  /** Matching a spelling of an individual URI of the individual shape gives
      it back, when its value holds no `/`. */
  lemma MatchLaidOutIndividual(s: string, u: IndividualUri)
    requires IndividualShape(u) && IndividualLaidOut(s, u) && '/' !in u.value
    ensures MatchIndividualUri(s) == Ok(u)
  {
    var n := |u.prefix|;
    var d := n + |u.db|;
    var t := d + 1 + |u.table|;
    var c := t + 1 + |u.column|;
    var k := Cut(d, t, c, |s|);
    assert MatchFrom(s, 0, IndividualPattern) == Some((0, n, k)) by {
      IndividualMatchesFromStart(s, u);
    }
    assert MatchIndividualUri(s) == Ok(IndividualOf(s, 0, n, k));
    IndividualOfLaidOut(s, u);
  }

  /** The groups cut where a spelling puts its separators are the fields. */
  lemma IndividualOfLaidOut(s: string, u: IndividualUri)
    requires IndividualLaidOut(s, u) && |u.db| > 0
    ensures var n := |u.prefix|;
      var d := n + |u.db|;
      var t := d + 1 + |u.table|;
      var c := t + 1 + |u.column|;
      CutWithin(n, Cut(d, t, c, |s|), |s|) && IndividualOf(s, 0, n, Cut(d, t, c, |s|)) == u
  {
    var n := |u.prefix|;
    var d := n + |u.db|;
    var t := d + 1 + |u.table|;
    var c := t + 1 + |u.column|;
    IndividualFields(s, u, n, d, t, c);
  }

  lemma IndividualFields(s: string, u: IndividualUri, n: nat, d: nat, t: nat, c: nat)
    requires n < d < t < c < |s|
    requires s[..n] == u.prefix && s[n..d] == u.db && s[d + 1..t] == u.table && s[t + 1..c] == u.column
    requires s[c + 1..] == u.value
    ensures IndividualOf(s, 0, n, Cut(d, t, c, |s|)) == u
  {
    assert s[0..n] == s[..n];
    assert s[c + 1..|s|] == s[c + 1..];
  }

  /** Matching the text of an individual URI of the individual shape gives
      it back, when its value holds no `/`. */
  lemma MatchIndividualText(u: IndividualUri)
    requires IndividualShape(u) && '/' !in u.value
    ensures MatchIndividualUri(IndividualUriText(u)) == Ok(u)
  {
    IndividualLayout(u);
    MatchLaidOutIndividual(IndividualUriText(u), u);
  }

  /** The text of an individual URI whose value does not end in an angle
      bracket has none to trim. */
  lemma IndividualTextTrimmed(u: IndividualUri)
    requires IndividualShape(u) && u.value[|u.value| - 1] !in AngleBrackets
    ensures Trim(IndividualUriText(u), AngleBrackets) == IndividualUriText(u)
  {
    var s := IndividualUriText(u);
    assert s == u.prefix + u.db + "/" + u.table + "/" + u.column + "." + u.value;
    assert s[0] == u.prefix[0];
    assert s[|s| - 1] == u.value[|u.value| - 1];
    TrimUnchanged(s, AngleBrackets);
  }

  /** Parsing the text of an individual URI of the individual shape gives it
      back, provided its value holds no `/` (the greedy prefix would reach
      into the value otherwise) and does not end in an angle bracket (the
      trim would remove it). */
  lemma IndividualRoundTrip(u: IndividualUri)
    requires IndividualShape(u)
    requires '/' !in u.value && u.value[|u.value| - 1] !in AngleBrackets
    ensures ParseIndividualUri(IndividualUriText(u)) == Ok(u)
  {
    IndividualTextTrimmed(u);
    MatchIndividualText(u);
  }
}

=== FILE: wrappers.dfy ===
/** Failure-carrying datatypes shared by every module of the mediator model.

    The C# code reports failures by throwing; each exception class it throws
    is one constructor of `Error`, and an operation that may throw returns a
    `Result`. */
module Wrappers {

  /** Value or absence; stands for a C# reference that may be null. */
  datatype Option<+T> = None | Some(value: T) {
    predicate IsFailure() { None? }

    function PropagateFailure<U>(): Option<U>
      requires None?
    {
      None
    }

    function Extract(): T
      requires Some?
    {
      value
    }
  }

  /** The exception classes the modelled code throws. */
  datatype Error =
    | ArgumentError            // System.ArgumentException
    | ArgumentNullError        // System.ArgumentNullException
    | ArgumentOutOfRangeError  // System.ArgumentOutOfRangeException
    | IndexOutOfRangeError     // System.IndexOutOfRangeException
    | InvalidOperationError    // System.InvalidOperationException
    | NotImplementedError      // System.NotImplementedException
    | InvalidDataError         // System.IO.InvalidDataException
    | NullReferenceError       // System.NullReferenceException
    | GeneralError             // System.Exception

  /** Either a value or the exception that was thrown instead. */
  datatype Result<+T> = Ok(value: T) | Err(error: Error) {
    predicate IsFailure() { Err? }

    function PropagateFailure<U>(): Result<U>
      requires Err?
    {
      Err(error)
    }

    function Extract(): T
      requires Ok?
    {
      value
    }
  }

  /** `Need(c, e)` fails with `e` unless `c` holds; used with `:-`. */
  datatype Outcome = Pass | Fail(error: Error) {
    predicate IsFailure() { Fail? }

    function PropagateFailure<U>(): Result<U>
      requires Fail?
    {
      Err(error)
    }
  }

  function Need(condition: bool, error: Error): Outcome
  {
    if condition then Pass else Fail(error)
  }
}
